=== FILE: README.md ===
# Netter core in Dafny

A model of the computational core of Netter, a desktop tool for looking at
and analysing undirected networks, with proofs about it. Netter bundles
three groups of code, and each becomes a set of Dafny modules:

- **The CWTS network-analysis structures** (`nl.cwts.networkanalysis`,
  `nl.cwts.util`). A `Network` is a compressed sparse-row adjacency: every
  node owns a slice of the neighbour and edge-weight arrays, and self-links
  are kept apart as a total weight. It can be built from an edge list or
  from neighbour lists, checked for integrity, reduced to one node per
  cluster, and cut into one subnetwork per cluster. A `Clustering` is a
  label per node, with grouping, relabelling and merging. `Arrays` holds
  sums, fills and a random shuffle. Modules: `CwtsArrays`, `Clusterings`,
  `CwtsNetwork`, `NetworkBuild`, `NetworkReduce`, `NetworkSub`.
- **Netter's own network model and text format.** `UndirectedNetwork` and
  the older `UndirectedGraph` are insertion-ordered node maps with a set of
  unordered links. The two plain-text handlers read a block of link lines
  and then a block of node lines, fill in skipped ids, and write the same
  format back. `DegreeCentralityIdentifier` counts link ends, and the gephi
  `Graph` shim tabulates degrees. Modules: `KotlinText`, `NetterNetwork`,
  `NetterGraph`, `NetterTxtIo`, `LegacyTxtIo`, `DegreeCentrality`,
  `GephiGraph`.
- **ForceAtlas2**, the force-directed layout. It comes in a Kotlin engine
  (`ForceAtlas2.kt`) and the Java engine of gephi (`ForceAtlas2.java`).
  The Kotlin engine uses the per-node state `FaNode`, the force variants
  of `ForceFactory`, the Barnes–Hut quadtree `Region` and the repulsion
  tasks `NodesThread`. The Java engine calls classes of the same names,
  and the model binds those calls to the Kotlin classes (see "Left out"). Modules: `FaMaths`, `FaNodes`, `ForceFactory`, `BarnesHut`,
  `NodesThreads`, `FaStep`, `ForceAtlas2`, `GephiForceAtlas2`.

`Wrappers` (results and options) and `SeqMath` (sums, counts and
distinctness over sequences) are shared by all of them.

Arrays are sequences, and each Java or Kotlin method is a function or a
method returning new values. A thrown exception is a `Failure` result.
Doubles are reals. `sqrt`, `ln` and `pow` are function values: only
`sqrt >= 0` and the sign of `ln` above 1 are assumed. Random draws are
input sequences. Where the source's floating point leaves the reals (a
division by zero, which the JVM turns into an infinity or NaN and carries
on with), the model ends the step in a NaN error instead.

## Model

| member | source | states |
|---|---|---|
| CwtsArrays.CalcSum | src/main/java/nl/cwts/util/Arrays.java:25-34 | the result is the sum of all the values (0 for none) |
| CwtsArrays.CalcSumRange | src/main/java/nl/cwts/util/Arrays.java:51-60 | the result is the sum of the half-open slice [beginIndex, endIndex), and 0 when the range is empty or inverted; a non-empty range that leaves the array fails exactly then, with the first index read outside it |
| CwtsArrays.Repeat | src/main/java/nl/cwts/util/Arrays.java:82-88 | an array of exactly nElements entries, each equal to value |
| CwtsArrays.CreateDoubleArrayOfOnes | src/main/java/nl/cwts/util/Arrays.java:69-72 | an array of nElements ones |
| CwtsArrays.SumOfRepeat | src/main/java/nl/cwts/util/Arrays.java:82-88 | n copies of v add up to n times v |
| CwtsArrays.Swap | src/main/java/nl/cwts/util/Arrays.java:132-134 | exchanging two entries keeps the same multiset of values |
| CwtsArrays.PermuteRandomly | src/main/java/nl/cwts/util/Arrays.java:125-136 | whatever indices the random source draws, the result is a permutation of the input |
| CwtsArrays.GenerateRandomPermutation | src/main/java/nl/cwts/util/Arrays.java:103-113 | every value 0..n-1 occurs exactly once and nothing else occurs |
| CwtsArrays.PermutationOfRange | src/main/java/nl/cwts/util/Arrays.java:108-111 | any rearrangement of 0..n-1 holds each of those values exactly once and nothing else |
| Clusterings.Singleton | src/main/java/nl/cwts/networkanalysis/Clustering.java:218-226 | a valid clustering with one cluster per node, node i in cluster i |
| Clusterings.SingletonClustersHoldOneNode | src/main/java/nl/cwts/networkanalysis/Clustering.java:218-226 | in the singleton clustering cluster k holds exactly node k |
| Clusterings.ClusterIsNotEmpty | src/main/java/nl/cwts/networkanalysis/Clustering.java:82-95 | flag k is set exactly when some node is in cluster k |
| Clusterings.NNodesPerCluster | src/main/java/nl/cwts/networkanalysis/Clustering.java:112-121 | entry k counts the nodes in cluster k, and the counts add up to the number of nodes |
| Clusterings.NodesPerCluster | src/main/java/nl/cwts/networkanalysis/Clustering.java:128-147 | list k is the increasing list of the nodes whose cluster is k |
| Clusterings.MembersSpec | src/main/java/nl/cwts/networkanalysis/Clustering.java:141-145 | a member list is strictly increasing, holds exactly the nodes with that label, and is as long as their count |
| Clusterings.EveryNodeListedOnce | src/main/java/nl/cwts/networkanalysis/Clustering.java:128-147 | a node appears in the list of its own cluster, exactly once, and in no other list |
| Clusterings.RelabelTable | src/main/java/nl/cwts/networkanalysis/Clustering.java:186-199 | labels below the minimum map to themselves; a used label l at or above it maps to the minimum plus the number of used labels between them; the new cluster count is the minimum plus the number of used labels from it on |
| Clusterings.RemoveEmptyClustersLargerThan | src/main/java/nl/cwts/networkanalysis/Clustering.java:178-202 | fails, as the write past the label table does, exactly when the minimum exceeds the cluster count; otherwise the result is valid, keeps labels below the minimum, keeps which nodes share a cluster and the order of clusters, and uses every label from the minimum up to the new count |
| Clusterings.RelabelledLabels | src/main/java/nl/cwts/networkanalysis/Clustering.java:193-201 | relabelling gives a valid clustering that keeps the low labels and sends the others into [minimum, new count) |
| Clusterings.RelabelledOrder | src/main/java/nl/cwts/networkanalysis/Clustering.java:193-201 | relabelling is strictly monotone: it keeps which nodes share a cluster and which cluster comes first |
| Clusterings.RelabelledCount | src/main/java/nl/cwts/networkanalysis/Clustering.java:193-199 | the number of non-empty flags from the minimum on is the number of labels in use from there |
| Clusterings.RelabelledOnto | src/main/java/nl/cwts/networkanalysis/Clustering.java:193-201 | after relabelling, no cluster from the minimum up to the new count is empty |
| Clusterings.RemoveEmptyClusters | src/main/java/nl/cwts/networkanalysis/Clustering.java:158-161 | the result is valid, has no empty cluster, and keeps which nodes share a cluster and their order |
| Clusterings.MergeClusters | src/main/java/nl/cwts/networkanalysis/Clustering.java:209-216 | fails exactly when some node's cluster has no label in the second clustering, naming the first such node; otherwise each node takes the label its old cluster has there, nodes together stay together and validity carries over |
| CwtsNetwork.ViolatedNotWellFormed | src/main/java/nl/cwts/networkanalysis/Network.java:484-561 | every reason checkIntegrity can give for rejecting a network rules out a well-formed network |
| CwtsNetwork.SliceOwnerUnique | src/main/java/nl/cwts/networkanalysis/Network.java:519-542 | with non-decreasing first-neighbour indices an edge position belongs to one node's slice only |
| CwtsNetwork.SortedSliceIncreasing | src/main/java/nl/cwts/networkanalysis/Network.java:533-540 | within a slice that passed the order checks neighbours strictly increase |
| CwtsNetwork.BinarySearch | src/main/java/nl/cwts/networkanalysis/Network.java:552 | Java's binarySearch over [from, to): a non-negative result is a position holding the key; a negative one means the key is absent and encodes its insertion point |
| CwtsNetwork.ShapeError | src/main/java/nl/cwts/networkanalysis/Network.java:491-516 | no error exactly when the counts are non-negative, nEdges is even and the arrays have the documented lengths and end values; any error returned names a violated condition |
| CwtsNetwork.CheckIntegrity | src/main/java/nl/cwts/networkanalysis/Network.java:484-561 | no error exactly when the network is well formed (shape, monotone indices, sorted duplicate-free in-range neighbours, every edge stored both ways with equal weight); an error names a condition the network violates |
| CwtsNetwork.CheckSliceOrder | src/main/java/nl/cwts/networkanalysis/Network.java:524-541 | no error exactly when node i's slice holds in-range neighbours in strictly increasing order |
| CwtsNetwork.CheckSlot | src/main/java/nl/cwts/networkanalysis/Network.java:526-540 | no error exactly when position j holds a node above its predecessor in the slice |
| CwtsNetwork.CheckNeighborOrder | src/main/java/nl/cwts/networkanalysis/Network.java:519-542 | no error exactly when every slice holds in-range neighbours in strictly increasing order |
| CwtsNetwork.CheckReverseEdge | src/main/java/nl/cwts/networkanalysis/Network.java:548-559 | no error exactly when edge j of node i is stored in the other direction with the same weight; the flagged edges stay reversed |
| CwtsNetwork.OtherWeightNotReversed | src/main/java/nl/cwts/networkanalysis/Network.java:552-556 | when the only candidate reverse has another weight the edge has no reverse and the network violates the weight-symmetry rule |
| CwtsNetwork.CheckSliceReverses | src/main/java/nl/cwts/networkanalysis/Network.java:547-560 | no error exactly when every edge of node i's slice has its reverse |
| CwtsNetwork.CheckReverseEdges | src/main/java/nl/cwts/networkanalysis/Network.java:544-560 | no error exactly when the network is symmetric; an error names a violated condition |
| CwtsNetwork.DecreasingIndicesReadFirst | src/main/java/nl/cwts/networkanalysis/Network.java:519-531 | for two nodes, no edges and indices [0, 1, 0] the scan as written reads past the empty neighbour array although the network is to be rejected for decreasing indices |
| CwtsNetwork.TotalEdgeWeightPerNode | src/main/java/nl/cwts/networkanalysis/Network.java:703-712 | entry i is the total weight of node i's slice |
| CwtsNetwork.MonotoneRangesReadable | src/main/java/nl/cwts/networkanalysis/Network.java:708-710 | in a network with monotone indices every slice can be summed |
| CwtsNetwork.TotalEdgeWeightConserved | src/main/java/nl/cwts/networkanalysis/Network.java:703-712 | the per-node totals add up to the total of all stored edge weights |
| NetworkBuild.DoubleEdgesContents | src/main/java/nl/cwts/networkanalysis/Network.java:631-651 | the doubled list holds every input edge plus the reverse of every edge that is not a self-link, and nothing else |
| NetworkBuild.DoubleEdgesLoopWeight | src/main/java/nl/cwts/networkanalysis/Network.java:643-650 | doubling keeps each self-link exactly once, so the self-link weight is unchanged |
| NetworkBuild.InsertSorted | src/main/java/nl/cwts/networkanalysis/Network.java:599 | inserting an edge into a list sorted by (source, target) keeps it sorted |
| NetworkBuild.SortEdgesSpec | src/main/java/nl/cwts/networkanalysis/Network.java:563-619 | the sorted list is in (source, target) order and a permutation of the input, so the self-link weight is unchanged |
| NetworkBuild.PreparedContents | src/main/java/nl/cwts/networkanalysis/Network.java:631-657 | on the unsorted path the stored arcs are the input's non-loops in both directions, and the self-link weight is unchanged |
| NetworkBuild.FillUpTo | src/main/java/nl/cwts/networkanalysis/Network.java:669-670 | entries i..last get the value, all others stay, and the cursor moves past last |
| NetworkBuild.FirstAtLeastAppend | src/main/java/nl/cwts/networkanalysis/Network.java:667-668 | one more stored edge moves the first position reaching k only if no earlier edge reached k, and only to the end |
| NetworkBuild.FirstAtLeastSplits | src/main/java/nl/cwts/networkanalysis/Network.java:667-668 | in a list sorted by source the edges before the first one reaching k are exactly those with a source below k |
| NetworkBuild.FilledFirsts | src/main/java/nl/cwts/networkanalysis/Network.java:667-668 | filling the indices up to a new edge's source keeps every filled index at the first stored edge reaching its node |
| NetworkBuild.ScanStep | src/main/java/nl/cwts/networkanalysis/Network.java:666-676 | one more edge fits exactly when it is a self-link or leaves a node no greater than nNodes, and then the loop state holds one edge further |
| NetworkBuild.ScanEdges | src/main/java/nl/cwts/networkanalysis/Network.java:666-676 | the loop runs to the end exactly when every edge fits, and then its state covers the whole list |
| NetworkBuild.BuildCsr | src/main/java/nl/cwts/networkanalysis/Network.java:659-680 | the arrays can be filled exactly when every stored edge leaves a node no greater than nNodes; then the index of node k is the position of the first stored edge whose source reaches k, neighbours and weights are those of the non-loops in order, and the self-link weight is the loops' total |
| NetworkBuild.Prepare | src/main/java/nl/cwts/networkanalysis/Network.java:631-657 | without the sorted-edges promise the list read next is a (source, target)-ordered permutation of the doubled input, whatever its endpoints; with it the input is read as given |
| NetworkBuild.PreparedSortedBySource | src/main/java/nl/cwts/networkanalysis/Network.java:631-657 | the doubled and sorted list keeps endpoints as nodes and is sorted by (source, target) |
| NetworkBuild.NodeEndpointsFit | src/main/java/nl/cwts/networkanalysis/Network.java:631-680 | an edge list whose endpoints are all nodes never makes the constructor index past its arrays, sorted or not |
| NetworkBuild.AssembledCsr | src/main/java/nl/cwts/networkanalysis/Network.java:659-680 | the network built from a prepared list has the CSR shape and keeps the list's self-link weight |
| NetworkBuild.FirstsShape | src/main/java/nl/cwts/networkanalysis/Network.java:667-670 | over node endpoints the start indices never decrease and the last one is the number of stored edges |
| NetworkBuild.AssembledSlices | src/main/java/nl/cwts/networkanalysis/Network.java:659-680 | for a list sorted by source with no negative source, a position lies in node u's slice exactly when the stored edge there leaves u, and it holds that edge's target and weight |
| NetworkBuild.NonLoopsNonNegative | src/main/java/nl/cwts/networkanalysis/Network.java:666-672 | dropping self-links keeps every source non-negative |
| NetworkBuild.FirstsSlices | src/main/java/nl/cwts/networkanalysis/Network.java:667-670 | in a list sorted by source with no negative source, the start indices of u and u + 1 delimit exactly the edges leaving u |
| NetworkBuild.UnsortedInputSlicesOrdered | src/main/java/nl/cwts/networkanalysis/Network.java:631-680 | without the sorted-edges promise every slice lists its neighbours in non-decreasing order |
| NetworkBuild.StoredInSlice | src/main/java/nl/cwts/networkanalysis/Network.java:666-674 | each stored edge of a list sorted by source sits in its source's slice with its target and weight |
| NetworkBuild.UnsortedInputStoredBothWays | src/main/java/nl/cwts/networkanalysis/Network.java:631-680 | without the sorted-edges promise an edge between two distinct nodes is stored in both endpoints' slices, each time with its weight |
| NetworkBuild.FromEdges | src/main/java/nl/cwts/networkanalysis/Network.java:625-686 | the edge-list constructor faults on an index past its array exactly when a stored edge leaves a node beyond nNodes; otherwise it returns the network assembled from the prepared list, and with integrity checking succeeds exactly when that network is well formed and else names a violated condition |
| NetworkBuild.FromNeighborLists | src/main/java/nl/cwts/networkanalysis/Network.java:688-701 | the neighbour-list constructor faults exactly when it must sum node weights over slices that lie outside the arrays; otherwise it keeps the arrays, fills missing edge weights with ones and has no self-links, and with integrity checking succeeds exactly when the network is well formed |
| NetworkBuild.ChooseNodeWeights | src/main/java/nl/cwts/networkanalysis/Network.java:682 | given node weights are kept; otherwise each node weighs its slice's total edge weight on request, else 1 |
| NetworkBuild.Validated | src/main/java/nl/cwts/networkanalysis/Network.java:684-685 | the network is returned unchanged unless checking is requested and it is not well formed, in which case a violated condition is named |
| NetworkReduce.FirstAppearancesSpec | src/main/java/nl/cwts/networkanalysis/Network.java:436-440 | the intended neighbour list holds every reached cluster exactly once |
| NetworkReduce.OutgoingWeight | src/main/java/nl/cwts/networkanalysis/Network.java:434-444 | leaving out the links inside cluster i changes no other cluster's received weight |
| NetworkReduce.SentinelSoundForPositiveWeights | src/main/java/nl/cwts/networkanalysis/Network.java:436-440 | with positive edge weights the zero-weight "not yet listed" test builds exactly the first-appearance list |
| NetworkReduce.ZeroWeightListedTwice | src/main/java/nl/cwts/networkanalysis/Network.java:436-453 | two zero-weight edges into the same cluster make the code list that cluster twice, both times with weight zero, where it should appear once; the two listings fit the scratch array with three clusters and overflow it with two |
| NetworkReduce.ZeroWeightRepeatsListed | src/main/java/nl/cwts/networkanalysis/Network.java:419-440 | m zero-weight edges into one cluster list it m times, so more than nClusters - 1 of them write past the scratch array |
| NetworkReduce.FirstAppearancesFitScratch | src/main/java/nl/cwts/networkanalysis/Network.java:419-440 | the intended list of a cluster's outside neighbours never holds more than nClusters - 1 entries, the size the scratch array is given |
| NetworkReduce.GatherCluster | src/main/java/nl/cwts/networkanalysis/Network.java:425-430 | the links of a cluster's members in storage order, and the members' total node weight |
| NetworkReduce.ReduceCluster | src/main/java/nl/cwts/networkanalysis/Network.java:424-454 | cluster i's reduced edges list every other reached cluster once, in order of first appearance, each with the total weight of the links into it; the weight of the links staying inside i is returned apart |
| NetworkReduce.ReduceStep | src/main/java/nl/cwts/networkanalysis/Network.java:433-444 | one more link keeps the scan state: listed flags, per-cluster totals and the inner weight all account for exactly the links seen |
| NetworkReduce.ReduceClusterOf | src/main/java/nl/cwts/networkanalysis/Network.java:423-455 | cluster i's node weight, reduced neighbours and weights, and inner weight, with every neighbour a cluster |
| NetworkReduce.ReduceNext | src/main/java/nl/cwts/networkanalysis/Network.java:423-455 | one more cluster keeps the built state of the reduced arrays |
| NetworkReduce.ReduceAll | src/main/java/nl/cwts/networkanalysis/Network.java:422-456 | after all clusters the reduced arrays hold every cluster's slice |
| NetworkReduce.CreateReducedNetwork | src/main/java/nl/cwts/networkanalysis/Network.java:401-461 | the result is a CSR network with one node per cluster weighing the cluster's nodes; cluster i's slice lists each other adjacent cluster once with the total weight between them; inner weight goes to the self-links; total node weight and total edge weight (self-links included) are conserved |
| NetworkReduce.FirstAppearanceWeights | src/main/java/nl/cwts/networkanalysis/Network.java:448-453 | listing each reached cluster once with its total weight accounts for the weight of every link |
| NetworkReduce.ClusterWeightSplit | src/main/java/nl/cwts/networkanalysis/Network.java:434-444 | a cluster's reduced edges plus its inner weight add up to the weight of all its links |
| NetworkReduce.PartitionSum | src/main/java/nl/cwts/networkanalysis/Network.java:429 | summing a per-node quantity cluster by cluster gives its total over all nodes |
| NetworkReduce.ReducedNodeWeightConserved | src/main/java/nl/cwts/networkanalysis/Network.java:429 | the reduced network's node weights add up to the original total |
| NetworkReduce.ReducedEdgeWeightConserved | src/main/java/nl/cwts/networkanalysis/Network.java:416-453 | edge weight plus self-link weight is the same before and after reduction |
| NetworkReduce.ReducedAdjacency | src/main/java/nl/cwts/networkanalysis/Network.java:431-440 | the reduced neighbours of cluster i are distinct and are exactly the other clusters joined to i by some edge |
| NetworkReduce.ScratchNeighborsLength | src/main/java/nl/cwts/networkanalysis/Network.java:419 | the scratch array can be allocated exactly when there is at least one cluster, and then has one slot fewer than the clusters |
| NetworkReduce.EmptyClusteringCannotBeReduced | src/main/java/nl/cwts/networkanalysis/Network.java:419 | the empty network with its empty clustering is a valid input on which the allocation fails |
| NetworkSub.IndexOf | src/main/java/nl/cwts/networkanalysis/Network.java:734-735 | the position of a member in the node list, and the list's length exactly for non-members |
| NetworkSub.KeptPositionsSpec | src/main/java/nl/cwts/networkanalysis/Network.java:744-745 | the kept positions increase and are exactly the slice positions whose neighbour lies in the cluster |
| NetworkSub.Positions | src/main/java/nl/cwts/networkanalysis/Network.java:734-735 | after recording, the scratch entry of every member is its position in the node list |
| NetworkSub.KeepInCluster | src/main/java/nl/cwts/networkanalysis/Network.java:744-750 | a member's subnetwork edges are its in-cluster edges, in order, renumbered to positions in the node list, with their weights |
| NetworkSub.KeepRange | src/main/java/nl/cwts/networkanalysis/Network.java:744-750 | over a range of positions the kept neighbours are renumbered and their weights kept, all in range |
| NetworkSub.KeepNext | src/main/java/nl/cwts/networkanalysis/Network.java:745-750 | one more position keeps the renumbered neighbours and weights of exactly the kept positions |
| NetworkSub.SubNext | src/main/java/nl/cwts/networkanalysis/Network.java:740-752 | one more member keeps the built state of the subnetwork arrays |
| NetworkSub.CreateSubnetwork | src/main/java/nl/cwts/networkanalysis/Network.java:714-760 | one node per member weighted as in the network, no self-link weight, no edges for a single-node cluster and otherwise exactly the members' in-cluster edges, renumbered |
| NetworkSub.InducedSubnetwork | src/main/java/nl/cwts/networkanalysis/Network.java:734-754 | the general case builds the subnetwork member by member |
| NetworkSub.CreateSubnetworks | src/main/java/nl/cwts/networkanalysis/Network.java:367-383 | one subnetwork per cluster, in cluster order, each the subnetwork of that cluster's member list |
| NetworkSub.SubnetworkAdjacency | src/main/java/nl/cwts/networkanalysis/Network.java:740-752 | two members are adjacent in the subnetwork exactly when the nodes they stand for are adjacent in the network |
| NetworkSub.SubnetworkKeepsSorted | src/main/java/nl/cwts/networkanalysis/Network.java:740-752 | restricting to a cluster keeps every slice strictly increasing |
| NetworkSub.SubnetworkKeepsSymmetry | src/main/java/nl/cwts/networkanalysis/Network.java:740-752 | restricting a symmetric network to a cluster keeps every edge stored in both directions with equal weight |
| NetworkSub.SubnetworksKeepNodeWeight | src/main/java/nl/cwts/networkanalysis/Network.java:367-383 | the subnetworks together carry the network's whole node weight |
| KotlinText.Split | src/main/kotlin/ru/spbu/netter/controller/io/TxtIOHandler.kt:40 | at least one piece, and no piece contains the delimiter |
| KotlinText.SplitJoin | src/main/kotlin/ru/spbu/netter/controller/io/TxtIOHandler.kt:40 | splitting undoes joining delimiter-free pieces |
| KotlinText.JoinSplit | src/main/kotlin/ru/spbu/netter/controller/io/TxtIOHandler.kt:40 | joining the pieces with the delimiter gives the string back |
| KotlinText.ReadTerminated | src/main/kotlin/ru/spbu/netter/controller/io/TxtIOHandler.kt:34-35 | reading newline-terminated lines back gives exactly those lines |
| KotlinText.NatToString | src/main/kotlin/ru/spbu/netter/controller/io/TxtIOHandler.kt:129 | a non-empty digit string whose value is the number |
| KotlinText.IntToString | src/main/kotlin/ru/spbu/netter/controller/io/TxtIOHandler.kt:129 | a non-empty string with no blank or newline, all digits for a non-negative number |
| KotlinText.ParseInt | src/main/kotlin/ru/spbu/netter/controller/io/TxtIOHandler.kt:56-61 | a parsed string is a sign or digit followed by digits, and a leading minus gives a non-positive value |
| KotlinText.ParsePrinted | src/main/kotlin/ru/spbu/netter/controller/io/TxtIOHandler.kt:60-61 | parsing the printed form of an Int gives the Int back |
| NetterNetwork.LinkHash | src/main/kotlin/ru/spbu/netter/model/UndirectedNetwork.kt:37 | the hash is the xor of the two endpoint hashes, independent of their order |
| NetterNetwork.HashAgreesWithEquality | src/main/kotlin/ru/spbu/netter/model/UndirectedNetwork.kt:34-37 | links equal under the undirected equals have equal hashes |
| NetterNetwork.AddNode | src/main/kotlin/ru/spbu/netter/model/UndirectedNetwork.kt:12 | getOrPut: an id already present returns the stored node and changes nothing; otherwise a default node with that id is stored; no other entry or link changes |
| NetterNetwork.AddNodeKeepsValid | src/main/kotlin/ru/spbu/netter/model/UndirectedNetwork.kt:12 | adding a node keeps the key order, the key-to-id agreement and the distinct links |
| NetterNetwork.AddLink | src/main/kotlin/ru/spbu/netter/model/UndirectedNetwork.kt:14 | both endpoints become nodes and the link is appended unless an equal link, in either direction, is already stored |
| NetterNetwork.AddLinkKeepsValid | src/main/kotlin/ru/spbu/netter/model/UndirectedNetwork.kt:14 | adding a link keeps the network's shape and its links pairwise different |
| NetterNetwork.ReversedLinkAddsNothing | src/main/kotlin/ru/spbu/netter/model/UndirectedNetwork.kt:34-35 | after a link, adding its reverse leaves the network unchanged |
| NetterNetwork.IsEmpty | src/main/kotlin/ru/spbu/netter/model/UndirectedNetwork.kt:16 | empty exactly when no node id is stored |
| NetterNetwork.FillDown | src/main/kotlin/ru/spbu/netter/controller/io/TxtIOHandler.kt:103-106 | stored nodes are kept, links are unchanged, and every added node is a default node with an id from 0 to the start |
| NetterNetwork.FillDownAdds | src/main/kotlin/ru/spbu/netter/controller/io/TxtIOHandler.kt:103-106 | the fill adds exactly the absent ids from the start down to the first present one or to 0 |
| NetterNetwork.FillDownKeepsValid | src/main/kotlin/ru/spbu/netter/controller/io/TxtIOHandler.kt:103-106 | the fill keeps the network's shape |
| NetterGraph.AddVertex | src/main/kotlin/ru/spbu/netter/model/UndirectedGraph.kt:8 | an id already present returns the stored vertex and leaves the graph unchanged; otherwise a default vertex is stored under it; the edges never change |
| NetterGraph.AddEdge | src/main/kotlin/ru/spbu/netter/model/UndirectedGraph.kt:10-11 | both endpoints become vertices and no other vertex is added; the returned edge is `UndirectedEdge(id1, id2)`; an edge already present (in either direction) adds nothing, and a new one is appended as the only added edge |
| NetterGraph.UpdatesKeepValid | src/main/kotlin/ru/spbu/netter/model/UndirectedGraph.kt:8-11 | adding a vertex or an edge keeps the graph's shape |
| NetterGraph.ReversedEdgeEqualAndSameHash | src/main/kotlin/ru/spbu/netter/model/UndirectedGraph.kt:22-25 | an edge and its reverse are equal and hash alike |
| NetterGraph.IsEmpty | src/main/kotlin/ru/spbu/netter/model/UndirectedGraph.kt:13 | empty exactly when no vertex is stored |
| DegreeCentrality.CountEndpoints | src/main/kotlin/ru/spbu/netter/controller/centrality/DegreeCentralityIdentifier.kt:16-21 | succeeds exactly when every endpoint indexes the array; then entry k is the number of link endpoints equal to k and the entries add up to twice the number of links; otherwise the failure names the first bad index |
| DegreeCentrality.IdentifyCentrality | src/main/kotlin/ru/spbu/netter/controller/centrality/DegreeCentralityIdentifier.kt:13-24 | only centralities change; no exception exactly when every link endpoint and node id indexes the counter array, and then every node's centrality is its number of link endpoints; a bad link endpoint throws before any node changes; a bad node id throws naming that id |
| DegreeCentrality.ZeroIffUnlinked | src/main/kotlin/ru/spbu/netter/controller/centrality/DegreeCentralityIdentifier.kt:18-21 | a node's centrality is zero exactly when no link touches it |
| DegreeCentrality.ReversalKeepsEndpoints | src/main/kotlin/ru/spbu/netter/controller/centrality/DegreeCentralityIdentifier.kt:18-21 | reversing a link changes no node's centrality |
| DegreeCentrality.EndpointsAppend | src/main/kotlin/ru/spbu/netter/controller/centrality/DegreeCentralityIdentifier.kt:18-21 | the counts of concatenated link lists add up |
| GephiGraph.NewGraph | src/main/kotlin/org/gephi/graph/api/Graph.kt:4-12 | succeeds exactly when every edge end indexes the table; the table then holds each node's degree, a self-loop counted once, and adds up to twice the edges minus the self-loops; otherwise the failure names the first bad index |
| GephiGraph.GetDegree | src/main/kotlin/org/gephi/graph/api/Graph.kt:14 | fails exactly for an id outside the table, and gives the node's degree for an id inside it |
| GephiGraph.GetNodeCount | src/main/kotlin/org/gephi/graph/api/Graph.kt:16 | the node count equals the size of the degree table |
| GephiGraph.ZeroIffUntouched | src/main/kotlin/org/gephi/graph/api/Graph.kt:8-11 | a node has degree zero exactly when no edge touches it |
| GephiGraph.DegreeAndEndpoints | src/main/kotlin/org/gephi/graph/api/Graph.kt:8-11 | on the same edges, Netter's degree centrality exceeds the gephi degree exactly by the node's self-loops |
| NetterTxtIo.ParseLinkColumns | src/main/kotlin/ru/spbu/netter/controller/io/TxtIOHandler.kt:51-65 | a link line is rejected for its column count exactly when it does not have two columns; an accepted line has two integer columns, both at least 0, and every such line is accepted |
| NetterTxtIo.ParseNodeColumns | src/main/kotlin/ru/spbu/netter/controller/io/TxtIOHandler.kt:72-95 | a node line is rejected for its column count exactly when it does not have three columns; an accepted line carries the parsed id, community and centrality, all within their minimums, and every such line is accepted |
| NetterTxtIo.ParseColumns | src/main/kotlin/ru/spbu/netter/controller/io/TxtIOHandler.kt:21 | whatever the block's parser accepts passes the line checks and is of the block's kind |
| NetterTxtIo.SetNode | src/main/kotlin/ru/spbu/netter/controller/io/TxtIOHandler.kt:97-100 | the node under the id gets the given community and centrality; other nodes and the links are unchanged |
| NetterTxtIo.ParseBlock | src/main/kotlin/ru/spbu/netter/controller/io/TxtIOHandler.kt:34-44 | a rejected line is the first non-empty line of the block the parser rejects, numbered from 1: every line before it is non-empty and accepted; a parsed block holds one record per line up to the empty line that ends it |
| NetterTxtIo.BlockParses | src/main/kotlin/ru/spbu/netter/controller/io/TxtIOHandler.kt:34-44 | a block whose lines hold given records parses to exactly those records |
| NetterTxtIo.ParseFile | src/main/kotlin/ru/spbu/netter/controller/io/TxtIOHandler.kt:32-47 | a failure is either the first line the link parser rejects, or, after a link block closed by an empty line, the first line of the node block the node parser rejects; a success ends either at the file's end or after an empty line |
| NetterTxtIo.ImportWith | src/main/kotlin/ru/spbu/netter/controller/io/TxtIOHandler.kt:20-49 | the import fails exactly when reading the blocks fails, with that line's error; excess lines are reported only after the blank line that ends the node block |
| NetterTxtIo.ImportKeepsValid | src/main/kotlin/ru/spbu/netter/controller/io/TxtIOHandler.kt:20-49 | a successful import keeps a network's shape, whatever the lines |
| NetterTxtIo.LineKeepsIdsARange | src/main/kotlin/ru/spbu/netter/controller/io/TxtIOHandler.kt:40-43 | on a network whose ids are 0..n-1 an accepted line leaves the ids 0..m-1 for some m |
| NetterTxtIo.ImportLeavesIdsARange | src/main/kotlin/ru/spbu/netter/controller/io/TxtIOHandler.kt:20-49 | importing a file into an empty network leaves the ids 0..m-1 for some m |
| NetterTxtIo.ExportLines | src/main/kotlin/ru/spbu/netter/controller/io/TxtIOHandler.kt:127-137 | the link lines, one per link in order, an empty line, then one node line per id in key order |
| NetterTxtIo.LinkParserReadsLinkLines | src/main/kotlin/ru/spbu/netter/controller/io/TxtIOHandler.kt:51-70 | parseLink reads every exported link line back as that link |
| NetterTxtIo.NodeParserReadsNodeLines | src/main/kotlin/ru/spbu/netter/controller/io/TxtIOHandler.kt:72-101 | parseNode reads every exported node line back as that node |
| NetterTxtIo.ExportRecordsRebuild | src/main/kotlin/ru/spbu/netter/controller/io/TxtIOHandler.kt:20-49 | applying the records of an exported network to an empty network rebuilds its nodes and links |
| NetterTxtIo.ExportReadsAsLines | src/main/kotlin/ru/spbu/netter/controller/io/TxtIOHandler.kt:127-137 | reading the exported text gives the exported lines |
| NetterTxtIo.ImportReadsExport | src/main/kotlin/ru/spbu/netter/controller/io/TxtIOHandler.kt:20-138 | importing what exportNetwork wrote gives back the same nodes and links, with no excess lines, for every network the format can represent |
| LegacyTxtIo.ParseEdge | src/main/kotlin/ru/spbu/netter/controller/TxtIOHandler.kt:43-55 | an edge line is rejected for its column count exactly when it does not have two columns; an accepted line holds two non-negative integers and records whether the string comparison swaps them |
| LegacyTxtIo.ParseVertex | src/main/kotlin/ru/spbu/netter/controller/TxtIOHandler.kt:57-70 | a vertex line is rejected for its column count exactly when it does not have three columns; an accepted line holds the parsed fields, all within their minimums |
| LegacyTxtIo.ImportBlock | src/main/kotlin/ru/spbu/netter/controller/TxtIOHandler.kt:24-36 | a block ends at an empty line or the file's end; a rejected line is the first non-empty one the parser rejects: every line before it is non-empty and accepted |
| LegacyTxtIo.EdgeLineAddsEdge | src/main/kotlin/ru/spbu/netter/controller/TxtIOHandler.kt:49-52 | an accepted edge line stores both ids and the edge, or leaves an equal edge in place |
| LegacyTxtIo.VertexLineSetsVertex | src/main/kotlin/ru/spbu/netter/controller/TxtIOHandler.kt:64-67 | an accepted vertex line sets that vertex's community and centrality |
| LegacyTxtIo.SecondColumnFillAddsNothing | src/main/kotlin/ru/spbu/netter/controller/TxtIOHandler.kt:51-52 | the fill at line 52 starts at an id addEdge has just stored, so it adds nothing |
| LegacyTxtIo.ImportKeepsValid | src/main/kotlin/ru/spbu/netter/controller/TxtIOHandler.kt:17-41 | a successful import keeps the graph's shape |
| LegacyTxtIo.AsWrittenLeavesGap | src/main/kotlin/ru/spbu/netter/controller/TxtIOHandler.kt:51-52 | importing the single edge line "1 5" leaves the ids 0, 1 and 5, not a range |
| LegacyTxtIo.AsWrittenStringOrder | src/main/kotlin/ru/spbu/netter/controller/TxtIOHandler.kt:51 | importing "10 9" leaves only the ids 9 and 10, because "10" sorts below "9" as a string |
| LegacyTxtIo.CorrectedLineKeepsIdsARange | src/main/kotlin/ru/spbu/netter/controller/TxtIOHandler.kt:51-52 | with the fill started below the larger id, every accepted line keeps the ids a range 0..m-1 |
| LegacyTxtIo.CorrectedImportLeavesIdsARange | src/main/kotlin/ru/spbu/netter/controller/TxtIOHandler.kt:17-41 | with the corrected fill, importing into an empty graph leaves the ids 0..m-1 for some m |
| FaNodes.InitialCoordinate | src/main/kotlin/org/gephi/layout/plugin/forceAtlas2/FaNode.kt:9-10 | a starting coordinate drawn from `[0, 1)` lies in `[-490, 510)` |
| FaNodes.InitialCoordinateCovers | src/main/kotlin/org/gephi/layout/plugin/forceAtlas2/FaNode.kt:9-10 | every coordinate of `[-490, 510)` is the start of some draw, so the range is exact |
| FaNodes.NewFaNode | src/main/kotlin/org/gephi/layout/plugin/forceAtlas2/FaNode.kt:6-20 | a fresh node state keeps its node's id, starts inside the square, with no force and no history, size 1, mass 0, not fixed |
| FaNodes.Refresh | src/main/kotlin/org/gephi/layout/plugin/forceAtlas2/ForceAtlas2.kt:49-55 | the step start sets the mass to 1 + degree, moves the force into the old force and clears the force; nothing else changes |
| FaNodes.RefreshForgetsHistory | src/main/kotlin/org/gephi/layout/plugin/forceAtlas2/ForceAtlas2.kt:49-55 | two states that differ only in their old force and their mass refresh to the same state: one step of history is kept and the mass is recomputed |
| ForceFactory.BuildRepulsion | src/main/kotlin/org/gephi/layout/plugin/forceAtlas2/ForceFactory.kt:9-10 | the anti-collision repulsion is chosen exactly when sizes are adjusted; the coefficient is passed through |
| ForceFactory.GetStrongGravity | src/main/kotlin/org/gephi/layout/plugin/forceAtlas2/ForceFactory.kt:12 | the strong gravity force with the given coefficient |
| ForceFactory.BuildAttraction | src/main/kotlin/org/gephi/layout/plugin/forceAtlas2/ForceFactory.kt:14-36 | the variant built is logarithmic, degree-distributed and anti-collision exactly as the three flags say |
| ForceFactory.BuildAttractionRoundTrip | src/main/kotlin/org/gephi/layout/plugin/forceAtlas2/ForceFactory.kt:14-36 | every one of the eight variants is built from its own traits, so the flag combinations and the variants correspond one to one |
| ForceFactory.Exchange | src/main/kotlin/org/gephi/layout/plugin/forceAtlas2/ForceFactory.kt:59-65 | a pair force adds a multiple of the offset to one node and takes the same from the other: the two forces sum as before, other nodes and all positions are untouched |
| ForceFactory.PairFactor | src/main/kotlin/org/gephi/layout/plugin/forceAtlas2/ForceFactory.kt:52-148 | coincident nodes (or touching borders with anti-collision) get no push, and strong gravity gives pairs none |
| ForceFactory.AttractionFactor | src/main/kotlin/org/gephi/layout/plugin/forceAtlas2/ForceFactory.kt:167-294 | with non-negative coefficient and weight every attraction pulls (the factor is not positive); log variants at distance 0 and anti-collision variants at touching borders do nothing |
| ForceFactory.RegionLaw | src/main/kotlin/org/gephi/layout/plugin/forceAtlas2/ForceFactory.kt:68-152 | a region at the node's own place, and any region under strong gravity, gives no push |
| ForceFactory.GravityFactor | src/main/kotlin/org/gephi/layout/plugin/forceAtlas2/ForceFactory.kt:154-164 | strong gravity's pull does not fall off with the distance: coefficient × mass × gravitation |
| ForceFactory.GravityAtOriginIsNothing | src/main/kotlin/org/gephi/layout/plugin/forceAtlas2/ForceFactory.kt:80-164 | every gravity variant leaves a node at the origin untouched |
| ForceFactory.StrongGravityIgnoresOthers | src/main/kotlin/org/gephi/layout/plugin/forceAtlas2/ForceFactory.kt:146-152 | strong gravity changes nothing when applied to a pair or a region |
| ForceFactory.CoincidentNodesDoNotRepel | src/main/kotlin/org/gephi/layout/plugin/forceAtlas2/ForceFactory.kt:54-113 | two nodes at the same place do not push each other, whatever the repulsion variant |
| ForceFactory.RepulsionPushesApart | src/main/kotlin/org/gephi/layout/plugin/forceAtlas2/ForceFactory.kt:54-113 | with non-negative coefficient and masses a pair repulsion always pushes the first node away from the second |
| ForceFactory.RegionRepulsionPushesApart | src/main/kotlin/org/gephi/layout/plugin/forceAtlas2/ForceFactory.kt:68-129 | with non-negative coefficient and masses a region always pushes the node away from its centre of mass |
| ForceFactory.GravityPullsIn | src/main/kotlin/org/gephi/layout/plugin/forceAtlas2/ForceFactory.kt:80-164 | with non-negative coefficient, mass and gravitation every gravity variant pulls towards the origin |
| BarnesHut.MassPositive | src/main/kotlin/org/gephi/layout/plugin/forceAtlas2/Region.kt:21-29 | the mass of a region whose members all weigh something is positive, so the centre of mass is defined |
| BarnesHut.MomentSplits | src/main/kotlin/org/gephi/layout/plugin/forceAtlas2/Region.kt:31-32 | the moment about a line is the weighted coordinate sum less the line times the mass |
| BarnesHut.Centre | src/main/kotlin/org/gephi/layout/plugin/forceAtlas2/Region.kt:31-32 | the computed centre is the balance point: the members' moment about it is zero |
| BarnesHut.Extent | src/main/kotlin/org/gephi/layout/plugin/forceAtlas2/Region.kt:34-38 | the size is at least `Double.MIN_VALUE`, reaches every member from the centre, and is either that minimum or attained by some member |
| BarnesHut.Weighed | src/main/kotlin/org/gephi/layout/plugin/forceAtlas2/Region.kt:18-39 | a region of two or more members has their total mass, its centre of mass and a size reaching every member |
| BarnesHut.Shell | src/main/kotlin/org/gephi/layout/plugin/forceAtlas2/Region.kt:18-39 | a region of at most one member keeps mass, centre and size at zero |
| BarnesHut.SideOf | src/main/kotlin/org/gephi/layout/plugin/forceAtlas2/Region.kt:45-55 | the members put on one side of a line are members lying on that side |
| BarnesHut.SidesSplit | src/main/kotlin/org/gephi/layout/plugin/forceAtlas2/Region.kt:45-55 | the two sides of a line share out the members exactly (as multisets) |
| BarnesHut.UnionSingletons | src/main/kotlin/org/gephi/layout/plugin/forceAtlas2/Region.kt:65-70 | splitting a quadrant into singleton regions keeps its members |
| BarnesHut.SubRegionContents | src/main/kotlin/org/gephi/layout/plugin/forceAtlas2/Region.kt:65-70 | the children one quadrant adds hold exactly the quadrant's members |
| BarnesHut.PartsShareMembers | src/main/kotlin/org/gephi/layout/plugin/forceAtlas2/Region.kt:42-70 | the children of a region share its members exactly; each is non-empty, smaller than the parent and inside one quadrant |
| BarnesHut.BuildWellFormed | src/main/kotlin/org/gephi/layout/plugin/forceAtlas2/Region.kt:42-70 | a built tree is well formed: leaves have one member, inner regions split their members among smaller children |
| BarnesHut.BuildMeasured | src/main/kotlin/org/gephi/layout/plugin/forceAtlas2/Region.kt:18-63 | every region of a built tree carries the mass, centre and size its constructor computes |
| BarnesHut.BuildQuartered | src/main/kotlin/org/gephi/layout/plugin/forceAtlas2/Region.kt:42-63 | every subregion of a built tree lies in one quadrant around its parent's centre of mass |
| BarnesHut.BuiltUsable | src/main/kotlin/org/gephi/layout/plugin/forceAtlas2/Region.kt:42-70 | a built tree over valid positions can be walked: no region is empty and every member indexes the node list |
| BarnesHut.ApplyForce | src/main/kotlin/org/gephi/layout/plugin/forceAtlas2/Region.kt:72-80 | walking the tree changes no position, only force accumulators |
| BarnesHut.ApplyFrom | src/main/kotlin/org/gephi/layout/plugin/forceAtlas2/Region.kt:78 | walking the remaining subregions changes no position |
| BarnesHut.TraceCoversMembers | src/main/kotlin/org/gephi/layout/plugin/forceAtlas2/Region.kt:72-80 | a walk of a well-formed tree accounts for every member exactly once, alone or inside an aggregated region |
| BarnesHut.ApplyForceFollowsTrace | src/main/kotlin/org/gephi/layout/plugin/forceAtlas2/Region.kt:72-80 | `applyForce` makes exactly the interactions of the walk, in order |
| BarnesHut.ApplyFromFollowsTrace | src/main/kotlin/org/gephi/layout/plugin/forceAtlas2/Region.kt:78 | the walk of the remaining subregions makes exactly their interactions, in order |
| BarnesHut.AggregatedRegionsAreFar | src/main/kotlin/org/gephi/layout/plugin/forceAtlas2/Region.kt:74-77 | a region is only taken as a whole when its size is below theta times the distance to the node |
| BarnesHut.WholeRegionIsFar | src/main/kotlin/org/gephi/layout/plugin/forceAtlas2/Region.kt:74-77 | every aggregated interaction of a walk from the root is far enough |
| BarnesHut.TraceFromFar | src/main/kotlin/org/gephi/layout/plugin/forceAtlas2/Region.kt:74-79 | the same for the walk of the remaining subregions |
| NodesThreads.Run | src/main/kotlin/org/gephi/layout/plugin/forceAtlas2/NodesThread.kt:17-27 | a task changes no position, only force accumulators |
| NodesThreads.PerformKeepsPlaces | src/main/kotlin/org/gephi/layout/plugin/forceAtlas2/NodesThread.kt:17-27 | any sequence of the task's calls keeps every node's place |
| NodesThreads.ScheduleOk | src/main/kotlin/org/gephi/layout/plugin/forceAtlas2/NodesThread.kt:17-27 | every call of a task whose range lies in the node list can be made |
| NodesThreads.TreeRunHolds | src/main/kotlin/org/gephi/layout/plugin/forceAtlas2/NodesThread.kt:18-19 | the tree is walked exactly for the positions of the range |
| NodesThreads.RowsHold | src/main/kotlin/org/gephi/layout/plugin/forceAtlas2/NodesThread.kt:21-23 | without the tree each position of the range meets exactly the earlier positions |
| NodesThreads.GravityRunHolds | src/main/kotlin/org/gephi/layout/plugin/forceAtlas2/NodesThread.kt:26 | gravity is applied exactly to the positions of the range |
| NodesThreads.ScheduleHolds | src/main/kotlin/org/gephi/layout/plugin/forceAtlas2/NodesThread.kt:17-27 | the calls of a task: tree walk or pairs depending on the mode, then gravity, for exactly its range |
| NodesThreads.TasksOrdered | src/main/kotlin/org/gephi/layout/plugin/forceAtlas2/ForceAtlas2.kt:73-74 | a later task never starts before an earlier one ends |
| NodesThreads.TasksSpan | src/main/kotlin/org/gephi/layout/plugin/forceAtlas2/ForceAtlas2.kt:69-74 | the tasks tile the node list: the first starts at 0, the last ends at its length, each ends where the next starts |
| NodesThreads.OneTaskOwns | src/main/kotlin/org/gephi/layout/plugin/forceAtlas2/ForceAtlas2.kt:69-74 | every position belongs to exactly one task |
| NodesThreads.ExactModeMeetsEachPairOnce | src/main/kotlin/org/gephi/layout/plugin/forceAtlas2/ForceAtlas2.kt:67-91 | without the tree each pair of distinct nodes is repelled once in one task and never the other way round |
| NodesThreads.EachNodeServedOnce | src/main/kotlin/org/gephi/layout/plugin/forceAtlas2/ForceAtlas2.kt:67-91 | each node gets gravity (and in Barnes–Hut mode the tree walk) from exactly one task |
| FaStep.ThreadCount | src/main/kotlin/org/gephi/layout/plugin/forceAtlas2/ForceAtlas2.kt:33 | between 1 and 4 threads, the allowed count nearest to one fewer than the processors |
| FaStep.Template | src/main/kotlin/org/gephi/layout/plugin/forceAtlas2/ForceAtlas2.kt:65-82 | the task arguments: gravity force is strong gravity exactly in that mode and else the repulsion, which is anti-collision exactly when sizes are adjusted; all scaled by the scaling ratio |
| FaStep.RunTasks | src/main/kotlin/org/gephi/layout/plugin/forceAtlas2/ForceAtlas2.kt:67-91 | the tasks of a step change no position |
| FaStep.Attraction | src/main/kotlin/org/gephi/layout/plugin/forceAtlas2/ForceAtlas2.kt:93-96 | the attraction follows the lin-log, outbound and adjust-sizes settings; its coefficient is the compensation only with outbound distribution |
| FaStep.EdgeWeight | src/main/kotlin/org/gephi/layout/plugin/forceAtlas2/ForceAtlas2.kt:97-113 | influence 0 pulls with weight 1; otherwise the weight raised to the influence, so the two special cases agree with the general one |
| FaStep.Attract | src/main/kotlin/org/gephi/layout/plugin/forceAtlas2/ForceAtlas2.kt:97-113 | the attraction changes no position |
| FaStep.AttractConserves | src/main/kotlin/org/gephi/layout/plugin/forceAtlas2/ForceAtlas2.kt:97-113 | every pull is action and reaction, so the attraction keeps the sum of the forces |
| FaStep.MeanMassIsMean | src/main/kotlin/org/gephi/layout/plugin/forceAtlas2/ForceAtlas2.kt:59-63 | the compensation is at least 1 when every mass is, and equals the common mass when all are equal |
| FaStep.TotalsNonNegative | src/main/kotlin/org/gephi/layout/plugin/forceAtlas2/ForceAtlas2.kt:115-122 | total swinging and total traction are never negative |
| FaStep.FixedNodesDoNotCount | src/main/kotlin/org/gephi/layout/plugin/forceAtlas2/ForceAtlas2.kt:117-118 | replacing a fixed node by any fixed node leaves both totals unchanged |
| FaStep.ErraticIffSwingingDominates | src/main/kotlin/org/gephi/layout/plugin/forceAtlas2/ForceAtlas2.kt:135 | for a non-negative traction the step is erratic exactly when swinging exceeds twice the traction |
| FaStep.NextSpeed | src/main/kotlin/org/gephi/layout/plugin/forceAtlas2/ForceAtlas2.kt:140-147 | the speed rises by at most half; it fails exactly when 0 / 0 or a negative over zero is formed |
| FaStep.Adapt | src/main/kotlin/org/gephi/layout/plugin/forceAtlas2/ForceAtlas2.kt:115-147 | the speed rises by at most half; efficiency only shrinks from above the minimum and stays above 0.025; fails only with zero total swinging |
| FaStep.Damped | src/main/kotlin/org/gephi/layout/plugin/forceAtlas2/ForceAtlas2.kt:167 | a swinging node moves at most at the global speed |
| FaStep.StepFactor | src/main/kotlin/org/gephi/layout/plugin/forceAtlas2/ForceAtlas2.kt:153-167 | a node moves a non-negative multiple of its force, at most the speed; with sizes adjusted at most a tenth of it and never more than 10 units |
| FaStep.CappedShare | src/main/kotlin/org/gephi/layout/plugin/forceAtlas2/ForceAtlas2.kt:156 | capping the move at 10 and dividing by the force length never exceeds the uncapped factor |
| FaStep.Move | src/main/kotlin/org/gephi/layout/plugin/forceAtlas2/ForceAtlas2.kt:149-172 | a fixed node stays; a free one moves along its force by its step factor; nothing but the position changes |
| FaStep.Displace | src/main/kotlin/org/gephi/layout/plugin/forceAtlas2/ForceAtlas2.kt:149-172 | every node is moved on its own |
| FaStep.StepFactorAsWritten | src/main/kotlin/org/gephi/layout/plugin/forceAtlas2/ForceAtlas2.kt:156 | the factor as written is undefined exactly when sizes are adjusted and the force is zero; elsewhere it is the corrected factor |
| FaStep.MoveAsWritten | src/main/kotlin/org/gephi/layout/plugin/forceAtlas2/ForceAtlas2.kt:149-160 | the move as written gives NaN exactly for a free node without force with sizes adjusted, elsewhere it is the corrected move |
| FaStep.DisplaceAsWritten | src/main/kotlin/org/gephi/layout/plugin/forceAtlas2/ForceAtlas2.kt:149-172 | the displacement as written fails exactly when some free node has no force with sizes adjusted |
| FaStep.StillNodeGetsNaN | src/main/kotlin/org/gephi/layout/plugin/forceAtlas2/ForceAtlas2.kt:155-156 | a free node without force gets a NaN position as written and stays put in the corrected step |
| FaStep.Root | src/main/kotlin/org/gephi/layout/plugin/forceAtlas2/ForceAtlas2.kt:57 | in Barnes–Hut mode the tree holds every position and can be walked |
| FaStep.Accumulate | src/main/kotlin/org/gephi/layout/plugin/forceAtlas2/ForceAtlas2.kt:57-113 | the forces of a step change no position; with outbound distribution the compensation is the mean mass, at least 1 |
| FaStep.Paced | src/main/kotlin/org/gephi/layout/plugin/forceAtlas2/ForceAtlas2.kt:57-147 | forces and pace: fails with no nodes or a zero scaling ratio; speed rises by at most half; efficiency stays above 0.025 |
| FaStep.Advance | src/main/kotlin/org/gephi/layout/plugin/forceAtlas2/ForceAtlas2.kt:57-172 | the whole step: only positions and forces change; it fails only on NaN, always with no nodes or a zero scaling ratio; speed and efficiency bounds hold |
| FaStep.AdvanceAsWritten | src/main/kotlin/org/gephi/layout/plugin/forceAtlas2/ForceAtlas2.kt:57-172 | as written the step agrees with the corrected one where it succeeds, and fails where the corrected one succeeds only with sizes adjusted |
| ForceAtlas2.MakeNodes | src/main/kotlin/org/gephi/layout/plugin/forceAtlas2/ForceAtlas2.kt:45 | one fresh state per id in key order with mass 1 + degree; fails exactly on the first id outside the degree table |
| ForceAtlas2.Init | src/main/kotlin/org/gephi/layout/plugin/forceAtlas2/ForceAtlas2.kt:24-46 | the engine built from a network is well formed, counts each link's ends into the degrees, copies the links with their weights; it fails exactly when some node id is outside `0 until nodes.size` |
| ForceAtlas2.InitWellformed | src/main/kotlin/org/gephi/layout/plugin/forceAtlas2/ForceAtlas2.kt:37-46 | what the constructor builds is well formed |
| ForceAtlas2.Assembled | src/main/kotlin/org/gephi/layout/plugin/forceAtlas2/ForceAtlas2.kt:38-46 | once every key indexes the degree table, the assembled engine is well formed, starts its pace and compensation at 1, copies every link with its weight, and gives each key in order a fresh state whose mass counts the key's link ends |
| ForceAtlas2.LinksFromNetwork | src/main/kotlin/org/gephi/layout/plugin/forceAtlas2/ForceAtlas2.kt:38-39 | both ends of every copied link are nodes of the engine |
| ForceAtlas2.IdsFromOrder | src/main/kotlin/org/gephi/layout/plugin/forceAtlas2/ForceAtlas2.kt:45 | the nodes carry the network's keys as unique ids that index the degree table |
| ForceAtlas2.Refreshed | src/main/kotlin/org/gephi/layout/plugin/forceAtlas2/ForceAtlas2.kt:49-55 | every node gets the mass of its own degree slot and starts a new force |
| ForceAtlas2.RefreshedFacts | src/main/kotlin/org/gephi/layout/plugin/forceAtlas2/ForceAtlas2.kt:49-55 | refreshed nodes weigh at least 1 and keep their ids, so every link still joins two nodes |
| ForceAtlas2.LinkPulls | src/main/kotlin/org/gephi/layout/plugin/forceAtlas2/ForceAtlas2.kt:97-113 | each link pulls the two nodes whose ids are its ends, with its influenced weight |
| ForceAtlas2.PullsById | src/main/kotlin/org/gephi/layout/plugin/forceAtlas2/ForceAtlas2.kt:98-111 | as written each link pulls the nodes at the positions equal to its end ids |
| ForceAtlas2.PullsByIdIff | src/main/kotlin/org/gephi/layout/plugin/forceAtlas2/ForceAtlas2.kt:98-111 | a link's pull by id is its pull between the linked nodes exactly when both end nodes sit at the positions of their ids |
| ForceAtlas2.PullsByIdWhenSorted | src/main/kotlin/org/gephi/layout/plugin/forceAtlas2/ForceAtlas2.kt:98-111 | when every node sits at the position of its id, indexing by id gives the intended pulls |
| ForceAtlas2.PullsByIdMissesLinkedNode | src/main/kotlin/org/gephi/layout/plugin/forceAtlas2/ForceAtlas2.kt:98-111 | on nodes ordered 2, 1, 0 the link `2 1` pulls the nodes 0 and 1 instead of 2 and 1 |
| ForceAtlas2.LinkLineOrder | src/main/kotlin/ru/spbu/netter/controller/io/TxtIOHandler.kt:51-70 | reading the single link line `2 1` gives the node order 2, 1, 0 |
| ForceAtlas2.Step | src/main/kotlin/org/gephi/layout/plugin/forceAtlas2/ForceAtlas2.kt:48-173 | the corrected step keeps the engine well formed and the node identities, changes only positions and forces, fails only on NaN (always with no nodes or a zero scaling ratio) and keeps the speed and efficiency bounds |
| ForceAtlas2.StepKeepsWellformed | src/main/kotlin/org/gephi/layout/plugin/forceAtlas2/ForceAtlas2.kt:149-172 | new node states that keep every id keep the engine well formed |
| ForceAtlas2.StepAsWritten | src/main/kotlin/org/gephi/layout/plugin/forceAtlas2/ForceAtlas2.kt:48-173 | as written the step fails on the uninitialised tree exactly when Barnes–Hut is off |
| ForceAtlas2.AsWrittenAgreesWhenSorted | src/main/kotlin/org/gephi/layout/plugin/forceAtlas2/ForceAtlas2.kt:48-173 | in Barnes–Hut mode with every node at the position of its id, the step as written agrees with the corrected one except for the NaN of a forceless node with sizes adjusted |
| GephiForceAtlas2.NewLayout | src/main/java/org/gephi/layout/plugin/forceAtlas2/ForceAtlas2.java:98-100 | a new engine has no graph, no pool and no root region, and 1 to 4 threads as the Kotlin engine picks them |
| GephiForceAtlas2.SetThreadsCount | src/main/java/org/gephi/layout/plugin/forceAtlas2/ForceAtlas2.java:409-411 | at least one thread, exactly the count asked for when it is positive; nothing else changes |
| GephiForceAtlas2.ResetPropertiesValues | src/main/java/org/gephi/layout/plugin/forceAtlas2/ForceAtlas2.java:310-341 | scaling 2 from 100 nodes and 10 below; Barnes–Hut exactly from 1000 nodes; the fixed defaults; threads one fewer than the processors; nothing else changes |
| GephiForceAtlas2.ResetForgetsProperties | src/main/java/org/gephi/layout/plugin/forceAtlas2/ForceAtlas2.java:310-341 | two engines with graphs of the same size reset to the same properties, whatever was set before |
| GephiForceAtlas2.SetGraph | src/main/java/org/gephi/layout/plugin/forceAtlas2/ForceAtlas2.java:343-347 | attaching a graph resets the properties for its size and keeps pool, speed, efficiency and compensation |
| GephiForceAtlas2.Placed | src/main/java/org/gephi/layout/plugin/forceAtlas2/ForceAtlas2.java:108-122 | a node gets layout data, a place in the starting square, mass 1 + degree and no force, and keeps id, size and fixedness |
| GephiForceAtlas2.InitAlgo | src/main/java/org/gephi/layout/plugin/forceAtlas2/ForceAtlas2.java:102-131 | fails without a graph and exactly on the first node outside the degree table; otherwise every node is placed, speed and efficiency are 1 and the pool is open with the configured threads |
| GephiForceAtlas2.Data | src/main/java/org/gephi/layout/plugin/forceAtlas2/ForceAtlas2.java:144-149 | a node without layout data gets fresh zero data; one with data keeps it |
| GephiForceAtlas2.Refreshed | src/main/java/org/gephi/layout/plugin/forceAtlas2/ForceAtlas2.java:144-155 | every node's state refreshed with mass 1 + its degree; ids kept |
| GephiForceAtlas2.EdgePulls | src/main/java/org/gephi/layout/plugin/forceAtlas2/ForceAtlas2.java:195-208 | each edge pulls its own source and target node objects with its influenced weight |
| GephiForceAtlas2.Finish | src/main/java/org/gephi/layout/plugin/forceAtlas2/ForceAtlas2.java:257-296 | a failed step ends in NaN; a successful one stores every node with layout data and the new pace and compensation, and leaves a root region exactly when one existed or Barnes–Hut was on |
| GephiForceAtlas2.Advanced | src/main/java/org/gephi/layout/plugin/forceAtlas2/ForceAtlas2.java:157-296 | the shared step on the refreshed nodes: only positions and forces change; fails with no nodes or a zero scaling ratio with tasks; speed and efficiency bounds hold |
| GephiForceAtlas2.GoAlgo | src/main/java/org/gephi/layout/plugin/forceAtlas2/ForceAtlas2.java:138-297 | the step with the root-region hand-over corrected: fails without a graph, on the first node outside the degree table, or when tasks meet a pool that is not open, never on a missing region; otherwise it is the shared step on the refreshed nodes, NaN with no nodes |
| GephiForceAtlas2.GoAlgoAsWritten | src/main/java/org/gephi/layout/plugin/forceAtlas2/ForceAtlas2.java:157-184 | as written the step throws on the null root region exactly when its nodes refresh, it has tasks, Barnes–Hut is off and no earlier step built a region; every other call is the corrected step |
| GephiForceAtlas2.EndAlgo | src/main/java/org/gephi/layout/plugin/forceAtlas2/ForceAtlas2.java:303-308 | drops every node's layout data and shuts the pool; fails without a graph or without a pool; nothing else changes |
| GephiForceAtlas2.InitializedLayoutSteps | src/main/java/org/gephi/layout/plugin/forceAtlas2/ForceAtlas2.java:102-131 | after a successful `initAlgo` a step never lacks its graph or pool: it succeeds or ends in NaN |
| GephiForceAtlas2.InitializedLayoutStepsAsWritten | src/main/java/org/gephi/layout/plugin/forceAtlas2/ForceAtlas2.java:102-184 | as written the first step after `initAlgo` throws on the null region exactly when there are tasks, Barnes–Hut is off and no region was built before, and otherwise succeeds or ends in NaN |
| GephiForceAtlas2.SmallGraphFirstStepThrows | src/main/java/org/gephi/layout/plugin/forceAtlas2/ForceAtlas2.java:310-347 | any graph under 1000 nodes set on a new engine initialises, and its first step throws as written while the corrected step succeeds or ends in NaN |
| GephiForceAtlas2.EndedLayoutRejectsTasks | src/main/java/org/gephi/layout/plugin/forceAtlas2/ForceAtlas2.java:303-308 | after `endAlgo` a step that submits tasks fails on the shut-down pool |
| GephiForceAtlas2.MirroredRefresh | src/main/java/org/gephi/layout/plugin/forceAtlas2/ForceAtlas2.java:144-155 | a Java and a Kotlin engine in the same state refresh to the same node states |
| GephiForceAtlas2.MirroredPulls | src/main/java/org/gephi/layout/plugin/forceAtlas2/ForceAtlas2.java:195-208 | mirrored engines pull the same pairs with the same weights |
| GephiForceAtlas2.AsWrittenStepsAgreeOnRegion | src/main/java/org/gephi/layout/plugin/forceAtlas2/ForceAtlas2.java:157-184 | on mirrored engines with no region built, the Java step throws on the null region exactly when the Kotlin step reads its uninitialised region, exactly when Barnes–Hut is off |
| GephiForceAtlas2.JavaAgreesWithKotlin | src/main/java/org/gephi/layout/plugin/forceAtlas2/ForceAtlas2.java:138-297 | on mirrored engines a successful Java step stores exactly the corrected Kotlin step's nodes and pace, a failed Kotlin step is a NaN Java step, and they part only on a forceless node with sizes adjusted |

## Left out

- I/O: files, readers and writers are not modelled. A text file is the sequence of lines `readLine` returns, and an export is the sequence of lines written. `KotlinText.ReadTerminated` and `KotlinText.ReadLines` end a line at '\n' only. `BufferedReader.readLine` also ends one at "\r" and "\r\n", so a file written with Windows line ends (`writer.newLine()`, src/main/kotlin/ru/spbu/netter/controller/io/TxtIOHandler.kt:132) imports in the source. In the model every such line keeps a trailing '\r', and its parse fails.
- The SQLite, Neo4j and URI handlers, and the file dialogs around the text handlers: these are database and file-system glue.
- The legacy exporter (src/main/kotlin/ru/spbu/netter/controller/TxtIOHandler.kt:78-88): it writes `toString` of the vertex objects without newlines, so its output is not a format.
- Threads: the repulsion tasks, the thread pool and the futures run as one sequential loop over the tiled ranges. The pool is modelled only as a state: open, shut down, or never created. In brute-force mode a task also adds forces to nodes outside its range, which is a data race in the source; the sequential model does not describe that race.
- Floating point: doubles are reals, with no rounding, no infinities and no NaN values. A quotient over zero ends the step in a NaN error. The `(float)` narrowing of positions at ForceAtlas2.java:274 and 292 is not modelled.
- The values of `sqrt`, `ln`, `pow`, `cos`, `sin` and `FastMath.fastExp`: they are function parameters, or left out where only numerics depend on them. There are no convergence or layout-quality claims.
- Randomness: `Math.random` in `FaNode` and `java.util.Random` in `Arrays` are given as sequences of draws.
- Decimal printing and parsing of doubles in the text format: they are function parameters. The export/import round trip is proved for any parser that reads back what the printer writes.
- The Leiden community detector, harmonic centrality, both circular layouts, `ForceAtlas2Layout`, both `SmartLayout` files, the UI views and `MainApp`: these are library wrappers, trigonometric numerics or user interface.
- The gephi `Node.kt` data holder, the interfaces, and the CPM clustering classes: they carry no behaviour.
- State left behind by a throw: a failing call returns only its failure. For example, `mergeClusters` rewrites the labels of nodes before the failing one, and the Java `goAlgo` has already refreshed its nodes before it throws.
- `Clustering.clone` and `getClusters`: the model carries no separate copy for them (Clustering.java:51-65, 102-105). Clusterings are immutable values, so a copy is the value itself and is independent by construction.
- The clustering invariant `Valid` (every label below `nClusters`) is the class's implicit invariant. Operations require it of their input; a clustering given a negative label is not modelled.
- Java `int` overflow in the CWTS code: counts and indices are unbounded integers. `int` overflow in sums of array lengths cannot arise for arrays the JVM can allocate, and is not modelled.
- NetworkBuild.FromEdges: requires node weights of length `nNodes` and edge weights as many as the edges. With other lengths the source either reads past the edge weights or leaves the mismatch to `checkIntegrity`. The model does not cover these calls.
- NetworkBuild.FromEdges: `nNodes` is a natural number, so a negative node count is not modelled.
- CwtsArrays.Repeat, CwtsArrays.CreateDoubleArrayOfOnes, CwtsArrays.GenerateRandomPermutation and Clusterings.Singleton: their sizes are natural numbers. The `NegativeArraySizeException` the source throws for a negative size is not modelled.
- Aliasing: arguments are values, so two effects of shared Java arrays are not modelled. `mergeClusters` called with the clustering itself reads labels it has already rewritten (src/main/java/nl/cwts/networkanalysis/Clustering.java:209-216); the model composes with the labels as they were. The edge-list constructor of `Network` reassigns the rows of the caller's `edges` array to the doubled and sorted edges, which the caller then sees (src/main/java/nl/cwts/networkanalysis/Network.java:631-657); the model returns only the network.
- FaMaths.SqrtNonNegative: assumes the square root is non-negative for every argument. A negative speed, reachable with a negative jitter tolerance, gives `sqrt(speed * swinging)` = NaN in the source; the model does not produce that NaN.
- The Java engine's bindings: src/main/java/org/gephi/layout/plugin/forceAtlas2/ForceAtlas2.java does not type-check against the Kotlin classes it names. It passes `Node[]` where `Region` and `NodesThread` take `List<FaNode>` (lines 159 and 183; src/main/kotlin/org/gephi/layout/plugin/forceAtlas2/Region.kt:6, NodesThread.kt:5). It calls `ForceFactory.builder`, which ForceFactory.kt:7 does not declare (lines 175, 183 and 195). It also declares a second class with the qualified name of ForceAtlas2.kt (line 77). The Java engine is modelled as if its calls bound to the Kotlin classes.
- NetworkReduce.SentinelList: models the neighbour list the source builds, not the writes into the scratch array. The overflow of that array is stated by comparing the list's length with `nClusters - 1` (`NetworkReduce.ZeroWeightListedTwice`, `NetworkReduce.ZeroWeightRepeatsListed`).
- KotlinText.ParseInt: accepts ASCII digits only. Kotlin's `toIntOrNull` also accepts the other Unicode decimal digits, for example Arabic-Indic ones. A line written with such digits imports in the source and is rejected by the model.

## Findings

| source | as written | input that shows it | evidently intended | confidence | as-written member | corrected member |
|---|---|---|---|---|---|---|
| src/main/kotlin/ru/spbu/netter/controller/TxtIOHandler.kt:51-52 | an edge line's ids are ordered by string comparison, and skipped ids are filled downwards from the id just added | the line "1 5" imports ids 0, 1 and 5 only; the line "10 9" imports ids 9 and 10 only | after import the ids form the range 0..max, as the current importer guarantees | not executed | LegacyTxtIo.AsWrittenLeavesGap, LegacyTxtIo.AsWrittenStringOrder | LegacyTxtIo.CorrectedImportLeavesIdsARange |
| src/main/kotlin/org/gephi/layout/plugin/forceAtlas2/ForceAtlas2.kt:31,57,80 | `rootRegion` is `lateinit`, set only with Barnes–Hut on, and read for every task | any step with Barnes–Hut off | the tasks receive the region only when Barnes–Hut is on | not executed | ForceAtlas2.StepAsWritten | ForceAtlas2.Step |
| src/main/java/org/gephi/layout/plugin/forceAtlas2/ForceAtlas2.java:157-184 | `rootRegion` is built only with Barnes–Hut on, yet passed to every `NodesThread`, whose parameter is non-null; this holds only if line 183 binds to NodesThread.kt, which the Java text does not type-check against (see "Left out") | any graph under 1000 nodes: `setGraph` turns Barnes–Hut off, and the first `goAlgo` after `initAlgo` throws | the tasks receive the region only when Barnes–Hut is on | not executed | GephiForceAtlas2.SmallGraphFirstStepThrows, GephiForceAtlas2.GoAlgoAsWritten | GephiForceAtlas2.GoAlgo |
| src/main/java/nl/cwts/networkanalysis/Network.java:519-531 | each node's neighbours are read before the later first-neighbour indices are checked to be non-decreasing | two nodes, no edges, indices [0, 1, 0]: the slice of node 0 reads past the empty neighbour array | reject the decreasing indices with `IllegalArgumentException`; the corrected `CheckIntegrity` tests every index for a decrease before it reads any slice, so on decreasing indices its first reported error can differ from the one the source reaches | not executed | CwtsNetwork.DecreasingIndicesReadFirst | CwtsNetwork.CheckIntegrity |
| src/main/java/nl/cwts/networkanalysis/Network.java:436-440 | a neighbour cluster counts as not yet listed while its summed weight is zero | three clusters, two edges of weight 0 from cluster 0 into cluster 1, cluster 2 unconnected: cluster 1 is listed twice. With only two clusters the second listing writes past the one-entry scratch array at line 438 and throws instead; more zero-weight repeats than `nClusters - 1` always overflow it | every reached cluster listed once | not executed | NetworkReduce.ZeroWeightListedTwice, NetworkReduce.ZeroWeightRepeatsListed | NetworkReduce.ReduceCluster, NetworkReduce.FirstAppearancesFitScratch |
| src/main/java/nl/cwts/networkanalysis/Network.java:418-419 | the scratch neighbour array has `nClusters - 1` entries | an empty network with its empty clustering: the allocation throws `NegativeArraySizeException` | the empty reduced network | not executed | NetworkReduce.EmptyClusteringCannotBeReduced, NetworkReduce.ScratchNeighborsLength | NetworkReduce.CreateReducedNetwork |
| src/main/kotlin/org/gephi/layout/plugin/forceAtlas2/ForceAtlas2.kt:98-111 | the attraction finds a link's nodes at the positions equal to their ids, but nodes are kept in insertion order | the single link line "2 1" gives node order 2, 1, 0, and the link pulls nodes 0 and 1 | each link pulls the two nodes it names | not executed | ForceAtlas2.PullsByIdMissesLinkedNode | ForceAtlas2.LinkPulls |
| src/main/kotlin/org/gephi/layout/plugin/forceAtlas2/ForceAtlas2.kt:152-156 | with sizes adjusted the move divides by the force length `df` | a free node with zero force gets the position NaN, from 0 / 0 | a node without force stays put | not executed | FaStep.StillNodeGetsNaN | FaStep.Move |

=== FILE: clustering.dfy ===
/** A clustering of the nodes of a network (`nl.cwts.networkanalysis.Clustering`):
    every node carries a cluster label. The Java class mutates its label
    array in place; here each mutator returns the new clustering. */
module Clusterings {
  import opened SeqMath
  import opened Wrappers

  datatype Clustering = Clustering(nNodes: int, nClusters: int, clusters: seq<int>)

  /** The class invariant: one label per node, each label a cluster number. */
  predicate Valid(c: Clustering)
  {
    && c.nNodes == |c.clusters|
    && 0 <= c.nClusters
    && forall i | 0 <= i < |c.clusters| :: 0 <= c.clusters[i] < c.nClusters
  }

  /** The nodes of cluster `k` among the labels `s`, in increasing order. */
  function Members(s: seq<int>, k: int): seq<int>
  {
    if |s| == 0 then []
    else Members(s[..|s| - 1], k) + (if s[|s| - 1] == k then [|s| - 1] else [])
  }

  /** The labels of the clusters that hold at least one node and are at
      least `m`. */
  ghost function UsedLabelsFrom(c: Clustering, m: int): set<int>
  {
    set k | m <= k < c.nClusters && k in c.clusters
  }

  /** `new Clustering(nNodes)`: the singleton clustering. */
  method Singleton(nNodes: nat) returns (c: Clustering)
    ensures Valid(c)
    ensures c.nNodes == nNodes && c.nClusters == nNodes
    ensures forall i | 0 <= i < nNodes :: c.clusters[i] == i
  {
    var clusters := [];
    var i := 0;
    while i < nNodes
      invariant 0 <= i <= nNodes
      invariant |clusters| == i
      invariant forall j | 0 <= j < i :: clusters[j] == j
    {
      clusters := clusters + [i];
      i := i + 1;
    }
    c := Clustering(nNodes, nNodes, clusters);
  }

  /** In the singleton clustering every cluster holds exactly one node. */
  lemma SingletonClustersHoldOneNode(c: Clustering, k: int)
    requires Valid(c) && c.nClusters == c.nNodes
    requires forall i | 0 <= i < c.nNodes :: c.clusters[i] == i
    requires 0 <= k < c.nClusters
    ensures Members(c.clusters, k) == [k]
  {
    MembersSpec(c.clusters, k);
    var ms := Members(c.clusters, k);
    assert k in ms by { assert c.clusters[k] == k; }
    assert forall a | 0 <= a < |ms| :: ms[a] == k by {
      forall a | 0 <= a < |ms| ensures ms[a] == k {
        assert ms[a] in ms;
      }
    }
    IncreasingConstantIsShort(ms, k);
    assert ms == [ms[0]];
  }

  /** A strictly increasing sequence with a single value holds at most one element. */
  lemma IncreasingConstantIsShort(s: seq<int>, k: int)
    requires forall a, b | 0 <= a < b < |s| :: s[a] < s[b]
    requires forall a | 0 <= a < |s| :: s[a] == k
    ensures |s| <= 1
  {
    IncreasingStartsStrictly(s);
  }

  lemma IncreasingStartsStrictly(s: seq<int>)
    requires forall a, b | 0 <= a < b < |s| :: s[a] < s[b]
    ensures |s| >= 2 ==> s[0] < s[1]
  {
  }

  /** `getClusterIsNotEmpty()`. */
  method ClusterIsNotEmpty(c: Clustering) returns (notEmpty: seq<bool>)
    requires Valid(c)
    ensures |notEmpty| == c.nClusters
    ensures forall k | 0 <= k < c.nClusters :: notEmpty[k] <==> k in c.clusters
  {
    notEmpty := seq(c.nClusters, _ => false);
    var i := 0;
    while i < c.nNodes
      invariant 0 <= i <= c.nNodes
      invariant |notEmpty| == c.nClusters
      invariant forall k | 0 <= k < c.nClusters :: notEmpty[k] <==> k in c.clusters[..i]
    {
      var k := c.clusters[i];
      assert c.clusters[..i + 1] == c.clusters[..i] + [k];
      if !notEmpty[k] {
        notEmpty := notEmpty[k := true];
      }
      i := i + 1;
    }
    assert c.clusters[..i] == c.clusters;
  }

  /** Adding one to a single entry adds one to the total. */
  lemma SumIntIncrement(s: seq<int>, k: int)
    requires 0 <= k < |s|
    ensures SumInt(s[k := s[k] + 1]) == SumInt(s) + 1
  {
    var t := s[k := s[k] + 1];
    assert s == s[..k] + [s[k]] + s[k + 1..];
    assert t == s[..k] + [s[k] + 1] + s[k + 1..];
    SumIntAppend(s[..k] + [s[k]], s[k + 1..]);
    SumIntAppend(s[..k], [s[k]]);
    SumIntAppend(s[..k] + [s[k] + 1], s[k + 1..]);
    SumIntAppend(s[..k], [s[k] + 1]);
    assert SumInt([s[k]]) == s[k] by { assert [s[k]][..0] == []; }
    assert SumInt([s[k] + 1]) == s[k] + 1 by { assert [s[k] + 1][..0] == []; }
  }

  /** `getNNodesPerCluster()`: member counts, which add up to the number of nodes. */
  method NNodesPerCluster(c: Clustering) returns (counts: seq<int>)
    requires Valid(c)
    ensures |counts| == c.nClusters
    ensures forall k | 0 <= k < c.nClusters :: counts[k] == Count(c.clusters, k)
    ensures SumInt(counts) == c.nNodes
  {
    counts := seq(c.nClusters, _ => 0);
    SumIntZeros(c.nClusters);
    var i := 0;
    while i < c.nNodes
      invariant 0 <= i <= c.nNodes
      invariant |counts| == c.nClusters
      invariant forall k | 0 <= k < c.nClusters :: counts[k] == Count(c.clusters[..i], k)
      invariant SumInt(counts) == i
    {
      var k := c.clusters[i];
      assert c.clusters[..i + 1][..i] == c.clusters[..i];
      SumIntIncrement(counts, k);
      counts := counts[k := counts[k] + 1];
      i := i + 1;
    }
    assert c.clusters[..i] == c.clusters;
  }

  /** `getNodesPerCluster()`: the members of each cluster in increasing node order. */
  method NodesPerCluster(c: Clustering) returns (nodesPerCluster: seq<seq<int>>)
    requires Valid(c)
    ensures |nodesPerCluster| == c.nClusters
    ensures forall k | 0 <= k < c.nClusters :: nodesPerCluster[k] == Members(c.clusters, k)
  {
    nodesPerCluster := seq(c.nClusters, _ => []);
    var i := 0;
    while i < c.nNodes
      invariant 0 <= i <= c.nNodes
      invariant |nodesPerCluster| == c.nClusters
      invariant forall k | 0 <= k < c.nClusters :: nodesPerCluster[k] == Members(c.clusters[..i], k)
    {
      var k := c.clusters[i];
      assert c.clusters[..i + 1][..i] == c.clusters[..i];
      nodesPerCluster := nodesPerCluster[k := nodesPerCluster[k] + [i]];
      i := i + 1;
    }
    assert c.clusters[..i] == c.clusters;
  }

  /** The member list of cluster `k` is strictly increasing, holds exactly the
      nodes labelled `k`, and is as long as the cluster's member count. */
  lemma {:induction false} MembersSpec(s: seq<int>, k: int)
    ensures forall a, b | 0 <= a < b < |Members(s, k)| :: Members(s, k)[a] < Members(s, k)[b]
    ensures forall v :: v in Members(s, k) <==> 0 <= v < |s| && s[v] == k
    ensures |Members(s, k)| == Count(s, k)
    decreases |s|
  {
    if |s| > 0 {
      var p := s[..|s| - 1];
      MembersSpec(p, k);
      forall v ensures v in Members(s, k) <==> 0 <= v < |s| && s[v] == k {
        if 0 <= v < |p| {
          assert s[v] == p[v];
        }
      }
      var mp := Members(p, k);
      assert forall a | 0 <= a < |mp| :: mp[a] in mp;
      assert forall a | 0 <= a < |mp| :: mp[a] < |p|;
    }
  }

  /** Every node occurs in exactly one member list, its own cluster's, and
      exactly once there. */
  lemma EveryNodeListedOnce(c: Clustering, nodesPerCluster: seq<seq<int>>, v: int)
    requires Valid(c)
    requires |nodesPerCluster| == c.nClusters
    requires forall k | 0 <= k < c.nClusters :: nodesPerCluster[k] == Members(c.clusters, k)
    requires 0 <= v < c.nNodes
    ensures forall k | 0 <= k < c.nClusters :: v in nodesPerCluster[k] <==> k == c.clusters[v]
    ensures Count(nodesPerCluster[c.clusters[v]], v) == 1
  {
    forall k | 0 <= k < c.nClusters ensures v in nodesPerCluster[k] <==> k == c.clusters[v] {
      MembersSpec(c.clusters, k);
    }
    var ms := nodesPerCluster[c.clusters[v]];
    MembersSpec(c.clusters, c.clusters[v]);
    assert Distinct(ms);
    DistinctIffCountsAtMostOne(ms);
    CountPositiveIffIn(ms, v);
  }

  /** A flag count over a range grows by one at every set flag. */
  lemma CountTrueStep(s: seq<bool>, a: int, l: int)
    requires 0 <= a <= l < |s|
    ensures CountTrue(s[a..l + 1]) == CountTrue(s[a..l]) + (if s[l] then 1 else 0)
  {
    assert s[a..l + 1][..l - a] == s[a..l];
  }

  /** Flag counts over ranges with a common start are monotone, strictly so
      past a set flag. */
  lemma CountTrueMonotone(s: seq<bool>, a: int, l1: int, l2: int)
    requires 0 <= a <= l1 <= l2 <= |s|
    ensures CountTrue(s[a..l1]) <= CountTrue(s[a..l2])
    ensures l1 < l2 && s[l1] ==> CountTrue(s[a..l1]) < CountTrue(s[a..l2])
  {
    assert s[a..l2] == s[a..l1] + s[l1..l2];
    CountTrueAppend(s[a..l1], s[l1..l2]);
    if l1 < l2 && s[l1] {
      assert s[l1..l2] == [s[l1]] + s[l1 + 1..l2];
      CountTrueAppend([s[l1]], s[l1 + 1..l2]);
      assert CountTrue([s[l1]]) == 1 by { assert [s[l1]][..0] == []; }
    }
  }

  /** Every count below the total is reached just before some set flag. */
  lemma {:induction false} CountTrueReached(s: seq<bool>, t: nat) returns (l: nat)
    requires t < CountTrue(s)
    ensures l < |s| && s[l] && CountTrue(s[..l]) == t
    decreases |s|
  {
    var p := s[..|s| - 1];
    if t < CountTrue(p) {
      l := CountTrueReached(p, t);
      assert s[..l] == p[..l];
    } else {
      l := |s| - 1;
      assert s[..|s| - 1] == p;
    }
  }

  lemma {:induction false} CountTrueIsCardinality(s: seq<bool>, a: int, b: int)
    requires 0 <= a <= b <= |s|
    ensures CountTrue(s[a..b]) == |set k | a <= k < b && s[k]|
    decreases b
  {
    if a < b {
      CountTrueIsCardinality(s, a, b - 1);
      CountTrueStep(s, a, b - 1);
      TrueIndicesStep(s, a, b - 1);
    }
  }

  /** Extending the range by position `l` adds `l` exactly when it holds
      `true`. */
  lemma TrueIndicesStep(s: seq<bool>, a: int, l: int)
    requires 0 <= a <= l < |s|
    ensures |set k | a <= k < l + 1 && s[k]| == |set k | a <= k < l && s[k]| + (if s[l] then 1 else 0)
  {
    var prev := set k | a <= k < l && s[k];
    var now := set k | a <= k < l + 1 && s[k];
    if s[l] {
      assert now == prev + {l};
    } else {
      assert now == prev;
    }
  }

  /** The relabelling table of `removeEmptyClustersLargerThan`: labels below
      the start keep their number; each non-empty label from the start
      upwards gets the start plus the number of non-empty labels before it.
      Returns the start (a negative minimum behaves as 0) and the new
      cluster count. */
  method RelabelTable(notEmpty: seq<bool>, minimumCluster: int) returns (table: seq<int>, start: nat, count: int)
    requires minimumCluster <= |notEmpty|
    ensures start == (if minimumCluster < 0 then 0 else minimumCluster)
    ensures |table| == |notEmpty|
    ensures forall l | 0 <= l < start :: table[l] == l
    ensures forall l | start <= l < |notEmpty| && notEmpty[l] :: table[l] == start + CountTrue(notEmpty[start..l])
    ensures count == start + CountTrue(notEmpty[start..])
  {
    table := seq(|notEmpty|, _ => 0);
    var j := 0;
    while j < minimumCluster
      invariant 0 <= j <= |notEmpty|
      invariant minimumCluster >= 0 ==> j <= minimumCluster
      invariant minimumCluster < 0 ==> j == 0
      invariant |table| == |notEmpty|
      invariant forall l | 0 <= l < j :: table[l] == l
    {
      table := table[j := j];
      j := j + 1;
    }
    start := j;
    var i := j;
    while j < |notEmpty|
      invariant start <= j <= |notEmpty|
      invariant |table| == |notEmpty|
      invariant forall l | 0 <= l < start :: table[l] == l
      invariant i == start + CountTrue(notEmpty[start..j])
      invariant forall l | start <= l < j && notEmpty[l] :: table[l] == start + CountTrue(notEmpty[start..l])
    {
      CountTrueStep(notEmpty, start, j);
      if notEmpty[j] {
        table := table[j := i];
        i := i + 1;
      }
      j := j + 1;
    }
    assert notEmpty[start..j] == notEmpty[start..];
    count := i;
  }

  /** `removeEmptyClustersLargerThan(minimumCluster)`: labels below the minimum
      are kept; the non-empty labels from the minimum upwards are renumbered
      consecutively from the minimum, in their original order. A negative
      minimum behaves as 0; a minimum above `nClusters` makes the source
      write past its label table of `nClusters` entries (lines 187-189). */
  method RemoveEmptyClustersLargerThan(c: Clustering, minimumCluster: int) returns (res: Result<Clustering, IndexError>)
    requires Valid(c)
    ensures res.Failure? <==> minimumCluster > c.nClusters
    ensures res.Failure? ==> res.error == IndexOutOfBounds(c.nClusters, c.nClusters)
    ensures res.Success? ==> var r := res.value;
      && Valid(r) && r.nNodes == c.nNodes
      && (forall i | 0 <= i < c.nNodes && c.clusters[i] < minimumCluster :: r.clusters[i] == c.clusters[i])
      && (forall i | 0 <= i < c.nNodes && c.clusters[i] >= minimumCluster :: r.clusters[i] >= minimumCluster)
      && (forall i, j | 0 <= i < c.nNodes && 0 <= j < c.nNodes ::
            c.clusters[i] < c.clusters[j] <==> r.clusters[i] < r.clusters[j])
      && r.nClusters == (if minimumCluster < 0 then 0 else minimumCluster) + |UsedLabelsFrom(c, minimumCluster)|
      && (forall l | 0 <= l && minimumCluster <= l < r.nClusters :: l in r.clusters)
  {
    if minimumCluster > c.nClusters {
      return Failure(IndexOutOfBounds(c.nClusters, c.nClusters));
    }
    var notEmpty := ClusterIsNotEmpty(c);
    var newClusters, start, count := RelabelTable(notEmpty, minimumCluster);
    var clusters := c.clusters;
    var n := 0;
    while n < c.nNodes
      invariant 0 <= n <= c.nNodes
      invariant |clusters| == c.nNodes
      invariant forall v | 0 <= v < n :: clusters[v] == newClusters[c.clusters[v]]
      invariant forall v | n <= v < c.nNodes :: clusters[v] == c.clusters[v]
    {
      clusters := clusters[n := newClusters[clusters[n]]];
      n := n + 1;
    }
    var r := Clustering(c.nNodes, count, clusters);
    RelabelledLabels(c, notEmpty, start, newClusters, r);
    RelabelledOrder(c, notEmpty, start, newClusters, r);
    RelabelledCount(c, notEmpty, start, minimumCluster);
    RelabelledOnto(c, notEmpty, start, newClusters, r);
    res := Success(r);
  }

  lemma RelabelledLabels(c: Clustering, notEmpty: seq<bool>, start: nat, table: seq<int>, r: Clustering)
    requires Valid(c)
    requires |notEmpty| == c.nClusters && start <= c.nClusters
    requires forall k | 0 <= k < c.nClusters :: notEmpty[k] <==> k in c.clusters
    requires |table| == c.nClusters
    requires forall l | 0 <= l < start :: table[l] == l
    requires forall l | start <= l < |notEmpty| && notEmpty[l] :: table[l] == start + CountTrue(notEmpty[start..l])
    requires r.nNodes == c.nNodes && |r.clusters| == c.nNodes
    requires r.nClusters == start + CountTrue(notEmpty[start..])
    requires forall v | 0 <= v < c.nNodes :: r.clusters[v] == table[c.clusters[v]]
    ensures Valid(r)
    ensures forall v | 0 <= v < c.nNodes && c.clusters[v] < start :: r.clusters[v] == c.clusters[v]
    ensures forall v | 0 <= v < c.nNodes && c.clusters[v] >= start :: start <= r.clusters[v] < r.nClusters
  {
    assert notEmpty[start..] == notEmpty[start..c.nClusters];
    forall v | 0 <= v < c.nNodes
      ensures c.clusters[v] >= start ==> start <= r.clusters[v] < r.nClusters
    {
      if c.clusters[v] >= start {
        assert c.clusters[v] in c.clusters;
        CountTrueMonotone(notEmpty, start, c.clusters[v], c.nClusters);
      }
    }
  }

  lemma RelabelledOrder(c: Clustering, notEmpty: seq<bool>, start: nat, table: seq<int>, r: Clustering)
    requires Valid(c)
    requires |notEmpty| == c.nClusters && start <= c.nClusters
    requires forall k | 0 <= k < c.nClusters :: notEmpty[k] <==> k in c.clusters
    requires |table| == c.nClusters
    requires forall l | 0 <= l < start :: table[l] == l
    requires forall l | start <= l < |notEmpty| && notEmpty[l] :: table[l] == start + CountTrue(notEmpty[start..l])
    requires |r.clusters| == c.nNodes
    requires forall v | 0 <= v < c.nNodes :: r.clusters[v] == table[c.clusters[v]]
    ensures forall v, w | 0 <= v < c.nNodes && 0 <= w < c.nNodes ::
              c.clusters[v] < c.clusters[w] <==> r.clusters[v] < r.clusters[w]
  {
    forall v, w | 0 <= v < c.nNodes && 0 <= w < c.nNodes
      ensures c.clusters[v] < c.clusters[w] <==> r.clusters[v] < r.clusters[w]
    {
      var a, b := c.clusters[v], c.clusters[w];
      assert a in c.clusters && b in c.clusters;
      if start <= a && start <= b {
        if a < b {
          CountTrueMonotone(notEmpty, start, a, b);
        } else {
          CountTrueMonotone(notEmpty, start, b, a);
        }
      }
    }
  }

  lemma RelabelledCount(c: Clustering, notEmpty: seq<bool>, start: nat, minimumCluster: int)
    requires Valid(c)
    requires |notEmpty| == c.nClusters && start <= c.nClusters
    requires start == (if minimumCluster < 0 then 0 else minimumCluster)
    requires forall k | 0 <= k < c.nClusters :: notEmpty[k] <==> k in c.clusters
    ensures CountTrue(notEmpty[start..]) == |UsedLabelsFrom(c, minimumCluster)|
  {
    assert notEmpty[start..] == notEmpty[start..c.nClusters];
    CountTrueIsCardinality(notEmpty, start, c.nClusters);
    assert (set k | start <= k < c.nClusters && notEmpty[k]) == UsedLabelsFrom(c, minimumCluster);
  }

  lemma RelabelledOnto(c: Clustering, notEmpty: seq<bool>, start: nat, table: seq<int>, r: Clustering)
    requires Valid(c)
    requires |notEmpty| == c.nClusters && start <= c.nClusters
    requires forall k | 0 <= k < c.nClusters :: notEmpty[k] <==> k in c.clusters
    requires |table| == c.nClusters
    requires forall l | start <= l < |notEmpty| && notEmpty[l] :: table[l] == start + CountTrue(notEmpty[start..l])
    requires |r.clusters| == c.nNodes
    requires r.nClusters == start + CountTrue(notEmpty[start..])
    requires forall v | 0 <= v < c.nNodes :: r.clusters[v] == table[c.clusters[v]]
    ensures forall l | start <= l < r.nClusters :: l in r.clusters
  {
    forall l | start <= l < r.nClusters ensures l in r.clusters {
      RelabelledHits(c, notEmpty, start, table, r, l);
    }
  }

  /** The used cluster numbered `l - start` among those from `start` on is
      relabelled `l`. */
  lemma RelabelledHits(c: Clustering, notEmpty: seq<bool>, start: nat, table: seq<int>, r: Clustering, l: int)
    requires Valid(c)
    requires |notEmpty| == c.nClusters && start <= c.nClusters
    requires forall k | 0 <= k < c.nClusters :: notEmpty[k] <==> k in c.clusters
    requires |table| == c.nClusters
    requires forall l | start <= l < |notEmpty| && notEmpty[l] :: table[l] == start + CountTrue(notEmpty[start..l])
    requires |r.clusters| == c.nNodes
    requires r.nClusters == start + CountTrue(notEmpty[start..])
    requires forall v | 0 <= v < c.nNodes :: r.clusters[v] == table[c.clusters[v]]
    requires start <= l < r.nClusters
    ensures l in r.clusters
  {
    var tail := notEmpty[start..];
    var q := CountTrueReached(tail, l - start);
    assert tail[..q] == notEmpty[start..start + q];
    var k := start + q;
    assert notEmpty[k] && table[k] == l;
    var v :| 0 <= v < c.nNodes && c.clusters[v] == k;
    assert r.clusters[v] == l;
  }

  /** `removeEmptyClusters()`: afterwards every cluster number is in use and
      two nodes share a cluster exactly when they did before. */
  method RemoveEmptyClusters(c: Clustering) returns (r: Clustering)
    requires Valid(c)
    ensures Valid(r) && r.nNodes == c.nNodes
    ensures forall l | 0 <= l < r.nClusters :: l in r.clusters
    ensures forall i, j | 0 <= i < c.nNodes && 0 <= j < c.nNodes ::
              c.clusters[i] == c.clusters[j] <==> r.clusters[i] == r.clusters[j]
  {
    var res := RemoveEmptyClustersLargerThan(c, 0);
    r := res.value;
    forall i, j | 0 <= i < c.nNodes && 0 <= j < c.nNodes
      ensures c.clusters[i] == c.clusters[j] <==> r.clusters[i] == r.clusters[j]
    {
      assert c.clusters[i] < c.clusters[j] <==> r.clusters[i] < r.clusters[j];
      assert c.clusters[j] < c.clusters[i] <==> r.clusters[j] < r.clusters[i];
    }
  }

  /** `mergeClusters(clustering)`: each node takes the label that the
      clustering of clusters gives its current cluster. Nodes that shared a
      cluster still do, and the result is a valid clustering when the
      clustering of clusters covers every current cluster. The first node
      whose cluster has no label in the clustering of clusters makes the
      source read past that label array (line 214). */
  method MergeClusters(c: Clustering, ofClusters: Clustering) returns (res: Result<Clustering, IndexError>)
    requires Valid(c)
    ensures res.Failure? <==> exists i | 0 <= i < c.nNodes :: c.clusters[i] >= |ofClusters.clusters|
    ensures res.Failure? ==>
              exists i | 0 <= i < c.nNodes ::
                && c.clusters[i] >= |ofClusters.clusters|
                && (forall v | 0 <= v < i :: c.clusters[v] < |ofClusters.clusters|)
                && res.error == IndexOutOfBounds(c.clusters[i], |ofClusters.clusters|)
    ensures res.Success? ==> var r := res.value;
      && r.nNodes == c.nNodes && r.nClusters == ofClusters.nClusters
      && |r.clusters| == c.nNodes
      && (forall i | 0 <= i < c.nNodes :: r.clusters[i] == ofClusters.clusters[c.clusters[i]])
      && (forall i, j | 0 <= i < c.nNodes && 0 <= j < c.nNodes && c.clusters[i] == c.clusters[j] ::
            r.clusters[i] == r.clusters[j])
      && (Valid(ofClusters) ==> Valid(r))
  {
    var clusters := c.clusters;
    var i := 0;
    while i < c.nNodes
      invariant 0 <= i <= c.nNodes
      invariant |clusters| == c.nNodes
      invariant forall v | 0 <= v < i :: c.clusters[v] < |ofClusters.clusters|
      invariant forall v | 0 <= v < i :: clusters[v] == ofClusters.clusters[c.clusters[v]]
      invariant forall v | i <= v < c.nNodes :: clusters[v] == c.clusters[v]
    {
      if clusters[i] >= |ofClusters.clusters| {
        return Failure(IndexOutOfBounds(clusters[i], |ofClusters.clusters|));
      }
      clusters := clusters[i := ofClusters.clusters[clusters[i]]];
      i := i + 1;
    }
    res := Success(Clustering(c.nNodes, ofClusters.nClusters, clusters));
  }
}

=== FILE: cwts_arrays.dfy ===
/** The array utilities of the CWTS network-analysis library
    (`nl.cwts.util.Arrays`). Arrays are modelled as sequences; the random
    number generator is replaced by the sequence of values it returned. */
module CwtsArrays {
  import opened SeqMath
  import opened Wrappers

  /** `calcSum(values)`: the sum of every element. */
  method CalcSum(values: seq<real>) returns (sum: real)
    ensures sum == Sum(values)
  {
    sum := 0.0;
    var i := 0;
    while i < |values|
      invariant 0 <= i <= |values|
      invariant sum == Sum(values[..i])
    {
      assert values[..i + 1][..i] == values[..i];
      sum := sum + values[i];
      i := i + 1;
    }
    assert values[..i] == values;
  }

  /** `calcSum(values, beginIndex, endIndex)`: the sum of
      `values[beginIndex..endIndex)`, and 0 for an empty range. The source
      only indexes the array when the range is non-empty; a non-empty range
      that leaves the array throws at the first index outside it: the
      length when `beginIndex` lies inside the array, `beginIndex`
      otherwise. */
  method CalcSumRange(values: seq<real>, beginIndex: int, endIndex: int) returns (r: Result<real, IndexError>)
    ensures r.Failure? <==> beginIndex < endIndex && (beginIndex < 0 || endIndex > |values|)
    ensures r.Failure? ==>
              r.error == IndexOutOfBounds(if 0 <= beginIndex < |values| then |values| else beginIndex, |values|)
    ensures r.Success? && beginIndex < endIndex ==> r.value == Sum(values[beginIndex..endIndex])
    ensures endIndex <= beginIndex ==> r == Success(0.0)
  {
    var sum := 0.0;
    var i := beginIndex;
    while i < endIndex
      invariant i == beginIndex || beginIndex < i <= endIndex
      invariant i > beginIndex ==> 0 <= beginIndex && i <= |values|
      invariant i > beginIndex ==> sum == Sum(values[beginIndex..i])
      invariant i <= beginIndex ==> i == beginIndex && sum == 0.0
    {
      if i < 0 || i >= |values| {
        return Failure(IndexOutOfBounds(i, |values|));
      }
      if i > beginIndex {
        assert values[beginIndex..i + 1][..i - beginIndex] == values[beginIndex..i];
      }
      sum := sum + values[i];
      i := i + 1;
    }
    r := Success(sum);
  }

  /** `repeat(value, nElements)`: `nElements` copies of `value`. */
  function Repeat(value: real, nElements: nat): (r: seq<real>)
    ensures |r| == nElements
    ensures forall i | 0 <= i < |r| :: r[i] == value
  {
    seq(nElements, _ => value)
  }

  /** `createDoubleArrayOfOnes(nElements)`. */
  function CreateDoubleArrayOfOnes(nElements: nat): (r: seq<real>)
    ensures |r| == nElements
    ensures forall i | 0 <= i < |r| :: r[i] == 1.0
  {
    Repeat(1.0, nElements)
  }

  /** The sum of `repeat(v, n)` is `n * v`; in particular an array of ones
      sums to its length. */
  lemma {:induction false} SumOfRepeat(value: real, nElements: nat)
    ensures Sum(Repeat(value, nElements)) == nElements as real * value
    decreases nElements
  {
    if nElements > 0 {
      assert Repeat(value, nElements)[..nElements - 1] == Repeat(value, nElements - 1);
      SumOfRepeat(value, nElements - 1);
    }
  }

  /** Exchanges two positions of a sequence. */
  function Swap(s: seq<int>, i: int, j: int): (r: seq<int>)
    requires 0 <= i < |s| && 0 <= j < |s|
    ensures |r| == |s|
    ensures multiset(r) == multiset(s)
  {
    s[i := s[j]][j := s[i]]
  }

  /** `permuteRandomly(elements, random)`: position `i` is exchanged with
      position `choices[i]`, the value `random.nextInt(elements.length)`
      returned at step `i`. Whatever those values are, the result is a
      rearrangement of the input. */
  method PermuteRandomly(elements: seq<int>, choices: seq<int>) returns (r: seq<int>)
    requires |choices| == |elements|
    requires forall i | 0 <= i < |choices| :: 0 <= choices[i] < |elements|
    ensures |r| == |elements|
    ensures multiset(r) == multiset(elements)
  {
    r := elements;
    var i := 0;
    while i < |r|
      invariant 0 <= i <= |r|
      invariant |r| == |elements|
      invariant multiset(r) == multiset(elements)
    {
      r := Swap(r, i, choices[i]);
      i := i + 1;
    }
  }

  /** `generateRandomPermutation(nElements, random)`. */
  method GenerateRandomPermutation(nElements: nat, choices: seq<int>) returns (p: seq<int>)
    requires |choices| == nElements
    requires forall i | 0 <= i < |choices| :: 0 <= choices[i] < nElements
    ensures |p| == nElements
    ensures forall i | 0 <= i < |p| :: 0 <= p[i] < nElements
    ensures forall k | 0 <= k < nElements :: k in p
    ensures Distinct(p)
  {
    var identity := [];
    var i := 0;
    while i < nElements
      invariant 0 <= i <= nElements
      invariant identity == Range(i)
    {
      identity := identity + [i];
      i := i + 1;
    }
    p := PermuteRandomly(identity, choices);
    PermutationOfRange(p, nElements);
  }

  /** A rearrangement of `0, ..., n - 1` holds each of those values exactly once. */
  lemma PermutationOfRange(p: seq<int>, n: nat)
    requires multiset(p) == multiset(Range(n))
    ensures |p| == n
    ensures forall i | 0 <= i < |p| :: 0 <= p[i] < n
    ensures forall k | 0 <= k < n :: k in p
    ensures Distinct(p)
  {
    assert |p| == |multiset(p)| == |multiset(Range(n))| == n;
    forall i | 0 <= i < |p| ensures 0 <= p[i] < n {
      assert p[i] in multiset(p);
      assert p[i] in Range(n);
    }
    forall k | 0 <= k < n ensures k in p {
      assert Range(n)[k] == k;
      assert k in multiset(Range(n));
    }
    RangeDistinct(n);
    DistinctIffCountsAtMostOne(Range(n));
    forall x ensures Count(p, x) <= 1 {
      CountIsMultiplicity(p, x);
      CountIsMultiplicity(Range(n), x);
    }
    DistinctIffCountsAtMostOne(p);
  }

  lemma RangeDistinct(n: nat)
    ensures Distinct(Range(n))
  {
  }
}

=== FILE: degree_centrality.dfy ===
/** Netter's `DegreeCentralityIdentifier`: the centrality of a node is the
    number of link endpoints it is, counted in an array indexed by node id
    whose length is the number of nodes. */
module DegreeCentrality {
  import opened Wrappers
  import opened SeqMath
  import opened KotlinText
  import opened NetterNetwork

  /** Reference degree: how many link endpoints are `id`; a self-loop is
      two endpoints of the same node. */
  function Endpoints(links: seq<Link>, id: int): nat
  {
    if |links| == 0 then 0
    else
      var l := links[|links| - 1];
      Endpoints(links[..|links| - 1], id) + (if l.n1 == id then 1 else 0) + (if l.n2 == id then 1 else 0)
  }

  /** Every endpoint is a valid index of an array of length `size`. */
  predicate LinksInRange(links: seq<Link>, size: nat)
  {
    forall i | 0 <= i < |links| :: 0 <= links[i].n1 < size && 0 <= links[i].n2 < size
  }

  /** The index the counting loop fails on when it reaches link `l`. */
  function BadEndpoint(l: Link, size: nat): int
  {
    if 0 <= l.n1 < size then l.n2 else l.n1
  }

  /** One more link adds its own endpoints. */
  lemma EndpointsStep(links: seq<Link>, i: nat, id: int)
    requires i < |links|
    ensures Endpoints(links[..i + 1], id)
            == Endpoints(links[..i], id) + (if links[i].n1 == id then 1 else 0) + (if links[i].n2 == id then 1 else 0)
  {
    assert links[..i + 1][..i] == links[..i];
  }

  lemma InRangeStep(links: seq<Link>, size: nat, i: nat)
    requires i < |links| && LinksInRange(links[..i], size)
    requires 0 <= links[i].n1 < size && 0 <= links[i].n2 < size
    ensures LinksInRange(links[..i + 1], size)
  {
    assert forall j | 0 <= j < i :: links[..i + 1][j] == links[..i][j];
  }

  /** Raises the counters of both endpoints of `l`, first `n1`, then `n2`. */
  function Raise(values: seq<real>, l: Link): (r: seq<real>)
    requires 0 <= l.n1 < |values| && 0 <= l.n2 < |values|
    ensures |r| == |values|
  {
    var once := values[l.n1 := values[l.n1] + 1.0];
    once[l.n2 := once[l.n2] + 1.0]
  }

  /** The counters after the first `i` links. */
  ghost predicate CountedUpTo(links: seq<Link>, size: nat, values: seq<real>, i: nat)
    requires i <= |links|
  {
    && |values| == size
    && LinksInRange(links[..i], size)
    && (forall id | 0 <= id < size :: values[id] == Endpoints(links[..i], id) as real)
    && Sum(values) == 2.0 * i as real
  }

  /** Counting link `i` extends the counters to the first `i + 1` links. */
  lemma RaiseCounts(links: seq<Link>, size: nat, values: seq<real>, i: nat)
    requires i < |links| && CountedUpTo(links, size, values, i)
    requires 0 <= links[i].n1 < size && 0 <= links[i].n2 < size
    ensures CountedUpTo(links, size, Raise(values, links[i]), i + 1)
  {
    var l := links[i];
    var once := values[l.n1 := values[l.n1] + 1.0];
    var raised := Raise(values, l);
    assert raised == once[l.n2 := once[l.n2] + 1.0];
    SumUpdate(values, l.n1 as int, 1.0);
    SumUpdate(once, l.n2 as int, 1.0);
    assert Sum(raised) == 2.0 * (i + 1) as real;
    InRangeStep(links, size, i);
    forall id | 0 <= id < size
      ensures raised[id] == Endpoints(links[..i + 1], id) as real
    {
      EndpointsStep(links, i, id);
    }
  }

  /** Lines 16-21: one counter per node, raised once per endpoint. The
      counters hold the reference degrees and, as every link has two
      endpoints, add up to twice the number of links; an endpoint outside
      the array throws at the first link that has one. */
  method CountEndpoints(links: seq<Link>, size: nat) returns (r: Result<seq<real>, IndexError>)
    ensures r.Success? <==> LinksInRange(links, size)
    ensures r.Success? ==> |r.value| == size
    ensures r.Success? ==> forall id | 0 <= id < size :: r.value[id] == Endpoints(links, id) as real
    ensures r.Success? ==> Sum(r.value) == 2.0 * |links| as real
    ensures r.Failure? ==>
              exists i | 0 <= i < |links| ::
                && LinksInRange(links[..i], size)
                && !LinksInRange(links[..i + 1], size)
                && r.error == IndexOutOfBounds(BadEndpoint(links[i], size), size)
  {
    var values := seq(size, _ => 0.0);
    SumZeros(size);
    var i := 0;
    while i < |links|
      invariant 0 <= i <= |links|
      invariant CountedUpTo(links, size, values, i)
    {
      var l := links[i];
      if !(0 <= l.n1 < size && 0 <= l.n2 < size) {
        assert links[..i + 1][i] == l;
        return Failure(IndexOutOfBounds(BadEndpoint(l, size), size));
      }
      RaiseCounts(links, size, values, i);
      values := Raise(values, l);
      i := i + 1;
    }
    assert links[..i] == links;
    return Success(values);
  }

  /** A node whose centrality is its reference degree. */
  function Centred(net: Network, k: Int32): Node
    requires k in net.nodes
  {
    net.nodes[k].(centrality := Endpoints(net.links, k) as real)
  }

  /** The node map once the first `p` nodes in key order got their degree. */
  ghost predicate CentredUpTo(net: Network, nodes: map<Int32, Node>, p: int)
  {
    && nodes.Keys == net.nodes.Keys
    && forall q | 0 <= q < |net.order| ::
         && net.order[q] in net.nodes
         && nodes[net.order[q]] == if q < p then Centred(net, net.order[q]) else net.nodes[net.order[q]]
  }

  /** Giving the next node in key order its degree; the node still carries
      its own id, which is the index the source reads. */
  lemma CentreNext(net: Network, nodes: map<Int32, Node>, p: nat)
    requires Valid(net) && p < |net.order| && CentredUpTo(net, nodes, p)
    ensures nodes[net.order[p]].id == net.order[p]
    ensures CentredUpTo(net, nodes[net.order[p] := Centred(net, net.order[p])], p + 1)
  {
  }

  /** With every node in key order updated, every node is updated. */
  lemma AllCentred(net: Network, nodes: map<Int32, Node>)
    requires Valid(net) && CentredUpTo(net, nodes, |net.order|)
    ensures forall k | k in net.nodes :: nodes[k] == Centred(net, k)
  {
    forall k | k in net.nodes
      ensures nodes[k] == Centred(net, k)
    {
      var q :| 0 <= q < |net.order| && net.order[q] == k;
    }
  }

  /** The first `p` ids of `order` are valid indices of an array of
      length `size`. */
  ghost predicate IdsBelowUpTo(order: seq<Int32>, size: nat, p: int)
  {
    forall q | 0 <= q < p && q < |order| :: 0 <= order[q] < size
  }

  lemma NextIdBelow(order: seq<Int32>, size: nat, p: nat)
    requires p < |order| && IdsBelowUpTo(order, size, p) && 0 <= order[p] < size
    ensures IdsBelowUpTo(order, size, p + 1)
  {
  }

  /** The node ids are exactly the key-order ids, so all of them are in range
      when the first `|order|` are. */
  lemma AllInRange(net: Network, size: nat)
    requires Valid(net) && IdsBelowUpTo(net.order, size, |net.order|)
    ensures forall k | k in net.nodes :: 0 <= k < size
  {
    forall k | k in net.nodes
      ensures 0 <= k < size
    {
      var q :| 0 <= q < |net.order| && net.order[q] == k;
    }
  }

  /** Lines 13-24: counts the endpoints, then assigns each node its count,
      in the key order of the node map. A link endpoint outside
      `0..|nodes| - 1` throws before any node changes; a node id outside it
      throws after the nodes before it in the key order were updated. */
  method IdentifyCentrality(net: Network) returns (r: Network, thrown: Option<IndexError>)
    requires Valid(net)
    ensures r.order == net.order && r.links == net.links && r.nodes.Keys == net.nodes.Keys
    ensures thrown.None? <==>
              LinksInRange(net.links, |net.nodes|) && forall k | k in net.nodes :: 0 <= k < |net.nodes|
    ensures thrown.None? ==> forall k | k in net.nodes :: r.nodes[k] == Centred(net, k)
    ensures !LinksInRange(net.links, |net.nodes|) ==> r == net
    ensures LinksInRange(net.links, |net.nodes|) && thrown.Some? ==>
              exists p | 0 <= p < |net.order| ::
                && thrown.value == IndexOutOfBounds(net.order[p], |net.nodes|)
                && !(0 <= net.order[p] < |net.nodes|)
                && CentredUpTo(net, r.nodes, p)
  {
    var size := |net.nodes|;
    var counts := CountEndpoints(net.links, size);
    if counts.Failure? {
      return net, Some(counts.error);
    }
    var nodes: map<Int32, Node> := net.nodes;
    var p := 0;
    while p < |net.order|
      invariant 0 <= p <= |net.order|
      invariant IdsBelowUpTo(net.order, size, p)
      invariant CentredUpTo(net, nodes, p)
    {
      var k := net.order[p];
      if !(0 <= k < size) {
        return Network(net.order, nodes, net.links), Some(IndexOutOfBounds(k, size));
      }
      CentreNext(net, nodes, p);
      NextIdBelow(net.order, size, p);
      nodes := nodes[k := nodes[k].(centrality := counts.value[nodes[k].id])];
      p := p + 1;
    }
    AllCentred(net, nodes);
    AllInRange(net, size);
    return Network(net.order, nodes, net.links), None;
  }

  /** Degrees add up over concatenated link lists. */
  lemma {:induction false} EndpointsAppend(a: seq<Link>, b: seq<Link>, id: int)
    ensures Endpoints(a + b, id) == Endpoints(a, id) + Endpoints(b, id)
    decreases |b|
  {
    if |b| > 0 {
      assert (a + b)[..|a + b| - 1] == a + b[..|b| - 1];
      assert (a + b)[|a + b| - 1] == b[|b| - 1];
      EndpointsAppend(a, b[..|b| - 1], id);
    } else {
      assert a + b == a;
    }
  }

  /** A node has degree zero exactly when no link touches it. */
  lemma {:induction false} ZeroIffUnlinked(links: seq<Link>, id: int)
    ensures Endpoints(links, id) == 0 <==> forall i | 0 <= i < |links| :: links[i].n1 != id && links[i].n2 != id
    decreases |links|
  {
    if |links| > 0 {
      var init := links[..|links| - 1];
      ZeroIffUnlinked(init, id);
      assert forall i | 0 <= i < |init| :: init[i] == links[i];
    }
  }

  /** Link direction does not matter: reversing any link keeps every
      degree, so equal undirected links count the same. */
  lemma {:induction false} ReversalKeepsEndpoints(links: seq<Link>, j: nat, id: int)
    requires j < |links|
    ensures Endpoints(links[j := Link(links[j].n2, links[j].n1)], id) == Endpoints(links, id)
    decreases |links|
  {
    var rev := links[j := Link(links[j].n2, links[j].n1)];
    if j < |links| - 1 {
      assert rev[..|rev| - 1] == links[..|links| - 1][j := Link(links[j].n2, links[j].n1)];
      ReversalKeepsEndpoints(links[..|links| - 1], j, id);
    } else {
      assert rev[..|rev| - 1] == links[..|links| - 1];
    }
  }
}

=== FILE: fa_forces.dfy ===
/** `ForceFactory`: the repulsion and attraction variants of ForceAtlas2 and
    the update every `apply` makes to the force accumulators. A variant is
    a datatype value; an update is a function on the node list, addressed
    by position, so two positions may name the same node. */
module ForceFactory {
  import opened FaMaths
  import opened FaNodes

  /** The three `RepulsionForce` classes, each with its coefficient. */
  datatype RepulsionForce =
    | LinRepulsion(coefficient: real)
    | LinRepulsionAntiCollision(coefficient: real)
    | StrongGravity(coefficient: real)

  /** The eight `AttractionForce` classes, each with its coefficient. */
  datatype AttractionForce =
    | LinAttraction(coefficient: real)
    | LinAttractionMassDistributed(coefficient: real)
    | LogAttraction(coefficient: real)
    | LogAttractionDegreeDistributed(coefficient: real)
    | LinAttractionAntiCollision(coefficient: real)
    | LinAttractionDegreeDistributedAntiCollision(coefficient: real)
    | LogAttractionAntiCollision(coefficient: real)
    | LogAttractionDegreeDistributedAntiCollision(coefficient: real)

  /** Whether the variant pulls with the logarithm of the distance. */
  predicate IsLog(a: AttractionForce)
  {
    a.LogAttraction? || a.LogAttractionDegreeDistributed? || a.LogAttractionAntiCollision?
    || a.LogAttractionDegreeDistributedAntiCollision?
  }

  /** Whether the variant divides the pull by the first node's mass. */
  predicate IsDistributed(a: AttractionForce)
  {
    a.LinAttractionMassDistributed? || a.LogAttractionDegreeDistributed?
    || a.LinAttractionDegreeDistributedAntiCollision? || a.LogAttractionDegreeDistributedAntiCollision?
  }

  /** Whether the variant measures the distance between node borders. */
  predicate IsAntiCollision(a: AttractionForce)
  {
    a.LinAttractionAntiCollision? || a.LinAttractionDegreeDistributedAntiCollision?
    || a.LogAttractionAntiCollision? || a.LogAttractionDegreeDistributedAntiCollision?
  }

  /** Lines 9-10: the anti-collision repulsion exactly when node sizes are
      taken into account; never strong gravity. */
  function BuildRepulsion(adjustBySize: bool, coefficient: real): (f: RepulsionForce)
    ensures f.coefficient == coefficient && !f.StrongGravity?
    ensures f.LinRepulsionAntiCollision? <==> adjustBySize
  {
    if adjustBySize then LinRepulsionAntiCollision(coefficient) else LinRepulsion(coefficient)
  }

  /** Line 12. */
  function GetStrongGravity(coefficient: real): (f: RepulsionForce)
    ensures f.StrongGravity? && f.coefficient == coefficient
  {
    StrongGravity(coefficient)
  }

  /** Lines 14-36: the variant whose three traits are the three flags. */
  function BuildAttraction(logAttraction: bool, distributedAttraction: bool, adjustBySize: bool, coefficient: real)
    : (a: AttractionForce)
    ensures IsLog(a) == logAttraction && IsDistributed(a) == distributedAttraction
    ensures IsAntiCollision(a) == adjustBySize && a.coefficient == coefficient
  {
    if adjustBySize then
      if logAttraction then
        if distributedAttraction then LogAttractionDegreeDistributedAntiCollision(coefficient)
        else LogAttractionAntiCollision(coefficient)
      else
        if distributedAttraction then LinAttractionDegreeDistributedAntiCollision(coefficient)
        else LinAttractionAntiCollision(coefficient)
    else
      if logAttraction then
        if distributedAttraction then LogAttractionDegreeDistributed(coefficient)
        else LogAttraction(coefficient)
      else
        if distributedAttraction then LinAttractionMassDistributed(coefficient)
        else LinAttraction(coefficient)
  }

  /** Every variant is built from exactly its own traits, so the eight flag
      combinations and the eight variants correspond one to one. */
  lemma BuildAttractionRoundTrip(a: AttractionForce)
    ensures BuildAttraction(IsLog(a), IsDistributed(a), IsAntiCollision(a), a.coefficient) == a
  {
    match a
    case LinAttraction(_) =>
    case LinAttractionMassDistributed(_) =>
    case LogAttraction(_) =>
    case LogAttractionDegreeDistributed(_) =>
    case LinAttractionAntiCollision(_) =>
    case LinAttractionDegreeDistributedAntiCollision(_) =>
    case LogAttractionAntiCollision(_) =>
    case LogAttractionDegreeDistributedAntiCollision(_) =>
  }

  // ---------------------------------------------------------------------------
  // The update shape shared by every pairwise `apply`

  /** Adds `k` times the offset from node `j` to node `i` to node `i`'s
      accumulators, then takes the same amount from node `j`'s. Positions
      `i` and `j` may be the same node. */
  function Exchange(nodes: seq<FaNode>, i: nat, j: nat, k: real): (r: seq<FaNode>)
    requires i < |nodes| && j < |nodes|
    ensures |r| == |nodes|
    ensures forall m | 0 <= m < |r| :: SamePlace(r[m], nodes[m])
    ensures forall m | 0 <= m < |r| && m != i && m != j :: r[m] == nodes[m]
    ensures i != j ==> r[i].dx - nodes[i].dx == (nodes[i].x - nodes[j].x) * k
    ensures i != j ==> r[i].dy - nodes[i].dy == (nodes[i].y - nodes[j].y) * k
    ensures i != j ==> r[i].dx + r[j].dx == nodes[i].dx + nodes[j].dx
    ensures i != j ==> r[i].dy + r[j].dy == nodes[i].dy + nodes[j].dy
    ensures i != j ==> r[i].oldDx == nodes[i].oldDx && r[j].oldDx == nodes[j].oldDx
    ensures i != j ==> r[i].oldDy == nodes[i].oldDy && r[j].oldDy == nodes[j].oldDy
    ensures i == j ==> r == nodes
  {
    var xDist := nodes[i].x - nodes[j].x;
    var yDist := nodes[i].y - nodes[j].y;
    var first := nodes[i := nodes[i].(dx := nodes[i].dx + xDist * k, dy := nodes[i].dy + yDist * k)];
    first[j := first[j].(dx := first[j].dx - xDist * k, dy := first[j].dy - yDist * k)]
  }

  /** The distance between two node centres. */
  function Distance(mt: Maths, n1: FaNode, n2: FaNode): real
  {
    Norm(mt, n1.x - n2.x, n1.y - n2.y)
  }

  /** The distance between two node borders. */
  function BorderDistance(mt: Maths, n1: FaNode, n2: FaNode): real
  {
    Distance(mt, n1, n2) - n1.size - n2.size
  }

  /** The multiple of the offset a pair repulsion adds (lines 54-66, 95-113,
      146-148). Plain repulsion does nothing at distance 0, the
      anti-collision variant nothing when the borders touch, and strong
      gravity nothing ever. */
  function PairFactor(f: RepulsionForce, n1: FaNode, n2: FaNode, mt: Maths): (k: real)
    ensures f.LinRepulsion? && Distance(mt, n1, n2) <= 0.0 ==> k == 0.0
    ensures f.LinRepulsionAntiCollision? && BorderDistance(mt, n1, n2) == 0.0 ==> k == 0.0
    ensures f.StrongGravity? ==> k == 0.0
  {
    match f
    case LinRepulsion(c) =>
      var distance := Distance(mt, n1, n2);
      if distance > 0.0 then c * n1.mass * n2.mass / distance / distance else 0.0
    case LinRepulsionAntiCollision(c) =>
      var distance := BorderDistance(mt, n1, n2);
      if distance > 0.0 then c * n1.mass * n2.mass / distance / distance
      else if distance < 0.0 then 100.0 * c * n1.mass * n2.mass
      else 0.0
    case StrongGravity(_) => 0.0
  }

  /** `RepulsionForce.apply(faNode1, faNode2)` on the nodes at `i` and `j`. */
  function RepulsePair(nodes: seq<FaNode>, i: nat, j: nat, f: RepulsionForce, mt: Maths): seq<FaNode>
    requires i < |nodes| && j < |nodes|
  {
    Exchange(nodes, i, j, PairFactor(f, nodes[i], nodes[j], mt))
  }

  /** `-coefficient * edgeWeight`: the linear pull. */
  function LinPull(c: real, w: real): (k: real)
    ensures c >= 0.0 && w >= 0.0 ==> k <= 0.0
  {
    assert c >= 0.0 && w >= 0.0 ==> c * w >= 0.0;
    -c * w
  }

  /** `-coefficient * edgeWeight * ln(1 + distance) / distance`: the
      logarithmic pull. */
  function LogPull(c: real, w: real, ln: real, d: real): (k: real)
    requires d > 0.0
    ensures c >= 0.0 && w >= 0.0 && ln >= 0.0 ==> k <= 0.0
  {
    assert c >= 0.0 && w >= 0.0 && ln >= 0.0 ==> c * w * ln >= 0.0 by {
      if c >= 0.0 && w >= 0.0 && ln >= 0.0 {
        ProductNonNegative(c, w, ln);
      }
    }
    assert -c * w * ln == -(c * w * ln);
    -c * w * ln / d
  }

  /** A pull divided by the first node's mass. */
  function Spread(k: real, mass: real): (r: real)
    requires mass != 0.0
    ensures k <= 0.0 && mass > 0.0 ==> r <= 0.0
  {
    assert k <= 0.0 && mass > 0.0 ==> -k / mass >= 0.0;
    k / mass
  }

  /** The multiple of the offset an attraction adds (lines 167-294). With a
      non-negative coefficient and weight, a positive mass where it divides
      and a logarithm that is not negative from 1 on, it pulls the two
      nodes together, or not at all. The log variants do nothing at
      distance 0 and the anti-collision variants nothing unless the borders
      are apart. */
  function AttractionFactor(a: AttractionForce, n1: FaNode, n2: FaNode, edgeWeight: real, mt: Maths): (k: real)
    requires IsDistributed(a) ==> n1.mass != 0.0
    ensures (&& a.coefficient >= 0.0 && edgeWeight >= 0.0 && LnNonNegativeFromOne(mt)
             && (IsDistributed(a) ==> n1.mass > 0.0)) ==> k <= 0.0
    ensures IsLog(a) && !IsAntiCollision(a) && Distance(mt, n1, n2) <= 0.0 ==> k == 0.0
    ensures IsAntiCollision(a) && BorderDistance(mt, n1, n2) <= 0.0 ==> k == 0.0
  {
    var c := a.coefficient;
    var w := edgeWeight;
    var distance := AttractionDistance(a, n1, n2, mt);
    assert LnNonNegativeFromOne(mt) && distance > 0.0 ==> mt.ln(1.0 + distance) >= 0.0;
    match a
    case LinAttraction(_) => LinPull(c, w)
    case LinAttractionMassDistributed(_) => Spread(LinPull(c, w), n1.mass)
    case LogAttraction(_) =>
      if distance > 0.0 then LogPull(c, w, mt.ln(1.0 + distance), distance) else 0.0
    case LogAttractionDegreeDistributed(_) =>
      if distance > 0.0 then Spread(LogPull(c, w, mt.ln(1.0 + distance), distance), n1.mass) else 0.0
    case LinAttractionAntiCollision(_) =>
      if distance > 0.0 then LinPull(c, w) else 0.0
    case LinAttractionDegreeDistributedAntiCollision(_) =>
      if distance > 0.0 then Spread(LinPull(c, w), n1.mass) else 0.0
    case LogAttractionAntiCollision(_) =>
      if distance > 0.0 then LogPull(c, w, mt.ln(1.0 + distance), distance) else 0.0
    case LogAttractionDegreeDistributedAntiCollision(_) =>
      if distance > 0.0 then Spread(LogPull(c, w, mt.ln(1.0 + distance), distance), n1.mass) else 0.0
  }

  /** The distance an attraction variant measures. */
  function AttractionDistance(a: AttractionForce, n1: FaNode, n2: FaNode, mt: Maths): real
  {
    if IsAntiCollision(a) then BorderDistance(mt, n1, n2) else Distance(mt, n1, n2)
  }

  /** `AttractionForce.apply(faNode1, faNode2, edgeWeight)` on the nodes at
      `i` and `j`. */
  function AttractPair(nodes: seq<FaNode>, i: nat, j: nat, a: AttractionForce, edgeWeight: real, mt: Maths)
    : seq<FaNode>
    requires i < |nodes| && j < |nodes|
    requires IsDistributed(a) ==> nodes[i].mass != 0.0
  {
    Exchange(nodes, i, j, AttractionFactor(a, nodes[i], nodes[j], edgeWeight, mt))
  }

  // ---------------------------------------------------------------------------
  // Updates of one node: a region aggregate and gravity

  /** Adds `k` times `(ox, oy)` to the accumulators of the node at `i`. */
  function Push(nodes: seq<FaNode>, i: nat, ox: real, oy: real, k: real): (r: seq<FaNode>)
    requires i < |nodes|
    ensures |r| == |nodes|
    ensures forall m | 0 <= m < |r| :: SamePlace(r[m], nodes[m])
    ensures forall m | 0 <= m < |r| && m != i :: r[m] == nodes[m]
    ensures r[i].dx - nodes[i].dx == ox * k && r[i].dy - nodes[i].dy == oy * k
    ensures r[i].oldDx == nodes[i].oldDx && r[i].oldDy == nodes[i].oldDy
  {
    nodes[i := nodes[i].(dx := nodes[i].dx + ox * k, dy := nodes[i].dy + oy * k)]
  }

  /** `product / distance / distance`: the repulsion's fall-off. */
  function InverseSquare(product: real, distance: real): real
    requires distance != 0.0
  {
    product / distance / distance
  }

  /** How the region repulsion falls off with the distance between the
      node and the region's centre of mass, for the product of the
      coefficient and the two masses. */
  function RegionLaw(f: RepulsionForce, distance: real, product: real): (k: real)
    ensures f.StrongGravity? ==> k == 0.0
    ensures distance == 0.0 ==> k == 0.0
  {
    match f
    case LinRepulsion(_) =>
      if distance > 0.0 then InverseSquare(product, distance) else 0.0
    case LinRepulsionAntiCollision(_) =>
      if distance > 0.0 then InverseSquare(product, distance)
      else if distance < 0.0 then -product / distance
      else 0.0
    case StrongGravity(_) => 0.0
  }

  /** The multiple of the offset from a region's centre of mass that the
      region repulsion adds (lines 68-78, 115-129, 150-152). */
  function RegionFactor(f: RepulsionForce, n: FaNode, mass: real, cx: real, cy: real, mt: Maths): real
  {
    RegionLaw(f, Norm(mt, n.x - cx, n.y - cy), f.coefficient * n.mass * mass)
  }

  /** The anti-collision region repulsion measures between centres, not
      borders, so at a distance that is not negative (as a square root's
      is) its `distance < 0` branch cannot be taken: it is plain
      repulsion. */
  lemma RegionAntiCollisionIsPlain(c: real, distance: real, product: real)
    requires distance >= 0.0
    ensures RegionLaw(LinRepulsionAntiCollision(c), distance, product) == RegionLaw(LinRepulsion(c), distance, product)
  {
  }

  /** `RepulsionForce.apply(faNode, region)` for a region of mass `mass`
      centred at `(cx, cy)`. */
  function RepulseRegion(nodes: seq<FaNode>, i: nat, f: RepulsionForce, mass: real, cx: real, cy: real, mt: Maths)
    : seq<FaNode>
    requires i < |nodes|
  {
    Push(nodes, i, nodes[i].x - cx, nodes[i].y - cy, RegionFactor(f, nodes[i], mass, cx, cy, mt))
  }

  /** The multiple of the node's position that gravity takes away (lines
      80-90, 131-141, 154-164). Strong gravity does not weaken with the
      distance. */
  function GravityFactor(f: RepulsionForce, n: FaNode, gravitation: real, mt: Maths): (k: real)
    ensures f.StrongGravity? && Norm(mt, n.x, n.y) > 0.0 ==> k == f.coefficient * n.mass * gravitation
  {
    var distance := Norm(mt, n.x, n.y);
    if distance > 0.0 then
      match f
      case StrongGravity(c) => c * n.mass * gravitation
      case _ => f.coefficient * n.mass * gravitation / distance
    else 0.0
  }

  /** `RepulsionForce.apply(faNode, gravitation)`. */
  function Gravitate(nodes: seq<FaNode>, i: nat, f: RepulsionForce, gravitation: real, mt: Maths): seq<FaNode>
    requires i < |nodes|
  {
    Push(nodes, i, nodes[i].x, nodes[i].y, -GravityFactor(f, nodes[i], gravitation, mt))
  }

  /** Gravity leaves a node at the origin where it is, whatever the
      variant and whatever the library square root gives for 0. */
  lemma GravityAtOriginIsNothing(nodes: seq<FaNode>, i: nat, f: RepulsionForce, gravitation: real, mt: Maths)
    requires i < |nodes| && nodes[i].x == 0.0 && nodes[i].y == 0.0
    ensures Gravitate(nodes, i, f, gravitation, mt) == nodes
  {
    var r := Gravitate(nodes, i, f, gravitation, mt);
    assert r[i] == nodes[i];
  }

  /** Strong gravity ignores pairs and regions. */
  lemma StrongGravityIgnoresOthers(nodes: seq<FaNode>, i: nat, j: nat, c: real, mass: real, cx: real, cy: real, mt: Maths)
    requires i < |nodes| && j < |nodes|
    ensures RepulsePair(nodes, i, j, StrongGravity(c), mt) == nodes
    ensures RepulseRegion(nodes, i, StrongGravity(c), mass, cx, cy, mt) == nodes
  {
    var p := RepulsePair(nodes, i, j, StrongGravity(c), mt);
    assert forall m | 0 <= m < |nodes| :: p[m] == nodes[m];
    var q := RepulseRegion(nodes, i, StrongGravity(c), mass, cx, cy, mt);
    assert q[i] == nodes[i];
  }

  /** Two coincident nodes do not push each other, whatever the variant
      and whatever the library square root gives for 0. */
  lemma CoincidentNodesDoNotRepel(nodes: seq<FaNode>, i: nat, j: nat, f: RepulsionForce, mt: Maths)
    requires i < |nodes| && j < |nodes| && nodes[i].x == nodes[j].x && nodes[i].y == nodes[j].y
    ensures RepulsePair(nodes, i, j, f, mt) == nodes
  {
    var p := RepulsePair(nodes, i, j, f, mt);
    if i != j {
      assert p[i].dx == nodes[i].dx && p[i].dy == nodes[i].dy;
      assert p[j].dx == nodes[j].dx && p[j].dy == nodes[j].dy;
      assert p[i] == nodes[i] && p[j] == nodes[j];
    }
    assert forall m | 0 <= m < |nodes| :: p[m] == nodes[m];
  }

  // ---------------------------------------------------------------------------
  // Signs: repulsion pushes apart, attraction and gravity pull in

  lemma ProductNonNegative(a: real, b: real, c: real)
    requires a >= 0.0 && b >= 0.0 && c >= 0.0
    ensures a * b * c >= 0.0
  {
    assert a * b >= 0.0;
  }

  lemma QuotientNonNegative(p: real, d: real)
    requires p >= 0.0 && d > 0.0
    ensures p / d >= 0.0 && p / d / d >= 0.0
  {
  }

  /** With a non-negative coefficient and masses, every pair repulsion
      adds a non-negative multiple of the offset from the other node. */
  lemma RepulsionPushesApart(f: RepulsionForce, n1: FaNode, n2: FaNode, mt: Maths)
    requires f.coefficient >= 0.0 && n1.mass >= 0.0 && n2.mass >= 0.0
    ensures PairFactor(f, n1, n2, mt) >= 0.0
  {
    if !f.StrongGravity? {
      ProductNonNegative(f.coefficient, n1.mass, n2.mass);
      var p := f.coefficient * n1.mass * n2.mass;
      if f.LinRepulsion? && Distance(mt, n1, n2) > 0.0 {
        QuotientNonNegative(p, Distance(mt, n1, n2));
      } else if f.LinRepulsionAntiCollision? && BorderDistance(mt, n1, n2) > 0.0 {
        QuotientNonNegative(p, BorderDistance(mt, n1, n2));
      }
    }
  }

  /** With a non-negative coefficient and masses, the region repulsion
      pushes the node away from the region's centre of mass. */
  lemma RegionRepulsionPushesApart(f: RepulsionForce, n: FaNode, mass: real, cx: real, cy: real, mt: Maths)
    requires f.coefficient >= 0.0 && n.mass >= 0.0 && mass >= 0.0
    ensures RegionFactor(f, n, mass, cx, cy, mt) >= 0.0
  {
    if !f.StrongGravity? {
      ProductNonNegative(f.coefficient, n.mass, mass);
      var p := f.coefficient * n.mass * mass;
      var distance := Norm(mt, n.x - cx, n.y - cy);
      if distance > 0.0 {
        QuotientNonNegative(p, distance);
      } else if distance < 0.0 {
        assert -p / distance == p / -distance;
        QuotientNonNegative(p, -distance);
      }
    }
  }

  /** With a non-negative coefficient, mass and gravitation, gravity takes
      away a non-negative multiple of the position: it pulls towards the
      origin. */
  lemma GravityPullsIn(f: RepulsionForce, n: FaNode, gravitation: real, mt: Maths)
    requires f.coefficient >= 0.0 && n.mass >= 0.0 && gravitation >= 0.0
    ensures GravityFactor(f, n, gravitation, mt) >= 0.0
  {
    var distance := Norm(mt, n.x, n.y);
    if distance > 0.0 {
      ProductNonNegative(f.coefficient, n.mass, gravitation);
      QuotientNonNegative(f.coefficient * n.mass * gravitation, distance);
    }
  }
}

=== FILE: fa_java.dfy ===
/** The Java ForceAtlas2 engine (ForceAtlas2.java) over the gephi graph
    shim: its state lives in the graph's node objects and their layout
    data, the properties are reset from the graph's size, and the step
    (`goAlgo`) is the shared step of `FaStep` with the links given as
    edge objects.

    Node and edge objects are positions: `Scene.nodes[p]` is the node
    object at position `p` of the graph's node list, and an edge names the
    positions of its two node objects. */
module GephiForceAtlas2 {
  import opened Wrappers
  import opened FaMaths
  import opened FaNodes
  import opened FaStep
  import GephiGraph
  import ForceAtlas2

  /** A node object: its place and, when `laidOut`, its ForceAtlas2 layout
      data in the accumulator and mass fields of `state`. Without layout
      data those fields are never read. */
  datatype GNode = GNode(state: FaNode, laidOut: bool)

  /** An edge object: the positions of its source and target node objects
      and its weight. */
  datatype GEdge = GEdge(source: nat, target: nat, weight: real)

  /** A graph with its node and edge objects. */
  datatype Scene = Scene(graph: GephiGraph.Graph, nodes: seq<GNode>, edges: seq<GEdge>)

  /** The executor: none before `initAlgo`, shut down by `endAlgo`. */
  datatype Pool = NoPool | Open(threads: nat) | Closed(threads: nat)

  /** What a call throws: the graph is `null`; the pool is `null` or shut
      down when a task is submitted; `getDegree` indexes outside the degree
      table; a task is handed a `null` root region; or (not a throw) a
      position becomes NaN. */
  datatype AlgoError = NullGraph | PoolUnavailable | BadIndex(e: IndexError) | NullRegion | NaN

  /** The fields of the engine. `speed`, `efficiency` and
      `currentThreadCount` keep their Java defaults of 0 until `initAlgo`;
      `region` says whether `rootRegion` (line 94) holds a region, which
      only a step with Barnes–Hut on builds (lines 158-161). */
  datatype Layout = Layout(
    scene: Option<Scene>, settings: Settings, threadCount: nat, currentThreadCount: nat,
    speed: real, efficiency: real, compensation: real, pool: Pool, region: bool)

  /** The objects agree with the graph: one node object per node id, in
      the graph's order, edges between node objects whose ids are the
      graph's edge ends, and a degree table filled from the edges. */
  ghost predicate Consistent(sc: Scene)
  {
    && GephiGraph.Tabulated(sc.graph)
    && |sc.nodes| == |sc.graph.nodes|
    && (forall p | 0 <= p < |sc.nodes| :: sc.nodes[p].state.id == sc.graph.nodes[p])
    && |sc.edges| == |sc.graph.edges|
    && (forall i | 0 <= i < |sc.edges| ::
          && sc.edges[i].source < |sc.nodes| && sc.edges[i].target < |sc.nodes|
          && sc.graph.edges[i]
             == GephiGraph.Edge(sc.nodes[sc.edges[i].source].state.id, sc.nodes[sc.edges[i].target].state.id))
  }

  /** The engine holds no graph, or a consistent one. */
  ghost predicate Attached(l: Layout)
  {
    l.scene.Some? ==> Consistent(l.scene.value)
  }

  /** Every Java field of type `boolean` or `double` before a setter runs. */
  const Unset: Settings := Settings(
    outbound := false, adjustSizes := false, barnesHut := false, linLog := false, strongGravity := false,
    edgeWeightInfluence := 0.0, jitterTolerance := 0.0, scalingRatio := 0.0, gravity := 0.0, theta := 0.0)

  // ---------------------------------------------------------------------------
  // Construction and properties

  /** Lines 98-100: the constructor only sets the thread count; the
      compensation starts at 1 (line 95). */
  function NewLayout(processors: int): (l: Layout)
    ensures l.scene.None? && l.pool == NoPool && l.currentThreadCount == 0 && !l.region
    ensures 1 <= l.threadCount <= 4 && l.threadCount == ThreadCount(processors)
    ensures Attached(l)
  {
    Layout(None, Unset, ThreadCount(processors), 0, 0.0, 0.0, 1.0, NoPool, false)
  }

  /** Lines 409-411: at least one thread, and exactly the count asked for
      when that is positive. */
  function SetThreadsCount(l: Layout, count: int): (r: Layout)
    ensures r.threadCount >= 1
    ensures count >= 1 ==> r.threadCount == count
    ensures count < 1 ==> r.threadCount == 1
    ensures r == l.(threadCount := r.threadCount)
  {
    l.(threadCount := if count < 1 then 1 else count)
  }

  /** The number of nodes the reset reads: that of the graph, 0 without
      one. */
  function NodeCount(l: Layout): nat
  {
    if l.scene.None? then 0 else |l.scene.value.graph.nodes|
  }

  /** Lines 310-341: the properties tuned to the graph's size. Large
      graphs (100 nodes or more) get the smaller scaling ratio, very large
      ones (1000 or more) the Barnes–Hut tree; every mode is off, every
      other ratio 1, θ is 1.2, and the thread count is one fewer than the
      processors but at least 1, with no upper cap. */
  function ResetPropertiesValues(l: Layout, processors: int): (r: Layout)
    ensures r.settings.scalingRatio == (if NodeCount(l) >= 100 then 2.0 else 10.0)
    ensures r.settings.barnesHut <==> NodeCount(l) >= 1000
    ensures !r.settings.outbound && !r.settings.adjustSizes && !r.settings.linLog && !r.settings.strongGravity
    ensures r.settings.gravity == 1.0 && r.settings.jitterTolerance == 1.0 && r.settings.edgeWeightInfluence == 1.0
    ensures r.settings.theta == 1.2
    ensures r.threadCount >= 1 && (processors >= 2 ==> r.threadCount == processors - 1)
    ensures r == l.(settings := r.settings, threadCount := r.threadCount)
  {
    var n := NodeCount(l);
    var tuned := Settings(
      outbound := false, adjustSizes := false, barnesHut := n >= 1000, linLog := false, strongGravity := false,
      edgeWeightInfluence := 1.0, jitterTolerance := 1.0, scalingRatio := if n >= 100 then 2.0 else 10.0,
      gravity := 1.0, theta := 1.2);
    SetThreadsCount(l.(settings := tuned), processors - 1)
  }

  /** The reset forgets every property set before it: two engines over
      graphs of the same size get the same properties. */
  lemma ResetForgetsProperties(a: Layout, b: Layout, processors: int)
    requires NodeCount(a) == NodeCount(b)
    ensures ResetPropertiesValues(a, processors).settings == ResetPropertiesValues(b, processors).settings
    ensures ResetPropertiesValues(a, processors).threadCount == ResetPropertiesValues(b, processors).threadCount
  {
    var ra := ResetPropertiesValues(a, processors).settings;
    var rb := ResetPropertiesValues(b, processors).settings;
    assert ra.barnesHut == rb.barnesHut && ra.scalingRatio == rb.scalingRatio;
  }

  /** The constructor caps the thread count at 4, the reset does not: with
      nine processors the constructor picks 4 threads and the reset 8. */
  lemma ResetLiftsThreadCap()
    ensures NewLayout(9).threadCount == 4
    ensures ResetPropertiesValues(NewLayout(9), 9).threadCount == 8
  {
  }

  /** Lines 343-347: attaches the graph, then resets the properties for
      its size. */
  function SetGraph(l: Layout, sc: Scene, processors: int): (r: Layout)
    requires Consistent(sc)
    ensures r.scene == Some(sc) && Attached(r)
    ensures r.settings.scalingRatio == (if |sc.nodes| >= 100 then 2.0 else 10.0)
    ensures r.settings.barnesHut <==> |sc.nodes| >= 1000
    ensures r.pool == l.pool && r.currentThreadCount == l.currentThreadCount
    ensures r.speed == l.speed && r.efficiency == l.efficiency && r.compensation == l.compensation
  {
    ResetPropertiesValues(l.(scene := Some(sc)), processors)
  }

  /** Lines 299-301: a step can run when there is a graph. */
  predicate CanAlgo(l: Layout)
  {
    l.scene.Some?
  }

  // ---------------------------------------------------------------------------
  // Reading the degree table

  /** The position of the first node object whose id does not index the
      degree table, which `getDegree` throws on. */
  function FirstStray(nodes: seq<GNode>, size: nat): (r: Option<nat>)
    ensures r.None? <==> forall p | 0 <= p < |nodes| :: 0 <= nodes[p].state.id < size
    ensures r.Some? ==> r.value < |nodes| && !(0 <= nodes[r.value].state.id < size)
    ensures r.Some? ==> forall p | 0 <= p < r.value :: 0 <= nodes[p].state.id < size
    decreases |nodes|
  {
    if |nodes| == 0 then None
    else if !(0 <= nodes[0].state.id < size) then Some(0)
    else
      match FirstStray(nodes[1..], size)
      case None => None
      case Some(p) => Some(p + 1)
  }

  /** The exception `getDegree` throws on the node at position `p`. */
  function StrayError(sc: Scene, p: nat): AlgoError
    requires p < |sc.nodes|
  {
    BadIndex(IndexOutOfBounds(sc.nodes[p].state.id, |sc.graph.degrees|))
  }

  /** `getDegree` of the node at position `p`. */
  function DegreeAt(sc: Scene, p: nat): (d: int)
    requires Consistent(sc) && p < |sc.nodes| && 0 <= sc.nodes[p].state.id < |sc.nodes|
    ensures d == GephiGraph.Degree(sc.graph.edges, sc.nodes[p].state.id) && d >= 0
  {
    sc.graph.degrees[sc.nodes[p].state.id]
  }

  // ---------------------------------------------------------------------------
  // initAlgo (lines 102-131)

  /** Lines 108-122 for one node: a starting place from the draws, layout
      data created when missing, mass 1 + degree and no force. */
  function Placed(n: GNode, draw: (real, real), degree: int): (r: GNode)
    requires 0.0 <= draw.0 < 1.0 && 0.0 <= draw.1 < 1.0
    ensures r.laidOut && r.state.id == n.state.id && r.state.size == n.state.size
    ensures r.state.isFixed == n.state.isFixed
    ensures -490.0 <= r.state.x < 510.0 && -490.0 <= r.state.y < 510.0
    ensures r.state.mass == 1.0 + degree as real
    ensures r.state.dx == r.state.dy == r.state.oldDx == r.state.oldDy == 0.0
  {
    var s := n.state;
    GNode(s.(x := InitialCoordinate(draw.0), y := InitialCoordinate(draw.1),
             dx := 0.0, dy := 0.0, oldDx := 0.0, oldDy := 0.0, mass := 1.0 + degree as real), true)
  }

  /** Lines 102-131: places every node from its draws with the mass of its
      degree and no force, sets speed and efficiency to 1 and starts the
      pool with the configured threads, which the steps then use. Without
      a graph it throws at once; a node whose id does not index the degree
      table throws. */
  function InitAlgo(l: Layout, draws: seq<(real, real)>): (r: Result<Layout, AlgoError>)
    requires Attached(l) && ForceAtlas2.Draws(draws)
    requires l.scene.Some? ==> |draws| == |l.scene.value.nodes|
    ensures r == Failure(NullGraph) <==> !CanAlgo(l)
    ensures CanAlgo(l) ==>
              (r.Failure? <==> FirstStray(l.scene.value.nodes, |l.scene.value.graph.degrees|).Some?)
    ensures r.Failure? && CanAlgo(l) ==>
              r == Failure(StrayError(l.scene.value, FirstStray(l.scene.value.nodes, |l.scene.value.graph.degrees|).value))
    ensures r.Success? ==>
              && Attached(r.value) && r.value.scene.Some?
              && r.value.speed == 1.0 && r.value.efficiency == 1.0
              && r.value.pool == Open(l.threadCount) && r.value.currentThreadCount == l.threadCount
              && r.value.settings == l.settings && r.value.threadCount == l.threadCount
              && r.value.compensation == l.compensation && r.value.region == l.region
    ensures r.Success? ==>
              var before := l.scene.value;
              var after := r.value.scene.value;
              && after.graph == before.graph && after.edges == before.edges && |after.nodes| == |before.nodes|
              && forall p | 0 <= p < |before.nodes| ::
                   after.nodes[p] == Placed(before.nodes[p], draws[p], GephiGraph.Degree(before.graph.edges, before.nodes[p].state.id))
  {
    if l.scene.None? then Failure(NullGraph)
    else
      var sc := l.scene.value;
      match FirstStray(sc.nodes, |sc.graph.degrees|)
      case Some(p) => Failure(StrayError(sc, p))
      case None =>
        var nodes := seq(|sc.nodes|, p requires 0 <= p < |sc.nodes| => Placed(sc.nodes[p], draws[p], DegreeAt(sc, p)));
        Success(l.(scene := Some(sc.(nodes := nodes)), speed := 1.0, efficiency := 1.0,
                   pool := Open(l.threadCount), currentThreadCount := l.threadCount))
  }

  // ---------------------------------------------------------------------------
  // goAlgo (lines 138-297)

  /** The state the step reads: a node without layout data gets new data,
      all zero (lines 144-148). */
  function Data(n: GNode): (s: FaNode)
    ensures SamePlace(s, n.state) || !n.laidOut
    ensures s.id == n.state.id && s.x == n.state.x && s.y == n.state.y
    ensures s.size == n.state.size && s.isFixed == n.state.isFixed
    ensures !n.laidOut ==> s.dx == s.dy == s.oldDx == s.oldDy == s.mass == 0.0
  {
    if n.laidOut then n.state else n.state.(dx := 0.0, dy := 0.0, oldDx := 0.0, oldDy := 0.0, mass := 0.0)
  }

  /** Lines 144-155: every node's refreshed state, with mass 1 + degree. */
  function Refreshed(sc: Scene): (r: seq<FaNode>)
    requires Consistent(sc) && FirstStray(sc.nodes, |sc.graph.degrees|).None?
    ensures |r| == |sc.nodes| && Massive(r)
    ensures forall p | 0 <= p < |r| :: r[p].id == sc.nodes[p].state.id
    ensures forall p | 0 <= p < |r| :: r[p] == Refresh(Data(sc.nodes[p]), DegreeAt(sc, p))
  {
    seq(|sc.nodes|, p requires 0 <= p < |sc.nodes| => Refresh(Data(sc.nodes[p]), DegreeAt(sc, p)))
  }

  /** Lines 195-208: each edge pulls its own two node objects. */
  function EdgePulls(sc: Scene, influence: real, mt: Maths): (r: seq<Pull>)
    requires Consistent(sc)
    ensures |r| == |sc.edges| && PullsIn(r, |sc.nodes|)
    ensures forall i | 0 <= i < |r| ::
              r[i] == Pull(sc.edges[i].source, sc.edges[i].target, EdgeWeight(influence, sc.edges[i].weight, mt))
  {
    seq(|sc.edges|, i requires 0 <= i < |sc.edges| =>
      Pull(sc.edges[i].source, sc.edges[i].target, EdgeWeight(influence, sc.edges[i].weight, mt)))
  }

  /** The node objects after a step: every one carries layout data. */
  function Stored(nodes: seq<FaNode>): (r: seq<GNode>)
    ensures |r| == |nodes| && forall p | 0 <= p < |r| :: r[p] == GNode(nodes[p], true)
  {
    seq(|nodes|, p requires 0 <= p < |nodes| => GNode(nodes[p], true))
  }

  /** New node states that keep every id keep the scene consistent. */
  lemma StoredKeepsConsistent(sc: Scene, nodes: seq<FaNode>)
    requires Consistent(sc) && |nodes| == |sc.nodes|
    requires forall p | 0 <= p < |nodes| :: nodes[p].id == sc.nodes[p].state.id
    ensures Consistent(sc.(nodes := Stored(nodes)))
  {
    var after := sc.(nodes := Stored(nodes));
    assert forall p | 0 <= p < |after.nodes| :: after.nodes[p].state.id == sc.nodes[p].state.id;
  }

  /** The engine after a step with the given outcome; a step with
      Barnes–Hut on leaves its root region behind. */
  function Stepped(l: Layout, sc: Scene, o: Outcome): Layout
  {
    l.(scene := Some(sc.(nodes := Stored(o.nodes))), speed := o.pace.speed,
       efficiency := o.pace.efficiency, compensation := o.compensation,
       region := l.region || l.settings.barnesHut)
  }

  /** The number of tasks a step submits (line 177). */
  function TaskCount(l: Layout): nat
  {
    8 * l.currentThreadCount
  }

  /** Every node object carries layout data and keeps what a step keeps
      of the state at its position in `before`. */
  predicate LaidOutAfter(after: seq<GNode>, before: seq<FaNode>)
  {
    |after| == |before| && forall p | 0 <= p < |before| :: after[p].laidOut && Kept(after[p].state, before[p])
  }

  /** Lines 257-296 after the shared step: the engine with its outcome
      stored in the node objects, or NaN where the step has no value. The
      outcome keeps what a step keeps of the refreshed states `before`, so
      every node carries layout data, keeps its id, size, mass and
      fixedness and, when fixed, its place; the graph, the edges and the
      properties stay as they were. */
  function Finish(l: Layout, sc: Scene, before: seq<FaNode>, outcome: Result<Outcome, StepError>)
    : (r: Result<Layout, AlgoError>)
    requires Consistent(sc) && |before| == |sc.nodes|
    requires forall p | 0 <= p < |before| :: before[p].id == sc.nodes[p].state.id
    requires outcome.Success? ==> AllKept(outcome.value.nodes, before)
    ensures r.Failure? <==> outcome.Failure?
    ensures r.Failure? ==> r.error == NaN
    ensures r.Success? ==>
              && r.value.settings == l.settings && r.value.pool == l.pool
              && r.value.threadCount == l.threadCount && r.value.currentThreadCount == l.currentThreadCount
              && r.value.speed == outcome.value.pace.speed && r.value.efficiency == outcome.value.pace.efficiency
              && r.value.compensation == outcome.value.compensation
              && (r.value.region <==> l.region || l.settings.barnesHut)
    ensures r.Success? ==>
              && r.value.scene.Some? && Consistent(r.value.scene.value)
              && r.value.scene.value.graph == sc.graph && r.value.scene.value.edges == sc.edges
              && LaidOutAfter(r.value.scene.value.nodes, before)
  {
    match outcome
    case Failure(_) => Failure(NaN)
    case Success(o) =>
      StoredKeepsConsistent(sc, o.nodes);
      Success(Stepped(l, sc, o))
  }

  /** Lines 157-296 on the refreshed nodes: the shared step as written,
      with the engine's pace, compensation and tasks. */
  function Advanced(l: Layout, nodes: seq<FaNode>, pulls: seq<Pull>, mt: Maths): (r: Result<Outcome, StepError>)
    requires Massive(nodes) && PullsIn(pulls, |nodes|) && SqrtNonNegative(mt)
    ensures |nodes| == 0 || (TaskCount(l) > 0 && l.settings.scalingRatio == 0.0) ==> r.Failure?
    ensures r.Success? ==> AllKept(r.value.nodes, nodes)
    ensures r.Success? ==>
              if l.settings.outbound then r.value.compensation >= 1.0 else r.value.compensation == l.compensation
    ensures r.Success? && l.speed >= 0.0 ==> r.value.pace.speed <= 1.5 * l.speed
    ensures r.Success? && l.efficiency > 0.025 ==> r.value.pace.efficiency > 0.025
  {
    AdvanceAsWritten(l.settings, nodes, pulls, Pace(l.speed, l.efficiency), l.compensation, TaskCount(l), mt)
  }

  /** Lines 138-297 with every task handed a region it may hold (the
      `NodesThread` reads it only with Barnes–Hut on): the corrected step,
      see `GoAlgoAsWritten`. Without a graph it throws at once; a node id
      outside the degree table throws during the refresh (the nodes before
      it are refreshed, which the model does not keep); a task submitted to
      a pool that was never started or is shut down throws, and before
      `initAlgo` there are no tasks. Otherwise the refreshed nodes go
      through the shared step as written with the edge objects' pulls,
      which fails over no nodes and with tasks and a zero scaling ratio. */
  function GoAlgo(l: Layout, mt: Maths): (r: Result<Layout, AlgoError>)
    requires Attached(l) && SqrtNonNegative(mt)
    ensures r == Failure(NullGraph) <==> !CanAlgo(l)
    ensures CanAlgo(l) && FirstStray(l.scene.value.nodes, |l.scene.value.graph.degrees|).Some? ==>
              r == Failure(StrayError(l.scene.value, FirstStray(l.scene.value.nodes, |l.scene.value.graph.degrees|).value))
    ensures r == Failure(PoolUnavailable) <==>
              CanAlgo(l) && FirstStray(l.scene.value.nodes, |l.scene.value.graph.degrees|).None?
              && TaskCount(l) > 0 && !l.pool.Open?
    ensures r.Success? || r == Failure(NaN) ==>
              && CanAlgo(l) && FirstStray(l.scene.value.nodes, |l.scene.value.graph.degrees|).None?
              && !(TaskCount(l) > 0 && !l.pool.Open?)
              && var sc := l.scene.value;
                 var nodes := Refreshed(sc);
                 r == Finish(l, sc, nodes, Advanced(l, nodes, EdgePulls(sc, l.settings.edgeWeightInfluence, mt), mt))
    ensures (&& CanAlgo(l) && FirstStray(l.scene.value.nodes, |l.scene.value.graph.degrees|).None?
             && !(TaskCount(l) > 0 && !l.pool.Open?)
             && (|l.scene.value.nodes| == 0 || (TaskCount(l) > 0 && l.settings.scalingRatio == 0.0)))
            ==> r == Failure(NaN)
    ensures r != Failure(NullRegion)
  {
    if l.scene.None? then Failure(NullGraph)
    else
      var sc := l.scene.value;
      match FirstStray(sc.nodes, |sc.graph.degrees|)
      case Some(p) => Failure(StrayError(sc, p))
      case None =>
        if TaskCount(l) > 0 && !l.pool.Open? then Failure(PoolUnavailable)
        else
          var nodes := Refreshed(sc);
          Finish(l, sc, nodes, Advanced(l, nodes, EdgePulls(sc, l.settings.edgeWeightInfluence, mt), mt))
  }

  /** A step hands its tasks a `null` root region: it submits tasks with
      Barnes–Hut off, and no earlier step built a region (lines 158-161 and
      183). */
  predicate NullRegionHandedOver(l: Layout)
  {
    TaskCount(l) > 0 && !l.settings.barnesHut && !l.region
  }

  /** Lines 138-297 as written: the root region is built only with
      Barnes–Hut on, yet line 183 hands it to every `NodesThread`, a Kotlin
      class whose `rootRegion` parameter may not be `null`. A step that
      refreshes its nodes and then submits tasks with Barnes–Hut off and no
      region left from an earlier step throws as it creates the first task,
      before the pool is asked for anything; any other call behaves as
      `GoAlgo`. */
  function GoAlgoAsWritten(l: Layout, mt: Maths): (r: Result<Layout, AlgoError>)
    requires Attached(l) && SqrtNonNegative(mt)
    ensures r == Failure(NullRegion) <==>
              CanAlgo(l) && FirstStray(l.scene.value.nodes, |l.scene.value.graph.degrees|).None?
              && NullRegionHandedOver(l)
    ensures r != Failure(NullRegion) ==> r == GoAlgo(l, mt)
  {
    if l.scene.Some? && FirstStray(l.scene.value.nodes, |l.scene.value.graph.degrees|).None? && NullRegionHandedOver(l)
    then Failure(NullRegion)
    else GoAlgo(l, mt)
  }

  // ---------------------------------------------------------------------------
  // endAlgo (lines 303-308) and the life cycle

  /** The node objects with their layout data dropped. */
  function Dropped(nodes: seq<GNode>): (r: seq<GNode>)
    ensures |r| == |nodes| && forall p | 0 <= p < |r| :: r[p] == GNode(nodes[p].state, false)
  {
    seq(|nodes|, p requires 0 <= p < |nodes| => GNode(nodes[p].state, false))
  }

  /** The pool after `shutdown`. */
  function ShutDown(pool: Pool): Pool
    requires !pool.NoPool?
  {
    Closed(pool.threads)
  }

  /** Lines 303-308: drops the layout data of every node, then shuts the
      pool down. Without a graph it throws at once; without a pool (no
      `initAlgo` before) it throws after dropping the data, which the model
      does not keep. Nothing but the layout data and the pool changes. */
  function EndAlgo(l: Layout): (r: Result<Layout, AlgoError>)
    requires Attached(l)
    ensures r == Failure(NullGraph) <==> !CanAlgo(l)
    ensures r == Failure(PoolUnavailable) <==> CanAlgo(l) && l.pool == NoPool
    ensures r.Success? ==>
              && r.value.pool.Closed? && r.value.pool.threads == l.pool.threads
              && r.value == l.(scene := r.value.scene, pool := r.value.pool)
              && r.value.scene.Some? && Attached(r.value)
              && r.value.scene.value.graph == l.scene.value.graph && r.value.scene.value.edges == l.scene.value.edges
              && |r.value.scene.value.nodes| == |l.scene.value.nodes|
              && forall p | 0 <= p < |l.scene.value.nodes| ::
                   !r.value.scene.value.nodes[p].laidOut && r.value.scene.value.nodes[p].state == l.scene.value.nodes[p].state
  {
    if l.scene.None? then Failure(NullGraph)
    else if l.pool == NoPool then Failure(PoolUnavailable)
    else
      var sc := l.scene.value;
      var after := sc.(nodes := Dropped(sc.nodes));
      assert forall p | 0 <= p < |after.nodes| :: after.nodes[p].state.id == sc.nodes[p].state.id;
      Success(l.(scene := Some(after), pool := ShutDown(l.pool)))
  }

  /** Before `initAlgo` a step submits no task, so a graph set on a new
      engine never meets the missing pool. */
  lemma NewLayoutRunsNoTask(processors: int, sc: Scene, mt: Maths)
    requires Consistent(sc) && SqrtNonNegative(mt)
    ensures TaskCount(SetGraph(NewLayout(processors), sc, processors)) == 0
    ensures GoAlgo(SetGraph(NewLayout(processors), sc, processors), mt) != Failure(PoolUnavailable)
  {
  }

  /** Once `initAlgo` succeeded, a step neither lacks a graph nor reads
      outside the degree table nor meets a missing pool: it either
      succeeds or ends in NaN. */
  lemma InitializedLayoutSteps(l: Layout, draws: seq<(real, real)>, mt: Maths)
    requires Attached(l) && ForceAtlas2.Draws(draws) && SqrtNonNegative(mt)
    requires l.scene.Some? ==> |draws| == |l.scene.value.nodes|
    requires InitAlgo(l, draws).Success?
    ensures var r := GoAlgo(InitAlgo(l, draws).value, mt); r.Success? || r == Failure(NaN)
  {
    var m := InitAlgo(l, draws).value;
    var before := l.scene.value;
    var after := m.scene.value;
    assert FirstStray(before.nodes, |before.graph.degrees|).None?;
    assert forall p | 0 <= p < |after.nodes| :: after.nodes[p].state.id == before.nodes[p].state.id;
    assert FirstStray(after.nodes, |after.graph.degrees|).None?;
  }

  /** As written, the first step after `initAlgo` throws exactly when it
      has tasks, Barnes–Hut is off and no region was built before;
      otherwise it succeeds or ends in NaN like the corrected step. */
  lemma InitializedLayoutStepsAsWritten(l: Layout, draws: seq<(real, real)>, mt: Maths)
    requires Attached(l) && ForceAtlas2.Draws(draws) && SqrtNonNegative(mt)
    requires l.scene.Some? ==> |draws| == |l.scene.value.nodes|
    requires InitAlgo(l, draws).Success?
    ensures var r := GoAlgoAsWritten(InitAlgo(l, draws).value, mt);
            && (r == Failure(NullRegion) <==> l.threadCount > 0 && !l.settings.barnesHut && !l.region)
            && (r != Failure(NullRegion) ==> r.Success? || r == Failure(NaN))
  {
    var m := InitAlgo(l, draws).value;
    InitializedLayoutSteps(l, draws, mt);
    var before := l.scene.value;
    var after := m.scene.value;
    assert forall p | 0 <= p < |after.nodes| :: after.nodes[p].state.id == before.nodes[p].state.id;
    assert FirstStray(after.nodes, |after.graph.degrees|).None?;
  }

  /** Every graph under 1000 nodes: set on a new engine, it gets Barnes–Hut
      off from the reset, `initAlgo` succeeds, and the first step as
      written throws on the `null` root region, where the corrected step
      succeeds or ends in NaN. */
  lemma SmallGraphFirstStepThrows(processors: int, sc: Scene, draws: seq<(real, real)>, mt: Maths)
    requires Consistent(sc) && |sc.nodes| < 1000
    requires FirstStray(sc.nodes, |sc.graph.degrees|).None?
    requires ForceAtlas2.Draws(draws) && |draws| == |sc.nodes| && SqrtNonNegative(mt)
    ensures var l := SetGraph(NewLayout(processors), sc, processors);
            && InitAlgo(l, draws).Success?
            && GoAlgoAsWritten(InitAlgo(l, draws).value, mt) == Failure(NullRegion)
            && (GoAlgo(InitAlgo(l, draws).value, mt).Success? || GoAlgo(InitAlgo(l, draws).value, mt) == Failure(NaN))
  {
    var l := SetGraph(NewLayout(processors), sc, processors);
    InitializedLayoutStepsAsWritten(l, draws, mt);
    InitializedLayoutSteps(l, draws, mt);
  }

  /** After `endAlgo` the pool is shut down, so a step that submits tasks
      throws once it has refreshed the nodes. */
  lemma EndedLayoutRejectsTasks(l: Layout, mt: Maths)
    requires Attached(l) && SqrtNonNegative(mt) && EndAlgo(l).Success?
    requires FirstStray(l.scene.value.nodes, |l.scene.value.graph.degrees|).None? && TaskCount(l) > 0
    ensures GoAlgo(EndAlgo(l).value, mt) == Failure(PoolUnavailable)
  {
    var m := EndAlgo(l).value;
    var before := l.scene.value;
    var after := m.scene.value;
    assert forall p | 0 <= p < |after.nodes| :: after.nodes[p].state.id == before.nodes[p].state.id;
    assert FirstStray(after.nodes, |after.graph.degrees|).None?;
  }

  // ---------------------------------------------------------------------------
  // The Java step and the Kotlin step

  /** A Java engine and a Kotlin engine in the same state: the same node
      states, all with layout data, the same degree table, properties,
      pace and task count, a started pool, and each edge object between
      the nodes its Kotlin link names, with the link's weight. */
  ghost predicate Mirrored(l: Layout, e: ForceAtlas2.Engine)
  {
    && l.scene.Some?
    && var sc := l.scene.value;
       && |sc.nodes| == |e.faNodes| && (forall p | 0 <= p < |sc.nodes| :: sc.nodes[p] == GNode(e.faNodes[p], true))
       && sc.graph.degrees == e.degrees
       && |sc.edges| == |e.faLinks|
       && (forall i | 0 <= i < |sc.edges| ::
             && ForceAtlas2.Find(e.faNodes, e.faLinks[i].n1) == Some(sc.edges[i].source)
             && ForceAtlas2.Find(e.faNodes, e.faLinks[i].n2) == Some(sc.edges[i].target)
             && sc.edges[i].weight == e.faLinks[i].weight)
       && l.settings == e.settings && l.speed == e.speed && l.efficiency == e.efficiency
       && l.compensation == e.compensation && l.currentThreadCount == e.threadCount && l.pool.Open?
  }

  /** Mirrored engines read their degree tables alike and refresh to the
      same states. */
  lemma MirroredRefresh(l: Layout, e: ForceAtlas2.Engine)
    requires Attached(l) && ForceAtlas2.Wellformed(e) && Mirrored(l, e)
    ensures FirstStray(l.scene.value.nodes, |l.scene.value.graph.degrees|).None?
    ensures Refreshed(l.scene.value) == ForceAtlas2.Refreshed(e)
  {
    var sc := l.scene.value;
    assert forall p | 0 <= p < |sc.nodes| :: 0 <= sc.nodes[p].state.id < |sc.graph.degrees| by {
      assert forall p | 0 <= p < |sc.nodes| :: sc.nodes[p].state == e.faNodes[p];
    }
    var java := Refreshed(sc);
    var kotlin := ForceAtlas2.Refreshed(e);
    forall p | 0 <= p < |java|
      ensures java[p] == kotlin[p]
    {
      assert Data(sc.nodes[p]) == e.faNodes[p];
    }
  }

  /** Mirrored engines pull the same pairs with the same weights. */
  lemma MirroredPulls(l: Layout, e: ForceAtlas2.Engine, mt: Maths)
    requires Attached(l) && ForceAtlas2.Wellformed(e) && Mirrored(l, e)
    ensures ForceAtlas2.LinksLocated(ForceAtlas2.Refreshed(e), e.faLinks)
    ensures EdgePulls(l.scene.value, l.settings.edgeWeightInfluence, mt)
            == ForceAtlas2.LinkPulls(ForceAtlas2.Refreshed(e), e.faLinks, e.settings.edgeWeightInfluence, mt)
  {
    var sc := l.scene.value;
    var kotlin := ForceAtlas2.Refreshed(e);
    ForceAtlas2.RefreshedFacts(e);
    var java := EdgePulls(sc, l.settings.edgeWeightInfluence, mt);
    var found := ForceAtlas2.LinkPulls(kotlin, e.faLinks, e.settings.edgeWeightInfluence, mt);
    forall i | 0 <= i < |sc.edges|
      ensures java[i] == found[i]
    {
      var x := found[i].i;
      var y := found[i].j;
      assert kotlin[x].id == e.faNodes[x].id && kotlin[y].id == e.faNodes[y].id;
      ForceAtlas2.FindUnique(e.faNodes, x);
      ForceAtlas2.FindUnique(e.faNodes, y);
    }
  }

  /** The Java step is the corrected Kotlin step as written: on mirrored
      engines a Java step that succeeds stores exactly the node states and
      pace the Kotlin step computes, and when the Kotlin step fails the
      Java step ends in NaN. They part only where a free node without
      force gets a NaN position with sizes adjusted, which the Kotlin step
      guards. */
  lemma JavaAgreesWithKotlin(l: Layout, e: ForceAtlas2.Engine, mt: Maths)
    requires Attached(l) && ForceAtlas2.Wellformed(e) && SqrtNonNegative(mt) && Mirrored(l, e)
    ensures var java := GoAlgo(l, mt);
            var kotlin := ForceAtlas2.Step(e, mt);
            && (java.Success? ==>
                  && kotlin.Success?
                  && java.value.scene.value.nodes == Stored(kotlin.value.faNodes)
                  && java.value.speed == kotlin.value.speed && java.value.efficiency == kotlin.value.efficiency
                  && java.value.compensation == kotlin.value.compensation)
            && (kotlin.Failure? ==> java == Failure(NaN))
            && (java.Failure? && kotlin.Success? ==> java == Failure(NaN) && e.settings.adjustSizes)
  {
    var sc := l.scene.value;
    MirroredRefresh(l, e);
    MirroredPulls(l, e, mt);
    var nodes := ForceAtlas2.Refreshed(e);
    ForceAtlas2.RefreshedFacts(e);
    var pulls := ForceAtlas2.LinkPulls(nodes, e.faLinks, e.settings.edgeWeightInfluence, mt);
    var pace := Pace(e.speed, e.efficiency);
    var guarded := Advance(e.settings, nodes, pulls, pace, e.compensation, 8 * e.threadCount, mt);
    var written := AdvanceAsWritten(e.settings, nodes, pulls, pace, e.compensation, 8 * e.threadCount, mt);
    assert Advanced(l, nodes, pulls, mt) == written;
    assert GoAlgo(l, mt) == Finish(l, sc, nodes, written);
    assert ForceAtlas2.Step(e, mt)
           == if guarded.Failure? then Failure(guarded.error) else Success(ForceAtlas2.After(e, guarded.value));
  }

  /** Both steps as written fail on the missing region alike: on mirrored
      engines where no region was built, the Java step throws on the `null`
      region exactly when the Kotlin step reads its unset `lateinit` one,
      that is, exactly when Barnes–Hut is off. */
  lemma AsWrittenStepsAgreeOnRegion(l: Layout, e: ForceAtlas2.Engine, mt: Maths)
    requires Attached(l) && ForceAtlas2.Wellformed(e) && SqrtNonNegative(mt) && Mirrored(l, e) && !l.region
    ensures GoAlgoAsWritten(l, mt) == Failure(NullRegion)
            <==> ForceAtlas2.StepAsWritten(e, mt) == Failure(Uninitialized)
    ensures GoAlgoAsWritten(l, mt) == Failure(NullRegion) <==> !l.settings.barnesHut
  {
    MirroredRefresh(l, e);
  }
}

=== FILE: fa_layout.dfy ===
/** The Kotlin ForceAtlas2 engine (ForceAtlas2.kt): built from a Netter
    network, it keeps one `FaNode` per node in the insertion order of the
    network's node map, one `FaLink` per link and a degree table indexed
    by node id, and `start` runs one step of the layout.

    As written, a step reads a `lateinit` root region that only Barnes–Hut
    mode sets, and pulls the nodes at the positions named by the link ids,
    which are the linked nodes only when every node sits at the position
    of its id. `Step` is the step with both corrected; `StepAsWritten` is
    the step as written. */
module ForceAtlas2 {
  import opened Wrappers
  import opened SeqMath
  import opened KotlinText
  import opened NetterNetwork
  import NetterTxtIo
  import GephiGraph
  import opened FaMaths
  import opened FaNodes
  import opened FaStep

  /** Lines 13-22: the default arguments of the constructor. */
  const Defaults: Settings := Settings(
    outbound := true, adjustSizes := true, barnesHut := true, linLog := false, strongGravity := false,
    edgeWeightInfluence := 1.0, jitterTolerance := 1.0, scalingRatio := 2.0, gravity := 1.0, theta := 1.0)

  /** A link with the weight the attraction reads from it. */
  datatype FaLink = FaLink(n1: Int32, n2: Int32, weight: real)

  /** The engine's state between steps. */
  datatype Engine = Engine(
    settings: Settings, faNodes: seq<FaNode>, faLinks: seq<FaLink>, degrees: seq<int>,
    speed: real, efficiency: real, compensation: real, threadCount: nat)

  // ---------------------------------------------------------------------------
  // Finding a node

  /** The first position of a node with id `id`. */
  function Find(nodes: seq<FaNode>, id: int): (r: Option<nat>)
    ensures r.Some? ==> r.value < |nodes| && nodes[r.value].id == id
    ensures r.Some? ==> forall p | 0 <= p < r.value :: nodes[p].id != id
    ensures r.None? <==> forall p | 0 <= p < |nodes| :: nodes[p].id != id
    decreases |nodes|
  {
    if |nodes| == 0 then None
    else if nodes[0].id == id then Some(0)
    else
      match Find(nodes[1..], id)
      case None => None
      case Some(p) => Some(p + 1)
  }

  /** No two nodes share an id. */
  predicate UniqueIds(nodes: seq<FaNode>)
  {
    forall p, q | 0 <= p < q < |nodes| :: nodes[p].id != nodes[q].id
  }

  /** With ids unique, a node is found exactly at its own position. */
  lemma FindUnique(nodes: seq<FaNode>, p: nat)
    requires UniqueIds(nodes) && p < |nodes|
    ensures Find(nodes, nodes[p].id) == Some(p)
  {
    assert Find(nodes, nodes[p].id).Some?;
  }

  /** Every node id indexes the degree table. */
  predicate IdsIndex(nodes: seq<FaNode>, size: nat)
  {
    forall p | 0 <= p < |nodes| :: 0 <= nodes[p].id < size
  }

  /** Both ends of every link are the ids of nodes. */
  predicate LinksLocated(nodes: seq<FaNode>, links: seq<FaLink>)
  {
    forall i | 0 <= i < |links| :: Find(nodes, links[i].n1).Some? && Find(nodes, links[i].n2).Some?
  }

  /** The shape every engine the constructor makes keeps: one degree slot
      per node, degrees not negative, unique node ids that index the
      table, links between nodes, and at least one thread. */
  ghost predicate Wellformed(e: Engine)
  {
    && |e.degrees| == |e.faNodes|
    && (forall k | 0 <= k < |e.degrees| :: e.degrees[k] >= 0)
    && IdsIndex(e.faNodes, |e.degrees|)
    && UniqueIds(e.faNodes)
    && LinksLocated(e.faNodes, e.faLinks)
    && e.threadCount >= 1
  }

  // ---------------------------------------------------------------------------
  // The constructor (lines 24-46)

  /** The size of a valid network's node map is the length of its key
      order. */
  lemma OrderCountsNodes(net: Network)
    requires Valid(net)
    ensures |net.nodes| == |net.order|
  {
    DistinctElements(net.order);
    assert net.nodes.Keys == Elements(net.order);
  }

  /** The ids a sequence holds. */
  function Elements(s: seq<Int32>): set<Int32>
  {
    set k | k in s
  }

  /** The elements of a sequence without repetition are as many as its
      entries. */
  lemma {:induction false} DistinctElements(s: seq<Int32>)
    requires Distinct(s)
    ensures |Elements(s)| == |s|
    decreases |s|
  {
    if |s| > 0 {
      var init := s[..|s| - 1];
      var last := s[|s| - 1];
      assert Distinct(init);
      DistinctElements(init);
      assert last !in Elements(init);
      assert Elements(s) == Elements(init) + {last};
    } else {
      assert Elements(s) == {};
    }
  }

  /** The edges the degree table is counted over, one per link. */
  function Edges(links: seq<Link>): (r: seq<GephiGraph.Edge>)
    ensures GephiGraph.Mirrors(r, links)
  {
    seq(|links|, i requires 0 <= i < |links| => GephiGraph.Edge(links[i].n1, links[i].n2))
  }

  /** Lines 45 and 6-20 of FaNode.kt: the fresh state of the node `id`
      with the draws of its position and a mass of 1 + degree. */
  function Fresh(id: Int32, draw: (real, real), degree: int): (n: FaNode)
    requires 0.0 <= draw.0 < 1.0 && 0.0 <= draw.1 < 1.0
    ensures n.id == id && n.mass == 1.0 + degree as real && n.size == InitialSize && !n.isFixed
    ensures -490.0 <= n.x < 510.0 && -490.0 <= n.y < 510.0
    ensures n.dx == n.dy == n.oldDx == n.oldDy == 0.0
  {
    NewFaNode(id, draw.0, draw.1).(mass := 1.0 + degree as real)
  }

  /** Draws a coordinate can be made from. */
  predicate Draws(draws: seq<(real, real)>)
  {
    forall q | 0 <= q < |draws| :: 0.0 <= draws[q].0 < 1.0 && 0.0 <= draws[q].1 < 1.0
  }

  /** Line 45: a fresh state per id of `order`, in that order; the first id
      outside the degree table throws. */
  method MakeNodes(order: seq<Int32>, draws: seq<(real, real)>, degrees: seq<int>) returns (r: Result<seq<FaNode>, IndexError>)
    requires |draws| == |order| && Draws(draws)
    ensures r.Success? <==> forall q | 0 <= q < |order| :: 0 <= order[q] < |degrees|
    ensures r.Failure? ==> r.error.index in order && !(0 <= r.error.index < |degrees|) && r.error.length == |degrees|
    ensures r.Success? ==>
              && |r.value| == |order|
              && forall q | 0 <= q < |order| :: r.value[q] == Fresh(order[q], draws[q], degrees[order[q]])
  {
    var nodes: seq<FaNode> := [];
    var p := 0;
    while p < |order|
      invariant 0 <= p <= |order| && |nodes| == p
      invariant forall q | 0 <= q < p :: 0 <= order[q] < |degrees|
      invariant forall q | 0 <= q < p :: nodes[q] == Fresh(order[q], draws[q], degrees[order[q]])
    {
      var id := order[p];
      if !(0 <= id < |degrees|) {
        return Failure(IndexOutOfBounds(id, |degrees|));
      }
      nodes := nodes + [Fresh(id, draws[p], degrees[id])];
      p := p + 1;
    }
    return Success(nodes);
  }

  /** The counting loop stops at an end that is a node outside the
      table. */
  lemma BadEndIsNode(net: Network, edges: seq<GephiGraph.Edge>, i: nat, size: nat)
    requires Shaped(net) && edges == Edges(net.links) && i < |edges|
    requires GephiGraph.EdgesInRange(edges[..i], size) && !GephiGraph.EdgesInRange(edges[..i + 1], size)
    ensures var k := GephiGraph.BadEnd(edges[i], size); k in net.nodes && !(0 <= k < size)
  {
    assert edges[..i + 1][i] == edges[i];
    assert forall q | 0 <= q < i :: edges[..i + 1][q] == edges[..i][q];
    assert net.links[i].n1 in net.nodes && net.links[i].n2 in net.nodes;
  }

  /** Lines 24-46: the links are copied with their weights and counted into
      a table of one slot per node, each end once and a self-loop once;
      then every node, in the insertion order of the node map, gets a fresh
      state with the draws of its position and a mass of 1 + degree. A
      node id outside the table throws, from the counting loop when the
      node has a link and from the node loop otherwise. The pace and the
      compensation start at 1. */
  method Init(net: Network, settings: Settings, weights: seq<real>, draws: seq<(real, real)>, processors: int)
    returns (r: Result<Engine, IndexError>)
    requires Valid(net) && |weights| == |net.links| && |draws| == |net.order| && Draws(draws)
    ensures r.Success? <==> forall k | k in net.nodes :: 0 <= k < |net.nodes|
    ensures r.Failure? ==> r.error.index in net.nodes && r.error.length == |net.nodes|
    ensures r.Success? ==> Wellformed(r.value)
    ensures r.Success? ==>
              && r.value.settings == settings
              && r.value.speed == r.value.efficiency == r.value.compensation == 1.0
              && r.value.threadCount == ThreadCount(processors)
    ensures r.Success? ==>
              && |r.value.faLinks| == |net.links|
              && forall i | 0 <= i < |net.links| ::
                   r.value.faLinks[i] == FaLink(net.links[i].n1, net.links[i].n2, weights[i])
    ensures r.Success? ==>
              && |r.value.faNodes| == |net.order| == |r.value.degrees|
              && forall p | 0 <= p < |net.order| ::
                   r.value.faNodes[p] == Fresh(net.order[p], draws[p], GephiGraph.Degree(Edges(net.links), net.order[p]))
  {
    OrderCountsNodes(net);
    assert Shaped(net);
    var size := |net.nodes|;
    var edges := Edges(net.links);
    var g := GephiGraph.NewGraph(net.order, edges);
    if g.Failure? {
      var i :| 0 <= i < |edges| && GephiGraph.EdgesInRange(edges[..i], size) && !GephiGraph.EdgesInRange(edges[..i + 1], size)
               && g.error == IndexOutOfBounds(GephiGraph.BadEnd(edges[i], size), size);
      BadEndIsNode(net, edges, i, size);
      return Failure(g.error);
    }
    var made := MakeNodes(net.order, draws, g.value.degrees);
    if made.Failure? {
      return Failure(made.error);
    }
    return Success(Assembled(net, settings, weights, draws, g.value, made.value, processors));
  }

  /** Lines 38-46 once every id indexes the table: the engine holding the
      copied links, the degree table and the fresh node states. */
  function Assembled(net: Network, settings: Settings, weights: seq<real>, draws: seq<(real, real)>,
                     g: GephiGraph.Graph, nodes: seq<FaNode>, processors: int): (e: Engine)
    requires Shaped(net) && |net.order| == |net.nodes| && |weights| == |net.links| && |draws| == |net.order| && Draws(draws)
    requires g.nodes == net.order && g.edges == Edges(net.links) && GephiGraph.Tabulated(g)
    requires |nodes| == |net.order| && forall q | 0 <= q < |net.order| :: 0 <= net.order[q] < |g.degrees|
    requires forall q | 0 <= q < |net.order| :: nodes[q] == Fresh(net.order[q], draws[q], g.degrees[net.order[q]])
    ensures Wellformed(e) && forall k | k in net.nodes :: 0 <= k < |net.nodes|
    ensures e.settings == settings && e.speed == e.efficiency == e.compensation == 1.0
    ensures e.threadCount == ThreadCount(processors)
    ensures |e.faLinks| == |net.links|
    ensures forall i | 0 <= i < |net.links| :: e.faLinks[i] == FaLink(net.links[i].n1, net.links[i].n2, weights[i])
    ensures |e.faNodes| == |net.order| == |e.degrees|
    ensures forall p | 0 <= p < |net.order| ::
              e.faNodes[p] == Fresh(net.order[p], draws[p], GephiGraph.Degree(Edges(net.links), net.order[p]))
  {
    var faLinks := seq(|net.links|, i requires 0 <= i < |net.links| => FaLink(net.links[i].n1, net.links[i].n2, weights[i]));
    var e := Engine(settings, nodes, faLinks, g.degrees, 1.0, 1.0, 1.0, ThreadCount(processors));
    forall q | 0 <= q < |net.order| ensures e.faNodes[q].id == net.order[q] {
      assert nodes[q] == Fresh(net.order[q], draws[q], g.degrees[net.order[q]]);
    }
    InitWellformed(net, g, e);
    IdsFromOrder(net, e.faNodes);
    assert forall q | 0 <= q < |net.order| :: g.degrees[net.order[q]] == GephiGraph.Degree(g.edges, net.order[q]);
    e
  }

  /** The facts about a valid network the constructor relies on: the key
      order lists each key once and links are between keys. */
  ghost predicate Shaped(net: Network)
  {
    && Distinct(net.order)
    && (forall id :: id in net.order <==> id in net.nodes)
    && (forall i | 0 <= i < |net.links| :: net.links[i].n1 in net.nodes && net.links[i].n2 in net.nodes)
  }

  /** What the constructor builds is well formed, and only ids in the table
      let it finish. */
  lemma InitWellformed(net: Network, g: GephiGraph.Graph, e: Engine)
    requires Shaped(net) && |e.faNodes| == |net.order| == |net.nodes|
    requires g.nodes == net.order && GephiGraph.Tabulated(g)
    requires e.degrees == g.degrees && e.threadCount >= 1
    requires forall q | 0 <= q < |net.order| :: e.faNodes[q].id == net.order[q] && 0 <= net.order[q] < |net.nodes|
    requires |e.faLinks| == |net.links|
    requires forall i | 0 <= i < |net.links| :: e.faLinks[i].n1 == net.links[i].n1 && e.faLinks[i].n2 == net.links[i].n2
    ensures Wellformed(e)
  {
    IdsFromOrder(net, e.faNodes);
    LinksFromNetwork(net, e.faNodes, e.faLinks);
    assert forall k | 0 <= k < |g.degrees| :: g.degrees[k] == GephiGraph.Degree(g.edges, k);
  }

  /** Links copied from the network are between nodes made in key order. */
  lemma LinksFromNetwork(net: Network, nodes: seq<FaNode>, links: seq<FaLink>)
    requires Shaped(net) && (forall k | k in net.nodes :: Find(nodes, k).Some?)
    requires |links| == |net.links|
    requires forall i | 0 <= i < |net.links| :: links[i].n1 == net.links[i].n1 && links[i].n2 == net.links[i].n2
    ensures LinksLocated(nodes, links)
  {
    forall i | 0 <= i < |links|
      ensures Find(nodes, links[i].n1).Some? && Find(nodes, links[i].n2).Some?
    {
      assert net.links[i].n1 in net.nodes && net.links[i].n2 in net.nodes;
    }
  }

  /** Nodes made in key order carry the keys as unique ids; when the ids
      index the table, every key does and every key is found. */
  lemma IdsFromOrder(net: Network, nodes: seq<FaNode>)
    requires Shaped(net) && |nodes| == |net.order| == |net.nodes|
    requires forall q | 0 <= q < |net.order| :: nodes[q].id == net.order[q] && 0 <= net.order[q] < |net.nodes|
    ensures IdsIndex(nodes, |net.nodes|) && UniqueIds(nodes)
    ensures forall k | k in net.nodes :: 0 <= k < |net.nodes| && Find(nodes, k).Some?
  {
    forall k | k in net.nodes
      ensures 0 <= k < |net.nodes| && Find(nodes, k).Some?
    {
      var q :| 0 <= q < |net.order| && net.order[q] == k;
      assert nodes[q].id == k;
    }
  }

  // ---------------------------------------------------------------------------
  // A step (`start`, lines 48-173)

  /** Lines 49-55: every node gets the mass of its degree slot and starts a
      new force. */
  function Refreshed(e: Engine): (r: seq<FaNode>)
    requires IdsIndex(e.faNodes, |e.degrees|)
    ensures |r| == |e.faNodes|
    ensures forall p | 0 <= p < |r| :: r[p] == Refresh(e.faNodes[p], e.degrees[e.faNodes[p].id])
  {
    seq(|e.faNodes|, p requires 0 <= p < |e.faNodes| => Refresh(e.faNodes[p], e.degrees[e.faNodes[p].id]))
  }

  /** Refreshed nodes of an engine weigh at least 1 and keep their ids, so
      the links still join nodes. */
  lemma RefreshedFacts(e: Engine)
    requires Wellformed(e)
    ensures Massive(Refreshed(e)) && LinksLocated(Refreshed(e), e.faLinks)
  {
    var r := Refreshed(e);
    forall m | 0 <= m < |r|
      ensures r[m].mass >= 1.0
    {
      assert e.degrees[e.faNodes[m].id] >= 0;
    }
    SameIdsLocated(e.faNodes, r, e.faLinks);
  }

  /** Links between the nodes of one list join the nodes of any list with
      the same ids. */
  lemma SameIdsLocated(a: seq<FaNode>, b: seq<FaNode>, links: seq<FaLink>)
    requires LinksLocated(a, links) && |a| == |b| && forall p | 0 <= p < |a| :: a[p].id == b[p].id
    ensures LinksLocated(b, links)
  {
    forall i | 0 <= i < |links|
      ensures Find(b, links[i].n1).Some? && Find(b, links[i].n2).Some?
    {
      var x := Find(a, links[i].n1).value;
      var y := Find(a, links[i].n2).value;
      assert b[x].id == links[i].n1 && b[y].id == links[i].n2;
    }
  }

  /** Lines 97-113 with each link's nodes found by id: the pull between the
      nodes the link joins, with the weight its influence gives. */
  function LinkPulls(nodes: seq<FaNode>, links: seq<FaLink>, influence: real, mt: Maths): (r: seq<Pull>)
    requires LinksLocated(nodes, links)
    ensures |r| == |links| && PullsIn(r, |nodes|)
    ensures forall i | 0 <= i < |links| ::
              && nodes[r[i].i].id == links[i].n1 && nodes[r[i].j].id == links[i].n2
              && r[i].weight == EdgeWeight(influence, links[i].weight, mt)
  {
    seq(|links|, i requires 0 <= i < |links| =>
      Pull(Find(nodes, links[i].n1).value, Find(nodes, links[i].n2).value, EdgeWeight(influence, links[i].weight, mt)))
  }

  /** Lines 98-111 as written: `faNodes[link.n1.id]`, the node at the
      position that equals the id. */
  function PullsById(nodes: seq<FaNode>, links: seq<FaLink>, influence: real, mt: Maths): (r: seq<Pull>)
    requires forall i | 0 <= i < |links| :: 0 <= links[i].n1 < |nodes| && 0 <= links[i].n2 < |nodes|
    ensures |r| == |links| && PullsIn(r, |nodes|)
    ensures forall i | 0 <= i < |links| :: r[i] == Pull(links[i].n1 as nat, links[i].n2 as nat, EdgeWeight(influence, links[i].weight, mt))
  {
    seq(|links|, i requires 0 <= i < |links| =>
      Pull(links[i].n1 as nat, links[i].n2 as nat, EdgeWeight(influence, links[i].weight, mt)))
  }

  /** A link end of an engine is an id, so it indexes the node list. */
  lemma LinkEndsIndex(e: Engine)
    requires Wellformed(e)
    ensures forall i | 0 <= i < |e.faLinks| :: 0 <= e.faLinks[i].n1 < |e.faNodes| && 0 <= e.faLinks[i].n2 < |e.faNodes|
  {
    forall i | 0 <= i < |e.faLinks|
      ensures 0 <= e.faLinks[i].n1 < |e.faNodes| && 0 <= e.faLinks[i].n2 < |e.faNodes|
    {
      assert e.faNodes[Find(e.faNodes, e.faLinks[i].n1).value].id == e.faLinks[i].n1;
      assert e.faNodes[Find(e.faNodes, e.faLinks[i].n2).value].id == e.faLinks[i].n2;
    }
  }

  /** The engine after a step with the given outcome. */
  function After(e: Engine, o: Outcome): Engine
  {
    e.(faNodes := o.nodes, speed := o.pace.speed, efficiency := o.pace.efficiency, compensation := o.compensation)
  }

  /** Lines 48-173, corrected: the tree is only read in Barnes–Hut mode and
      each link pulls the nodes with its ids. A step fails only where the
      reals have no value: over no nodes, or with a zero scaling ratio.
      It changes nothing but the nodes' positions and forces and the pace
      and compensation: every node keeps its id, size and fixedness, a
      fixed node its place, and weighs 1 + its degree; the engine stays
      well formed. */
  function Step(e: Engine, mt: Maths): (r: Result<Engine, StepError>)
    requires Wellformed(e) && SqrtNonNegative(mt)
    ensures r.Failure? ==> r.error == NotANumber
    ensures |e.faNodes| == 0 || e.settings.scalingRatio == 0.0 ==> r.Failure?
    ensures r.Success? ==> Wellformed(r.value)
    ensures r.Success? ==>
              && r.value.settings == e.settings && r.value.faLinks == e.faLinks
              && r.value.degrees == e.degrees && r.value.threadCount == e.threadCount
    ensures r.Success? ==> AllKept(r.value.faNodes, Refreshed(e))
    ensures r.Success? ==>
              if e.settings.outbound then r.value.compensation >= 1.0 else r.value.compensation == e.compensation
    ensures r.Success? && e.speed >= 0.0 ==> r.value.speed <= 1.5 * e.speed
    ensures r.Success? && e.efficiency > 0.025 ==> r.value.efficiency > 0.025
  {
    var nodes := Refreshed(e);
    RefreshedFacts(e);
    var pulls := LinkPulls(nodes, e.faLinks, e.settings.edgeWeightInfluence, mt);
    var o :- Advance(e.settings, nodes, pulls, Pace(e.speed, e.efficiency), e.compensation, 8 * e.threadCount, mt);
    StepKeepsWellformed(e, o.nodes);
    Success(After(e, o))
  }

  /** New node states that keep every id keep the engine well formed. */
  lemma StepKeepsWellformed(e: Engine, nodes: seq<FaNode>)
    requires Wellformed(e) && |nodes| == |e.faNodes|
    requires forall p | 0 <= p < |nodes| :: nodes[p].id == e.faNodes[p].id
    ensures Wellformed(e.(faNodes := nodes))
  {
    SameIdsLocated(e.faNodes, nodes, e.faLinks);
  }

  /** Lines 48-173 as written. Outside Barnes–Hut mode the tasks read the
      root region no step has set, which throws, and that is the only way
      the step throws; otherwise each link pulls the nodes at the
      positions of its ids, and a free node without force gets a NaN
      position when sizes are adjusted. */
  function StepAsWritten(e: Engine, mt: Maths): (r: Result<Engine, StepError>)
    requires Wellformed(e) && SqrtNonNegative(mt)
    ensures r == Failure(Uninitialized) <==> !e.settings.barnesHut
  {
    if !e.settings.barnesHut then Failure(Uninitialized)
    else
      var nodes := Refreshed(e);
      RefreshedFacts(e);
      LinkEndsIndex(e);
      var pulls := PullsById(nodes, e.faLinks, e.settings.edgeWeightInfluence, mt);
      var o :- AdvanceAsWritten(e.settings, nodes, pulls, Pace(e.speed, e.efficiency), e.compensation, 8 * e.threadCount, mt);
      Success(After(e, o))
  }

  // ---------------------------------------------------------------------------
  // Where the step as written and the corrected step agree

  /** Every node sits at the position of its id. */
  predicate IdsArePositions(nodes: seq<FaNode>)
  {
    forall p | 0 <= p < |nodes| :: nodes[p].id == p
  }

  /** A link's pull by id is its pull between the linked nodes exactly when
      both of its ids sit at their own positions. */
  lemma PullsByIdIff(nodes: seq<FaNode>, links: seq<FaLink>, influence: real, mt: Maths, i: nat)
    requires UniqueIds(nodes) && LinksLocated(nodes, links)
    requires forall k | 0 <= k < |links| :: 0 <= links[k].n1 < |nodes| && 0 <= links[k].n2 < |nodes|
    requires i < |links|
    ensures PullsById(nodes, links, influence, mt)[i] == LinkPulls(nodes, links, influence, mt)[i]
            <==> nodes[links[i].n1].id == links[i].n1 && nodes[links[i].n2].id == links[i].n2
  {
    var found := LinkPulls(nodes, links, influence, mt)[i];
    var byId := PullsById(nodes, links, influence, mt)[i];
    if nodes[links[i].n1].id == links[i].n1 {
      FindUnique(nodes, links[i].n1 as nat);
    }
    if nodes[links[i].n2].id == links[i].n2 {
      FindUnique(nodes, links[i].n2 as nat);
    }
  }

  /** When every node sits at the position of its id, the link ends index
      the nodes and the pulls by id are the pulls between the linked
      nodes. */
  lemma PullsByIdWhenSorted(nodes: seq<FaNode>, links: seq<FaLink>, influence: real, mt: Maths)
    requires IdsArePositions(nodes) && LinksLocated(nodes, links)
    ensures forall k | 0 <= k < |links| :: 0 <= links[k].n1 < |nodes| && 0 <= links[k].n2 < |nodes|
    ensures PullsById(nodes, links, influence, mt) == LinkPulls(nodes, links, influence, mt)
  {
    forall k | 0 <= k < |links|
      ensures 0 <= links[k].n1 < |nodes| && 0 <= links[k].n2 < |nodes|
    {
      assert nodes[Find(nodes, links[k].n1).value].id == links[k].n1;
      assert nodes[Find(nodes, links[k].n2).value].id == links[k].n2;
    }
    assert UniqueIds(nodes);
    forall k | 0 <= k < |links|
      ensures PullsById(nodes, links, influence, mt)[k] == LinkPulls(nodes, links, influence, mt)[k]
    {
      PullsByIdIff(nodes, links, influence, mt, k);
    }
  }

  /** In Barnes–Hut mode, on an engine whose nodes sit at the positions of
      their ids, the step as written is the corrected step, unless a free
      node without force gets a NaN position with sizes adjusted. */
  lemma AsWrittenAgreesWhenSorted(e: Engine, mt: Maths)
    requires Wellformed(e) && SqrtNonNegative(mt) && e.settings.barnesHut && IdsArePositions(e.faNodes)
    ensures StepAsWritten(e, mt).Success? ==> StepAsWritten(e, mt) == Step(e, mt)
    ensures StepAsWritten(e, mt).Failure? && Step(e, mt).Success? ==> e.settings.adjustSizes
  {
    var nodes := Refreshed(e);
    RefreshedFacts(e);
    assert IdsArePositions(nodes);
    PullsByIdWhenSorted(nodes, e.faLinks, e.settings.edgeWeightInfluence, mt);
    var pulls := LinkPulls(nodes, e.faLinks, e.settings.edgeWeightInfluence, mt);
    var pace := Pace(e.speed, e.efficiency);
    var guarded := Advance(e.settings, nodes, pulls, pace, e.compensation, 8 * e.threadCount, mt);
    var written := AdvanceAsWritten(e.settings, nodes, pulls, pace, e.compensation, 8 * e.threadCount, mt);
    assert Step(e, mt) == if guarded.Failure? then Failure(guarded.error) else Success(After(e, guarded.value));
    assert StepAsWritten(e, mt) == if written.Failure? then Failure(written.error) else Success(After(e, written.value));
  }

  /** The network read from the single link line `2 1`: the nodes 2 and 1
      in that order, then the skipped id 0. */
  lemma LinkLineOrder()
    ensures NetterTxtIo.Apply(Empty, NetterTxtIo.LinkRecord(2, 1)).order == [2, 1, 0]
    ensures NetterTxtIo.Apply(Empty, NetterTxtIo.LinkRecord(2, 1)).links == [Link(2, 1)]
  {
    var linked := AddLink(Empty, 2, 1).0;
    assert linked.order == [2, 1] && linked.links == [Link(2, 1)];
    var filled := FillDown(linked, 0);
    assert filled == FillDown(AddNode(linked, 0).0, -1);
    assert filled.order == [2, 1, 0];
  }

  /** On nodes in that order the link `2 1` pulls the nodes at positions 2
      and 1 by id, but the node with id 2 is at position 0. */
  lemma PullsByIdMissesLinkedNode(nodes: seq<FaNode>, w: real, influence: real, mt: Maths)
    requires |nodes| == 3 && nodes[0].id == 2 && nodes[1].id == 1 && nodes[2].id == 0
    ensures var links := [FaLink(2, 1, w)];
            && LinksLocated(nodes, links)
            && PullsById(nodes, links, influence, mt)[0].i == 2
            && LinkPulls(nodes, links, influence, mt)[0].i == 0
            && nodes[PullsById(nodes, links, influence, mt)[0].i].id != links[0].n1
  {
    var links := [FaLink(2, 1, w)];
    assert Find(nodes, 2) == Some(0);
    assert Find(nodes, 1) == Some(1);
    assert UniqueIds(nodes);
    PullsByIdIff(nodes, links, influence, mt, 0);
  }
}

=== FILE: fa_maths.dfy ===
/** The floating-point library functions ForceAtlas2 calls, passed in as
    values. Doubles are modelled as reals; the model fixes none of the
    values of these functions beyond the signs stated below. */
module FaMaths {

  /** `sqrt`, `ln` and `pow`. */
  datatype Maths = Maths(sqrt: real -> real, ln: real -> real, pow: (real, real) -> real)

  /** A square root is never negative. */
  ghost predicate SqrtNonNegative(mt: Maths)
  {
    forall x: real :: mt.sqrt(x) >= 0.0
  }

  /** The logarithm of a number of at least 1 is not negative. */
  ghost predicate LnNonNegativeFromOne(mt: Maths)
  {
    forall x: real :: x >= 1.0 ==> mt.ln(x) >= 0.0
  }

  /** The length of `(x, y)` as the source computes it. */
  function Norm(mt: Maths, x: real, y: real): real
  {
    mt.sqrt(x * x + y * y)
  }

  /** `coerceAtMost` / `Math.min` on numbers. */
  function Min(a: real, b: real): (r: real)
    ensures r <= a && r <= b && (r == a || r == b)
  {
    if a <= b then a else b
  }

  /** `coerceAtLeast` / `Math.max` on numbers. */
  function Max(a: real, b: real): (r: real)
    ensures r >= a && r >= b && (r == a || r == b)
  {
    if a >= b then a else b
  }
}

=== FILE: fa_node.dfy ===
/** `FaNode`: the per-node state of the Kotlin ForceAtlas2, which is also the
    state the Java ForceAtlas2 keeps in a node and its layout data. */
module FaNodes {
  import opened KotlinText

  /** `id` is the id of the Netter node the state belongs to; `dx`, `dy`
      accumulate this step's force and `oldDx`, `oldDy` keep the previous
      step's. */
  datatype FaNode = FaNode(
    id: Int32, size: real, x: real, y: real,
    dx: real, dy: real, oldDx: real, oldDy: real,
    mass: real, isFixed: bool)

  const InitialSize: real := 1.0
  const InitialMass: real := 0.0

  /** Lines 9-10: a starting coordinate from a `Math.random()` draw. */
  function InitialCoordinate(random: real): (c: real)
    requires 0.0 <= random < 1.0
    ensures -490.0 <= c < 510.0
  {
    (0.01 + random) * 1000.0 - 500.0
  }

  /** Every coordinate of `[-490, 510)` is the start of some draw, so the
      range above is exact. */
  lemma InitialCoordinateCovers(c: real)
    requires -490.0 <= c < 510.0
    ensures exists random: real :: 0.0 <= random < 1.0 && InitialCoordinate(random) == c
  {
    var random := (c + 490.0) / 1000.0;
    assert InitialCoordinate(random) == c;
  }

  /** Lines 6-20: a fresh node state for the draws `rx` and `ry`. It sits in
      the starting square, carries no force, has size 1 and mass 0, and is
      not fixed. */
  function NewFaNode(id: Int32, rx: real, ry: real): (n: FaNode)
    requires 0.0 <= rx < 1.0 && 0.0 <= ry < 1.0
    ensures n.id == id && -490.0 <= n.x < 510.0 && -490.0 <= n.y < 510.0
    ensures n.dx == n.dy == n.oldDx == n.oldDy == 0.0
    ensures n.size == InitialSize && n.mass == InitialMass && !n.isFixed
  {
    FaNode(id, InitialSize, InitialCoordinate(rx), InitialCoordinate(ry), 0.0, 0.0, 0.0, 0.0, InitialMass, false)
  }

  /** Two states that differ at most in their accumulators. */
  predicate SamePlace(a: FaNode, b: FaNode)
  {
    a.id == b.id && a.size == b.size && a.x == b.x && a.y == b.y && a.mass == b.mass && a.isFixed == b.isFixed
  }

  /** The bookkeeping at the start of a step (ForceAtlas2.kt:49-55,
      ForceAtlas2.java:144-155): the mass becomes 1 + degree, the force of
      the step before is kept as the old force and the accumulators are
      cleared. Nothing else changes. */
  function Refresh(n: FaNode, degree: int): (r: FaNode)
    ensures r.mass == 1.0 + degree as real
    ensures r.oldDx == n.dx && r.oldDy == n.dy && r.dx == 0.0 && r.dy == 0.0
    ensures r.id == n.id && r.size == n.size && r.x == n.x && r.y == n.y && r.isFixed == n.isFixed
  {
    n.(mass := 1.0 + degree as real, oldDx := n.dx, oldDy := n.dy, dx := 0.0, dy := 0.0)
  }

  /** A refreshed state depends on one step of history only: the old force
      and the mass it carried before are forgotten. */
  lemma RefreshForgetsHistory(a: FaNode, b: FaNode, degree: int)
    requires a.id == b.id && a.size == b.size && a.x == b.x && a.y == b.y && a.isFixed == b.isFixed
    requires a.dx == b.dx && a.dy == b.dy
    ensures Refresh(a, degree) == Refresh(b, degree)
  {
    var ra := Refresh(a, degree);
    var rb := Refresh(b, degree);
    assert ra.mass == rb.mass && ra.oldDx == rb.oldDx && ra.oldDy == rb.oldDy;
  }
}

=== FILE: fa_nodes_thread.dfy ===
/** `NodesThread`: one task of a ForceAtlas2 step (NodesThread.kt). A task
    owns the positions `from until to` of the node list: it repels each of
    them from the rest of the graph, through the Barnes–Hut tree or pair by
    pair with every earlier position, then applies gravity to each. The
    step cuts `0 until n` into `taskCount` consecutive ranges, so that each
    pair of nodes meets once and each node gets gravity once. */
module NodesThreads {
  import opened FaMaths
  import opened FaNodes
  import opened ForceFactory
  import opened BarnesHut

  /** The arguments of one `NodesThread`; `until` is its `to`. `root` is
      read only when `barnesHut` holds. */
  datatype Job = Job(
    from: nat, until: nat, barnesHut: bool, theta: real, gravity: real,
    gravityForce: RepulsionForce, scaling: real, root: Region, repulsion: RepulsionForce)

  /** One `apply` call a task makes: the position at `i` against the tree,
      against the earlier position `j`, or against gravity. */
  datatype Event = Tree(i: nat) | Pair(i: nat, j: nat) | Gravity(i: nat)

  // ---------------------------------------------------------------------------
  // The calls a task makes, in order

  /** `rootRegion.applyForce` for every position of `from until to`. */
  function TreeRun(from: nat, until: nat): seq<Event>
    decreases until
  {
    if until <= from then [] else TreeRun(from, until - 1) + [Tree(until - 1)]
  }

  /** The pairs of position `i` with every earlier position, in order. */
  function Row(i: nat): seq<Event>
  {
    seq(i, j requires 0 <= j < i => Pair(i, j))
  }

  /** The rows of every position of `from until to`. */
  function Rows(from: nat, until: nat): seq<Event>
    decreases until
  {
    if until <= from then [] else Rows(from, until - 1) + Row(until - 1)
  }

  /** Gravity for every position of `from until to`. */
  function GravityRun(from: nat, until: nat): seq<Event>
    decreases until
  {
    if until <= from then [] else GravityRun(from, until - 1) + [Gravity(until - 1)]
  }

  /** Lines 17-27: the calls of `run`, repulsion first. */
  function Schedule(job: Job): seq<Event>
  {
    (if job.barnesHut then TreeRun(job.from, job.until) else Rows(job.from, job.until))
    + GravityRun(job.from, job.until)
  }

  // ---------------------------------------------------------------------------
  // Making the calls

  /** A call the task can make on a node list of length `count`: its
      positions exist, the tree can be walked and gravity can be scaled. */
  ghost predicate EventOk(e: Event, count: nat, job: Job)
  {
    match e
    case Tree(i) => i < count && Usable(job.root, count)
    case Pair(i, j) => i < count && j < count
    case Gravity(i) => i < count && job.scaling != 0.0
  }

  /** `gravity / scaling`, the strength gravity is applied with. */
  function Pull(job: Job): real
    requires job.scaling != 0.0
  {
    job.gravity / job.scaling
  }

  ghost predicate AllOk(events: seq<Event>, count: nat, job: Job)
  {
    forall k | 0 <= k < |events| :: EventOk(events[k], count, job)
  }

  /** One call: `applyForce` of the tree, the pair repulsion, or gravity
      divided by the scaling ratio. */
  function Make(e: Event, nodes: seq<FaNode>, job: Job, mt: Maths): (out: seq<FaNode>)
    requires EventOk(e, |nodes|, job)
    ensures |out| == |nodes|
  {
    match e
    case Tree(i) => ApplyForce(job.root, nodes, i, job.repulsion, job.theta, mt)
    case Pair(i, j) => RepulsePair(nodes, i, j, job.repulsion, mt)
    case Gravity(i) => Gravitate(nodes, i, job.gravityForce, Pull(job), mt)
  }

  /** The calls made one after the other. */
  function Perform(events: seq<Event>, nodes: seq<FaNode>, job: Job, mt: Maths): (out: seq<FaNode>)
    requires AllOk(events, |nodes|, job)
    ensures |out| == |nodes|
  {
    if |events| == 0 then nodes
    else
      var last := events[|events| - 1];
      Make(last, Perform(events[..|events| - 1], nodes, job, mt), job, mt)
  }

  /** No call moves a node, so a run only changes the accumulators. */
  lemma MakeKeepsPlaces(e: Event, nodes: seq<FaNode>, job: Job, mt: Maths)
    requires EventOk(e, |nodes|, job)
    ensures forall m | 0 <= m < |nodes| :: SamePlace(Make(e, nodes, job, mt)[m], nodes[m])
  {
  }

  lemma {:induction false} PerformKeepsPlaces(events: seq<Event>, nodes: seq<FaNode>, job: Job, mt: Maths)
    requires AllOk(events, |nodes|, job)
    ensures forall m | 0 <= m < |nodes| :: SamePlace(Perform(events, nodes, job, mt)[m], nodes[m])
    decreases |events|
  {
    if |events| > 0 {
      var init := events[..|events| - 1];
      PerformKeepsPlaces(init, nodes, job, mt);
      MakeKeepsPlaces(events[|events| - 1], Perform(init, nodes, job, mt), job, mt);
    }
  }

  /** What a task needs of its arguments: its range lies in the node list,
      the tree has members when it is walked and the scaling ratio divides. */
  ghost predicate Runnable(job: Job, count: nat)
  {
    && (job.from < job.until ==> job.until <= count)
    && (job.barnesHut && job.from < job.until ==> Usable(job.root, count))
    && job.scaling != 0.0
  }

  /** Every call of a runnable task can be made. */
  lemma ScheduleOk(job: Job, count: nat)
    requires Runnable(job, count)
    ensures AllOk(Schedule(job), count, job)
  {
    forall k | 0 <= k < |Schedule(job)|
      ensures EventOk(Schedule(job)[k], count, job)
    {
      ScheduleHolds(job, Schedule(job)[k]);
    }
  }

  /** Lines 17-27: `run` makes the calls of its schedule in order. The
      positions, masses and sizes of all nodes stay as they were; only the
      accumulators change. */
  function Run(job: Job, nodes: seq<FaNode>, mt: Maths): (out: seq<FaNode>)
    requires Runnable(job, |nodes|)
    ensures |out| == |nodes| && forall m | 0 <= m < |out| :: SamePlace(out[m], nodes[m])
  {
    ScheduleOk(job, |nodes|);
    PerformKeepsPlaces(Schedule(job), nodes, job, mt);
    Perform(Schedule(job), nodes, job, mt)
  }

  // ---------------------------------------------------------------------------
  // What a task visits

  /** The tree is walked for exactly the positions of the range. */
  lemma {:induction false} TreeRunHolds(from: nat, until: nat, e: Event)
    ensures e in TreeRun(from, until) <==> e.Tree? && from <= e.i < until
    decreases until
  {
    if until > from {
      TreeRunHolds(from, until - 1, e);
    }
  }

  /** Position `i` of the range meets exactly the earlier positions. */
  lemma {:induction false} RowsHold(from: nat, until: nat, e: Event)
    ensures e in Rows(from, until) <==> e.Pair? && from <= e.i < until && e.j < e.i
    decreases until
  {
    if until > from {
      RowsHold(from, until - 1, e);
      if e.Pair? && e.i == until - 1 && e.i > e.j {
        assert Row(until - 1)[e.j] == e;
      }
    }
  }

  /** Gravity acts on exactly the positions of the range. */
  lemma {:induction false} GravityRunHolds(from: nat, until: nat, e: Event)
    ensures e in GravityRun(from, until) <==> e.Gravity? && from <= e.i < until
    decreases until
  {
    if until > from {
      GravityRunHolds(from, until - 1, e);
    }
  }

  /** The calls of a task, as a set: in Barnes–Hut mode the tree walk and
      in the exact mode each pair of an owned position with an earlier
      one, and in both modes gravity on each owned position. */
  lemma ScheduleHolds(job: Job, e: Event)
    ensures e in Schedule(job) <==>
              match e
              case Tree(i) => job.barnesHut && job.from <= i < job.until
              case Pair(i, j) => !job.barnesHut && job.from <= i < job.until && j < i
              case Gravity(i) => job.from <= i < job.until
  {
    TreeRunHolds(job.from, job.until, e);
    RowsHold(job.from, job.until, e);
    GravityRunHolds(job.from, job.until, e);
  }

  // ---------------------------------------------------------------------------
  // Lines 67-84 of ForceAtlas2.kt: cutting the node list into tasks

  /** `faNodes.size * (taskNum - 1) / taskCount`, the first position of
      task `t`; the `floor` of a non-negative integer quotient is the
      quotient itself. */
  function TaskFrom(n: nat, count: nat, t: nat): nat
    requires count > 0 && t >= 1
  {
    n * (t - 1) / count
  }

  /** `faNodes.size * taskNum / taskCount`, one past the last position of
      task `t`. */
  function TaskTo(n: nat, count: nat, t: nat): nat
    requires count > 0
  {
    n * t / count
  }

  lemma NegativeFactor(x: int, d: int)
    requires d > 0 && x * d < 0
    ensures x < 0
  {
  }

  lemma SmallFactor(x: int, d: int)
    requires d > 0 && -d < x * d < d
    ensures x == 0
  {
  }

  /** Integer division by a positive number keeps the order. */
  lemma DivMonotone(a: nat, b: nat, d: nat)
    requires d > 0 && a <= b
    ensures a / d <= b / d
  {
    var qa, qb := a / d, b / d;
    assert (qa - qb - 1) * d == qa * d - qb * d - d;
    NegativeFactor(qa - qb - 1, d);
  }

  /** Multiplying and then dividing by the same positive number gives the
      number back. */
  lemma MulDivCancel(n: nat, c: nat)
    requires c > 0
    ensures n * c / c == n
  {
    var q := n * c / c;
    assert (n - q) * c == n * c - q * c;
    SmallFactor(n - q, c);
  }

  lemma MulMonotone(a: nat, b: nat, c: nat)
    requires a <= b
    ensures a * c <= b * c
  {
    assert b * c == a * c + (b - a) * c;
  }

  /** Later tasks start no earlier: task `t` ends before task `u > t`
      starts. */
  lemma TasksOrdered(n: nat, count: nat, t: nat, u: nat)
    requires count > 0 && 1 <= t < u
    ensures TaskTo(n, count, t) <= TaskFrom(n, count, u)
  {
    MulMonotone(t, u - 1, n);
    assert t * n == n * t && (u - 1) * n == n * (u - 1);
    DivMonotone(n * t, n * (u - 1), count);
  }

  /** The first task starts at 0, the last ends at `n`, and each task ends
      where the next one starts. */
  lemma TasksSpan(n: nat, count: nat, t: nat)
    requires count > 0 && 1 <= t < count
    ensures TaskFrom(n, count, 1) == 0 && TaskTo(n, count, count) == n
    ensures TaskTo(n, count, t) == TaskFrom(n, count, t + 1)
  {
    assert n * (1 - 1) == 0;
    MulDivCancel(n, count);
    assert n * count == count * n;
  }

  /** A position below `n * t / count` belongs to one of the tasks
      `1..t`. */
  lemma {:induction false} SomeTaskOwns(n: nat, count: nat, i: nat, t: nat)
    requires count > 0 && 1 <= t && i < TaskTo(n, count, t)
    ensures exists u :: 1 <= u <= t && TaskFrom(n, count, u) <= i < TaskTo(n, count, u)
    decreases t
  {
    if i < TaskFrom(n, count, t) {
      assert n * (1 - 1) == 0;
      assert t > 1;
      SomeTaskOwns(n, count, i, t - 1);
    }
  }

  /** Every position of the node list belongs to exactly one task. */
  lemma OneTaskOwns(n: nat, count: nat, i: nat)
    requires count > 0 && i < n
    ensures exists t :: 1 <= t <= count && TaskFrom(n, count, t) <= i < TaskTo(n, count, t)
    ensures forall t, u | 1 <= t <= count && 1 <= u <= count ::
              TaskFrom(n, count, t) <= i < TaskTo(n, count, t) && TaskFrom(n, count, u) <= i < TaskTo(n, count, u)
              ==> t == u
  {
    MulDivCancel(n, count);
    SomeTaskOwns(n, count, i, count);
    forall t, u | 1 <= t <= count && 1 <= u <= count
                  && TaskFrom(n, count, t) <= i < TaskTo(n, count, t)
                  && TaskFrom(n, count, u) <= i < TaskTo(n, count, u)
      ensures t == u
    {
      if t < u {
        TasksOrdered(n, count, t, u);
      } else if u < t {
        TasksOrdered(n, count, u, t);
      }
    }
  }

  /** The task `t` of a step whose other arguments are those of `job`. */
  function TaskJob(job: Job, n: nat, count: nat, t: nat): Job
    requires count > 0 && t >= 1
  {
    job.(from := TaskFrom(n, count, t), until := TaskTo(n, count, t))
  }

  /** Over all the tasks of a step in the exact mode, each pair of distinct
      nodes is repelled by exactly one task, once, and each node gets
      gravity from exactly one task. */
  lemma ExactModeMeetsEachPairOnce(job: Job, n: nat, count: nat, i: nat, j: nat)
    requires count > 0 && !job.barnesHut && j < i < n
    ensures exists t :: 1 <= t <= count && Pair(i, j) in Schedule(TaskJob(job, n, count, t))
    ensures forall t, u | 1 <= t <= count && 1 <= u <= count ::
              Pair(i, j) in Schedule(TaskJob(job, n, count, t)) && Pair(i, j) in Schedule(TaskJob(job, n, count, u))
              ==> t == u
    ensures forall t | 1 <= t <= count :: Pair(j, i) !in Schedule(TaskJob(job, n, count, t))
  {
    OneTaskOwns(n, count, i);
    var t :| 1 <= t <= count && TaskFrom(n, count, t) <= i < TaskTo(n, count, t);
    ScheduleHolds(TaskJob(job, n, count, t), Pair(i, j));
    forall u | 1 <= u <= count
      ensures Pair(i, j) in Schedule(TaskJob(job, n, count, u))
              <==> TaskFrom(n, count, u) <= i < TaskTo(n, count, u)
      ensures Pair(j, i) !in Schedule(TaskJob(job, n, count, u))
    {
      ScheduleHolds(TaskJob(job, n, count, u), Pair(i, j));
      ScheduleHolds(TaskJob(job, n, count, u), Pair(j, i));
    }
  }

  /** Over all the tasks of a step, each node gets gravity from exactly one
      task, and in Barnes–Hut mode walks the tree in exactly that task. */
  lemma EachNodeServedOnce(job: Job, n: nat, count: nat, i: nat)
    requires count > 0 && i < n
    ensures exists t :: 1 <= t <= count && Gravity(i) in Schedule(TaskJob(job, n, count, t))
    ensures forall t, u | 1 <= t <= count && 1 <= u <= count ::
              Gravity(i) in Schedule(TaskJob(job, n, count, t)) && Gravity(i) in Schedule(TaskJob(job, n, count, u))
              ==> t == u
    ensures forall t | 1 <= t <= count ::
              Tree(i) in Schedule(TaskJob(job, n, count, t))
              <==> job.barnesHut && Gravity(i) in Schedule(TaskJob(job, n, count, t))
  {
    OneTaskOwns(n, count, i);
    var t :| 1 <= t <= count && TaskFrom(n, count, t) <= i < TaskTo(n, count, t);
    ScheduleHolds(TaskJob(job, n, count, t), Gravity(i));
    forall u | 1 <= u <= count
      ensures Gravity(i) in Schedule(TaskJob(job, n, count, u))
              <==> TaskFrom(n, count, u) <= i < TaskTo(n, count, u)
      ensures Tree(i) in Schedule(TaskJob(job, n, count, u))
              <==> job.barnesHut && TaskFrom(n, count, u) <= i < TaskTo(n, count, u)
    {
      ScheduleHolds(TaskJob(job, n, count, u), Gravity(i));
      ScheduleHolds(TaskJob(job, n, count, u), Tree(i));
    }
  }
}

=== FILE: fa_region.dfy ===
/** `Region`: the Barnes–Hut quadtree of the Kotlin ForceAtlas2
    (Region.kt). A region holds positions in the engine's node list; the
    forces only change the accumulators of the nodes, never a position or a
    mass (`SamePlace`), so a tree built at the start of a step stays true to
    the nodes for the whole step. */
module BarnesHut {
  import opened FaMaths
  import opened FaNodes
  import opened ForceFactory

  /** `Double.MIN_VALUE`, the least positive double. */
  const MinValue: real := 4.9e-324

  /** A region: its members, the mass and centre of mass the constructor
      computes, its size and the subregions `buildSubRegions` adds. */
  datatype Region = Region(
    members: seq<nat>, mass: real, massCenterX: real, massCenterY: real, size: real,
    subregions: seq<Region>)

  /** Every member is a position in a node list of length `count`. */
  predicate MembersIn(members: seq<nat>, count: nat)
  {
    forall k | 0 <= k < |members| :: members[k] < count
  }

  /** Every member has a positive mass, as every node has once its mass is
      1 + degree. */
  predicate Weighty(nodes: seq<FaNode>, members: seq<nat>)
    requires MembersIn(members, |nodes|)
  {
    forall k | 0 <= k < |members| :: nodes[members[k]].mass > 0.0
  }

  /** Sets of positions that keep both properties keep them for their
      parts. */
  lemma SubsetInAndWeighty(nodes: seq<FaNode>, members: seq<nat>, part: seq<nat>)
    requires MembersIn(members, |nodes|) && Weighty(nodes, members)
    requires forall m | m in part :: m in members
    ensures MembersIn(part, |nodes|) && Weighty(nodes, part)
  {
    forall k | 0 <= k < |part|
      ensures part[k] < |nodes| && nodes[part[k]].mass > 0.0
    {
      assert part[k] in part;
      var q :| 0 <= q < |members| && members[q] == part[k];
    }
  }

  // ---------------------------------------------------------------------------
  // updateMassAndGeometry (lines 18-39)

  function Weigh(n: FaNode): real { n.mass }
  function WeighX(n: FaNode): real { n.x * n.mass }
  function WeighY(n: FaNode): real { n.y * n.mass }

  /** The sum of `w` over the members, added up in member order. */
  function SumOver(nodes: seq<FaNode>, members: seq<nat>, w: FaNode -> real): real
    requires MembersIn(members, |nodes|)
  {
    if |members| == 0 then 0.0
    else SumOver(nodes, members[..|members| - 1], w) + w(nodes[members[|members| - 1]])
  }

  /** The members' masses add up to a positive total. */
  lemma {:induction false} MassPositive(nodes: seq<FaNode>, members: seq<nat>)
    requires MembersIn(members, |nodes|) && Weighty(nodes, members) && |members| > 0
    ensures SumOver(nodes, members, Weigh) > 0.0
    decreases |members|
  {
    if |members| > 1 {
      MassPositive(nodes, members[..|members| - 1]);
    }
  }

  /** The moment of the members about the line `x = c` (or `y = c`). */
  function Moment(nodes: seq<FaNode>, members: seq<nat>, alongX: bool, c: real): real
    requires MembersIn(members, |nodes|)
  {
    if |members| == 0 then 0.0
    else
      var n := nodes[members[|members| - 1]];
      Moment(nodes, members[..|members| - 1], alongX, c) + (Coord(n, alongX) - c) * n.mass
  }

  /** The coordinate of a node along one axis. */
  function Coord(n: FaNode, alongX: bool): real
  {
    if alongX then n.x else n.y
  }

  /** The moment about `c` is the weighted coordinate sum less `c` times the
      mass. */
  lemma {:induction false} MomentSplits(nodes: seq<FaNode>, members: seq<nat>, alongX: bool, c: real)
    requires MembersIn(members, |nodes|)
    ensures Moment(nodes, members, alongX, c)
            == SumOver(nodes, members, if alongX then WeighX else WeighY) - c * SumOver(nodes, members, Weigh)
    decreases |members|
  {
    if |members| > 0 {
      MomentSplits(nodes, members[..|members| - 1], alongX, c);
    }
  }

  /** `2 * sqrt(...)`: twice the distance of a node from a point. */
  function Reach(mt: Maths, n: FaNode, cx: real, cy: real): real
  {
    2.0 * Norm(mt, n.x - cx, n.y - cy)
  }

  /** Lines 34-38: the size starts at `Double.MIN_VALUE` and grows to twice
      the largest distance of a member from the centre. It is positive,
      bounds every member's reach and is either its start or one member's
      reach. */
  function Extent(nodes: seq<FaNode>, members: seq<nat>, cx: real, cy: real, mt: Maths): (s: real)
    requires MembersIn(members, |nodes|)
    ensures s >= MinValue
    ensures forall k | 0 <= k < |members| :: s >= Reach(mt, nodes[members[k]], cx, cy)
    ensures s == MinValue || exists k | 0 <= k < |members| :: s == Reach(mt, nodes[members[k]], cx, cy)
  {
    if |members| == 0 then MinValue
    else
      var init := members[..|members| - 1];
      var s := Max(Extent(nodes, init, cx, cy, mt), Reach(mt, nodes[members[|members| - 1]], cx, cy));
      assert forall k | 0 <= k < |init| :: init[k] == members[k];
      s
  }

  /** Lines 31-32: the coordinate of the centre of mass along one axis. The
      members' moments about it balance. */
  function Centre(nodes: seq<FaNode>, members: seq<nat>, alongX: bool, mass: real): (c: real)
    requires MembersIn(members, |nodes|)
    requires mass == SumOver(nodes, members, Weigh) && mass > 0.0
    ensures Moment(nodes, members, alongX, c) == 0.0
  {
    var sum := SumOver(nodes, members, if alongX then WeighX else WeighY);
    var c := sum / mass;
    MomentSplits(nodes, members, alongX, c);
    assert c * mass == sum;
    c
  }

  /** Lines 21-38 for a region of at least two members: the mass is the
      members' total, the centre balances the members' moments and the size
      bounds twice every member's distance from the centre. */
  function Weighed(nodes: seq<FaNode>, members: seq<nat>, mt: Maths): (r: Region)
    requires MembersIn(members, |nodes|) && Weighty(nodes, members) && |members| >= 2
    ensures r.members == members && r.subregions == []
    ensures r.mass == SumOver(nodes, members, Weigh) && r.mass > 0.0
    ensures Moment(nodes, members, true, r.massCenterX) == 0.0
    ensures Moment(nodes, members, false, r.massCenterY) == 0.0
    ensures r.size >= MinValue
    ensures forall k | 0 <= k < |members| :: r.size >= Reach(mt, nodes[members[k]], r.massCenterX, r.massCenterY)
  {
    var mass := SumOver(nodes, members, Weigh);
    MassPositive(nodes, members);
    var cx := Centre(nodes, members, true, mass);
    var cy := Centre(nodes, members, false, mass);
    Region(members, mass, cx, cy, Extent(nodes, members, cx, cy, mt), [])
  }

  /** Lines 14-39: the region the constructor makes. With at most one member
      it keeps mass 0, centre (0, 0) and size 0 (line 19). */
  function Shell(nodes: seq<FaNode>, members: seq<nat>, mt: Maths): (r: Region)
    requires MembersIn(members, |nodes|) && Weighty(nodes, members)
    ensures r.members == members && r.subregions == []
    ensures |members| <= 1 ==> r.mass == 0.0 && r.massCenterX == 0.0 && r.massCenterY == 0.0 && r.size == 0.0
  {
    if |members| <= 1 then Region(members, 0.0, 0.0, 0.0, 0.0, []) else Weighed(nodes, members, mt)
  }

  // ---------------------------------------------------------------------------
  // buildSubRegions and addSubRegion (lines 41-70)

  /** The members, in order, whose coordinate along the axis is below `c`
      exactly when `below`. */
  function Side(nodes: seq<FaNode>, members: seq<nat>, alongX: bool, c: real, below: bool): (r: seq<nat>)
    requires MembersIn(members, |nodes|)
    ensures |r| <= |members| && MembersIn(r, |nodes|)
  {
    if |members| == 0 then []
    else
      var m := members[|members| - 1];
      var rest := Side(nodes, members[..|members| - 1], alongX, c, below);
      if (Coord(nodes[m], alongX) < c) == below then rest + [m] else rest
  }

  /** The members on one side of the line are members that lie on that
      side. */
  lemma {:induction false} SideOf(nodes: seq<FaNode>, members: seq<nat>, alongX: bool, c: real, below: bool)
    requires MembersIn(members, |nodes|)
    ensures forall m | m in Side(nodes, members, alongX, c, below) :: m in members && (Coord(nodes[m], alongX) < c) == below
    decreases |members|
  {
    if |members| > 0 {
      var init := members[..|members| - 1];
      SideOf(nodes, init, alongX, c, below);
      assert forall m | m in init :: m in members;
    }
  }

  /** The two sides of a line share the members out between them. */
  lemma {:induction false} SidesSplit(nodes: seq<FaNode>, members: seq<nat>, alongX: bool, c: real)
    requires MembersIn(members, |nodes|)
    ensures multiset(Side(nodes, members, alongX, c, true)) + multiset(Side(nodes, members, alongX, c, false))
            == multiset(members)
    decreases |members|
  {
    if |members| > 0 {
      var init := members[..|members| - 1];
      var m := members[|members| - 1];
      var lo := Side(nodes, init, alongX, c, true);
      var hi := Side(nodes, init, alongX, c, false);
      SidesSplit(nodes, init, alongX, c);
      assert members == init + [m];
      assert multiset(members) == multiset(init) + multiset{m};
      if Coord(nodes[m], alongX) < c {
        assert Side(nodes, members, alongX, c, true) == lo + [m];
        assert Side(nodes, members, alongX, c, false) == hi;
        assert multiset(lo + [m]) == multiset(lo) + multiset{m};
      } else {
        assert Side(nodes, members, alongX, c, true) == lo;
        assert Side(nodes, members, alongX, c, false) == hi + [m];
        assert multiset(hi + [m]) == multiset(hi) + multiset{m};
      }
    }
  }

  /** Lines 45-55: the four quadrants in the order they are added: top
      left, bottom left, bottom right, top right. A node is left when its
      `x` is below the centre's and bottom when its `y` is. */
  function Quadrants(nodes: seq<FaNode>, members: seq<nat>, cx: real, cy: real): (q: seq<seq<nat>>)
    requires MembersIn(members, |nodes|)
    ensures |q| == 4
  {
    var left := Side(nodes, members, true, cx, true);
    var right := Side(nodes, members, true, cx, false);
    [ Side(nodes, left, false, cy, false), Side(nodes, left, false, cy, true),
      Side(nodes, right, false, cy, true), Side(nodes, right, false, cy, false) ]
  }

  /** The members of one quadrant: left or not, bottom or not. */
  ghost predicate InQuadrant(nodes: seq<FaNode>, part: seq<nat>, cx: real, cy: real, left: bool, bottom: bool)
  {
    forall m | m in part :: m < |nodes| && (nodes[m].x < cx) == left && (nodes[m].y < cy) == bottom
  }

  /** The sum of the multisets of a list of member lists. */
  function Union(parts: seq<seq<nat>>): multiset<nat>
  {
    if |parts| == 0 then multiset{} else multiset(parts[0]) + Union(parts[1..])
  }

  lemma {:induction false} UnionAppend(a: seq<seq<nat>>, b: seq<seq<nat>>)
    ensures Union(a + b) == Union(a) + Union(b)
    decreases |a|
  {
    if |a| == 0 {
      assert a + b == b;
    } else {
      assert (a + b)[1..] == a[1..] + b;
      UnionAppend(a[1..], b);
    }
  }

  /** Each member in a list of its own. */
  function Singletons(contents: seq<nat>): (r: seq<seq<nat>>)
    ensures |r| == |contents| && forall k | 0 <= k < |r| :: r[k] == [contents[k]]
  {
    if |contents| == 0 then [] else [[contents[0]]] + Singletons(contents[1..])
  }

  lemma {:induction false} UnionSingletons(contents: seq<nat>)
    ensures Union(Singletons(contents)) == multiset(contents)
    decreases |contents|
  {
    if |contents| > 0 {
      UnionSingletons(contents[1..]);
      assert contents == [contents[0]] + contents[1..];
    }
  }

  /** Lines 65-70, `addSubRegion`: the member lists of the children one
      quadrant adds to a region of `parentCount` members. An empty quadrant
      adds none, a smaller one one child, and one holding every member one
      child per member, so that the recursion ends. */
  function SubRegionContents(parentCount: nat, contents: seq<nat>): (r: seq<seq<nat>>)
    ensures Union(r) == multiset(contents)
  {
    if |contents| == 0 then []
    else if |contents| < parentCount then [contents]
    else UnionSingletons(contents); Singletons(contents)
  }

  /** The member lists of all children, quadrant by quadrant. */
  function Parts(nodes: seq<FaNode>, members: seq<nat>, cx: real, cy: real): seq<seq<nat>>
    requires MembersIn(members, |nodes|)
  {
    var q := Quadrants(nodes, members, cx, cy);
    SubRegionContents(|members|, q[0]) + SubRegionContents(|members|, q[1])
    + SubRegionContents(|members|, q[2]) + SubRegionContents(|members|, q[3])
  }

  /** The children of a region of at least two members share its members
      out among them; none is empty and each is smaller than the region, and
      each lies in one quadrant of the centre. */
  lemma PartsShareMembers(nodes: seq<FaNode>, members: seq<nat>, cx: real, cy: real)
    requires MembersIn(members, |nodes|) && |members| >= 2
    ensures Union(Parts(nodes, members, cx, cy)) == multiset(members)
    ensures forall k | 0 <= k < |Parts(nodes, members, cx, cy)| ::
              && 0 < |Parts(nodes, members, cx, cy)[k]| < |members|
              && (forall m | m in Parts(nodes, members, cx, cy)[k] :: m in members)
              && exists left: bool, bottom: bool :: InQuadrant(nodes, Parts(nodes, members, cx, cy)[k], cx, cy, left, bottom)
  {
    var n := |members|;
    var left := Side(nodes, members, true, cx, true);
    var right := Side(nodes, members, true, cx, false);
    var q := Quadrants(nodes, members, cx, cy);
    SidesSplit(nodes, members, true, cx);
    SidesSplit(nodes, left, false, cy);
    SidesSplit(nodes, right, false, cy);
    var a, b, c, d := SubRegionContents(n, q[0]), SubRegionContents(n, q[1]), SubRegionContents(n, q[2]), SubRegionContents(n, q[3]);
    UnionAppend(a, b);
    UnionAppend(a + b, c);
    UnionAppend(a + b + c, d);
    var parts := Parts(nodes, members, cx, cy);
    assert parts == a + b + c + d;
    assert Union(parts) == multiset(q[0]) + multiset(q[1]) + multiset(q[2]) + multiset(q[3]);
    forall k | 0 <= k < |parts|
      ensures 0 < |parts[k]| < n
      ensures forall m | m in parts[k] :: m in members
      ensures exists left: bool, bottom: bool :: InQuadrant(nodes, parts[k], cx, cy, left, bottom)
    {
      var t := if k < |a| then 0 else if k < |a| + |b| then 1 else if k < |a| + |b| + |c| then 2 else 3;
      QuadrantPart(nodes, members, cx, cy, t, parts[k]);
      assert parts[k] in SubRegionContents(n, q[t]);
    }
  }

  /** A member list one quadrant adds is not empty, is smaller than the
      region, and lies in that quadrant. */
  lemma QuadrantPart(nodes: seq<FaNode>, members: seq<nat>, cx: real, cy: real, t: nat, part: seq<nat>)
    requires MembersIn(members, |nodes|) && |members| >= 2 && t < 4
    requires part in SubRegionContents(|members|, Quadrants(nodes, members, cx, cy)[t])
    ensures 0 < |part| < |members|
    ensures forall m | m in part :: m in members
    ensures InQuadrant(nodes, part, cx, cy, t < 2, t == 1 || t == 2)
  {
    var contents := Quadrants(nodes, members, cx, cy)[t];
    QuadrantOf(nodes, members, cx, cy, t);
    ContentsPart(|members|, contents, part);
  }

  /** A child's member list is a non-empty part of the quadrant, smaller
      than a parent of at least two members. */
  lemma ContentsPart(n: nat, contents: seq<nat>, part: seq<nat>)
    requires n >= 2 && part in SubRegionContents(n, contents)
    ensures 0 < |part| < n && forall m | m in part :: m in contents
  {
    if n <= |contents| {
      var k :| 0 <= k < |contents| && Singletons(contents)[k] == part;
    }
  }

  /** The members of quadrant `t` are members on its side of both lines. */
  lemma QuadrantOf(nodes: seq<FaNode>, members: seq<nat>, cx: real, cy: real, t: nat)
    requires MembersIn(members, |nodes|) && t < 4
    ensures forall m | m in Quadrants(nodes, members, cx, cy)[t] ::
              && m in members && m < |nodes|
              && (nodes[m].x < cx) == (t < 2) && (nodes[m].y < cy) == (t == 1 || t == 2)
  {
    var half := Side(nodes, members, true, cx, t < 2);
    SideOf(nodes, members, true, cx, t < 2);
    SideOf(nodes, half, false, cy, t == 1 || t == 2);
    assert Quadrants(nodes, members, cx, cy)[t] == Side(nodes, half, false, cy, t == 1 || t == 2);
  }

  /** Lines 14-16 and 41-63: the region of the given members with its
      subregions built all the way down. */
  function Build(nodes: seq<FaNode>, members: seq<nat>, mt: Maths): (r: Region)
    requires MembersIn(members, |nodes|) && Weighty(nodes, members)
    ensures r.members == members
    decreases |members|
  {
    var shell := Shell(nodes, members, mt);
    if |members| <= 1 then shell
    else
      var parts := Parts(nodes, members, shell.massCenterX, shell.massCenterY);
      PartsShareMembers(nodes, members, shell.massCenterX, shell.massCenterY);
      PartsInAndWeighty(nodes, members, parts);
      shell.(subregions := seq(|parts|, k requires 0 <= k < |parts| => Build(nodes, parts[k], mt)))
  }

  lemma PartsInAndWeighty(nodes: seq<FaNode>, members: seq<nat>, parts: seq<seq<nat>>)
    requires MembersIn(members, |nodes|) && Weighty(nodes, members)
    requires forall k | 0 <= k < |parts| :: forall m | m in parts[k] :: m in members
    ensures forall k | 0 <= k < |parts| :: MembersIn(parts[k], |nodes|) && Weighty(nodes, parts[k])
  {
    forall k | 0 <= k < |parts|
      ensures MembersIn(parts[k], |nodes|) && Weighty(nodes, parts[k])
    {
      SubsetInAndWeighty(nodes, members, parts[k]);
    }
  }

  /** The member lists of a list of regions. */
  function MembersOf(rs: seq<Region>): (r: seq<seq<nat>>)
    ensures |r| == |rs| && forall k | 0 <= k < |rs| :: r[k] == rs[k].members
  {
    seq(|rs|, k requires 0 <= k < |rs| => rs[k].members)
  }

  /** The shape `buildSubRegions` gives a tree: a region of at most one
      member has no subregions; a larger one has subregions that share its
      members out among them, each non-empty and smaller than it. */
  ghost predicate WellFormed(r: Region)
    decreases r
  {
    && (|r.members| <= 1 ==> r.subregions == [])
    && (|r.members| >= 2 ==>
          && |r.subregions| > 0
          && Union(MembersOf(r.subregions)) == multiset(r.members)
          && forall k | 0 <= k < |r.subregions| ::
               0 < |r.subregions[k].members| < |r.members| && WellFormed(r.subregions[k]))
  }

  /** What the constructor makes true of a region (lines 14-39): with at
      most one member, mass 0, centre (0, 0) and size 0; otherwise the
      members' total mass, a centre their moments balance about, and a
      positive size bounding twice every member's distance from the
      centre. */
  ghost predicate Fits(nodes: seq<FaNode>, r: Region, mt: Maths)
    requires MembersIn(r.members, |nodes|)
  {
    && (|r.members| <= 1 ==> r.mass == 0.0 && r.massCenterX == 0.0 && r.massCenterY == 0.0 && r.size == 0.0)
    && (|r.members| >= 2 ==>
          && r.mass == SumOver(nodes, r.members, Weigh) && r.mass > 0.0
          && Moment(nodes, r.members, true, r.massCenterX) == 0.0
          && Moment(nodes, r.members, false, r.massCenterY) == 0.0
          && r.size >= MinValue
          && forall k | 0 <= k < |r.members| ::
               r.size >= Reach(mt, nodes[r.members[k]], r.massCenterX, r.massCenterY))
  }

  /** Every region of the tree carries the mass, centre and size its
      constructor computes for its members. */
  ghost predicate Measured(nodes: seq<FaNode>, r: Region, mt: Maths)
    decreases r
  {
    && MembersIn(r.members, |nodes|) && Weighty(nodes, r.members) && Fits(nodes, r, mt)
    && forall k | 0 <= k < |r.subregions| :: Measured(nodes, r.subregions[k], mt)
  }

  /** Every subregion of a built region lies in one quadrant of its
      parent's centre. */
  ghost predicate Quartered(nodes: seq<FaNode>, r: Region)
    decreases r
  {
    forall k | 0 <= k < |r.subregions| ::
      && (exists left: bool, bottom: bool ::
            InQuadrant(nodes, r.subregions[k].members, r.massCenterX, r.massCenterY, left, bottom))
      && Quartered(nodes, r.subregions[k])
  }

  /** A built tree is well formed. */
  lemma {:induction false} BuildWellFormed(nodes: seq<FaNode>, members: seq<nat>, mt: Maths)
    requires MembersIn(members, |nodes|) && Weighty(nodes, members)
    ensures WellFormed(Build(nodes, members, mt))
    decreases |members|
  {
    var r := Build(nodes, members, mt);
    if |members| >= 2 {
      var parts := Parts(nodes, members, r.massCenterX, r.massCenterY);
      PartsShareMembers(nodes, members, r.massCenterX, r.massCenterY);
      PartsInAndWeighty(nodes, members, parts);
      assert r.subregions == seq(|parts|, k requires 0 <= k < |parts| => Build(nodes, parts[k], mt));
      assert MembersOf(r.subregions) == parts;
      assert members[0] in multiset(members);
      forall k | 0 <= k < |r.subregions|
        ensures 0 < |r.subregions[k].members| < |r.members| && WellFormed(r.subregions[k])
      {
        BuildWellFormed(nodes, parts[k], mt);
      }
    }
  }

  /** Every region of a built tree carries its constructor's mass, centre
      and size. */
  lemma {:induction false} BuildMeasured(nodes: seq<FaNode>, members: seq<nat>, mt: Maths)
    requires MembersIn(members, |nodes|) && Weighty(nodes, members)
    ensures Measured(nodes, Build(nodes, members, mt), mt)
    decreases |members|
  {
    var r := Build(nodes, members, mt);
    var shell := Shell(nodes, members, mt);
    if |members| >= 2 {
      var parts := Parts(nodes, members, shell.massCenterX, shell.massCenterY);
      PartsShareMembers(nodes, members, shell.massCenterX, shell.massCenterY);
      PartsInAndWeighty(nodes, members, parts);
      assert r == shell.(subregions := seq(|parts|, k requires 0 <= k < |parts| => Build(nodes, parts[k], mt)));
      assert shell == Weighed(nodes, members, mt);
      assert r.mass == shell.mass && r.massCenterX == shell.massCenterX && r.massCenterY == shell.massCenterY;
      assert r.size == shell.size;
      forall k | 0 <= k < |r.subregions|
        ensures Measured(nodes, r.subregions[k], mt)
      {
        BuildMeasured(nodes, parts[k], mt);
      }
    }
  }

  /** Every subregion of a built tree lies in one quadrant of its parent's
      centre. */
  lemma {:induction false} BuildQuartered(nodes: seq<FaNode>, members: seq<nat>, mt: Maths)
    requires MembersIn(members, |nodes|) && Weighty(nodes, members)
    ensures Quartered(nodes, Build(nodes, members, mt))
    decreases |members|
  {
    var r := Build(nodes, members, mt);
    if |members| >= 2 {
      var parts := Parts(nodes, members, r.massCenterX, r.massCenterY);
      PartsShareMembers(nodes, members, r.massCenterX, r.massCenterY);
      PartsInAndWeighty(nodes, members, parts);
      assert r.subregions == seq(|parts|, k requires 0 <= k < |parts| => Build(nodes, parts[k], mt));
      forall k | 0 <= k < |r.subregions|
        ensures exists left: bool, bottom: bool ::
                  InQuadrant(nodes, r.subregions[k].members, r.massCenterX, r.massCenterY, left, bottom)
        ensures Quartered(nodes, r.subregions[k])
      {
        assert r.subregions[k].members == parts[k];
        BuildQuartered(nodes, parts[k], mt);
      }
    }
  }

  /** A region of one member carries no mass, although its member has a
      positive one: a parent's mass is not the sum of its subregions'. */
  lemma SingletonsWeighNothing(nodes: seq<FaNode>, r: Region, mt: Maths)
    requires Measured(nodes, r, mt) && |r.members| == 1
    ensures r.mass == 0.0 && nodes[r.members[0]].mass > 0.0
  {
  }

  // ---------------------------------------------------------------------------
  // applyForce (lines 72-80)

  /** A tree `applyForce` can walk: no region is empty and every member is a
      position in a node list of length `count`. */
  ghost predicate Usable(r: Region, count: nat)
    decreases r
  {
    && 0 < |r.members| && MembersIn(r.members, count)
    && forall k | 0 <= k < |r.subregions| :: Usable(r.subregions[k], count)
  }

  /** A built tree of at least one member can be walked. */
  lemma {:induction false} BuiltUsable(nodes: seq<FaNode>, r: Region, mt: Maths)
    requires WellFormed(r) && Measured(nodes, r, mt) && |r.members| > 0
    ensures Usable(r, |nodes|)
    decreases r
  {
    forall k | 0 <= k < |r.subregions|
      ensures Usable(r.subregions[k], |nodes|)
    {
      BuiltUsable(nodes, r.subregions[k], mt);
    }
  }

  /** The distance from the point `(px, py)` to the point `(cx, cy)`. */
  function Separation(px: real, py: real, cx: real, cy: real, mt: Maths): real
  {
    Norm(mt, px - cx, py - cy)
  }

  /** Lines 72-80: the node at `i` meets a region. A region of one member
      is met through a pair force with that member; a larger one as a whole
      when it is far enough, its distance times `theta` exceeding its size,
      and otherwise through each subregion in turn. */
  function ApplyForce(r: Region, nodes: seq<FaNode>, i: nat, f: RepulsionForce, theta: real, mt: Maths)
    : (out: seq<FaNode>)
    requires i < |nodes| && Usable(r, |nodes|)
    ensures |out| == |nodes| && forall m | 0 <= m < |out| :: SamePlace(out[m], nodes[m])
    decreases r, 1
  {
    if |r.members| < 2 then RepulsePair(nodes, i, r.members[0], f, mt)
    else if Separation(nodes[i].x, nodes[i].y, r.massCenterX, r.massCenterY, mt) * theta > r.size then
      RepulseRegion(nodes, i, f, r.mass, r.massCenterX, r.massCenterY, mt)
    else ApplyFrom(r, 0, nodes, i, f, theta, mt)
  }

  /** Line 78: the subregions from the `k`-th on, in order. */
  function ApplyFrom(r: Region, k: nat, nodes: seq<FaNode>, i: nat, f: RepulsionForce, theta: real, mt: Maths)
    : (out: seq<FaNode>)
    requires i < |nodes| && k <= |r.subregions|
    requires forall q | k <= q < |r.subregions| :: Usable(r.subregions[q], |nodes|)
    ensures |out| == |nodes| && forall m | 0 <= m < |out| :: SamePlace(out[m], nodes[m])
    decreases r, 0, |r.subregions| - k
  {
    if k == |r.subregions| then nodes
    else ApplyFrom(r, k + 1, ApplyForce(r.subregions[k], nodes, i, f, theta, mt), i, f, theta, mt)
  }

  /** What a node meets while walking a tree: one node, or a region through
      its members' mass and centre. */
  datatype Interaction =
    | WithNode(j: nat)
    | WithRegion(members: seq<nat>, mass: real, cx: real, cy: real)

  /** The interactions of a node at `(px, py)` with a tree, in the order
      `applyForce` makes them. */
  function Trace(r: Region, px: real, py: real, theta: real, mt: Maths): seq<Interaction>
    decreases r, 1
  {
    if |r.members| == 0 then []
    else if |r.members| < 2 then [WithNode(r.members[0])]
    else if Separation(px, py, r.massCenterX, r.massCenterY, mt) * theta > r.size then
      [WithRegion(r.members, r.mass, r.massCenterX, r.massCenterY)]
    else TraceFrom(r, 0, px, py, theta, mt)
  }

  function TraceFrom(r: Region, k: nat, px: real, py: real, theta: real, mt: Maths): seq<Interaction>
    requires k <= |r.subregions|
    decreases r, 0, |r.subregions| - k
  {
    if k == |r.subregions| then [] else Trace(r.subregions[k], px, py, theta, mt) + TraceFrom(r, k + 1, px, py, theta, mt)
  }

  /** The members an interaction accounts for. */
  function Covered(trace: seq<Interaction>): multiset<nat>
  {
    if |trace| == 0 then multiset{}
    else (match trace[0] case WithNode(j) => multiset{j} case WithRegion(ms, _, _, _) => multiset(ms))
         + Covered(trace[1..])
  }

  lemma {:induction false} CoveredAppend(a: seq<Interaction>, b: seq<Interaction>)
    ensures Covered(a + b) == Covered(a) + Covered(b)
    decreases |a|
  {
    if |a| == 0 {
      assert a + b == b;
    } else {
      assert (a + b)[1..] == a[1..] + b;
      CoveredAppend(a[1..], b);
    }
  }

  /** Every member of a well-formed tree is met exactly once, on its own or
      inside exactly one region: the walk neither misses nor repeats a
      node. */
  lemma {:induction false} TraceCoversMembers(r: Region, px: real, py: real, theta: real, mt: Maths)
    requires WellFormed(r)
    ensures Covered(Trace(r, px, py, theta, mt)) == multiset(r.members)
    decreases r, 1
  {
    var t := Trace(r, px, py, theta, mt);
    if |r.members| == 0 {
      assert t == [];
    } else if |r.members| == 1 {
      assert t == [WithNode(r.members[0])];
      assert t[1..] == [];
      assert r.members == [r.members[0]];
    } else if Separation(px, py, r.massCenterX, r.massCenterY, mt) * theta > r.size {
      assert t == [WithRegion(r.members, r.mass, r.massCenterX, r.massCenterY)];
      assert t[1..] == [];
    } else {
      assert t == TraceFrom(r, 0, px, py, theta, mt);
      assert Union(MembersOf(r.subregions)) == multiset(r.members);
      TraceFromCovers(r, 0, px, py, theta, mt);
      assert MembersOf(r.subregions)[0..] == MembersOf(r.subregions);
    }
  }

  lemma {:induction false} TraceFromCovers(r: Region, k: nat, px: real, py: real, theta: real, mt: Maths)
    requires k <= |r.subregions| && forall q | k <= q < |r.subregions| :: WellFormed(r.subregions[q])
    ensures Covered(TraceFrom(r, k, px, py, theta, mt)) == Union(MembersOf(r.subregions)[k..])
    decreases r, 0, |r.subregions| - k
  {
    if k < |r.subregions| {
      TraceCoversMembers(r.subregions[k], px, py, theta, mt);
      TraceFromCovers(r, k + 1, px, py, theta, mt);
      CoveredAppend(Trace(r.subregions[k], px, py, theta, mt), TraceFrom(r, k + 1, px, py, theta, mt));
      assert MembersOf(r.subregions)[k..][1..] == MembersOf(r.subregions)[k + 1..];
    }
  }

  /** Every node an interaction names is a position in a list of length
      `count`. */
  predicate Indices(trace: seq<Interaction>, count: nat)
  {
    forall q | 0 <= q < |trace| :: trace[q].WithNode? ==> trace[q].j < count
  }

  /** One interaction of the node at `i`: `force.apply(faNode, other)` or
      `force.apply(faNode, region)`. */
  function Meet(t: Interaction, nodes: seq<FaNode>, i: nat, f: RepulsionForce, mt: Maths): seq<FaNode>
    requires i < |nodes| && (t.WithNode? ==> t.j < |nodes|)
  {
    match t
    case WithNode(j) => RepulsePair(nodes, i, j, f, mt)
    case WithRegion(_, mass, cx, cy) => RepulseRegion(nodes, i, f, mass, cx, cy, mt)
  }

  /** The interactions made one after the other. */
  function Replay(trace: seq<Interaction>, nodes: seq<FaNode>, i: nat, f: RepulsionForce, mt: Maths)
    : (out: seq<FaNode>)
    requires i < |nodes| && Indices(trace, |nodes|)
    ensures |out| == |nodes|
  {
    if |trace| == 0 then nodes else Replay(trace[1..], Meet(trace[0], nodes, i, f, mt), i, f, mt)
  }

  lemma {:induction false} ReplayAppend(a: seq<Interaction>, b: seq<Interaction>, nodes: seq<FaNode>, i: nat,
                                        f: RepulsionForce, mt: Maths)
    requires i < |nodes| && Indices(a, |nodes|) && Indices(b, |nodes|)
    ensures Indices(a + b, |nodes|)
    ensures Replay(a + b, nodes, i, f, mt) == Replay(b, Replay(a, nodes, i, f, mt), i, f, mt)
    decreases |a|
  {
    if |a| == 0 {
      assert a + b == b;
    } else {
      assert (a + b)[1..] == a[1..] + b;
      ReplayAppend(a[1..], b, Meet(a[0], nodes, i, f, mt), i, f, mt);
    }
  }

  /** `applyForce` makes exactly the interactions of the trace, in order:
      the node's own position does not move while it walks the tree. */
  lemma {:induction false} ApplyForceFollowsTrace(r: Region, nodes: seq<FaNode>, i: nat, f: RepulsionForce,
                                                  theta: real, mt: Maths)
    requires i < |nodes| && Usable(r, |nodes|)
    ensures Indices(Trace(r, nodes[i].x, nodes[i].y, theta, mt), |nodes|)
    ensures ApplyForce(r, nodes, i, f, theta, mt) == Replay(Trace(r, nodes[i].x, nodes[i].y, theta, mt), nodes, i, f, mt)
    decreases r, 1
  {
    if |r.members| >= 2 && !(Separation(nodes[i].x, nodes[i].y, r.massCenterX, r.massCenterY, mt) * theta > r.size) {
      ApplyFromFollowsTrace(r, 0, nodes, i, f, theta, mt);
    }
  }

  lemma {:induction false} ApplyFromFollowsTrace(r: Region, k: nat, nodes: seq<FaNode>, i: nat, f: RepulsionForce,
                                                 theta: real, mt: Maths)
    requires i < |nodes| && k <= |r.subregions|
    requires forall q | k <= q < |r.subregions| :: Usable(r.subregions[q], |nodes|)
    ensures Indices(TraceFrom(r, k, nodes[i].x, nodes[i].y, theta, mt), |nodes|)
    ensures ApplyFrom(r, k, nodes, i, f, theta, mt)
            == Replay(TraceFrom(r, k, nodes[i].x, nodes[i].y, theta, mt), nodes, i, f, mt)
    decreases r, 0, |r.subregions| - k
  {
    if k < |r.subregions| {
      var px, py := nodes[i].x, nodes[i].y;
      var sub := r.subregions[k];
      ApplyForceFollowsTrace(sub, nodes, i, f, theta, mt);
      var next := ApplyForce(sub, nodes, i, f, theta, mt);
      assert SamePlace(next[i], nodes[i]);
      ApplyFromFollowsTrace(r, k + 1, next, i, f, theta, mt);
      ReplayAppend(Trace(sub, px, py, theta, mt), TraceFrom(r, k + 1, px, py, theta, mt), nodes, i, f, mt);
    }
  }

  /** An interaction that meets a whole region happens only when the node
      at `(px, py)` is farther from the region's centre, scaled by `theta`,
      than twice the distance of any member of the region. */
  ghost predicate FarOne(t: Interaction, nodes: seq<FaNode>, px: real, py: real, theta: real, mt: Maths)
  {
    t.WithRegion? ==>
      forall m | m in t.members ::
        m < |nodes| && Reach(mt, nodes[m], t.cx, t.cy) < Separation(px, py, t.cx, t.cy, mt) * theta
  }

  ghost predicate FarEnough(trace: seq<Interaction>, nodes: seq<FaNode>, px: real, py: real, theta: real, mt: Maths)
  {
    forall q | 0 <= q < |trace| :: FarOne(trace[q], nodes, px, py, theta, mt)
  }

  lemma FarEnoughAppend(a: seq<Interaction>, b: seq<Interaction>, nodes: seq<FaNode>, px: real, py: real,
                        theta: real, mt: Maths)
    requires FarEnough(a, nodes, px, py, theta, mt) && FarEnough(b, nodes, px, py, theta, mt)
    ensures FarEnough(a + b, nodes, px, py, theta, mt)
  {
    forall q | 0 <= q < |a + b|
      ensures FarOne((a + b)[q], nodes, px, py, theta, mt)
    {
      if q >= |a| {
        assert (a + b)[q] == b[q - |a|];
      }
    }
  }

  /** Lines 75-77: a walk of a measured tree only takes a region as a whole
      when the node is far from it compared with the region's size, so
      every member of an aggregated region is close to its centre. */
  lemma {:induction false} AggregatedRegionsAreFar(nodes: seq<FaNode>, r: Region, px: real, py: real, theta: real,
                                                   mt: Maths)
    requires Measured(nodes, r, mt)
    ensures FarEnough(Trace(r, px, py, theta, mt), nodes, px, py, theta, mt)
    decreases r, 1
  {
    if |r.members| < 2 {
      var t := Trace(r, px, py, theta, mt);
      assert forall q | 0 <= q < |t| :: t[q].WithNode?;
    } else if Separation(px, py, r.massCenterX, r.massCenterY, mt) * theta > r.size {
      WholeRegionIsFar(nodes, r, px, py, theta, mt);
    } else {
      TraceFromFar(nodes, r, 0, px, py, theta, mt);
    }
  }

  lemma WholeRegionIsFar(nodes: seq<FaNode>, r: Region, px: real, py: real, theta: real, mt: Maths)
    requires Measured(nodes, r, mt) && |r.members| >= 2
    requires Separation(px, py, r.massCenterX, r.massCenterY, mt) * theta > r.size
    ensures FarEnough(Trace(r, px, py, theta, mt), nodes, px, py, theta, mt)
  {
    var whole := WithRegion(r.members, r.mass, r.massCenterX, r.massCenterY);
    MembersNearCentre(nodes, r, px, py, theta, mt);
    assert Trace(r, px, py, theta, mt) == [whole];
  }

  /** A measured region reaches every member from its centre. */
  lemma SizeCovers(nodes: seq<FaNode>, r: Region, mt: Maths, k: nat)
    requires Measured(nodes, r, mt) && |r.members| >= 2 && k < |r.members|
    ensures r.members[k] < |nodes| && r.size >= Reach(mt, nodes[r.members[k]], r.massCenterX, r.massCenterY)
  {
    assert Fits(nodes, r, mt);
  }

  lemma MembersNearCentre(nodes: seq<FaNode>, r: Region, px: real, py: real, theta: real, mt: Maths)
    requires Measured(nodes, r, mt) && |r.members| >= 2
    requires Separation(px, py, r.massCenterX, r.massCenterY, mt) * theta > r.size
    ensures FarOne(WithRegion(r.members, r.mass, r.massCenterX, r.massCenterY), nodes, px, py, theta, mt)
  {
    var bound := Separation(px, py, r.massCenterX, r.massCenterY, mt) * theta;
    forall m | m in r.members
      ensures m < |nodes| && Reach(mt, nodes[m], r.massCenterX, r.massCenterY) < bound
    {
      var k :| 0 <= k < |r.members| && r.members[k] == m;
      SizeCovers(nodes, r, mt, k);
    }
  }

  lemma {:induction false} TraceFromFar(nodes: seq<FaNode>, r: Region, k: nat, px: real, py: real, theta: real,
                                        mt: Maths)
    requires k <= |r.subregions| && forall q | k <= q < |r.subregions| :: Measured(nodes, r.subregions[q], mt)
    ensures FarEnough(TraceFrom(r, k, px, py, theta, mt), nodes, px, py, theta, mt)
    decreases r, 0, |r.subregions| - k
  {
    if k < |r.subregions| {
      AggregatedRegionsAreFar(nodes, r.subregions[k], px, py, theta, mt);
      TraceFromFar(nodes, r, k + 1, px, py, theta, mt);
      FarEnoughAppend(Trace(r.subregions[k], px, py, theta, mt), TraceFrom(r, k + 1, px, py, theta, mt),
                      nodes, px, py, theta, mt);
    }
  }
}

=== FILE: fa_step.dfy ===
/** The parts of a ForceAtlas2 step that the Kotlin engine
    (`ForceAtlas2.kt`) and the Java engine (`ForceAtlas2.java`) share: the
    settings, the repulsion tasks, the attraction along the links, the
    adaptive speed and the displacement. Line numbers are those of
    ForceAtlas2.kt; the Java engine has the same code at the lines given
    in each comment.

    Doubles are reals. Where the source's arithmetic leaves the reals (a
    quotient over zero, which the source turns into an infinity or NaN and
    carries on with), a step here ends in `NotANumber` instead. */
module FaStep {
  import opened Wrappers
  import opened SeqMath
  import opened FaMaths
  import opened FaNodes
  import opened ForceFactory
  import opened BarnesHut
  import opened NodesThreads

  /** The tuning of a layout: the constructor parameters of the Kotlin
      engine, the properties of the Java one. */
  datatype Settings = Settings(
    outbound: bool, adjustSizes: bool, barnesHut: bool, linLog: bool, strongGravity: bool,
    edgeWeightInfluence: real, jitterTolerance: real, scalingRatio: real, gravity: real, theta: real)

  /** `NotANumber`: the step divides by zero. `Uninitialized`: the step
      reads a `lateinit` property that was never set. */
  datatype StepError = NotANumber | Uninitialized

  /** How far `c` threads are from one thread fewer than the processors. */
  function Shortfall(c: int, processors: int): nat
  {
    var wanted := processors - 1;
    if c < wanted then wanted - c else c - wanted
  }

  /** Line 33 (Java 99): one thread fewer than there are processors, kept
      between 1 and 4, so the count in that range nearest to it. */
  function ThreadCount(processors: int): (t: nat)
    ensures 1 <= t <= 4
    ensures forall c | 1 <= c <= 4 :: Shortfall(t, processors) <= Shortfall(c, processors)
  {
    var wanted := processors - 1;
    if wanted < 1 then 1 else if wanted > 4 then 4 else wanted
  }

  // ---------------------------------------------------------------------------
  // Repulsion and gravity (lines 65-91, Java 175-192)

  /** Line 65: the repulsion of the settings, scaled by the scaling ratio. */
  function Repulsion(s: Settings): RepulsionForce
  {
    BuildRepulsion(s.adjustSizes, s.scalingRatio)
  }

  /** Lines 71-82: every task gets the same parameters but its range. The
      gravity variant is strong gravity in strong gravity mode and the
      repulsion itself otherwise; all three forces scale with the scaling
      ratio. */
  function Template(s: Settings, root: Region): (job: Job)
    ensures job.barnesHut == s.barnesHut && job.theta == s.theta && job.gravity == s.gravity
    ensures job.gravityForce.StrongGravity? <==> s.strongGravity
    ensures !s.strongGravity ==> job.gravityForce == job.repulsion
    ensures job.repulsion.LinRepulsionAntiCollision? <==> s.adjustSizes
    ensures job.gravityForce.coefficient == job.repulsion.coefficient == job.scaling == s.scalingRatio
  {
    Job(0, 0, s.barnesHut, s.theta, s.gravity,
        if s.strongGravity then GetStrongGravity(s.scalingRatio) else Repulsion(s),
        s.scalingRatio, root, Repulsion(s))
  }

  /** The last task ends at the end of the node list, so no task reaches
      past it. */
  lemma TaskWithin(n: nat, count: nat, t: nat)
    requires count > 0 && 1 <= t <= count
    ensures TaskFrom(n, count, t) <= TaskTo(n, count, t) <= n
  {
    var a, b, c := n * (t - 1), n * t, n * count;
    assert a <= b by { MulMonotone(t - 1, t, n); }
    assert b <= c by { MulMonotone(t, count, n); }
    DivMonotone(a, b, count);
    DivMonotone(b, c, count);
    MulDivCancel(n, count);
  }

  /** Every task of the tiling can be run on the node list. */
  lemma TaskRunnable(job: Job, n: nat, count: nat, t: nat)
    requires count > 0 && 1 <= t <= count && job.scaling != 0.0
    requires job.barnesHut && n > 0 ==> Usable(job.root, n)
    ensures Runnable(TaskJob(job, n, count, t), n)
  {
    TaskWithin(n, count, t);
  }

  /** Lines 67-91: tasks `t, t - 1, ..., 1` of `count`, run one after the
      other. Only force accumulators change. */
  function RunTasks(job: Job, count: nat, t: nat, nodes: seq<FaNode>, mt: Maths): (out: seq<FaNode>)
    requires count > 0 && t <= count && job.scaling != 0.0
    requires job.barnesHut && |nodes| > 0 ==> Usable(job.root, |nodes|)
    ensures |out| == |nodes| && forall m | 0 <= m < |out| :: SamePlace(out[m], nodes[m])
    decreases t
  {
    if t == 0 then nodes
    else
      TaskRunnable(job, |nodes|, count, t);
      var next := Run(TaskJob(job, |nodes|, count, t), nodes, mt);
      RunTasks(job, count, t - 1, next, mt)
  }

  // ---------------------------------------------------------------------------
  // Attraction (lines 93-113, Java 195-208)

  /** One attraction `apply`: between the nodes at positions `i` and `j`,
      with the given edge weight. */
  datatype Pull = Pull(i: nat, j: nat, weight: real)

  predicate PullsIn(pulls: seq<Pull>, count: nat)
  {
    forall k | 0 <= k < |pulls| :: pulls[k].i < count && pulls[k].j < count
  }

  /** Every node has a mass of at least 1, as the step gives them. */
  predicate Massive(nodes: seq<FaNode>)
  {
    forall m | 0 <= m < |nodes| :: nodes[m].mass >= 1.0
  }

  /** Lines 93-96: the attraction of the settings, with the compensation
      as coefficient when the attraction is distributed over the outbound
      links and 1 otherwise. */
  function Attraction(s: Settings, compensation: real): (a: AttractionForce)
    ensures IsLog(a) == s.linLog && IsDistributed(a) == s.outbound && IsAntiCollision(a) == s.adjustSizes
    ensures a.coefficient == if s.outbound then compensation else 1.0
  {
    BuildAttraction(s.linLog, s.outbound, s.adjustSizes, 1.0 * if s.outbound then compensation else 1.0)
  }

  /** Lines 97-113: the weight a link pulls with. The two special cases
      are what `pow` gives for the exponents 0 and 1, so the weight is
      always the link weight to the power of the influence, only computed
      without `pow` where it is not needed. */
  function EdgeWeight(influence: real, weight: real, mt: Maths): (w: real)
    ensures influence == 0.0 ==> w == 1.0
    ensures mt.pow(weight, 0.0) == 1.0 && mt.pow(weight, 1.0) == weight ==> w == mt.pow(weight, influence)
  {
    if influence == 0.0 then 1.0
    else if influence == 1.0 then weight
    else mt.pow(weight, influence)
  }

  /** Lines 98-112: the pulls in order. Only force accumulators change. */
  function Attract(nodes: seq<FaNode>, pulls: seq<Pull>, a: AttractionForce, mt: Maths): (out: seq<FaNode>)
    requires PullsIn(pulls, |nodes|) && (IsDistributed(a) ==> Massive(nodes))
    ensures |out| == |nodes| && forall m | 0 <= m < |out| :: SamePlace(out[m], nodes[m])
    decreases |pulls|
  {
    if |pulls| == 0 then nodes
    else
      var p := pulls[|pulls| - 1];
      var before := Attract(nodes, pulls[..|pulls| - 1], a, mt);
      AttractPair(before, p.i, p.j, a, p.weight, mt)
  }

  /** The horizontal forces of the nodes. */
  function ForcesX(nodes: seq<FaNode>): (r: seq<real>)
    ensures |r| == |nodes| && forall m | 0 <= m < |nodes| :: r[m] == nodes[m].dx
  {
    seq(|nodes|, m requires 0 <= m < |nodes| => nodes[m].dx)
  }

  /** The vertical forces of the nodes. */
  function ForcesY(nodes: seq<FaNode>): (r: seq<real>)
    ensures |r| == |nodes| && forall m | 0 <= m < |nodes| :: r[m] == nodes[m].dy
  {
    seq(|nodes|, m requires 0 <= m < |nodes| => nodes[m].dy)
  }

  /** A pair force is an action and its reaction: what one node gains the
      other loses, so the total force does not change. */
  lemma ExchangeConserves(nodes: seq<FaNode>, i: nat, j: nat, k: real)
    requires i < |nodes| && j < |nodes|
    ensures Sum(ForcesX(Exchange(nodes, i, j, k))) == Sum(ForcesX(nodes))
    ensures Sum(ForcesY(Exchange(nodes, i, j, k))) == Sum(ForcesY(nodes))
  {
    var r := Exchange(nodes, i, j, k);
    if i != j {
      TransferKeepsSum(ForcesX(nodes), ForcesX(r), i, j, r[i].dx - nodes[i].dx);
      TransferKeepsSum(ForcesY(nodes), ForcesY(r), i, j, r[i].dy - nodes[i].dy);
    }
  }

  /** Moving `d` from entry `j` to entry `i` keeps the sum. */
  lemma TransferKeepsSum(s: seq<real>, t: seq<real>, i: nat, j: nat, d: real)
    requires |s| == |t| && i < |s| && j < |s| && i != j
    requires t[i] == s[i] + d && t[j] == s[j] - d
    requires forall m | 0 <= m < |s| && m != i && m != j :: t[m] == s[m]
    ensures Sum(t) == Sum(s)
  {
    var once := s[i := s[i] + d];
    assert forall k | 0 <= k < |s| :: once[k] == s[k] + (if k == i then d else 0.0);
    SumRaisedAt(once, s, i, d);
    assert forall k | 0 <= k < |s| :: t[k] == once[k] + (if k == j then -d else 0.0);
    SumRaisedAt(t, once, j, -d);
  }

  /** The attraction as a whole is made of such pairs, so it leaves the
      total force of all nodes as it found it. */
  lemma {:induction false} AttractConserves(nodes: seq<FaNode>, pulls: seq<Pull>, a: AttractionForce, mt: Maths)
    requires PullsIn(pulls, |nodes|) && (IsDistributed(a) ==> Massive(nodes))
    ensures Sum(ForcesX(Attract(nodes, pulls, a, mt))) == Sum(ForcesX(nodes))
    ensures Sum(ForcesY(Attract(nodes, pulls, a, mt))) == Sum(ForcesY(nodes))
    decreases |pulls|
  {
    if |pulls| > 0 {
      var p := pulls[|pulls| - 1];
      var rest := pulls[..|pulls| - 1];
      assert PullsIn(rest, |nodes|) by {
        assert forall q | 0 <= q < |rest| :: rest[q] == pulls[q];
      }
      var before := Attract(nodes, rest, a, mt);
      var k := AttractionFactor(a, before[p.i], before[p.j], p.weight, mt);
      assert Attract(nodes, pulls, a, mt) == Exchange(before, p.i, p.j, k);
      AttractConserves(nodes, rest, a, mt);
      ExchangeConserves(before, p.i, p.j, k);
    }
  }

  // ---------------------------------------------------------------------------
  // Outbound compensation (lines 59-63, Java 164-171)

  function MassSum(nodes: seq<FaNode>): real
  {
    if |nodes| == 0 then 0.0 else MassSum(nodes[..|nodes| - 1]) + nodes[|nodes| - 1].mass
  }

  /** Line 62: the mean mass. */
  function MeanMass(nodes: seq<FaNode>): real
    requires |nodes| > 0
  {
    MassSum(nodes) / |nodes| as real
  }

  /** The masses add up to at least one per node. */
  lemma {:induction false} MassSumAtLeastCount(nodes: seq<FaNode>)
    requires Massive(nodes)
    ensures MassSum(nodes) >= |nodes| as real
    decreases |nodes|
  {
    if |nodes| > 0 {
      MassSumAtLeastCount(nodes[..|nodes| - 1]);
    }
  }

  /** Equal masses add up to that mass once per node. */
  lemma {:induction false} MassSumOfEqual(nodes: seq<FaNode>, mass: real)
    requires forall m | 0 <= m < |nodes| :: nodes[m].mass == mass
    ensures MassSum(nodes) == |nodes| as real * mass
    decreases |nodes|
  {
    if |nodes| > 0 {
      MassSumOfEqual(nodes[..|nodes| - 1], mass);
    }
  }

  /** The compensation is a mean: at least 1 when every mass is, and the
      common mass when all masses are equal. */
  lemma MeanMassIsMean(nodes: seq<FaNode>, mass: real)
    requires |nodes| > 0
    ensures Massive(nodes) ==> MeanMass(nodes) >= 1.0
    ensures (forall m | 0 <= m < |nodes| :: nodes[m].mass == mass) ==> MeanMass(nodes) == mass
  {
    var n := |nodes| as real;
    if Massive(nodes) {
      MassSumAtLeastCount(nodes);
      QuotientBound(MassSum(nodes), n, 1.0);
    }
    if forall m | 0 <= m < |nodes| :: nodes[m].mass == mass {
      MassSumOfEqual(nodes, mass);
      assert MassSum(nodes) / n == mass * n / n;
    }
  }

  // ---------------------------------------------------------------------------
  // Adaptive speed (lines 115-147, Java 211-254)

  /** Line 119: how much the node's force turned since the step before. */
  function Swinging(n: FaNode, mt: Maths): real
  {
    n.mass * mt.sqrt(mt.pow(n.oldDx - n.dx, 2.0) + mt.pow(n.oldDy - n.dy, 2.0))
  }

  /** Lines 120-121: how much of the node's force carried on. */
  function Traction(n: FaNode, mt: Maths): real
  {
    n.mass * 0.5 * mt.sqrt(mt.pow(n.oldDx + n.dx, 2.0) + mt.pow(n.oldDy + n.dy, 2.0))
  }

  /** The sum of `f` over the nodes that are not fixed. */
  function FreeSum(nodes: seq<FaNode>, f: FaNode -> real): real
    decreases |nodes|
  {
    if |nodes| == 0 then 0.0
    else
      var n := nodes[|nodes| - 1];
      FreeSum(nodes[..|nodes| - 1], f) + if n.isFixed then 0.0 else f(n)
  }

  /** Lines 115-122: the total swinging and traction of the nodes that are
      not fixed. */
  function Totals(nodes: seq<FaNode>, mt: Maths): (real, real)
  {
    (FreeSum(nodes, n => Swinging(n, mt)), FreeSum(nodes, n => Traction(n, mt)))
  }

  /** A sum over free nodes of a function that is never negative is not
      negative. */
  lemma {:induction false} FreeSumNonNegative(nodes: seq<FaNode>, f: FaNode -> real)
    requires forall m | 0 <= m < |nodes| :: f(nodes[m]) >= 0.0
    ensures FreeSum(nodes, f) >= 0.0
    decreases |nodes|
  {
    if |nodes| > 0 {
      FreeSumNonNegative(nodes[..|nodes| - 1], f);
    }
  }

  /** A fixed node does not count in a sum over free nodes, whatever its
      state. */
  lemma {:induction false} FixedNodeDoesNotCount(nodes: seq<FaNode>, p: nat, n: FaNode, f: FaNode -> real)
    requires p < |nodes| && nodes[p].isFixed && n.isFixed
    ensures FreeSum(nodes[p := n], f) == FreeSum(nodes, f)
    decreases |nodes|
  {
    var changed := nodes[p := n];
    var last := |nodes| - 1;
    if p < last {
      assert changed[..last] == nodes[..last][p := n];
      FixedNodeDoesNotCount(nodes[..last], p, n, f);
    } else {
      assert changed[..last] == nodes[..last];
    }
  }

  /** With square roots that are not negative and masses that are not
      negative, both totals are not negative. */
  lemma TotalsNonNegative(nodes: seq<FaNode>, mt: Maths)
    requires SqrtNonNegative(mt) && forall m | 0 <= m < |nodes| :: nodes[m].mass >= 0.0
    ensures Totals(nodes, mt).0 >= 0.0 && Totals(nodes, mt).1 >= 0.0
  {
    forall m | 0 <= m < |nodes|
      ensures Swinging(nodes[m], mt) >= 0.0 && Traction(nodes[m], mt) >= 0.0
    {
      NodeTotalsNonNegative(nodes[m], mt);
    }
    FreeSumNonNegative(nodes, n => Swinging(n, mt));
    FreeSumNonNegative(nodes, n => Traction(n, mt));
  }

  lemma NodeTotalsNonNegative(n: FaNode, mt: Maths)
    requires SqrtNonNegative(mt) && n.mass >= 0.0
    ensures Swinging(n, mt) >= 0.0 && Traction(n, mt) >= 0.0
  {
    NonNegativeProduct(n.mass, mt.sqrt(mt.pow(n.oldDx - n.dx, 2.0) + mt.pow(n.oldDy - n.dy, 2.0)));
    NonNegativeProduct(n.mass * 0.5, mt.sqrt(mt.pow(n.oldDx + n.dx, 2.0) + mt.pow(n.oldDy + n.dy, 2.0)));
  }

  lemma NonNegativeProduct(a: real, b: real)
    requires a >= 0.0 && b >= 0.0
    ensures a * b >= 0.0
  {
  }

  /** Lines 117-118: a fixed node does not count in either total, whatever
      its state. */
  lemma FixedNodesDoNotCount(nodes: seq<FaNode>, p: nat, n: FaNode, mt: Maths)
    requires p < |nodes| && nodes[p].isFixed && n.isFixed
    ensures Totals(nodes[p := n], mt) == Totals(nodes, mt)
  {
    FixedNodeDoesNotCount(nodes, p, n, n => Swinging(n, mt));
    FixedNodeDoesNotCount(nodes, p, n, n => Traction(n, mt));
  }

  /** `max(lo, min(hi, v))`: `v` kept between `lo` and `hi`, with `lo`
      winning when the bounds cross. */
  function Clamp(lo: real, hi: real, v: real): (r: real)
    ensures lo <= r
    ensures lo <= hi ==> r <= hi
    ensures lo <= v <= hi ==> r == v
    ensures v < lo ==> r == lo
    ensures lo <= hi < v ==> r == hi
  {
    Max(lo, Min(hi, v))
  }

  /** Lines 124-131: the jitter tolerance, the estimated optimal one for
      the number of nodes kept between its square root and 10, scaled by
      the setting. */
  function JitterTolerance(tolerance: real, count: nat, traction: real, mt: Maths): real
    requires count > 0
  {
    var estimated := 0.05 * mt.sqrt(count as real);
    tolerance * Clamp(mt.sqrt(estimated), 10.0, estimated * traction / (count * count) as real)
  }

  /** Line 135, `swinging / traction > 2`. Over a zero traction the
      quotient is an infinity of the numerator's sign, or NaN for 0, so the
      test holds exactly when the swinging is positive. */
  predicate Erratic(swinging: real, traction: real)
  {
    if traction != 0.0 then swinging / traction > 2.0 else swinging > 0.0
  }

  /** For a traction that is not negative, the swinging is erratic exactly
      when it exceeds twice the traction. */
  lemma ErraticIffSwingingDominates(swinging: real, traction: real)
    requires traction >= 0.0
    ensures Erratic(swinging, traction) <==> swinging > 2.0 * traction
  {
    if traction > 0.0 {
      QuotientBound(swinging, traction, 2.0);
    }
  }

  /** Over a positive divisor, a quotient exceeds `q` exactly when the
      dividend exceeds `q` times the divisor. */
  lemma QuotientBound(a: real, d: real, q: real)
    requires d > 0.0
    ensures a / d > q <==> a > q * d
    ensures a / d >= q <==> a >= q * d
  {
    var x := a / d;
    assert x * d == a;
    assert (x - q) * d == a - q * d;
    if x > q {
      PositiveProduct(x - q, d);
    } else if x < q {
      PositiveProduct(q - x, d);
    }
  }

  lemma PositiveProduct(a: real, b: real)
    requires a > 0.0 && b > 0.0
    ensures a * b > 0.0
  {
  }

  const MinSpeedEfficiency: real := 0.05

  /** Line 140 with lines 146-147: the target speed `numerator / swinging`,
      reached unless it lies more than half above the speed. Over a zero
      swinging the target is +∞ for a positive numerator, so the speed
      rises by half; for any other numerator it is -∞ or NaN. */
  function NextSpeed(speed: real, numerator: real, swinging: real): (r: Result<real, StepError>)
    ensures r.Failure? <==> swinging == 0.0 && numerator <= 0.0
    ensures swinging != 0.0 ==> r == Success(Min(numerator / swinging, 1.5 * speed))
    ensures swinging == 0.0 && numerator > 0.0 ==> r == Success(1.5 * speed)
    ensures r.Success? && speed >= 0.0 ==> r.value <= 1.5 * speed
  {
    if swinging != 0.0 then Success(speed + Min(numerator / swinging - speed, 0.5 * speed))
    else if numerator > 0.0 then Success(speed + 0.5 * speed)
    else Failure(NotANumber)
  }

  /** Lines 142-144: the efficiency shrinks when the swinging outweighs the
      scaled traction, unless it is at the minimum already, and grows while
      the speed is below 1000 otherwise. */
  function Tuned(efficiency: real, speed: real, swinging: real, jt: real, traction: real): real
  {
    if swinging > jt * traction then
      if efficiency > MinSpeedEfficiency then efficiency * 0.7 else efficiency
    else if speed < 1000.0 then efficiency * 1.3
    else efficiency
  }

  /** The speed and the speed efficiency. */
  datatype Pace = Pace(speed: real, efficiency: real)

  /** Lines 115-147: the new speed and efficiency. The speed rises by at
      most half. The efficiency only shrinks from above the minimum 0.05 and
      only grows while the speed is below 1000, and then by at most 30%;
      as it halves at most once and loses 30% at most once per step, and
      only from above 0.05, it never falls to 0.025 from above it (it can
      fall below 0.05). The step fails only when the swinging adds up to
      0. */
  function Adapt(pace: Pace, nodes: seq<FaNode>, tolerance: real, mt: Maths): (r: Result<Pace, StepError>)
    requires |nodes| > 0
    ensures r.Failure? ==> r.error == NotANumber && Totals(nodes, mt).0 == 0.0
    ensures r.Success? && pace.speed >= 0.0 ==> r.value.speed <= 1.5 * pace.speed
    ensures r.Success? && 0.0 < r.value.efficiency < pace.efficiency ==> pace.efficiency > MinSpeedEfficiency
    ensures r.Success? && 0.0 < pace.efficiency < r.value.efficiency ==>
              pace.speed < 1000.0 && r.value.efficiency <= 1.3 * pace.efficiency
    ensures r.Success? && pace.efficiency > 0.025 ==> r.value.efficiency > 0.025
  {
    var totals := Totals(nodes, mt);
    var swinging := totals.0;
    var traction := totals.1;
    var jt0 := JitterTolerance(tolerance, |nodes|, traction, mt);
    var erratic := Erratic(swinging, traction);
    var efficiency := if erratic && pace.efficiency > MinSpeedEfficiency then pace.efficiency * 0.5 else pace.efficiency;
    var jt := if erratic then Max(jt0, tolerance) else jt0;
    var speed :- NextSpeed(pace.speed, jt * efficiency * traction, swinging);
    Success(Pace(speed, Tuned(efficiency, pace.speed, swinging, jt, traction)))
  }

  /** Starting from 0.06 and a step whose swinging is three times its
      traction, the efficiency is halved to 0.03 and then left alone: the
      minimum 0.05 guards the shrinking but is not a floor. */
  lemma EfficiencyCanFallBelowMinimum()
    ensures Tuned(0.06 * 0.5, 1.0, 3.0, 1.0, 1.0) == 0.03 < MinSpeedEfficiency
    ensures Erratic(3.0, 1.0)
  {
  }

  // ---------------------------------------------------------------------------
  // Displacement (lines 149-172, Java 257-296)

  /** Lines 153-154 and 165-166: the node's own swinging, written with
      products instead of `pow`. */
  function NodeSwinging(n: FaNode, mt: Maths): real
  {
    n.mass * mt.sqrt((n.oldDx - n.dx) * (n.oldDx - n.dx) + (n.oldDy - n.dy) * (n.oldDy - n.dy))
  }

  /** Line 155: the length of the node's force. */
  function ForceLength(n: FaNode, mt: Maths): real
  {
    mt.sqrt(mt.pow(n.dx, 2.0) + mt.pow(n.dy, 2.0))
  }

  /** Lines 156 and 167: the speed, slowed down the more the node swings. */
  function Damped(speed: real, swinging: real, mt: Maths): (f: real)
    requires SqrtNonNegative(mt)
    ensures speed >= 0.0 ==> 0.0 <= f <= speed
  {
    var d := 1.0 + mt.sqrt(speed * swinging);
    assert d >= 1.0;
    assert speed >= 0.0 ==> speed / d <= speed by {
      if speed >= 0.0 {
        assert speed / d * d == speed;
        assert speed <= speed * d;
      }
    }
    speed / d
  }

  /** Lines 153-156 and 165-167: how many times its force a free node
      moves. Without size adjustment that is at most the speed; with it, at
      most a tenth of the speed and never more than 10 units of distance. A
      node without force does not move (the source divides 0 by 0 there). */
  function StepFactor(n: FaNode, speed: real, adjustSizes: bool, mt: Maths): (k: real)
    requires SqrtNonNegative(mt)
    ensures speed >= 0.0 ==> 0.0 <= k
    ensures speed >= 0.0 && !adjustSizes ==> k <= speed
    ensures speed >= 0.0 && adjustSizes ==> k <= 0.1 * speed
    ensures speed >= 0.0 && adjustSizes ==> k * ForceLength(n, mt) <= 10.0
  {
    var damped := Damped(speed, NodeSwinging(n, mt), mt);
    if !adjustSizes then damped
    else
      var df := ForceLength(n, mt);
      if df == 0.0 then 0.0
      else
        var share := 0.1 * damped;
        CappedShare(share, df);
        Min(share * df, 10.0) / df
  }

  /** Dividing `min(a * d, 10)` by a positive `d` gives at most `a`, and at
      most 10 once multiplied by `d` again. */
  lemma CappedShare(a: real, d: real)
    requires d > 0.0
    ensures Min(a * d, 10.0) / d <= a
    ensures Min(a * d, 10.0) / d * d <= 10.0
    ensures a >= 0.0 ==> Min(a * d, 10.0) / d >= 0.0
  {
    var m := Min(a * d, 10.0);
    assert m / d * d == m;
    assert a * d / d == a;
  }

  /** Lines 149-172: a fixed node stays; a free one moves along its force
      by its step factor. Only the position changes. */
  function Move(n: FaNode, speed: real, adjustSizes: bool, mt: Maths): (r: FaNode)
    requires SqrtNonNegative(mt)
    ensures n.isFixed ==> r == n
    ensures r == n.(x := r.x, y := r.y)
    ensures !n.isFixed ==>
              var k := StepFactor(n, speed, adjustSizes, mt);
              r.x == n.x + n.dx * k && r.y == n.y + n.dy * k
  {
    if n.isFixed then n
    else
      var k := StepFactor(n, speed, adjustSizes, mt);
      n.(x := n.x + n.dx * k, y := n.y + n.dy * k)
  }

  /** Every node moved. */
  function Displace(nodes: seq<FaNode>, speed: real, adjustSizes: bool, mt: Maths): (r: seq<FaNode>)
    requires SqrtNonNegative(mt)
    ensures |r| == |nodes| && forall p | 0 <= p < |nodes| :: r[p] == Move(nodes[p], speed, adjustSizes, mt)
  {
    seq(|nodes|, p requires 0 <= p < |nodes| => Move(nodes[p], speed, adjustSizes, mt))
  }

  /** Line 156 as written: with sizes adjusted, a node without force
      divides 0 by 0, and the NaN becomes its position. Anywhere else the
      factor is the one the displacement uses. */
  function StepFactorAsWritten(n: FaNode, speed: real, adjustSizes: bool, mt: Maths): (r: Option<real>)
    requires SqrtNonNegative(mt)
    ensures r.None? <==> adjustSizes && ForceLength(n, mt) == 0.0
    ensures r.Some? ==> r.value == StepFactor(n, speed, adjustSizes, mt)
  {
    var damped := Damped(speed, NodeSwinging(n, mt), mt);
    if !adjustSizes then Some(damped)
    else
      var df := ForceLength(n, mt);
      if df == 0.0 then None else Some(Min(0.1 * damped * df, 10.0) / df)
  }

  /** The displacement of a longer list moves its last node after the
      others. */
  lemma DisplaceSnoc(nodes: seq<FaNode>, speed: real, adjustSizes: bool, mt: Maths)
    requires SqrtNonNegative(mt) && |nodes| > 0
    ensures Displace(nodes, speed, adjustSizes, mt)
            == Displace(nodes[..|nodes| - 1], speed, adjustSizes, mt) + [Move(nodes[|nodes| - 1], speed, adjustSizes, mt)]
  {
  }

  /** A free node without force: where the source divides 0 by 0 when
      sizes are adjusted. */
  ghost predicate Still(n: FaNode, mt: Maths)
  {
    !n.isFixed && ForceLength(n, mt) == 0.0
  }

  ghost predicate SomeStill(nodes: seq<FaNode>, mt: Maths)
  {
    exists p | 0 <= p < |nodes| :: Still(nodes[p], mt)
  }

  lemma SomeStillSplit(nodes: seq<FaNode>, mt: Maths)
    requires |nodes| > 0
    ensures SomeStill(nodes, mt) <==> SomeStill(nodes[..|nodes| - 1], mt) || Still(nodes[|nodes| - 1], mt)
  {
    var before := nodes[..|nodes| - 1];
    if SomeStill(nodes, mt) && !Still(nodes[|nodes| - 1], mt) {
      var p :| 0 <= p < |nodes| && Still(nodes[p], mt);
      assert before[p] == nodes[p];
    }
    if SomeStill(before, mt) {
      var p :| 0 <= p < |before| && Still(before[p], mt);
      assert nodes[p] == before[p];
    }
  }

  /** Lines 149-160 as written for one node: where the factor is defined
      it is the factor of the displacement, so the node moves as there. */
  function MoveAsWritten(n: FaNode, speed: real, adjustSizes: bool, mt: Maths): (r: Result<FaNode, StepError>)
    requires SqrtNonNegative(mt)
    ensures r.Failure? <==> adjustSizes && Still(n, mt)
    ensures r.Failure? ==> r.error == NotANumber
    ensures r.Success? ==> r.value == Move(n, speed, adjustSizes, mt)
  {
    if n.isFixed then Success(n)
    else
      if StepFactorAsWritten(n, speed, adjustSizes, mt).None? then Failure(NotANumber)
      else Success(Move(n, speed, adjustSizes, mt))
  }

  /** Lines 149-172 as written: some position becomes NaN exactly when
      sizes are adjusted and some free node has no force; otherwise every
      node moves as the displacement moves it. */
  function DisplaceAsWritten(nodes: seq<FaNode>, speed: real, adjustSizes: bool, mt: Maths)
    : (r: Result<seq<FaNode>, StepError>)
    requires SqrtNonNegative(mt)
    ensures r.Failure? <==> adjustSizes && SomeStill(nodes, mt)
    ensures r.Failure? ==> r.error == NotANumber
    ensures r.Success? ==> r.value == Displace(nodes, speed, adjustSizes, mt)
    decreases |nodes|
  {
    if |nodes| == 0 then Success([])
    else
      var before := nodes[..|nodes| - 1];
      var last := nodes[|nodes| - 1];
      SomeStillSplit(nodes, mt);
      match DisplaceAsWritten(before, speed, adjustSizes, mt)
      case Failure(e) => Failure(e)
      case Success(init) =>
        match MoveAsWritten(last, speed, adjustSizes, mt)
        case Failure(e) => Failure(e)
        case Success(moved) =>
          DisplaceSnoc(nodes, speed, adjustSizes, mt);
          Success(init + [moved])
  }

  /** A free node without force, with sizes adjusted: where the library
      gives 0 for the square root and the square of 0, as any does, the
      source computes the NaN position. */
  lemma StillNodeGetsNaN(n: FaNode, speed: real, mt: Maths)
    requires SqrtNonNegative(mt) && mt.pow(0.0, 2.0) == 0.0 && mt.sqrt(0.0) == 0.0
    requires !n.isFixed && n.dx == 0.0 && n.dy == 0.0
    ensures MoveAsWritten(n, speed, true, mt) == Failure(NotANumber)
    ensures Move(n, speed, true, mt) == n
  {
    assert ForceLength(n, mt) == mt.sqrt(0.0 + 0.0);
  }

  // ---------------------------------------------------------------------------
  // The step after the bookkeeping (lines 57-172, Java 157-296)

  /** The positions `0, ..., n - 1` of a node list of length `n`. */
  function Positions(n: nat): (r: seq<nat>)
    ensures |r| == n && forall p | 0 <= p < n :: r[p] == p
  {
    seq(n, p => p)
  }

  /** The root the tasks get when no tree is built: the Java engine passes
      `null`, which no task reads outside Barnes–Hut mode. */
  const Unbuilt: Region := Region([], 0.0, 0.0, 0.0, 0.0, [])

  /** Line 57: in Barnes–Hut mode the tree over every position, which the
      tasks can walk. */
  function Root(s: Settings, nodes: seq<FaNode>, mt: Maths): (root: Region)
    requires |nodes| > 0 && Massive(nodes)
    ensures s.barnesHut ==> root.members == Positions(|nodes|) && Usable(root, |nodes|)
  {
    if !s.barnesHut then Unbuilt
    else
      var members := Positions(|nodes|);
      assert MembersIn(members, |nodes|) && Weighty(nodes, members);
      BuildWellFormed(nodes, members, mt);
      BuildMeasured(nodes, members, mt);
      BuiltUsable(nodes, Build(nodes, members, mt), mt);
      Build(nodes, members, mt)
  }

  /** Lines 57-113: the tree, the compensation, the `taskCount` repulsion
      tasks and the attraction along `pulls`. Only force accumulators
      change; the compensation is the mean mass when the attraction is
      distributed and stays as it was otherwise. */
  function Accumulate(s: Settings, nodes: seq<FaNode>, pulls: seq<Pull>, compensation: real, taskCount: nat, mt: Maths)
    : (r: (seq<FaNode>, real))
    requires |nodes| > 0 && Massive(nodes) && PullsIn(pulls, |nodes|)
    requires taskCount > 0 ==> s.scalingRatio != 0.0
    ensures |r.0| == |nodes| && forall p | 0 <= p < |nodes| :: SamePlace(r.0[p], nodes[p])
    ensures s.outbound ==> r.1 == MeanMass(nodes) && r.1 >= 1.0
    ensures !s.outbound ==> r.1 == compensation
  {
    var root := Root(s, nodes, mt);
    var c := if s.outbound then MeanMass(nodes) else compensation;
    MeanMassIsMean(nodes, 1.0);
    var repelled := if taskCount == 0 then nodes else RunTasks(Template(s, root), taskCount, taskCount, nodes, mt);
    assert Massive(repelled) by {
      assert forall p | 0 <= p < |nodes| :: repelled[p].mass == nodes[p].mass;
    }
    (Attract(repelled, pulls, Attraction(s, c), mt), c)
  }

  /** Lines 57-147: the forces of the step, the compensation and the new
      pace. A step over no nodes divides its zero traction by its zero
      swinging for the target speed (line 140), so the new speed is NaN;
      a zero scaling ratio divides the gravity by zero. */
  function Paced(s: Settings, nodes: seq<FaNode>, pulls: seq<Pull>, pace: Pace, compensation: real, taskCount: nat, mt: Maths)
    : (r: Result<(seq<FaNode>, real, Pace), StepError>)
    requires Massive(nodes) && PullsIn(pulls, |nodes|)
    ensures r.Failure? ==> r.error == NotANumber
    ensures |nodes| == 0 || (taskCount > 0 && s.scalingRatio == 0.0) ==> r.Failure?
    ensures r.Success? ==> |r.value.0| == |nodes| && forall p | 0 <= p < |nodes| :: SamePlace(r.value.0[p], nodes[p])
    ensures r.Success? ==> (if s.outbound then r.value.1 >= 1.0 else r.value.1 == compensation)
    ensures r.Success? && pace.speed >= 0.0 ==> r.value.2.speed <= 1.5 * pace.speed
    ensures r.Success? && pace.efficiency > 0.025 ==> r.value.2.efficiency > 0.025
  {
    if |nodes| == 0 || (taskCount > 0 && s.scalingRatio == 0.0) then Failure(NotANumber)
    else
      var (forced, c) := Accumulate(s, nodes, pulls, compensation, taskCount, mt);
      var next :- Adapt(pace, forced, s.jitterTolerance, mt);
      Success((forced, c, next))
  }

  /** What a step keeps of a node: its identity, size, mass and whether
      it is fixed, and the position of a fixed node. */
  predicate Kept(after: FaNode, before: FaNode)
  {
    && after.id == before.id && after.size == before.size && after.mass == before.mass
    && after.isFixed == before.isFixed
    && (before.isFixed ==> after.x == before.x && after.y == before.y)
  }

  /** Every node of `after` keeps what a step keeps of the node at its
      position in `before`. */
  predicate AllKept(after: seq<FaNode>, before: seq<FaNode>)
  {
    |after| == |before| && forall p | 0 <= p < |before| :: Kept(after[p], before[p])
  }

  /** The outcome of a step: the nodes, the new pace and the compensation. */
  datatype Outcome = Outcome(nodes: seq<FaNode>, pace: Pace, compensation: real)

  /** Lines 57-172 with the displacement guarded against a node without
      force: a step fails only where the reals have no value, and every
      node keeps all but its position and force, a fixed node its
      position too. */
  function Advance(s: Settings, nodes: seq<FaNode>, pulls: seq<Pull>, pace: Pace, compensation: real, taskCount: nat, mt: Maths)
    : (r: Result<Outcome, StepError>)
    requires Massive(nodes) && PullsIn(pulls, |nodes|) && SqrtNonNegative(mt)
    ensures r.Failure? ==> r.error == NotANumber
    ensures |nodes| == 0 || (taskCount > 0 && s.scalingRatio == 0.0) ==> r.Failure?
    ensures r.Success? ==> AllKept(r.value.nodes, nodes)
    ensures r.Success? ==> (if s.outbound then r.value.compensation >= 1.0 else r.value.compensation == compensation)
    ensures r.Success? && pace.speed >= 0.0 ==> r.value.pace.speed <= 1.5 * pace.speed
    ensures r.Success? && pace.efficiency > 0.025 ==> r.value.pace.efficiency > 0.025
  {
    var (forced, c, next) :- Paced(s, nodes, pulls, pace, compensation, taskCount, mt);
    Success(Outcome(Displace(forced, next.speed, s.adjustSizes, mt), next, c))
  }

  /** Lines 57-172 as written: with sizes adjusted, a free node without
      force gets a NaN position. That is the only way it differs from the
      guarded step. */
  function AdvanceAsWritten(s: Settings, nodes: seq<FaNode>, pulls: seq<Pull>, pace: Pace, compensation: real,
                            taskCount: nat, mt: Maths): (r: Result<Outcome, StepError>)
    requires Massive(nodes) && PullsIn(pulls, |nodes|) && SqrtNonNegative(mt)
    ensures r.Success? ==> r == Advance(s, nodes, pulls, pace, compensation, taskCount, mt)
    ensures r.Failure? ==> r.error == NotANumber
    ensures r.Failure? && Advance(s, nodes, pulls, pace, compensation, taskCount, mt).Success? ==> s.adjustSizes
  {
    match Paced(s, nodes, pulls, pace, compensation, taskCount, mt)
    case Failure(e) => Failure(e)
    case Success((forced, c, next)) =>
      var guarded := Outcome(Displace(forced, next.speed, s.adjustSizes, mt), next, c);
      assert Advance(s, nodes, pulls, pace, compensation, taskCount, mt) == Success(guarded);
      match DisplaceAsWritten(forced, next.speed, s.adjustSizes, mt)
      case Failure(e) => Failure(e)
      case Success(moved) => Success(guarded.(nodes := moved))
  }
}

=== FILE: gephi_graph.dfy ===
/** The gephi `Graph` shim the Java ForceAtlas2 runs on: a node list, an
    edge list and a degree table indexed by node id, filled once when the
    graph is made. */
module GephiGraph {
  import opened Wrappers
  import opened SeqMath
  import NetterNetwork
  import DegreeCentrality

  /** An edge between the nodes with ids `source` and `target`. */
  datatype Edge = Edge(source: int, target: int)

  /** `nodes` holds the ids of the node objects, in list order. */
  datatype Graph = Graph(nodes: seq<int>, edges: seq<Edge>, degrees: seq<int>)

  /** Reference degree: the number of edges touching `id`, so a self-loop
      counts once. */
  function Degree(edges: seq<Edge>, id: int): nat
  {
    if |edges| == 0 then 0
    else
      var e := edges[|edges| - 1];
      Degree(edges[..|edges| - 1], id) + (if e.source == id || e.target == id then 1 else 0)
  }

  /** The number of self-loops. */
  function Loops(edges: seq<Edge>): nat
  {
    if |edges| == 0 then 0
    else
      var e := edges[|edges| - 1];
      Loops(edges[..|edges| - 1]) + (if e.source == e.target then 1 else 0)
  }

  /** Both ends of every edge index a table of length `size`. */
  predicate EdgesInRange(edges: seq<Edge>, size: nat)
  {
    forall i | 0 <= i < |edges| :: 0 <= edges[i].source < size && 0 <= edges[i].target < size
  }

  /** The index the table fill throws on at edge `e`: the source first;
      the target is only read for an edge that is not a self-loop. */
  function BadEnd(e: Edge, size: nat): int
  {
    if 0 <= e.source < size then e.target else e.source
  }

  /** The degree table holds every node's reference degree. */
  ghost predicate Tabulated(g: Graph)
  {
    && |g.degrees| == |g.nodes|
    && forall id | 0 <= id < |g.nodes| :: g.degrees[id] == Degree(g.edges, id)
  }

  /** The table after the first `i` edges. */
  ghost predicate FilledUpTo(edges: seq<Edge>, size: nat, degrees: seq<int>, i: nat)
    requires i <= |edges|
  {
    && |degrees| == size
    && EdgesInRange(edges[..i], size)
    && (forall id | 0 <= id < size :: degrees[id] == Degree(edges[..i], id))
    && SumInt(degrees) == 2 * i - Loops(edges[..i])
  }

  /** One more edge adds its own contribution. */
  lemma DegreeStep(edges: seq<Edge>, i: nat, id: int)
    requires i < |edges|
    ensures Degree(edges[..i + 1], id)
            == Degree(edges[..i], id) + (if edges[i].source == id || edges[i].target == id then 1 else 0)
    ensures Loops(edges[..i + 1]) == Loops(edges[..i]) + (if edges[i].source == edges[i].target then 1 else 0)
  {
    assert edges[..i + 1][..i] == edges[..i];
  }

  lemma EdgesInRangeStep(edges: seq<Edge>, size: nat, i: nat)
    requires i < |edges| && EdgesInRange(edges[..i], size)
    requires 0 <= edges[i].source < size && 0 <= edges[i].target < size
    ensures EdgesInRange(edges[..i + 1], size)
  {
    assert forall j | 0 <= j < i :: edges[..i + 1][j] == edges[..i][j];
  }

  /** Lines 8-11 for one edge: the source's slot, then the target's unless
      the edge is a self-loop. */
  function Count(degrees: seq<int>, e: Edge): (r: seq<int>)
    requires 0 <= e.source < |degrees| && 0 <= e.target < |degrees|
    ensures |r| == |degrees|
  {
    var once := degrees[e.source := degrees[e.source] + 1];
    if e.source != e.target then once[e.target := once[e.target] + 1] else once
  }

  lemma CountStep(edges: seq<Edge>, size: nat, degrees: seq<int>, i: nat)
    requires i < |edges| && FilledUpTo(edges, size, degrees, i)
    requires 0 <= edges[i].source < size && 0 <= edges[i].target < size
    ensures FilledUpTo(edges, size, Count(degrees, edges[i]), i + 1)
  {
    var e := edges[i];
    var once := degrees[e.source := degrees[e.source] + 1];
    var counted := Count(degrees, e);
    SumIntUpdate(degrees, e.source, 1);
    if e.source != e.target {
      assert counted == once[e.target := once[e.target] + 1];
      SumIntUpdate(once, e.target, 1);
    }
    DegreeStep(edges, i, 0);
    assert SumInt(counted) == 2 * (i + 1) - Loops(edges[..i + 1]);
    EdgesInRangeStep(edges, size, i);
    forall id | 0 <= id < size
      ensures counted[id] == Degree(edges[..i + 1], id)
    {
      DegreeStep(edges, i, id);
    }
  }

  /** Lines 4-12: one zero slot per node, one per edge end, a self-loop
      counted once. The table then holds the reference degrees, which add
      up to twice the edges less the self-loops; an end outside the table
      throws at the first edge that has one. */
  method NewGraph(nodes: seq<int>, edges: seq<Edge>) returns (r: Result<Graph, IndexError>)
    ensures r.Success? <==> EdgesInRange(edges, |nodes|)
    ensures r.Success? ==> r.value.nodes == nodes && r.value.edges == edges && Tabulated(r.value)
    ensures r.Success? ==> SumInt(r.value.degrees) == 2 * |edges| - Loops(edges)
    ensures r.Failure? ==>
              exists i | 0 <= i < |edges| ::
                && EdgesInRange(edges[..i], |nodes|)
                && !EdgesInRange(edges[..i + 1], |nodes|)
                && r.error == IndexOutOfBounds(BadEnd(edges[i], |nodes|), |nodes|)
  {
    var size := |nodes|;
    var degrees := seq(size, _ => 0);
    SumIntZeros(size);
    var i := 0;
    while i < |edges|
      invariant 0 <= i <= |edges|
      invariant FilledUpTo(edges, size, degrees, i)
    {
      var e := edges[i];
      if !(0 <= e.source < size && 0 <= e.target < size) {
        assert edges[..i + 1][i] == e;
        return Failure(IndexOutOfBounds(BadEnd(e, size), size));
      }
      CountStep(edges, size, degrees, i);
      degrees := Count(degrees, e);
      i := i + 1;
    }
    assert edges[..i] == edges;
    return Success(Graph(nodes, edges, degrees));
  }

  /** Line 14: the slot of the node's id; an id outside the table throws. */
  function GetDegree(g: Graph, id: int): (r: Result<int, IndexError>)
    ensures r.Failure? <==> !(0 <= id < |g.degrees|)
    ensures Tabulated(g) && 0 <= id < |g.nodes| ==> r == Success(Degree(g.edges, id))
  {
    if 0 <= id < |g.degrees| then Success(g.degrees[id]) else Failure(IndexOutOfBounds(id, |g.degrees|))
  }

  /** Line 16: the number of nodes, which is also the number of degree
      slots. */
  function GetNodeCount(g: Graph): (r: nat)
    ensures Tabulated(g) ==> r == |g.degrees|
  {
    |g.nodes|
  }

  /** The number of self-loops at `id`. */
  function LoopsAt(edges: seq<Edge>, id: int): nat
  {
    if |edges| == 0 then 0
    else
      var e := edges[|edges| - 1];
      LoopsAt(edges[..|edges| - 1], id) + (if e.source == id && e.target == id then 1 else 0)
  }

  /** A node has degree zero exactly when no edge touches it. */
  lemma {:induction false} ZeroIffUntouched(edges: seq<Edge>, id: int)
    ensures Degree(edges, id) == 0 <==> forall i | 0 <= i < |edges| :: edges[i].source != id && edges[i].target != id
    decreases |edges|
  {
    if |edges| > 0 {
      var init := edges[..|edges| - 1];
      ZeroIffUntouched(init, id);
      assert forall i | 0 <= i < |init| :: init[i] == edges[i];
    }
  }

  /** The edge list made from Netter links, one edge per link. */
  ghost predicate Mirrors(edges: seq<Edge>, links: seq<NetterNetwork.Link>)
  {
    |edges| == |links| && forall i | 0 <= i < |links| :: edges[i] == Edge(links[i].n1, links[i].n2)
  }

  /** The graph's degree and Netter's degree centrality differ exactly by
      the self-loops: the centrality counts a self-loop twice, the graph
      once. */
  lemma {:induction false} DegreeAndEndpoints(edges: seq<Edge>, links: seq<NetterNetwork.Link>, id: int)
    requires Mirrors(edges, links)
    ensures DegreeCentrality.Endpoints(links, id) == Degree(edges, id) + LoopsAt(edges, id)
    decreases |edges|
  {
    if |edges| > 0 {
      DegreeAndEndpoints(edges[..|edges| - 1], links[..|links| - 1], id);
    }
  }
}

=== FILE: kotlin_text.dfy ===
/** Kotlin's 32-bit `Int` and the string handling the text format relies on:
    `String.split` on a one-character delimiter, `BufferedReader.readLine`,
    and decimal printing (`toString`) and parsing (`toIntOrNull`) of `Int`. */
module KotlinText {
  import opened Wrappers

  const MinInt: int := -0x8000_0000
  const MaxInt: int := 0x7FFF_FFFF

  /** Kotlin `Int`. */
  type Int32 = x: int | -0x8000_0000 <= x <= 0x7FFF_FFFF

  /** The two's-complement bit pattern of an `Int`, which `xor` works on. */
  function Bits(x: Int32): bv32
  {
    var u: int := if x < 0 then x + 0x1_0000_0000 else x;
    assert 0 <= u < 0x1_0000_0000;
    u as bv32
  }

  // ---------------------------------------------------------------------------
  // Splitting and joining on a delimiter

  /** `s.split(d)`: every piece between delimiters, empty pieces included,
      so a string with k delimiters has k + 1 pieces. */
  function Split(s: string, d: char): (parts: seq<string>)
    ensures |parts| >= 1
    ensures forall i | 0 <= i < |parts| :: d !in parts[i]
    decreases |s|
  {
    if |s| == 0 then [""]
    else
      var rest := Split(s[1..], d);
      if s[0] == d then [""] + rest else [[s[0]] + rest[0]] + rest[1..]
  }

  /** The pieces glued back together with the delimiter between them. */
  function Join(parts: seq<string>, d: char): string
    requires |parts| >= 1
    decreases |parts|
  {
    if |parts| == 1 then parts[0] else parts[0] + [d] + Join(parts[1..], d)
  }

  /** A delimiter-free prefix followed by a delimiter is split off as one piece. */
  lemma {:induction false} SplitPiece(w: string, d: char, t: string)
    requires d !in w
    ensures Split(w + [d] + t, d) == [w] + Split(t, d)
    decreases |w|
  {
    if |w| == 0 {
      assert w + [d] + t == [d] + t;
      assert ([d] + t)[1..] == t;
    } else {
      assert (w + [d] + t)[1..] == w[1..] + [d] + t;
      SplitPiece(w[1..], d, t);
      assert [w[0]] + w[1..] == w;
    }
  }

  /** A delimiter-free string is one piece. */
  lemma {:induction false} SplitWhole(w: string, d: char)
    requires d !in w
    ensures Split(w, d) == [w]
    decreases |w|
  {
    if |w| > 0 {
      SplitWhole(w[1..], d);
      assert [w[0]] + w[1..] == w;
    }
  }

  /** Splitting undoes joining delimiter-free pieces. */
  lemma {:induction false} SplitJoin(parts: seq<string>, d: char)
    requires |parts| >= 1
    requires forall i | 0 <= i < |parts| :: d !in parts[i]
    ensures Split(Join(parts, d), d) == parts
    decreases |parts|
  {
    if |parts| == 1 {
      SplitWhole(parts[0], d);
    } else {
      SplitJoin(parts[1..], d);
      SplitPiece(parts[0], d, Join(parts[1..], d));
      assert [parts[0]] + parts[1..] == parts;
    }
  }

  /** Joining undoes splitting. */
  lemma {:induction false} JoinSplit(s: string, d: char)
    ensures Join(Split(s, d), d) == s
    decreases |s|
  {
    if |s| > 0 {
      JoinSplit(s[1..], d);
      var rest := Split(s[1..], d);
      if s[0] != d && |rest| > 1 {
        assert Join([[s[0]] + rest[0]] + rest[1..], d)
            == [s[0]] + rest[0] + [d] + Join(rest[1..], d);
        assert Join(rest, d) == rest[0] + [d] + Join(rest[1..], d);
      }
    }
  }

  // ---------------------------------------------------------------------------
  // Lines

  /** The text written for a sequence of lines, each followed by a newline. */
  function Terminated(lines: seq<string>): string
    decreases |lines|
  {
    if |lines| == 0 then "" else lines[0] + "\n" + Terminated(lines[1..])
  }

  /** The lines `readLine` returns until the end of the text: a final
      newline ends the last line rather than starting an empty one. */
  function ReadLines(text: string): seq<string>
  {
    if |text| == 0 then []
    else
      var parts := Split(text, '\n');
      if parts[|parts| - 1] == "" then parts[..|parts| - 1] else parts
  }

  lemma {:induction false} TerminatedIsJoin(lines: seq<string>)
    ensures Terminated(lines) == Join(lines + [""], '\n')
    decreases |lines|
  {
    if |lines| > 0 {
      TerminatedIsJoin(lines[1..]);
      assert (lines + [""])[1..] == lines[1..] + [""];
    }
  }

  /** Reading back newline-terminated lines gives the lines. */
  lemma ReadTerminated(lines: seq<string>)
    requires forall i | 0 <= i < |lines| :: '\n' !in lines[i]
    ensures ReadLines(Terminated(lines)) == lines
  {
    if |lines| > 0 {
      TerminatedIsJoin(lines);
      SplitJoin(lines + [""], '\n');
      assert (lines + [""])[..|lines|] == lines;
    }
  }

  // ---------------------------------------------------------------------------
  // Decimal Int printing and parsing (ASCII digits)

  predicate IsDigit(c: char) { '0' <= c <= '9' }

  predicate AllDigits(s: string) { forall i | 0 <= i < |s| :: IsDigit(s[i]) }

  /** Value of a string of decimal digits, most significant first. */
  function DigitsValue(s: string): nat
    requires AllDigits(s)
    decreases |s|
  {
    if |s| == 0 then 0 else 10 * DigitsValue(s[..|s| - 1]) + (s[|s| - 1] - '0') as int
  }

  /** Shortest decimal spelling of a natural number. */
  function NatToString(n: nat): (s: string)
    ensures |s| >= 1 && AllDigits(s)
    ensures DigitsValue(s) == n
    decreases n
  {
    var last := ['0' + (n % 10) as char];
    if n < 10 then last
    else
      var s := NatToString(n / 10) + last;
      assert s[..|s| - 1] == NatToString(n / 10);
      s
  }

  /** `Int.toString()`: a minus sign for negative values, then the digits. */
  function IntToString(x: int): (s: string)
    ensures |s| >= 1
    ensures forall i | 0 <= i < |s| :: s[i] != ' ' && s[i] != '\n'
    ensures x >= 0 ==> AllDigits(s)
  {
    if x < 0 then "-" + NatToString(-x) else NatToString(x)
  }

  /** `String.toIntOrNull()`: an optional sign, at least one digit, and a
      value within `Int`'s range. */
  function ParseInt(s: string): (r: Option<Int32>)
    ensures r.Some? ==> |s| >= 1 && forall i | 0 < i < |s| :: IsDigit(s[i])
    ensures r.Some? && |s| >= 1 && s[0] == '-' ==> r.value <= 0
  {
    if |s| == 0 then None
    else
      var negative := s[0] == '-';
      var digits := if s[0] == '-' || s[0] == '+' then s[1..] else s;
      if |digits| == 0 || !AllDigits(digits) then None
      else
        var v: int := if negative then 0 - DigitsValue(digits) as int else DigitsValue(digits);
        if MinInt <= v <= MaxInt then Some(v) else None
  }

  /** Parsing what `toString` printed gives the number back. */
  lemma ParsePrinted(x: Int32)
    ensures ParseInt(IntToString(x)) == Some(x)
  {
    var s := IntToString(x);
    if x < 0 {
      assert s[1..] == NatToString(-(x as int));
    }
  }
}

=== FILE: legacy_txt_io.dfy ===
/** Netter's legacy plain-text importer (`controller/TxtIOHandler.kt`) over
    the older `UndirectedGraph`. The format is the current one: a block of
    edge lines "id1 id2" ended by the first empty line, then a block of
    vertex lines "id community centrality" ended by the next empty line or
    the end of the file. The importer differs in its messages, in checking
    the column count after the line parser has run, in ordering an edge's
    columns by string comparison, and in where it starts filling skipped
    ids. */
module LegacyTxtIo {
  import opened Wrappers
  import opened KotlinText
  import opened NetterNetwork
  import NetterGraph
  import NetterTxtIo

  const ColumnDelimiter: char := ' '
  const EdgeInputColumns: nat := 2
  const VertexInputColumns: nat := 3
  const MinVertexId: int := 0
  const MinCommunity: int := 0
  const MinCentrality: real := 0.0

  type Graph = NetterGraph.Graph

  /** Why a line is rejected. */
  datatype Reason =
    | WrongColumnCount(expected: nat, actual: nat)
    | BadEdgeIds
    | BadVertexFields

  /** The `IOException`s of the importer, each naming the 1-based number of
      the offending line (empty separator lines are counted). */
  datatype ImportError = ImportError(lineNum: nat, reason: Reason)

  function Message(e: ImportError): string
  {
    var n := IntToString(e.lineNum);
    match e.reason
    case WrongColumnCount(expected, actual) =>
      "Incorrect number of columns on line " + n + ": expected " + IntToString(expected)
        + " but was " + IntToString(actual)
    case BadEdgeIds =>
      "Incorrect input format on line " + n + ": both vertex ids must be non-negative integers"
    case BadVertexFields =>
      "Incorrect input format on line " + n
        + ": vertex and community ids must be non-negative integers, centrality must be a non-negative decimal"
  }

  /** Kotlin's `String.compareTo(other) > 0`: the first differing character
      decides, and a proper prefix is the smaller string. */
  predicate LexGreater(a: string, b: string)
    decreases |a|
  {
    if |a| == 0 then false
    else if |b| == 0 then true
    else if a[0] != b[0] then a[0] > b[0]
    else LexGreater(a[1..], b[1..])
  }

  /** What an accepted line carries. For an edge line, `swapped` records
      whether line 51 exchanged the two columns. */
  datatype Line =
    | EdgeLine(id1: Int32, id2: Int32, swapped: bool)
    | VertexLine(id: Int32, community: Int32, centrality: real)
  {
    /** `columns[0]` after the exchange. */
    function Low(): Int32
      requires EdgeLine?
    {
      if swapped then id2 else id1
    }

    /** `columns[1]` after the exchange. */
    function High(): Int32
      requires EdgeLine?
    {
      if swapped then id1 else id2
    }
  }

  /** Both ids of an edge line are non-negative; a vertex line's id,
      community and centrality are non-negative. */
  predicate Accepted(line: Line)
  {
    match line
    case EdgeLine(a, b, _) => a >= MinVertexId && b >= MinVertexId
    case VertexLine(id, c, x) => id >= MinVertexId && c >= MinCommunity && x >= MinCentrality
  }

  /** `parseEdge` followed by the column-count check of line 32: a line
      with the wrong number of columns is neither validated nor applied. */
  function ParseEdge(columns: seq<string>): (r: Result<Line, Reason>)
    ensures r.Failure? && r.error.WrongColumnCount? <==> |columns| != EdgeInputColumns
    ensures r.Failure? && r.error.WrongColumnCount? ==> r.error == WrongColumnCount(EdgeInputColumns, |columns|)
    ensures r.Success? <==>
              && |columns| == EdgeInputColumns
              && ParseInt(columns[0]).Some? && ParseInt(columns[0]).value >= MinVertexId
              && ParseInt(columns[1]).Some? && ParseInt(columns[1]).value >= MinVertexId
    ensures r.Success? ==>
              && r.value == EdgeLine(ParseInt(columns[0]).value, ParseInt(columns[1]).value,
                                     LexGreater(columns[0], columns[1]))
              && Accepted(r.value)
  {
    if |columns| == EdgeInputColumns then
      if || ParseInt(columns[0]).None? || ParseInt(columns[0]).value < MinVertexId
         || ParseInt(columns[1]).None? || ParseInt(columns[1]).value < MinVertexId
      then Failure(BadEdgeIds)
      else Success(EdgeLine(ParseInt(columns[0]).value, ParseInt(columns[1]).value, LexGreater(columns[0], columns[1])))
    else Failure(WrongColumnCount(EdgeInputColumns, |columns|))
  }

  /** `parseVertex` followed by the column-count check of line 32. */
  function ParseVertex(columns: seq<string>, dec: NetterTxtIo.Decimals): (r: Result<Line, Reason>)
    ensures r.Failure? && r.error.WrongColumnCount? <==> |columns| != VertexInputColumns
    ensures r.Failure? && r.error.WrongColumnCount? ==> r.error == WrongColumnCount(VertexInputColumns, |columns|)
    ensures r.Success? <==>
              && |columns| == VertexInputColumns
              && ParseInt(columns[0]).Some? && ParseInt(columns[0]).value >= MinVertexId
              && ParseInt(columns[1]).Some? && ParseInt(columns[1]).value >= MinCommunity
              && dec.parse(columns[2]).Some? && dec.parse(columns[2]).value >= MinCentrality
    ensures r.Success? ==>
              && r.value == VertexLine(ParseInt(columns[0]).value, ParseInt(columns[1]).value, dec.parse(columns[2]).value)
              && Accepted(r.value)
  {
    if |columns| == VertexInputColumns then
      if || ParseInt(columns[0]).None? || ParseInt(columns[0]).value < MinVertexId
         || ParseInt(columns[1]).None? || ParseInt(columns[1]).value < MinCommunity
         || dec.parse(columns[2]).None? || dec.parse(columns[2]).value < MinCentrality
      then Failure(BadVertexFields)
      else Success(VertexLine(ParseInt(columns[0]).value, ParseInt(columns[1]).value, dec.parse(columns[2]).value))
    else Failure(WrongColumnCount(VertexInputColumns, |columns|))
  }

  datatype Block = EdgeBlock | VertexBlock

  /** The parser of the block on the line's space-separated columns. */
  function ParseLine(block: Block, line: string, dec: NetterTxtIo.Decimals): (r: Result<Line, Reason>)
    ensures r.Success? ==> Accepted(r.value) && (r.value.EdgeLine? <==> block == EdgeBlock)
  {
    var columns := Split(line, ColumnDelimiter);
    match block
    case EdgeBlock => ParseEdge(columns)
    case VertexBlock => ParseVertex(columns, dec)
  }

  /** Reads one line: what it carries, or why it is rejected. */
  type LineParser = string -> Result<Line, Reason>

  function BlockParser(block: Block, dec: NetterTxtIo.Decimals): LineParser
  {
    (line: string) => ParseLine(block, line, dec)
  }

  /** What an accepted line does, as written, with `FillDown` for
      `addSkippedVertices`: an edge line adds the edge,
      fills from its larger column (line 52) and then from just below its
      smaller column (line 35); a vertex line sets the vertex and fills from
      just below its id (line 35). */
  function ApplyLine(g: Graph, line: Line): Graph
  {
    match line
    case EdgeLine(id1, id2, _) =>
      var added := AddLink(g, id1, id2).0;
      FillDown(FillDown(added, line.High()), line.Low() - 1)
    case VertexLine(id, c, x) =>
      FillDown(NetterTxtIo.SetNode(g, id, c, x), id - 1)
  }

  /** The corrected edge step: the fill of line 52 starts just below the
      larger column, as the fill of line 35 does for the smaller one. */
  function ApplyLineCorrected(g: Graph, line: Line): Graph
  {
    match line
    case EdgeLine(id1, id2, _) =>
      var added := AddLink(g, id1, id2).0;
      FillDown(FillDown(added, line.High() - 1), line.Low() - 1)
    case VertexLine(id, c, x) =>
      FillDown(NetterTxtIo.SetNode(g, id, c, x), id - 1)
  }

  /** The block ending at index `e`: every line from `i` before it is
      non-empty, and it ends with an empty line or the end of the file. */
  ghost predicate EndsBlock(lines: seq<string>, i: nat, e: nat)
  {
    && i <= e <= |lines|
    && (forall j | i <= j < e - 1 :: lines[j] != "")
    && (e < |lines| ==> i < e && lines[e - 1] == "")
  }

  /** One block from index `i`, each line applied with `apply` as it is
      read (the `while (iterator.hasNext())` loop): up to the first empty
      line or the end of the file, stopping at the first rejected line. On
      success, the graph and the index just past the line that ended the
      block. */
  function ImportBlock(g: Graph, lines: seq<string>, i: nat, parse: LineParser,
                       apply: (Graph, Line) -> Graph): (r: Result<(Graph, nat), ImportError>)
    requires i <= |lines|
    ensures r.Success? ==> EndsBlock(lines, i, r.value.1)
    ensures r.Failure? ==>
              && i < r.error.lineNum <= |lines|
              && (forall j | i <= j < r.error.lineNum :: lines[j] != "")
              && parse(lines[r.error.lineNum - 1]) == Failure(r.error.reason)
    ensures r.Failure? ==> forall j | i <= j < r.error.lineNum - 1 :: parse(lines[j]).Success?
    decreases |lines| - i
  {
    if i == |lines| then Success((g, i))
    else if lines[i] == "" then Success((g, i + 1))
    else
      var parsed := parse(lines[i]);
      if parsed.Failure? then Failure(ImportError(i + 1, parsed.error))
      else ImportBlock(apply(g, parsed.value), lines, i + 1, parse, apply)
  }

  /** A non-empty line that parses is applied before the rest of the block. */
  lemma ImportBlockStep(g: Graph, lines: seq<string>, i: nat, parse: LineParser, apply: (Graph, Line) -> Graph,
                        line: Line)
    requires i < |lines| && lines[i] != "" && parse(lines[i]) == Success(line)
    ensures ImportBlock(g, lines, i, parse, apply) == ImportBlock(apply(g, line), lines, i + 1, parse, apply)
  {
  }

  /** Whatever a block's parser returns passes the line checks. */
  lemma BlockParserAccepts(block: Block, dec: NetterTxtIo.Decimals, text: string)
    requires BlockParser(block, dec)(text).Success?
    ensures Accepted(BlockParser(block, dec)(text).value)
  {
    assert BlockParser(block, dec)(text) == ParseLine(block, text, dec);
  }

  /** The edge block, then the vertex block; lines left after the vertex
      block are reported after the number of its closing empty line. */
  function ImportWith(g: Graph, lines: seq<string>, dec: NetterTxtIo.Decimals, apply: (Graph, Line) -> Graph)
    : (r: Result<NetterTxtIo.Imported, ImportError>)
    ensures r.Success? && r.value.excessAfterLine.Some? ==>
              var k := r.value.excessAfterLine.value; 1 <= k < |lines| && lines[k - 1] == ""
  {
    var (afterEdges, e1) :- ImportBlock(g, lines, 0, BlockParser(EdgeBlock, dec), apply);
    var (afterVertices, e2) :- ImportBlock(afterEdges, lines, e1, BlockParser(VertexBlock, dec), apply);
    Success(NetterTxtIo.Imported(afterVertices, if e2 < |lines| then Some(e2) else None))
  }

  /** `importNetwork(graph, filePath)` as written. */
  function ImportNetwork(g: Graph, lines: seq<string>, dec: NetterTxtIo.Decimals): Result<NetterTxtIo.Imported, ImportError>
  {
    ImportWith(g, lines, dec, ApplyLine)
  }

  /** `importNetwork` with the corrected fill of line 52. */
  function ImportNetworkCorrected(g: Graph, lines: seq<string>, dec: NetterTxtIo.Decimals)
    : Result<NetterTxtIo.Imported, ImportError>
  {
    ImportWith(g, lines, dec, ApplyLineCorrected)
  }

  // ---------------------------------------------------------------------------
  // What one line does

  /** An accepted edge line stores both ids and the edge (or its reverse),
      and changes no stored vertex. */
  lemma EdgeLineAddsEdge(g: Graph, line: Line)
    requires line.EdgeLine? && Accepted(line)
    ensures var r := ApplyLine(g, line);
            && line.id1 in r.nodes && line.id2 in r.nodes
            && HasLink(r.links, Link(line.id1, line.id2))
            && forall k | k in g.nodes :: k in r.nodes && r.nodes[k] == g.nodes[k]
  {
    var added := AddLink(g, line.id1, line.id2).0;
    assert added == AddLink(g, line.id1, line.id2).0;
  }

  /** An accepted vertex line sets that vertex's community and centrality,
      creating it if absent, and changes no other stored vertex. */
  lemma VertexLineSetsVertex(g: Graph, line: Line)
    requires line.VertexLine? && Accepted(line) && Keyed(g)
    ensures var r := ApplyLine(g, line);
            && line.id in r.nodes && r.nodes[line.id] == Node(line.id, line.community, line.centrality)
            && r.links == g.links
            && forall k | k in g.nodes && k != line.id :: k in r.nodes && r.nodes[k] == g.nodes[k]
  {
  }

  /** The fill at line 52 starts at the larger column's id, which `addEdge`
      has just stored, so it never adds a vertex. */
  lemma SecondColumnFillAddsNothing(g: Graph, line: Line)
    requires line.EdgeLine?
    ensures var added := AddLink(g, line.id1, line.id2).0;
            FillDown(added, line.High()) == added
  {
  }

  /** Every line keeps the graph's shape. */
  lemma ApplyLineKeepsValid(g: Graph, line: Line)
    requires Valid(g)
    ensures Valid(ApplyLine(g, line))
  {
    match line {
      case EdgeLine(id1, id2, _) =>
        var added := AddLink(g, id1, id2).0;
        AddLinkKeepsValid(g, id1, id2);
        FillDownKeepsValid(added, line.High());
        FillDownKeepsValid(FillDown(added, line.High()), line.Low() - 1);
      case VertexLine(id, c, x) =>
        NetterTxtIo.SetNodeKeepsValid(g, id, c, x);
        FillDownKeepsValid(NetterTxtIo.SetNode(g, id, c, x), id - 1);
    }
  }

  lemma {:induction false} ImportBlockKeepsValid(g: Graph, lines: seq<string>, i: nat, block: Block,
                                                 dec: NetterTxtIo.Decimals)
    requires i <= |lines| && Valid(g)
    requires ImportBlock(g, lines, i, BlockParser(block, dec), ApplyLine).Success?
    ensures Valid(ImportBlock(g, lines, i, BlockParser(block, dec), ApplyLine).value.0)
    decreases |lines| - i
  {
    if i < |lines| && lines[i] != "" {
      var parse := BlockParser(block, dec);
      var line := parse(lines[i]).value;
      ImportBlockStep(g, lines, i, parse, ApplyLine, line);
      ApplyLineKeepsValid(g, line);
      ImportBlockKeepsValid(ApplyLine(g, line), lines, i + 1, block, dec);
    }
  }

  /** A successful import keeps the graph's shape. */
  lemma ImportKeepsValid(g: Graph, lines: seq<string>, dec: NetterTxtIo.Decimals)
    requires Valid(g) && ImportNetwork(g, lines, dec).Success?
    ensures Valid(ImportNetwork(g, lines, dec).value.network)
  {
    var edges := ImportBlock(g, lines, 0, BlockParser(EdgeBlock, dec), ApplyLine).value;
    ImportBlockKeepsValid(g, lines, 0, EdgeBlock, dec);
    ImportBlockKeepsValid(edges.0, lines, edges.1, VertexBlock, dec);
  }

  // ---------------------------------------------------------------------------
  // The ids as written and corrected

  /** As written, the single edge line "1 5" leaves the vertex ids 0, 1 and
      5: the fill from 5 stops at once, and only the fill from 0 adds a
      vertex. The ids 2, 3 and 4 are missing. */
  lemma AsWrittenLeavesGap(dec: NetterTxtIo.Decimals)
    ensures var r := ImportNetwork(NetterGraph.Empty, ["1 5"], dec);
            && r.Success?
            && (forall k: Int32 :: k in r.value.network.nodes <==> k == 0 || k == 1 || k == 5)
            && !exists m :: NetterTxtIo.IdsUpTo(r.value.network, m)
  {
    assert IntToString(1) == "1" && IntToString(5) == "5";
    assert "1 5" == "1" + [ColumnDelimiter] + "5";
    var line := EdgeLineOf("1", "5", 1, 5, dec);
    var g := ApplyLine(NetterGraph.Empty, line);
    GapGraph(g);
    assert ImportBlock(NetterGraph.Empty, ["1 5"], 0, BlockParser(EdgeBlock, dec), ApplyLine) == Success((g, 1));
  }

  /** As written, "10 9" leaves only the ids 9 and 10: "10" is the smaller
      string, so both fills start at an id already present. */
  lemma AsWrittenStringOrder(dec: NetterTxtIo.Decimals)
    ensures var r := ImportNetwork(NetterGraph.Empty, ["10 9"], dec);
            && r.Success?
            && (forall k: Int32 :: k in r.value.network.nodes <==> k == 9 || k == 10)
  {
    assert LexGreater("10", "9") == false;
    assert IntToString(10) == "10" && IntToString(9) == "9";
    assert "10 9" == "10" + [ColumnDelimiter] + "9";
    var line := EdgeLineOf("10", "9", 10, 9, dec);
    var g := ApplyLine(NetterGraph.Empty, line);
    assert ImportBlock(NetterGraph.Empty, ["10 9"], 0, BlockParser(EdgeBlock, dec), ApplyLine) == Success((g, 1));
  }

  /** The edge line read from the text `a b` whose columns print `x` and
      `y`. */
  lemma EdgeLineOf(a: string, b: string, x: Int32, y: Int32, dec: NetterTxtIo.Decimals)
    returns (line: Line)
    requires a == IntToString(x) && b == IntToString(y) && x >= 0 && y >= 0
    ensures line == EdgeLine(x, y, LexGreater(a, b))
    ensures BlockParser(EdgeBlock, dec)(a + [ColumnDelimiter] + b) == Success(line)
  {
    line := EdgeLine(x, y, LexGreater(a, b));
    NetterTxtIo.LinkTextColumns(Link(x, y));
    ParsePrinted(x);
    ParsePrinted(y);
  }

  /** Ids 0, 1 and 5 do not form a range. */
  lemma GapGraph(g: Graph)
    requires forall k: Int32 :: k in g.nodes <==> k == 0 || k == 1 || k == 5
    ensures !exists m :: NetterTxtIo.IdsUpTo(g, m)
  {
    forall m
      ensures !NetterTxtIo.IdsUpTo(g, m)
    {
      if m <= 5 {
        assert 5 in g.nodes;
      } else {
        assert 2 !in g.nodes;
      }
    }
  }

  /** The ids `0..n-1` and the edge's two ids, named by the columns as
      line 51 ordered them. */
  lemma IdsUpToAndColumns(net: Graph, n: int, line: Line)
    requires line.EdgeLine? && NetterTxtIo.IdsUpToAnd(net, n, line.id1, line.id2)
    ensures NetterTxtIo.IdsUpToAnd(net, n, line.Low(), line.High())
  {
  }

  /** Filling below `b` and then below `a`, after the ids `0..n-1`, `a` and
      `b` are present, leaves an id range whichever of the two is larger. */
  lemma FillBelowBoth(k0: Graph, n: int, a: Int32, b: Int32)
    requires NetterTxtIo.IdsUpToAnd(k0, n, a, b) && 0 <= n && 0 <= a && 0 <= b
    ensures NetterTxtIo.IdsUpTo(FillDown(FillDown(k0, b - 1), a - 1),
                                NetterTxtIo.Max(n, NetterTxtIo.Max(a + 1, b + 1)))
  {
    if n <= a < b {
      NetterTxtIo.FillLinkGap(k0, n, a, b);
    } else {
      NetterTxtIo.FillLinkClosed(k0, n, a, b);
    }
  }

  /** The corrected edge step on a graph whose ids are `0..n-1` leaves the
      ids `0..m-1`, with `m - 1` the largest id seen, whichever way line 51
      ordered the columns. */
  lemma CorrectedEdgeKeepsIdsARange(g: Graph, n: int, line: Line)
    requires NetterTxtIo.IdsUpTo(g, n) && n >= 0
    requires line.EdgeLine? && Accepted(line)
    ensures NetterTxtIo.IdsUpTo(ApplyLineCorrected(g, line), IdsAfter(n, line))
  {
    var k0 := CorrectedEdgeSteps(g, line);
    NetterTxtIo.AddLinkIds(g, n, line.id1, line.id2);
    CorrectedFillsKeepIdsARange(k0, n, line, line.Low(), line.High());
  }

  /** The two corrected fills, once both ids of the edge are present. */
  lemma CorrectedFillsKeepIdsARange(k0: Graph, n: int, line: Line, lo: Int32, hi: Int32)
    requires line.EdgeLine? && Accepted(line) && n >= 0
    requires lo == line.Low() && hi == line.High()
    requires NetterTxtIo.IdsUpToAnd(k0, n, line.id1, line.id2)
    ensures NetterTxtIo.IdsUpTo(FillDown(FillDown(k0, hi - 1), lo - 1), IdsAfter(n, line))
  {
    IdsUpToAndColumns(k0, n, line);
    FillBelowBoth(k0, n, lo, hi);
    IdsAfterColumns(n, line);
  }

  /** The id range after an edge line, by the columns as line 51 ordered
      them. */
  lemma IdsAfterColumns(n: int, line: Line)
    requires line.EdgeLine?
    ensures IdsAfter(n, line) == NetterTxtIo.Max(n, NetterTxtIo.Max(line.Low() as int + 1, line.High() as int + 1))
  {
  }

  /** The corrected edge step, unfolded: the edge is added, then the fills
      run below the column that line 51 put second, then below the first. */
  lemma CorrectedEdgeSteps(g: Graph, line: Line) returns (k0: Graph)
    requires line.EdgeLine?
    ensures k0 == AddLink(g, line.id1, line.id2).0
    ensures ApplyLineCorrected(g, line) == FillDown(FillDown(k0, line.High() - 1), line.Low() - 1)
  {
    k0 := AddLink(g, line.id1, line.id2).0;
  }

  /** The id range after a line, from the id range `0..n-1` before it. */
  function IdsAfter(n: int, line: Line): int
  {
    match line
    case EdgeLine(id1, id2, _) => NetterTxtIo.Max(n, NetterTxtIo.Max(id1 as int + 1, id2 as int + 1))
    case VertexLine(id, _, _) => NetterTxtIo.Max(n, id as int + 1)
  }

  /** Every accepted line, applied with the corrected fill to a graph whose
      ids are `0..n-1`, leaves the ids `0..m-1`. */
  lemma CorrectedLineKeepsIdsARange(g: Graph, n: int, line: Line)
    requires NetterTxtIo.IdsUpTo(g, n) && n >= 0 && Accepted(line)
    ensures NetterTxtIo.IdsUpTo(ApplyLineCorrected(g, line), IdsAfter(n, line))
  {
    match line {
      case EdgeLine(_, _, _) =>
        CorrectedEdgeKeepsIdsARange(g, n, line);
      case VertexLine(id, c, x) =>
        assert ApplyLineCorrected(g, line) == NetterTxtIo.Apply(g, NetterTxtIo.NodeRecord(id, c, x));
        NetterTxtIo.NodeLineKeepsIdsARange(g, n, id, c, x);
    }
  }

  lemma IdsAfterGrows(n: int, line: Line)
    ensures IdsAfter(n, line) >= n
  {
  }

  /** `apply` turns the ids `0..n-1` into `0..m-1` on every accepted line. */
  ghost predicate KeepsIdsARange(apply: (Graph, Line) -> Graph)
  {
    forall g: Graph, n: int, line: Line | NetterTxtIo.IdsUpTo(g, n) && n >= 0 && Accepted(line) ::
      NetterTxtIo.IdsUpTo(apply(g, line), IdsAfter(n, line))
  }

  lemma CorrectedKeepsIdsARange()
    ensures KeepsIdsARange(ApplyLineCorrected)
  {
    forall g: Graph, n: int, line: Line | NetterTxtIo.IdsUpTo(g, n) && n >= 0 && Accepted(line)
      ensures NetterTxtIo.IdsUpTo(ApplyLineCorrected(g, line), IdsAfter(n, line))
    {
      CorrectedLineKeepsIdsARange(g, n, line);
    }
  }

  lemma {:induction false} BlockKeepsIdsARange(g: Graph, n: int, lines: seq<string>, i: nat, block: Block,
                                               dec: NetterTxtIo.Decimals, apply: (Graph, Line) -> Graph)
    returns (m: int)
    requires i <= |lines| && NetterTxtIo.IdsUpTo(g, n) && n >= 0 && KeepsIdsARange(apply)
    requires ImportBlock(g, lines, i, BlockParser(block, dec), apply).Success?
    ensures m >= n && NetterTxtIo.IdsUpTo(ImportBlock(g, lines, i, BlockParser(block, dec), apply).value.0, m)
    decreases |lines| - i
  {
    if i < |lines| && lines[i] != "" {
      var parse := BlockParser(block, dec);
      var line := parse(lines[i]).value;
      BlockParserAccepts(block, dec, lines[i]);
      ImportBlockStep(g, lines, i, parse, apply, line);
      IdsAfterGrows(n, line);
      m := BlockKeepsIdsARange(apply(g, line), IdsAfter(n, line), lines, i + 1, block, dec, apply);
    } else {
      m := n;
    }
  }

  /** With the corrected fill, importing into an empty graph leaves the
      vertex ids `0..m-1` for some `m`: no id below the largest is skipped. */
  lemma CorrectedImportLeavesIdsARange(lines: seq<string>, dec: NetterTxtIo.Decimals)
    requires ImportNetworkCorrected(NetterGraph.Empty, lines, dec).Success?
    ensures exists m :: m >= 0 && NetterTxtIo.IdsUpTo(ImportNetworkCorrected(NetterGraph.Empty, lines, dec).value.network, m)
  {
    var edges := ImportBlock(NetterGraph.Empty, lines, 0, BlockParser(EdgeBlock, dec), ApplyLineCorrected).value;
    CorrectedKeepsIdsARange();
    var m := BlockKeepsIdsARange(NetterGraph.Empty, 0, lines, 0, EdgeBlock, dec, ApplyLineCorrected);
    var m' := BlockKeepsIdsARange(edges.0, m, lines, edges.1, VertexBlock, dec, ApplyLineCorrected);
  }
}

=== FILE: netter_graph.dfy ===
/** Netter's older `UndirectedGraph`: the same structure as `UndirectedNetwork`
    under other names (vertices for nodes, edges for links). Its state is the
    network state, and each operation is the network operation. */
module NetterGraph {
  import opened KotlinText
  import NetterNetwork

  type Graph = NetterNetwork.Network
  type Vertex = NetterNetwork.Node
  type Edge = NetterNetwork.Link

  const Empty: Graph := NetterNetwork.Empty

  /** `addVertex`: returns the stored vertex when the id is present and
      leaves the graph unchanged; otherwise stores a vertex with community 0
      and centrality 1.0. */
  function AddVertex(g: Graph, id: Int32): (r: (Graph, Vertex))
    ensures id in r.0.nodes && r.0.nodes[id] == r.1
    ensures id in g.nodes ==> r == (g, g.nodes[id])
    ensures id !in g.nodes ==> r.1 == NetterNetwork.Node(id, 0, 1.0) && r.0.nodes == g.nodes[id := r.1]
    ensures r.0.links == g.links
  {
    NetterNetwork.AddNode(g, id)
  }

  /** `addEdge`: both endpoints become vertices, and the edge set gains the
      edge unless it already holds the edge or its reverse. */
  function AddEdge(g: Graph, id1: Int32, id2: Int32): (r: (Graph, Edge))
    ensures id1 in r.0.nodes && id2 in r.0.nodes
    ensures forall k | k in g.nodes :: k in r.0.nodes && r.0.nodes[k] == g.nodes[k]
    ensures NetterNetwork.HasLink(g.links, NetterNetwork.Link(id2, id1)) ==> r.0.links == g.links
    ensures !NetterNetwork.HasLink(g.links, NetterNetwork.Link(id1, id2)) ==> |r.0.links| == |g.links| + 1
    ensures r.1 == NetterNetwork.Link(id1, id2)
    ensures forall k | k in r.0.nodes :: k in g.nodes || k == id1 || k == id2
    ensures r.0.links == (if NetterNetwork.HasLink(g.links, NetterNetwork.Link(id1, id2)) then g.links
                          else g.links + [NetterNetwork.Link(id1, id2)])
  {
    var r := NetterNetwork.AddLink(g, id1, id2);
    assert NetterNetwork.HasLink(g.links, NetterNetwork.Link(id2, id1)) ==> NetterNetwork.HasLink(g.links, NetterNetwork.Link(id1, id2)) by {
      if NetterNetwork.HasLink(g.links, NetterNetwork.Link(id2, id1)) {
        var i :| 0 <= i < |g.links| && NetterNetwork.SameLink(g.links[i], NetterNetwork.Link(id2, id1));
        assert NetterNetwork.SameLink(g.links[i], NetterNetwork.Link(id1, id2));
      }
    }
    r
  }

  /** Adding a vertex or an edge keeps the graph's shape. */
  lemma UpdatesKeepValid(g: Graph, id1: Int32, id2: Int32)
    requires NetterNetwork.Valid(g)
    ensures NetterNetwork.Valid(AddVertex(g, id1).0)
    ensures NetterNetwork.Valid(AddEdge(g, id1, id2).0)
  {
    NetterNetwork.AddNodeKeepsValid(g, id1);
    NetterNetwork.AddLinkKeepsValid(g, id1, id2);
  }

  /** `UndirectedEdge.equals` and `hashCode`: an edge and its reverse are
      equal and hash alike. */
  lemma ReversedEdgeEqualAndSameHash(e: Edge)
    ensures NetterNetwork.SameLink(e, NetterNetwork.Link(e.n2, e.n1))
    ensures NetterNetwork.LinkHash(e) == NetterNetwork.LinkHash(NetterNetwork.Link(e.n2, e.n1))
  {
    NetterNetwork.HashAgreesWithEquality(e, NetterNetwork.Link(e.n2, e.n1));
  }

  /** `isEmpty`: no vertices are stored. */
  function IsEmpty(g: Graph): (r: bool)
    ensures NetterNetwork.Valid(g) ==> (r <==> |g.order| == 0)
  {
    NetterNetwork.IsEmpty(g)
  }
}

=== FILE: netter_network.dfy ===
/** Netter's `UndirectedNetwork`: a `LinkedHashMap` from node id to node and a
    `LinkedHashSet` of undirected links. A node is a data class whose identity
    is its id, so a link is modelled by the ids of its endpoints and the
    mutable node state (community, centrality) lives in the map. */
module NetterNetwork {
  import opened SeqMath
  import opened KotlinText

  const DefaultCommunity: Int32 := 0
  const DefaultCentrality: real := 1.0

  datatype Node = Node(id: Int32, community: Int32, centrality: real)

  /** An undirected link between the nodes with ids `n1` and `n2`. */
  datatype Link = Link(n1: Int32, n2: Int32)

  /** `UndirectedLink.equals`: the same endpoints, in either order. */
  predicate SameLink(a: Link, b: Link)
  {
    (a.n1 == b.n1 && a.n2 == b.n2) || (a.n1 == b.n2 && a.n2 == b.n1)
  }

  /** `UndirectedLink.hashCode`: the xor of the endpoint hashes, and the
      hash of an id-only data class with an `Int` property is the id. */
  function LinkHash(l: Link): (h: bv32)
    ensures h == Bits(l.n2) ^ Bits(l.n1)
  {
    Bits(l.n1) ^ Bits(l.n2)
  }

  /** Equal links have equal hashes, so the hash set never keeps both. */
  lemma HashAgreesWithEquality(a: Link, b: Link)
    requires SameLink(a, b)
    ensures LinkHash(a) == LinkHash(b)
  {
    if a.n1 != b.n1 {
      assert LinkHash(b) == Bits(b.n2) ^ Bits(b.n1);
    }
  }

  /** The network: `order` lists the map's keys in insertion order. */
  datatype Network = Network(order: seq<Int32>, nodes: map<Int32, Node>, links: seq<Link>)

  const Empty := Network([], map[], [])

  /** Whether some stored link equals `l`. */
  predicate HasLink(links: seq<Link>, l: Link)
  {
    exists i | 0 <= i < |links| :: SameLink(links[i], l)
  }

  /** No two stored links are equal. */
  ghost predicate LinksDistinct(links: seq<Link>)
  {
    forall i, j | 0 <= i < j < |links| :: !SameLink(links[i], links[j])
  }

  /** Appending a link equal to none stored keeps the links distinct. */
  lemma AppendNewLink(links: seq<Link>, l: Link)
    requires LinksDistinct(links) && !HasLink(links, l)
    ensures LinksDistinct(links + [l])
  {
    var r := links + [l];
    forall i, j | 0 <= i < j < |r|
      ensures !SameLink(r[i], r[j])
    {
      if j == |links| {
        assert r[j] == l && r[i] == links[i];
      } else {
        assert r[i] == links[i] && r[j] == links[j];
      }
    }
  }

  /** Every node is stored under its own id. */
  ghost predicate Keyed(net: Network)
  {
    forall id | id in net.nodes :: net.nodes[id].id == id
  }

  /** The shape every reachable network has: the key order lists the keys
      once each, every node is stored under its own id, no two links are
      equal and every link's endpoints are nodes. */
  ghost predicate Valid(net: Network)
  {
    && Distinct(net.order)
    && (forall id :: id in net.order <==> id in net.nodes)
    && Keyed(net)
    && LinksDistinct(net.links)
    && (forall i | 0 <= i < |net.links| :: net.links[i].n1 in net.nodes && net.links[i].n2 in net.nodes)
  }

  /** `addNode`: `getOrPut` returns the stored node, or stores and returns a
      fresh node with the default community and centrality. */
  function AddNode(net: Network, id: Int32): (r: (Network, Node))
    ensures id in r.0.nodes && r.0.nodes[id] == r.1
    ensures Keyed(net) ==> r.1.id == id
    ensures id in net.nodes ==> r.0 == net && r.1 == net.nodes[id]
    ensures id !in net.nodes ==> r.1 == Node(id, DefaultCommunity, DefaultCentrality)
    ensures forall k | k in net.nodes :: k in r.0.nodes && r.0.nodes[k] == net.nodes[k]
    ensures forall k | k in r.0.nodes :: k in net.nodes || k == id
    ensures r.0.links == net.links
  {
    if id in net.nodes then (net, net.nodes[id])
    else
      var node := Node(id, DefaultCommunity, DefaultCentrality);
      (Network(net.order + [id], net.nodes[id := node], net.links), node)
  }

  lemma AddNodeKeepsValid(net: Network, id: Int32)
    requires Valid(net)
    ensures Valid(AddNode(net, id).0)
  {
  }

  /** `addLink`: adds both endpoints, then the link unless an equal one is
      already stored; the link made from the arguments is returned. */
  function AddLink(net: Network, id1: Int32, id2: Int32): (r: (Network, Link))
    ensures r.1 == Link(id1, id2)
    ensures id1 in r.0.nodes && id2 in r.0.nodes
    ensures forall k | k in net.nodes :: k in r.0.nodes && r.0.nodes[k] == net.nodes[k]
    ensures forall k | k in r.0.nodes :: k in net.nodes || k == id1 || k == id2
    ensures HasLink(r.0.links, Link(id1, id2))
    ensures r.0.links == (if HasLink(net.links, Link(id1, id2)) then net.links else net.links + [Link(id1, id2)])
  {
    var withFirst := AddNode(net, id1).0;
    var withBoth := AddNode(withFirst, id2).0;
    var link := Link(id1, id2);
    if HasLink(net.links, link) then (withBoth, link)
    else
      var links := net.links + [link];
      assert SameLink(links[|net.links|], link);
      (withBoth.(links := net.links + [link]), link)
  }

  /** The link is only appended when no equal link is stored, so links stay
      pairwise different. */
  lemma AddLinkKeepsValid(net: Network, id1: Int32, id2: Int32)
    requires Valid(net)
    ensures Valid(AddLink(net, id1, id2).0)
  {
    var withFirst := AddNode(net, id1).0;
    AddNodeKeepsValid(net, id1);
    var withBoth := AddNode(withFirst, id2).0;
    AddNodeKeepsValid(withFirst, id2);
    var l := Link(id1, id2);
    var r := AddLink(net, id1, id2).0;
    assert r.order == withBoth.order && r.nodes == withBoth.nodes;
    if !HasLink(net.links, l) {
      AppendNewLink(net.links, l);
    }
  }

  /** Links are unordered: adding the reversed link after a link leaves the
      network as it was. */
  lemma ReversedLinkAddsNothing(net: Network, id1: Int32, id2: Int32)
    ensures AddLink(AddLink(net, id1, id2).0, id2, id1).0 == AddLink(net, id1, id2).0
  {
    var once := AddLink(net, id1, id2).0;
    var i :| 0 <= i < |once.links| && SameLink(once.links[i], Link(id1, id2));
    assert SameLink(once.links[i], Link(id2, id1));
  }

  /** `isEmpty`: no nodes are stored. */
  function IsEmpty(net: Network): (r: bool)
    ensures Valid(net) ==> (r <==> |net.order| == 0)
  {
    var r := |net.nodes| == 0;
    assert Valid(net) ==> (r <==> |net.order| == 0) by {
      if Valid(net) {
        if |net.order| > 0 {
          assert net.order[0] in net.nodes;
        }
        if |net.nodes| > 0 {
          var k :| k in net.nodes;
          assert k in net.order;
        }
      }
    }
    r
  }

  // ---------------------------------------------------------------------------
  // Filling skipped ids (shared by both text importers)

  /** Every id from `j` up to `top` is absent, so a downward fill from `top`
      reaches `j`. */
  ghost predicate Reached(net: Network, j: int, top: int)
  {
    0 <= j <= top && forall m: Int32 | j <= m <= top :: m !in net.nodes
  }

  /** Adds absent ids `top, top - 1, ...` until an id that is present or
      below the minimum id 0 is reached. Stored nodes are kept, and every
      added node is a fresh node with an id from `0..top`. */
  function FillDown(net: Network, top: int): (r: Network)
    requires top <= MaxInt
    ensures forall k | k in net.nodes :: k in r.nodes && r.nodes[k] == net.nodes[k]
    ensures forall k | k in r.nodes && k !in net.nodes ::
              0 <= k <= top && r.nodes[k] == Node(k, DefaultCommunity, DefaultCentrality)
    ensures r.links == net.links
    decreases top + 1
  {
    if top < 0 || top in net.nodes then net else FillDown(AddNode(net, top).0, top - 1)
  }

  /** The ids a downward fill adds are exactly those it reaches. */
  lemma {:induction false} FillDownAdds(net: Network, top: int)
    requires top <= MaxInt
    ensures forall k: Int32 :: k in FillDown(net, top).nodes <==> k in net.nodes || Reached(net, k, top)
    decreases top + 1
  {
    if top >= 0 && top !in net.nodes {
      var added := AddNode(net, top).0;
      FillDownAdds(added, top - 1);
      assert forall k: Int32 :: Reached(net, k, top) <==> k == top || Reached(added, k, top - 1);
    }
  }

  lemma {:induction false} FillDownKeepsValid(net: Network, top: int)
    requires top <= MaxInt && Valid(net)
    ensures Valid(FillDown(net, top))
    decreases top + 1
  {
    if top >= 0 && top !in net.nodes {
      var added := AddNode(net, top).0;
      AddNodeKeepsValid(net, top);
      FillDownKeepsValid(added, top - 1);
      assert FillDown(net, top) == FillDown(added, top - 1);
    } else {
      assert FillDown(net, top) == net;
    }
  }
}

=== FILE: netter_txt_io.dfy ===
/** Netter's current plain-text format (`controller/io/TxtIOHandler.kt`).
    A file is a block of link lines "id1 id2", ended by the first empty line,
    then a block of node lines "id community centrality", ended by the next
    empty line or the end of the file. The file is modelled as the sequence of
    lines `readLine` returns. */
module NetterTxtIo {
  import opened Wrappers
  import opened SeqMath
  import opened KotlinText
  import opened NetterNetwork

  const ColumnDelimiter: char := ' '
  const LinkInputColumns: nat := 2
  const NodeInputColumns: nat := 3
  const MinNodeId: int := 0
  const MinCommunity: int := 0
  const MinCentrality: real := 0.0

  /** Kotlin's `String.toDoubleOrNull` and `Double.toString`, which the
      model takes as given. */
  datatype Decimals = Decimals(parse: string -> Option<real>, show: real -> string)

  /** The printed form of `x` reads back as `x` and holds no column or line
      separator. */
  ghost predicate PrintsBack(dec: Decimals, x: real)
  {
    && dec.parse(dec.show(x)) == Some(x)
    && ColumnDelimiter !in dec.show(x)
    && '\n' !in dec.show(x)
  }

  /** Why a line was rejected; each is one `handleInputError` call. */
  datatype Reason =
    | ColumnCount(expected: nat, actual: nat)
    | LinkIdsNotIntegers
    | LinkIdBelowMinimum
    | NodeFieldsNotNumbers
    | NodeIdBelowMinimum
    | CommunityBelowMinimum
    | CentralityBelowMinimum

  /** The `HandledIOException` raised for the line numbered `lineNum`
      (counting from 1, empty separator lines included). */
  datatype InputError = InputError(lineNum: nat, reason: Reason)

  function ReasonText(r: Reason): string
  {
    match r
    case ColumnCount(e, a) => "expected " + IntToString(e) + " columns but was " + IntToString(a)
    case LinkIdsNotIntegers => "node ids must be integers"
    case LinkIdBelowMinimum => "node ids must be not less than 0"
    case NodeFieldsNotNumbers => "node id and community must be integers, centrality must be decimal"
    case NodeIdBelowMinimum => "node id must be not less than 0"
    case CommunityBelowMinimum => "community must be not less than 0"
    case CentralityBelowMinimum => "centrality must be not less than 0.0"
  }

  /** The exception's message. */
  function Message(e: InputError): string
  {
    "Incorrect input format on line " + IntToString(e.lineNum) + ": " + ReasonText(e.reason)
  }

  // ---------------------------------------------------------------------------
  // One line

  datatype Block = LinkBlock | NodeBlock

  /** The values an accepted line carries. */
  datatype Record =
    | LinkRecord(id1: Int32, id2: Int32)
    | NodeRecord(id: Int32, community: Int32, centrality: real)

  /** The checks of `parseLink`, in the order it makes them. */
  function ParseLinkColumns(columns: seq<string>): (r: Result<Record, Reason>)
    ensures r.Failure? && r.error.ColumnCount? <==> |columns| != LinkInputColumns
    ensures r.Success? ==> r.value.LinkRecord? && |columns| == LinkInputColumns
    ensures r.Success? ==> ParseInt(columns[0]) == Some(r.value.id1) && ParseInt(columns[1]) == Some(r.value.id2)
    ensures r.Success? ==> r.value.id1 >= MinNodeId && r.value.id2 >= MinNodeId
    ensures |columns| == LinkInputColumns && ParseInt(columns[0]).Some? && ParseInt(columns[1]).Some?
            && ParseInt(columns[0]).value >= MinNodeId && ParseInt(columns[1]).value >= MinNodeId
            ==> r.Success?
  {
    if |columns| != LinkInputColumns then
      Failure(ColumnCount(LinkInputColumns, |columns|))
    else if ParseInt(columns[0]).None? || ParseInt(columns[1]).None? then
      Failure(LinkIdsNotIntegers)
    else
      var id1 := ParseInt(columns[0]).value;
      var id2 := ParseInt(columns[1]).value;
      if id1 < MinNodeId || id2 < MinNodeId then Failure(LinkIdBelowMinimum)
      else Success(LinkRecord(id1, id2))
  }

  /** The checks of `parseNode`, in the order it makes them. */
  function ParseNodeColumns(columns: seq<string>, dec: Decimals): (r: Result<Record, Reason>)
    ensures r.Failure? && r.error.ColumnCount? <==> |columns| != NodeInputColumns
    ensures r.Success? ==> r.value.NodeRecord? && |columns| == NodeInputColumns
    ensures r.Success? ==>
              && ParseInt(columns[0]) == Some(r.value.id)
              && ParseInt(columns[1]) == Some(r.value.community)
              && dec.parse(columns[2]) == Some(r.value.centrality)
    ensures r.Success? ==>
              && r.value.id >= MinNodeId
              && r.value.community >= MinCommunity
              && r.value.centrality >= MinCentrality
    ensures |columns| == NodeInputColumns && ParseInt(columns[0]).Some? && ParseInt(columns[1]).Some?
            && dec.parse(columns[2]).Some? && ParseInt(columns[0]).value >= MinNodeId
            && ParseInt(columns[1]).value >= MinCommunity && dec.parse(columns[2]).value >= MinCentrality
            ==> r.Success?
  {
    if |columns| != NodeInputColumns then
      Failure(ColumnCount(NodeInputColumns, |columns|))
    else if ParseInt(columns[0]).None? || ParseInt(columns[1]).None? || dec.parse(columns[2]).None? then
      Failure(NodeFieldsNotNumbers)
    else
      var id := ParseInt(columns[0]).value;
      var community := ParseInt(columns[1]).value;
      var centrality := dec.parse(columns[2]).value;
      if id < MinNodeId then Failure(NodeIdBelowMinimum)
      else if community < MinCommunity then Failure(CommunityBelowMinimum)
      else if centrality < MinCentrality then Failure(CentralityBelowMinimum)
      else Success(NodeRecord(id, community, centrality))
  }

  /** Whether a record holds what the line checks accept. */
  predicate Accepted(rec: Record)
  {
    match rec
    case LinkRecord(id1, id2) => id1 >= MinNodeId && id2 >= MinNodeId
    case NodeRecord(id, c, x) => id >= MinNodeId && c >= MinCommunity && x >= MinCentrality
  }

  function ParseColumns(block: Block, columns: seq<string>, dec: Decimals): (r: Result<Record, Reason>)
    ensures r.Success? ==> Accepted(r.value) && (r.value.LinkRecord? <==> block == LinkBlock)
  {
    match block
    case LinkBlock => ParseLinkColumns(columns)
    case NodeBlock => ParseNodeColumns(columns, dec)
  }

  /** `addSkippedNodes(network, addUntilId)`: the absent ids just below
      `addUntilId`, down to the first present one. */
  function AddSkippedNodes(net: Network, addUntilId: Int32): Network
  {
    FillDown(net, addUntilId - 1)
  }

  /** `addNode(id).apply { community = ...; centrality = ... }`. */
  function SetNode(net: Network, id: Int32, community: Int32, centrality: real): (r: Network)
    ensures id in r.nodes && r.nodes[id].community == community && r.nodes[id].centrality == centrality
    ensures Keyed(net) ==> r.nodes[id] == Node(id, community, centrality)
    ensures forall k | k in net.nodes && k != id :: k in r.nodes && r.nodes[k] == net.nodes[k]
    ensures forall k | k in r.nodes :: k in net.nodes || k == id
    ensures r.links == net.links
  {
    var (added, node) := AddNode(net, id);
    added.(nodes := added.nodes[id := node.(community := community, centrality := centrality)])
  }

  /** What an accepted line does to the network: a link line adds the link
      and fills the ids skipped below its second id (in `parseLink`) and
      then below its first id (in `importNetwork`); a node line sets the
      node and fills the ids skipped below it. */
  function Apply(net: Network, rec: Record): Network
  {
    match rec
    case LinkRecord(id1, id2) => AddSkippedNodes(AddSkippedNodes(AddLink(net, id1, id2).0, id2), id1)
    case NodeRecord(id, c, x) => AddSkippedNodes(SetNode(net, id, c, x), id)
  }

  /** Reads one line: its record, or why it is rejected. */
  type LineParser = string -> Result<Record, Reason>

  /** `parseLink` or `parseNode` on the line's columns. */
  function BlockParser(block: Block, dec: Decimals): LineParser
  {
    (line: string) => ParseColumns(block, Split(line, ColumnDelimiter), dec)
  }

  /** The lines from index `i` hold `recs`, one accepted non-empty line
      each, and the block ends after them with an empty line or the end of
      the file. */
  ghost predicate BlockHolds(lines: seq<string>, i: nat, recs: seq<Record>, parse: LineParser)
    decreases |recs|
  {
    if |recs| == 0 then i <= |lines| && (i < |lines| ==> lines[i] == "")
    else
      && i < |lines| && lines[i] != "" && parse(lines[i]) == Success(recs[0])
      && BlockHolds(lines, i + 1, recs[1..], parse)
  }

  /** The index just past the line that ends a block of `count` lines from `i`. */
  function BlockEnd(lines: seq<string>, i: nat, count: nat): nat
  {
    if i + count < |lines| then i + count + 1 else |lines|
  }

  /** The lines of one block from index `i`, as the `while (reader.ready())`
      loop reads them: up to the first empty line or the end of the file,
      stopping at the first line it rejects. On success, the records and the
      index just past the line that ended the block. */
  function ParseBlock(lines: seq<string>, i: nat, parse: LineParser): (r: Result<(seq<Record>, nat), InputError>)
    requires i <= |lines|
    ensures r.Failure? ==> i < r.error.lineNum <= |lines| && lines[r.error.lineNum - 1] != ""
    ensures r.Failure? ==> forall j | i <= j < r.error.lineNum :: lines[j] != ""
    ensures r.Failure? ==> parse(lines[r.error.lineNum - 1]) == Failure(r.error.reason)
    ensures r.Failure? ==> forall j | i <= j < r.error.lineNum - 1 :: parse(lines[j]).Success?
    ensures r.Success? ==> i <= r.value.1 <= |lines| && (i < r.value.1 || r.value.1 == |lines|)
    ensures r.Success? ==> forall j | i <= j < r.value.1 && lines[j] != "" :: parse(lines[j]).Success?
    ensures r.Success? ==> forall j | i <= j < r.value.1 - 1 :: lines[j] != ""
    ensures r.Success? ==> BlockHolds(lines, i, r.value.0, parse) && r.value.1 == BlockEnd(lines, i, |r.value.0|)
    ensures r.Success? && r.value.1 < |lines| ==> i < r.value.1 && lines[r.value.1 - 1] == ""
    decreases |lines| - i
  {
    if i == |lines| then Success(([], i))
    else if lines[i] == "" then Success(([], i + 1))
    else
      match parse(lines[i])
      case Failure(reason) => Failure(InputError(i + 1, reason))
      case Success(rec) =>
        var rest :- ParseBlock(lines, i + 1, parse);
        var recs := [rec] + rest.0;
        assert recs[1..] == rest.0;
        Success((recs, rest.1))
  }

  /** A block that holds `recs` parses to exactly `recs`: the block's records
      are determined by its lines. */
  lemma {:induction false} BlockParses(lines: seq<string>, i: nat, recs: seq<Record>, parse: LineParser)
    requires BlockHolds(lines, i, recs, parse)
    ensures ParseBlock(lines, i, parse) == Success((recs, BlockEnd(lines, i, |recs|)))
    decreases |recs|
  {
    if |recs| > 0 {
      BlockParses(lines, i + 1, recs[1..], parse);
      assert [recs[0]] + recs[1..] == recs;
    }
  }

  /** Line by line: lines `i + j` hold `recs[j]` and the line after them ends
      the block. */
  lemma {:induction false} LinesHold(lines: seq<string>, i: nat, recs: seq<Record>, parse: LineParser)
    requires i + |recs| <= |lines|
    requires i + |recs| < |lines| ==> lines[i + |recs|] == ""
    requires forall j | i <= j < i + |recs| :: lines[j] != "" && parse(lines[j]) == Success(recs[j - i])
    ensures BlockHolds(lines, i, recs, parse)
    decreases |recs|
  {
    if |recs| > 0 {
      var rest := recs[1..];
      forall j | i + 1 <= j < i + 1 + |rest|
        ensures lines[j] != "" && parse(lines[j]) == Success(rest[j - (i + 1)])
      {
        assert rest[j - (i + 1)] == recs[j - i];
      }
      LinesHold(lines, i + 1, rest, parse);
    }
  }

  /** The records applied in turn, from index `k` on. */
  function ApplyFrom(net: Network, recs: seq<Record>, k: nat): Network
    requires k <= |recs|
    decreases |recs| - k
  {
    if k == |recs| then net else ApplyFrom(Apply(net, recs[k]), recs, k + 1)
  }

  /** A successful import: the network, and the number of the blank line
      after which ignored lines remain (the logged warning), if any. */
  datatype Imported = Imported(network: Network, excessAfterLine: Option<nat>)

  /** The lines before index `e` form a clean link block: every one of them
      but the last is non-empty and accepted by `parse`, and the last is the
      empty line that closes the block. */
  ghost predicate ClosedBlock(lines: seq<string>, e: int, parse: LineParser)
  {
    && 1 <= e <= |lines|
    && lines[e - 1] == ""
    && forall j | 0 <= j < e - 1 :: lines[j] != "" && parse(lines[j]).Success?
  }

  /** Line `n` (numbered from 1) is the first line from index `i` that
      `parse` rejects: every line before it is non-empty and accepted. */
  ghost predicate FirstRejected(lines: seq<string>, i: int, n: int, parse: LineParser)
  {
    && 0 <= i < n <= |lines|
    && lines[n - 1] != ""
    && parse(lines[n - 1]).Failure?
    && forall j | i <= j < n - 1 :: lines[j] != "" && parse(lines[j]).Success?
  }

  /** The link block read with `linkParse`, then the node block read with
      `nodeParse`: the records of each block and the index just past the
      node block. A rejected line is a non-empty line one of the two parsers
      turns down, and lines remain after the node block only when it ended
      with an empty line. */
  function ParseFile(lines: seq<string>, linkParse: LineParser, nodeParse: LineParser)
    : (r: Result<(seq<Record>, seq<Record>, nat), InputError>)
    ensures r.Failure? ==>
              && 1 <= r.error.lineNum <= |lines| && lines[r.error.lineNum - 1] != ""
              && (|| linkParse(lines[r.error.lineNum - 1]) == Failure(r.error.reason)
                  || nodeParse(lines[r.error.lineNum - 1]) == Failure(r.error.reason))
    ensures r.Failure? ==>
              || FirstRejected(lines, 0, r.error.lineNum, linkParse)
              || exists e :: ClosedBlock(lines, e, linkParse) && FirstRejected(lines, e, r.error.lineNum, nodeParse)
    ensures r.Success? && r.value.2 < |lines| ==> 1 <= r.value.2 && lines[r.value.2 - 1] == ""
  {
    var links :- ParseBlock(lines, 0, linkParse);
    assert links.1 < |lines| ==> ClosedBlock(lines, links.1, linkParse);
    var nodes :- ParseBlock(lines, links.1, nodeParse);
    Success((links.0, nodes.0, nodes.1))
  }

  /** Both blocks read, then their records applied in turn. Each record is
      applied as its line is read in the source; since applying a record
      cannot fail, applying the records after both blocks are read gives the
      same network and the same first rejected line. */
  function ImportWith(net: Network, lines: seq<string>, linkParse: LineParser, nodeParse: LineParser)
    : (r: Result<Imported, InputError>)
    ensures r.Failure? <==> ParseFile(lines, linkParse, nodeParse).Failure?
    ensures r.Failure? ==> r.error == ParseFile(lines, linkParse, nodeParse).error
    ensures r.Success? && r.value.excessAfterLine.Some? ==>
              var k := r.value.excessAfterLine.value; 1 <= k < |lines| && lines[k - 1] == ""
  {
    var (links, nodes, end) :- ParseFile(lines, linkParse, nodeParse);
    var excess := if end < |lines| then Some(end) else None;
    assert excess.Some? ==> 1 <= excess.value < |lines| && lines[excess.value - 1] == "";
    Success(Imported(ApplyFrom(ApplyFrom(net, links, 0), nodes, 0), excess))
  }

  /** `importNetwork`, whose line parsers are `parseLink` and `parseNode`. */
  function ImportNetwork(net: Network, lines: seq<string>, dec: Decimals): Result<Imported, InputError>
  {
    ImportWith(net, lines, BlockParser(LinkBlock, dec), BlockParser(NodeBlock, dec))
  }

  // ---------------------------------------------------------------------------
  // Import keeps the network valid

  lemma SetNodeKeepsValid(net: Network, id: Int32, community: Int32, centrality: real)
    requires Valid(net)
    ensures Valid(SetNode(net, id, community, centrality))
  {
    AddNodeKeepsValid(net, id);
  }

  lemma LinkLineKeepsValid(net: Network, id1: Int32, id2: Int32)
    requires Valid(net)
    ensures Valid(AddSkippedNodes(AddSkippedNodes(AddLink(net, id1, id2).0, id2), id1))
  {
    AddLinkKeepsValid(net, id1, id2);
    var added := AddLink(net, id1, id2).0;
    var filled := AddSkippedNodes(added, id2);
    FillDownKeepsValid(added, id2 - 1);
    FillDownKeepsValid(filled, id1 - 1);
    assert AddSkippedNodes(filled, id1) == FillDown(filled, id1 - 1);
  }

  lemma NodeLineKeepsValid(net: Network, id: Int32, community: Int32, centrality: real)
    requires Valid(net)
    ensures Valid(AddSkippedNodes(SetNode(net, id, community, centrality), id))
  {
    SetNodeKeepsValid(net, id, community, centrality);
    FillDownKeepsValid(SetNode(net, id, community, centrality), id - 1);
  }

  lemma ApplyKeepsValid(net: Network, rec: Record)
    requires Valid(net)
    ensures Valid(Apply(net, rec))
  {
    match rec {
      case LinkRecord(id1, id2) => LinkLineKeepsValid(net, id1, id2);
      case NodeRecord(id, c, x) => NodeLineKeepsValid(net, id, c, x);
    }
  }

  lemma {:induction false} ApplyFromKeepsValid(net: Network, recs: seq<Record>, k: nat)
    requires k <= |recs| && Valid(net)
    ensures Valid(ApplyFrom(net, recs, k))
    decreases |recs| - k
  {
    if k < |recs| {
      ApplyKeepsValid(net, recs[k]);
      ApplyFromKeepsValid(Apply(net, recs[k]), recs, k + 1);
    }
  }

  /** A successful import leaves a valid network valid, whatever the line
      parsers. */
  lemma ImportKeepsValid(net: Network, lines: seq<string>, linkParse: LineParser, nodeParse: LineParser)
    requires Valid(net) && ImportWith(net, lines, linkParse, nodeParse).Success?
    ensures Valid(ImportWith(net, lines, linkParse, nodeParse).value.network)
  {
    var links := ParseBlock(lines, 0, linkParse).value;
    ApplyFromKeepsValid(net, links.0, 0);
    var afterLinks := ApplyFrom(net, links.0, 0);
    var nodes := ParseBlock(lines, links.1, nodeParse).value;
    ApplyFromKeepsValid(afterLinks, nodes.0, 0);
  }

  // ---------------------------------------------------------------------------
  // Ids stay a range 0..n-1

  /** The node ids present are exactly `0, ..., n - 1`. */
  ghost predicate IdsUpTo(net: Network, n: int)
  {
    forall k: Int32 :: k in net.nodes <==> 0 <= k < n
  }

  /** Up to `t`, every present id has all smaller non-negative ids present. */
  ghost predicate DownClosed(net: Network, t: int)
  {
    forall k: Int32, j: Int32 | k in net.nodes && 0 <= j <= k <= t :: j in net.nodes
  }

  /** On a down-closed network a downward fill from `top` leaves every id
      `0..top` present. */
  lemma FillDownCovers(net: Network, top: int)
    requires top <= MaxInt && DownClosed(net, top)
    ensures forall j: Int32 | 0 <= j <= top :: j in FillDown(net, top).nodes
  {
    var r := FillDown(net, top);
    FillDownAdds(net, top);
    forall j: Int32 | 0 <= j <= top
      ensures j in r.nodes
    {
      if !Reached(net, j, top) {
        var m: Int32 :| j <= m <= top && m in net.nodes;
      }
    }
  }

  function Max(a: int, b: int): int { if a < b then b else a }

  /** The ids present are `0..n-1` together with `a` and `b`. */
  ghost predicate IdsUpToAnd(net: Network, n: int, a: int, b: int)
  {
    forall k: Int32 :: k in net.nodes <==> 0 <= k < n || k == a || k == b
  }

  /** The ids present are `0..m-1`, `x..y` and `e`. */
  ghost predicate IdsSpan(net: Network, m: int, x: int, y: int, e: int)
  {
    forall k: Int32 :: k in net.nodes <==> 0 <= k < m || x <= k <= y || k == e
  }

  /** A fill from just below `x` closes the gap between `0..m-1` and `x..y`;
      an id `e` at or above `x` stays as it is. */
  lemma FillBelowSpan(net: Network, m: int, x: Int32, y: int, e: int)
    requires IdsSpan(net, m, x, y, e) && 0 <= m && 0 <= x <= y && x <= e
    ensures IdsSpan(FillDown(net, x - 1), Max(m, y + 1), x, y, e)
  {
    assert DownClosed(net, x - 1);
    FillDownCovers(net, x - 1);
  }

  /** Adding a link to a network whose ids are `0..n-1` adds its two ids. */
  lemma AddLinkIds(net: Network, n: int, a: Int32, b: Int32)
    requires IdsUpTo(net, n)
    ensures IdsUpToAnd(AddLink(net, a, b).0, n, a, b)
  {
  }

  /** Link fill when the first id lies in the gap below the second: the
      first fill stops just above the first id. */
  lemma FillAboveGap(k0: Network, n: int, a: Int32, b: Int32)
    requires IdsUpToAnd(k0, n, a, b) && 0 <= n <= a < b
    ensures IdsSpan(FillDown(k0, b - 1), n, a, b, a)
  {
    var k1 := FillDown(k0, b - 1);
    FillDownAdds(k0, b - 1);
    assert a in k0.nodes;
    forall k: Int32
      ensures k in k1.nodes <==> 0 <= k < n || a <= k <= b
    {
      if a < k < b {
        assert Reached(k0, k, b - 1);
      }
    }
  }

  /** A link line on a network whose ids are `0..n-1` leaves the ids
      `0..m-1`, with `m - 1` the largest id seen. */
  lemma LinkLineKeepsIdsARange(net: Network, n: int, a: Int32, b: Int32)
    requires IdsUpTo(net, n) && n >= 0
    requires a >= MinNodeId && b >= MinNodeId
    ensures IdsUpTo(Apply(net, LinkRecord(a, b)), Max(n, Max(a + 1, b + 1)))
  {
    var k0 := AddLink(net, a, b).0;
    AddLinkIds(net, n, a, b);
    assert Apply(net, LinkRecord(a, b)) == FillDown(FillDown(k0, b - 1), a - 1);
    if n <= a < b {
      FillLinkGap(k0, n, a, b);
    } else {
      FillLinkClosed(k0, n, a, b);
    }
  }

  /** Link fill when the first id lies in the gap below the second: the
      first fill stops just above the first id, the second closes the gap
      below it. */
  lemma FillLinkGap(k0: Network, n: int, a: Int32, b: Int32)
    requires IdsUpToAnd(k0, n, a, b) && 0 <= n <= a < b
    ensures IdsUpTo(FillDown(FillDown(k0, b - 1), a - 1), b + 1)
  {
    FillAboveGap(k0, n, a, b);
    FillBelowSpan(FillDown(k0, b - 1), n, a, b, a);
  }

  /** Link fill in every other case: the first fill closes everything below
      the second id, and the second fill everything below the first. */
  lemma FillLinkClosed(k0: Network, n: int, a: Int32, b: Int32)
    requires IdsUpToAnd(k0, n, a, b) && 0 <= n && 0 <= a && 0 <= b
    requires !(n <= a < b)
    ensures IdsUpTo(FillDown(FillDown(k0, b - 1), a - 1), Max(n, Max(a + 1, b + 1)))
  {
    var k1 := FillDown(k0, b - 1);
    var top := Max(n, b + 1);
    if a < n {
      assert IdsSpan(k0, n, b, b, b);
      FillBelowSpan(k0, n, b, b, b);
    } else {
      assert IdsSpan(k0, n, b, b, a);
      FillBelowSpan(k0, n, b, b, a);
    }
    assert IdsSpan(k1, top, a, a, a);
    FillBelowSpan(k1, top, a, a, a);
  }

  /** A node line on a network whose ids are `0..n-1` leaves the ids
      `0..m-1`, with `m - 1` the largest id seen. */
  lemma NodeLineKeepsIdsARange(net: Network, n: int, id: Int32, community: Int32, centrality: real)
    requires IdsUpTo(net, n) && n >= 0
    requires id >= MinNodeId
    ensures IdsUpTo(Apply(net, NodeRecord(id, community, centrality)), Max(n, id + 1))
  {
    var k0 := SetNode(net, id, community, centrality);
    assert IdsSpan(k0, n, id, id, id);
    FillBelowSpan(k0, n, id, id, id);
  }

  /** The id range after a record, from the id range `0..n-1` before it. */
  function IdsAfter(n: int, rec: Record): int
  {
    match rec
    case LinkRecord(id1, id2) => Max(n, Max(id1 + 1, id2 + 1))
    case NodeRecord(id, _, _) => Max(n, id + 1)
  }

  /** An accepted line on a network whose ids are `0..n-1` leaves the ids
      `0..m-1`, with `m - 1` the largest id seen. */
  lemma LineKeepsIdsARange(net: Network, n: int, rec: Record)
    requires IdsUpTo(net, n) && n >= 0
    requires rec.LinkRecord? ==> rec.id1 >= MinNodeId && rec.id2 >= MinNodeId
    requires rec.NodeRecord? ==> rec.id >= MinNodeId
    ensures IdsUpTo(Apply(net, rec), IdsAfter(n, rec))
  {
    match rec {
      case LinkRecord(id1, id2) => LinkLineKeepsIdsARange(net, n, id1, id2);
      case NodeRecord(id, c, x) => NodeLineKeepsIdsARange(net, n, id, c, x);
    }
  }

  /** Starting from ids `0..n-1`, applying accepted records leaves the ids
      `0..m-1` for some `m >= n`. */
  lemma {:induction false} ApplyFromKeepsIdsARange(net: Network, n: int, recs: seq<Record>, k: nat) returns (m: int)
    requires k <= |recs| && IdsUpTo(net, n) && n >= 0
    requires forall j | k <= j < |recs| :: Accepted(recs[j])
    ensures m >= n && IdsUpTo(ApplyFrom(net, recs, k), m)
    decreases |recs| - k
  {
    if k < |recs| {
      var rec := recs[k];
      LineKeepsIdsARange(net, n, rec);
      m := ApplyFromKeepsIdsARange(Apply(net, rec), IdsAfter(n, rec), recs, k + 1);
    } else {
      m := n;
    }
  }

  /** Every record the parser returns passes the line checks. */
  ghost predicate OnlyAccepted(parse: LineParser)
  {
    forall line :: parse(line).Success? ==> Accepted(parse(line).value)
  }

  lemma BlockParserOnlyAccepted(block: Block, dec: Decimals)
    ensures OnlyAccepted(BlockParser(block, dec))
  {
    forall line | BlockParser(block, dec)(line).Success?
      ensures Accepted(BlockParser(block, dec)(line).value)
    {
      var r := ParseColumns(block, Split(line, ColumnDelimiter), dec);
      assert BlockParser(block, dec)(line) == r;
    }
  }

  /** The records a block holds are all accepted when its parser only
      returns accepted records. */
  lemma {:induction false} HeldAreAccepted(lines: seq<string>, i: nat, recs: seq<Record>, parse: LineParser)
    requires BlockHolds(lines, i, recs, parse) && OnlyAccepted(parse)
    ensures forall j | 0 <= j < |recs| :: Accepted(recs[j])
    decreases |recs|
  {
    if |recs| > 0 {
      assert parse(lines[i]) == Success(recs[0]);
      HeldAreAccepted(lines, i + 1, recs[1..], parse);
      assert forall j | 1 <= j < |recs| :: recs[j] == recs[1..][j - 1];
    }
  }

  /** Importing into an empty network with parsers that only return
      accepted records leaves the ids `0..m-1` for some `m`. */
  lemma ImportWithLeavesIdsARange(lines: seq<string>, linkParse: LineParser, nodeParse: LineParser)
    requires OnlyAccepted(linkParse) && OnlyAccepted(nodeParse)
    requires ImportWith(Empty, lines, linkParse, nodeParse).Success?
    ensures exists m :: m >= 0 && IdsUpTo(ImportWith(Empty, lines, linkParse, nodeParse).value.network, m)
  {
    var links := ParseBlock(lines, 0, linkParse).value;
    HeldAreAccepted(lines, 0, links.0, linkParse);
    var m := ApplyFromKeepsIdsARange(Empty, 0, links.0, 0);
    var afterLinks := ApplyFrom(Empty, links.0, 0);
    var nodes := ParseBlock(lines, links.1, nodeParse).value;
    HeldAreAccepted(lines, links.1, nodes.0, nodeParse);
    var m' := ApplyFromKeepsIdsARange(afterLinks, m, nodes.0, 0);
  }

  /** Importing a file into an empty network leaves the ids `0..m-1` for
      some `m`: the skipped ids are always filled. */
  lemma ImportLeavesIdsARange(lines: seq<string>, dec: Decimals)
    requires ImportNetwork(Empty, lines, dec).Success?
    ensures exists m :: m >= 0 && IdsUpTo(ImportNetwork(Empty, lines, dec).value.network, m)
  {
    BlockParserOnlyAccepted(LinkBlock, dec);
    BlockParserOnlyAccepted(NodeBlock, dec);
    ImportWithLeavesIdsARange(lines, BlockParser(LinkBlock, dec), BlockParser(NodeBlock, dec));
  }

  // ---------------------------------------------------------------------------
  // Export

  function LinkText(l: Link): string
  {
    IntToString(l.n1) + [ColumnDelimiter] + IntToString(l.n2)
  }

  function NodeText(node: Node, dec: Decimals): string
  {
    IntToString(node.id) + [ColumnDelimiter] + IntToString(node.community) + [ColumnDelimiter] + dec.show(node.centrality)
  }

  /** One line per link, in order. */
  function LinkLines(links: seq<Link>): (lines: seq<string>)
    ensures |lines| == |links|
    ensures forall i | 0 <= i < |links| :: lines[i] == LinkText(links[i])
  {
    Map(LinkText, links)
  }

  /** The nodes stored under the ids of `order`, in that order. */
  function NodesInOrder(order: seq<Int32>, nodes: map<Int32, Node>): (r: seq<Node>)
    requires forall i | 0 <= i < |order| :: order[i] in nodes
    ensures |r| == |order|
    ensures forall i | 0 <= i < |order| :: r[i] == nodes[order[i]]
    decreases |order|
  {
    if |order| == 0 then []
    else
      var rest := NodesInOrder(order[1..], nodes);
      var r := [nodes[order[0]]] + rest;
      assert forall i | 1 <= i < |order| :: r[i] == rest[i - 1] && order[i] == order[1..][i - 1];
      r
  }

  /** One line per id of `order`, for the node stored under it. */
  function NodeLines(order: seq<Int32>, nodes: map<Int32, Node>, dec: Decimals): (lines: seq<string>)
    requires forall i | 0 <= i < |order| :: order[i] in nodes
    ensures |lines| == |order|
    ensures forall i | 0 <= i < |order| :: lines[i] == NodeText(nodes[order[i]], dec)
  {
    var inOrder := NodesInOrder(order, nodes);
    Map((node: Node) => NodeText(node, dec), inOrder)
  }

  /** The lines `exportNetwork` writes: each link, an empty line, then each
      node in insertion order. */
  function ExportLines(net: Network, dec: Decimals): (lines: seq<string>)
    requires forall i | 0 <= i < |net.order| :: net.order[i] in net.nodes
    ensures |lines| == |net.links| + 1 + |net.order|
    ensures lines[|net.links|] == ""
    ensures lines[..|net.links|] == LinkLines(net.links)
    ensures lines[|net.links| + 1..] == NodeLines(net.order, net.nodes, dec)
  {
    var links := LinkLines(net.links);
    var lines := links + [""] + NodeLines(net.order, net.nodes, dec);
    assert lines[..|links|] == links;
    lines
  }

  /** `exportNetwork`: the text of the file. */
  function ExportNetwork(net: Network, dec: Decimals): string
    requires forall i | 0 <= i < |net.order| :: net.order[i] in net.nodes
  {
    Terminated(ExportLines(net, dec))
  }

  // ---------------------------------------------------------------------------
  // Round trip

  /** A network the format can represent: ids `0..n-1`, non-negative
      communities and centralities whose printed form reads back. */
  ghost predicate Exportable(net: Network, dec: Decimals)
  {
    && Valid(net)
    && IdsUpTo(net, |net.order|)
    && forall k | k in net.nodes ::
         net.nodes[k].community >= MinCommunity && net.nodes[k].centrality >= MinCentrality
         && PrintsBack(dec, net.nodes[k].centrality)
  }

  lemma LinkTextColumns(l: Link)
    ensures Split(LinkText(l), ColumnDelimiter) == [IntToString(l.n1), IntToString(l.n2)]
  {
    var parts := [IntToString(l.n1), IntToString(l.n2)];
    assert Join(parts, ColumnDelimiter) == LinkText(l);
    SplitJoin(parts, ColumnDelimiter);
  }

  lemma NodeTextColumns(node: Node, dec: Decimals)
    requires ColumnDelimiter !in dec.show(node.centrality)
    ensures Split(NodeText(node, dec), ColumnDelimiter)
         == [IntToString(node.id), IntToString(node.community), dec.show(node.centrality)]
  {
    var parts := [IntToString(node.id), IntToString(node.community), dec.show(node.centrality)];
    assert Join(parts[2..], ColumnDelimiter) == parts[2];
    assert Join(parts[1..], ColumnDelimiter) == parts[1] + [ColumnDelimiter] + parts[2];
    assert Join(parts, ColumnDelimiter) == NodeText(node, dec);
    SplitJoin(parts, ColumnDelimiter);
  }

  /** The parser reads every line written for a link with non-negative ids
      back as that link's endpoints. */
  ghost predicate ReadsLinkLines(parse: LineParser)
  {
    forall l: Link | l.n1 >= MinNodeId && l.n2 >= MinNodeId :: parse(LinkText(l)) == Success(LinkRecord(l.n1, l.n2))
  }

  /** The parser reads every line written for a node the format can hold
      back as that node's fields. */
  ghost predicate ReadsNodeLines(parse: LineParser, dec: Decimals)
  {
    forall node: Node |
      && node.id >= MinNodeId && node.community >= MinCommunity && node.centrality >= MinCentrality
      && PrintsBack(dec, node.centrality)
      :: parse(NodeText(node, dec)) == Success(NodeRecord(node.id, node.community, node.centrality))
  }

  /** An exported link line parses back to the link's endpoints. */
  lemma LinkTextParses(l: Link, dec: Decimals)
    requires l.n1 >= MinNodeId && l.n2 >= MinNodeId
    ensures ParseLinkColumns(Split(LinkText(l), ColumnDelimiter)) == Success(LinkRecord(l.n1, l.n2))
  {
    LinkTextColumns(l);
    ParsePrinted(l.n1);
    ParsePrinted(l.n2);
  }

  /** An exported node line parses back to the node's fields. */
  lemma NodeTextParses(node: Node, dec: Decimals)
    requires node.id >= MinNodeId && node.community >= MinCommunity && node.centrality >= MinCentrality
    requires PrintsBack(dec, node.centrality)
    ensures ParseNodeColumns(Split(NodeText(node, dec), ColumnDelimiter), dec)
         == Success(NodeRecord(node.id, node.community, node.centrality))
  {
    NodeTextColumns(node, dec);
    ParsePrinted(node.id);
    ParsePrinted(node.community);
  }

  /** `parseLink` reads an exported link line back. */
  lemma LinkParserReadsLinkLines(dec: Decimals)
    ensures ReadsLinkLines(BlockParser(LinkBlock, dec))
  {
    forall l: Link | l.n1 >= MinNodeId && l.n2 >= MinNodeId
      ensures BlockParser(LinkBlock, dec)(LinkText(l)) == Success(LinkRecord(l.n1, l.n2))
    {
      LinkTextParses(l, dec);
    }
  }

  /** `parseNode` reads an exported node line back. */
  lemma NodeParserReadsNodeLines(dec: Decimals)
    ensures ReadsNodeLines(BlockParser(NodeBlock, dec), dec)
  {
    forall node: Node |
      && node.id >= MinNodeId && node.community >= MinCommunity && node.centrality >= MinCentrality
      && PrintsBack(dec, node.centrality)
      ensures BlockParser(NodeBlock, dec)(NodeText(node, dec)) == Success(NodeRecord(node.id, node.community, node.centrality))
    {
      NodeTextParses(node, dec);
    }
  }

  /** Ids stay within `0..n-1`. */
  ghost predicate IdsBelow(net: Network, n: int)
  {
    forall k | k in net.nodes :: 0 <= k < n
  }

  /** A link not yet stored is appended, and no id outside `0..n-1` appears. */
  lemma ApplyNewLink(cur: Network, l: Link, n: int)
    requires Keyed(cur) && IdsBelow(cur, n)
    requires 0 <= l.n1 < n && 0 <= l.n2 < n
    requires !HasLink(cur.links, l)
    ensures Keyed(Apply(cur, LinkRecord(l.n1, l.n2)))
    ensures IdsBelow(Apply(cur, LinkRecord(l.n1, l.n2)), n)
    ensures Apply(cur, LinkRecord(l.n1, l.n2)).links == cur.links + [l]
  {
  }

  /** A node line stores the node as given and leaves the other nodes. */
  lemma ApplyNodeLine(cur: Network, node: Node, n: int)
    requires Keyed(cur) && IdsBelow(cur, n)
    requires 0 <= node.id < n
    ensures var next := Apply(cur, NodeRecord(node.id, node.community, node.centrality));
            && Keyed(next) && IdsBelow(next, n) && next.links == cur.links
            && node.id in next.nodes && next.nodes[node.id] == node
            && forall k | k in cur.nodes && k != node.id :: k in next.nodes && next.nodes[k] == cur.nodes[k]
  {
  }

  /** The record each exported link line carries. */
  function LinkRecords(links: seq<Link>): (recs: seq<Record>)
    ensures |recs| == |links|
    ensures forall i | 0 <= i < |links| :: recs[i] == LinkRecord(links[i].n1, links[i].n2)
    decreases |links|
  {
    if |links| == 0 then []
    else
      var rest := LinkRecords(links[1..]);
      var recs := [LinkRecord(links[0].n1, links[0].n2)] + rest;
      assert forall i | 1 <= i < |links| :: recs[i] == rest[i - 1] && links[i] == links[1..][i - 1];
      recs
  }

  /** One step of `LinksApplied`: the link at index `k` is not stored yet,
      so its record appends it. */
  lemma LinkStep(links: seq<Link>, n: int, cur: Network, k: nat)
    requires LinksDistinct(links)
    requires k < |links| && 0 <= links[k].n1 < n && 0 <= links[k].n2 < n
    requires Keyed(cur) && cur.links == links[..k] && IdsBelow(cur, n)
    ensures var next := Apply(cur, LinkRecords(links)[k]);
            Keyed(next) && IdsBelow(next, n) && next.links == links[..k + 1]
  {
    var l := links[k];
    assert !HasLink(cur.links, l) by {
      forall i | 0 <= i < |cur.links|
        ensures !SameLink(cur.links[i], l)
      {
        assert cur.links[i] == links[i];
      }
    }
    ApplyNewLink(cur, l, n);
    TakeOneMore(links, k);
  }

  /** Applying the link records of pairwise different links, from `k` on,
      appends those links in order and adds no id outside `0..n-1`. */
  lemma {:induction false} LinksApplied(links: seq<Link>, n: int, cur: Network, k: nat)
    requires LinksDistinct(links)
    requires forall i | 0 <= i < |links| :: 0 <= links[i].n1 < n && 0 <= links[i].n2 < n
    requires k <= |links|
    requires Keyed(cur) && cur.links == links[..k] && IdsBelow(cur, n)
    ensures var r := ApplyFrom(cur, LinkRecords(links), k);
            Keyed(r) && IdsBelow(r, n) && r.links == links
    decreases |links| - k
  {
    if k < |links| {
      LinkStep(links, n, cur, k);
      LinksApplied(links, n, Apply(cur, LinkRecords(links)[k]), k + 1);
    } else {
      assert links[..k] == links;
    }
  }

  /** The record each exported node line carries. */
  function NodeRecords(order: seq<Int32>, nodes: map<Int32, Node>): (recs: seq<Record>)
    requires forall i | 0 <= i < |order| :: order[i] in nodes
    ensures |recs| == |order|
    ensures forall i | 0 <= i < |order| ::
              recs[i] == NodeRecord(order[i], nodes[order[i]].community, nodes[order[i]].centrality)
    decreases |order|
  {
    if |order| == 0 then []
    else
      var rest := NodeRecords(order[1..], nodes);
      var recs := [NodeRecord(order[0], nodes[order[0]].community, nodes[order[0]].centrality)] + rest;
      assert forall i | 1 <= i < |order| :: recs[i] == rest[i - 1] && order[i] == order[1..][i - 1];
      recs
  }

  /** Applying the node records of an exportable network, from `k` on, stores
      every node as it is in the network and leaves the links alone. */
  lemma {:induction false} NodesApplied(net: Network, dec: Decimals, cur: Network, k: nat)
    requires Exportable(net, dec)
    requires k <= |net.order|
    requires Keyed(cur) && IdsBelow(cur, |net.order|)
    requires forall i | 0 <= i < k :: net.order[i] in cur.nodes && cur.nodes[net.order[i]] == net.nodes[net.order[i]]
    ensures var r := ApplyFrom(cur, NodeRecords(net.order, net.nodes), k);
            r.links == cur.links && r.nodes == net.nodes
    decreases |net.order| - k
  {
    var n := |net.order|;
    if k < n {
      var id := net.order[k];
      var node := net.nodes[id];
      assert 0 <= id < n;
      ApplyNodeLine(cur, node, n);
      var next := Apply(cur, NodeRecords(net.order, net.nodes)[k]);
      assert next == Apply(cur, NodeRecord(node.id, node.community, node.centrality));
      forall i | 0 <= i < k + 1
        ensures net.order[i] in next.nodes && next.nodes[net.order[i]] == net.nodes[net.order[i]]
      {
        if i < k {
          assert net.order[i] != id;
        }
      }
      NodesApplied(net, dec, next, k + 1);
    } else {
      forall j | j in net.nodes
        ensures j in cur.nodes && cur.nodes[j] == net.nodes[j]
      {
        var i :| 0 <= i < n && net.order[i] == j;
      }
      assert cur.nodes == net.nodes;
    }
  }

  /** Exported link lines followed by an empty line hold the links'
      records. */
  lemma LinkLinesHold(links: seq<Link>, lines: seq<string>, parse: LineParser)
    requires ReadsLinkLines(parse)
    requires forall i | 0 <= i < |links| :: links[i].n1 >= MinNodeId && links[i].n2 >= MinNodeId
    requires |links| < |lines| && lines[|links|] == "" && lines[..|links|] == LinkLines(links)
    ensures BlockHolds(lines, 0, LinkRecords(links), parse)
  {
    LinkLinesRead(links, lines, parse);
    LinesHold(lines, 0, LinkRecords(links), parse);
  }

  lemma LinkLinesRead(links: seq<Link>, lines: seq<string>, parse: LineParser)
    requires ReadsLinkLines(parse)
    requires forall i | 0 <= i < |links| :: links[i].n1 >= MinNodeId && links[i].n2 >= MinNodeId
    requires |links| <= |lines| && lines[..|links|] == LinkLines(links)
    ensures forall j | 0 <= j < 0 + |LinkRecords(links)| ::
              lines[j] != "" && parse(lines[j]) == Success(LinkRecords(links)[j - 0])
  {
    forall j | 0 <= j < 0 + |LinkRecords(links)|
      ensures lines[j] != "" && parse(lines[j]) == Success(LinkRecords(links)[j - 0])
    {
      LinkLineHolds(links, lines, parse, j);
    }
  }

  lemma LinkLineHolds(links: seq<Link>, lines: seq<string>, parse: LineParser, j: nat)
    requires ReadsLinkLines(parse)
    requires j < |links| && links[j].n1 >= MinNodeId && links[j].n2 >= MinNodeId
    requires |links| <= |lines| && lines[..|links|] == LinkLines(links)
    ensures lines[j] != "" && parse(lines[j]) == Success(LinkRecords(links)[j])
  {
    var l := links[j];
    assert lines[j] == lines[..|links|][j] == LinkText(l);
    assert parse(LinkText(l)) == Success(LinkRecord(l.n1, l.n2));
  }

  /** Exported node lines up to the end of the file hold the nodes'
      records. */
  lemma NodeLinesHold(net: Network, lines: seq<string>, start: nat, parse: LineParser, dec: Decimals)
    requires ReadsNodeLines(parse, dec)
    requires forall i | 0 <= i < |net.order| :: net.order[i] in net.nodes
    requires start + |net.order| == |lines| && lines[start..] == NodeLines(net.order, net.nodes, dec)
    requires Keyed(net)
    requires forall k | k in net.nodes ::
               && k >= MinNodeId && net.nodes[k].community >= MinCommunity
               && net.nodes[k].centrality >= MinCentrality && PrintsBack(dec, net.nodes[k].centrality)
    ensures BlockHolds(lines, start, NodeRecords(net.order, net.nodes), parse)
  {
    var recs := NodeRecords(net.order, net.nodes);
    forall j | start <= j < start + |recs|
      ensures lines[j] != "" && parse(lines[j]) == Success(recs[j - start])
    {
      var i := j - start;
      var node := net.nodes[net.order[i]];
      assert lines[j] == lines[start..][i] == NodeText(node, dec);
      assert node.id == net.order[i];
    }
    LinesHold(lines, start, recs, parse);
  }

  /** With parsers that read exported lines back, the exported lines parse
      to the records of the links and then of the nodes, ending with the
      last line. */
  lemma ExportParses(net: Network, dec: Decimals, linkParse: LineParser, nodeParse: LineParser)
    requires Exportable(net, dec) && ReadsLinkLines(linkParse) && ReadsNodeLines(nodeParse, dec)
    ensures var lines := ExportLines(net, dec);
            && ParseBlock(lines, 0, linkParse) == Success((LinkRecords(net.links), |net.links| + 1))
            && ParseBlock(lines, |net.links| + 1, nodeParse) == Success((NodeRecords(net.order, net.nodes), |lines|))
  {
    var lines := ExportLines(net, dec);
    forall i | 0 <= i < |net.links|
      ensures net.links[i].n1 >= MinNodeId && net.links[i].n2 >= MinNodeId
    {
      assert net.links[i].n1 in net.nodes && net.links[i].n2 in net.nodes;
    }
    LinkLinesHold(net.links, lines, linkParse);
    BlockParses(lines, 0, LinkRecords(net.links), linkParse);
    NodeLinesHold(net, lines, |net.links| + 1, nodeParse, dec);
    BlockParses(lines, |net.links| + 1, NodeRecords(net.order, net.nodes), nodeParse);
  }

  /** An import whose two blocks parse applies their records in turn. */
  lemma ImportOfParsed(net: Network, lines: seq<string>, linkParse: LineParser, nodeParse: LineParser,
                       linkRecs: seq<Record>, end: nat, nodeRecs: seq<Record>)
    requires end <= |lines|
    requires ParseBlock(lines, 0, linkParse) == Success((linkRecs, end))
    requires ParseBlock(lines, end, nodeParse) == Success((nodeRecs, |lines|))
    ensures ImportWith(net, lines, linkParse, nodeParse)
         == Success(Imported(ApplyFrom(ApplyFrom(net, linkRecs, 0), nodeRecs, 0), None))
  {
  }

  lemma LinkTextHasNoNewline(l: Link)
    ensures '\n' !in LinkText(l)
  {
    assert '\n' !in IntToString(l.n1) && '\n' !in IntToString(l.n2);
  }

  lemma NodeTextHasNoNewline(node: Node, dec: Decimals)
    requires '\n' !in dec.show(node.centrality)
    ensures '\n' !in NodeText(node, dec)
  {
    assert '\n' !in IntToString(node.id) && '\n' !in IntToString(node.community);
  }

  /** No exported line holds a newline, so the lines read back as written. */
  lemma ExportHasNoNewline(net: Network, dec: Decimals)
    requires forall i | 0 <= i < |net.order| :: net.order[i] in net.nodes
    requires forall k | k in net.nodes :: '\n' !in dec.show(net.nodes[k].centrality)
    ensures forall i | 0 <= i < |ExportLines(net, dec)| :: '\n' !in ExportLines(net, dec)[i]
  {
    var lines := ExportLines(net, dec);
    forall i | 0 <= i < |lines|
      ensures '\n' !in lines[i]
    {
      if i < |net.links| {
        assert lines[i] == lines[..|net.links|][i];
        LinkTextHasNoNewline(net.links[i]);
      } else if i > |net.links| {
        var j := i - |net.links| - 1;
        assert lines[i] == lines[|net.links| + 1..][j];
        NodeTextHasNoNewline(net.nodes[net.order[j]], dec);
      }
    }
  }

  /** The links of an exportable network are pairwise different and join
      ids of `0..n-1`. */
  lemma ExportableLinks(net: Network, dec: Decimals)
    requires Exportable(net, dec)
    ensures LinksDistinct(net.links)
    ensures forall i | 0 <= i < |net.links| ::
              0 <= net.links[i].n1 < |net.order| && 0 <= net.links[i].n2 < |net.order|
  {
    forall i | 0 <= i < |net.links|
      ensures 0 <= net.links[i].n1 < |net.order| && 0 <= net.links[i].n2 < |net.order|
    {
      assert net.links[i].n1 in net.nodes && net.links[i].n2 in net.nodes;
    }
  }

  /** Applying the records of an exported network's lines to an empty
      network rebuilds its links and nodes. */
  lemma ExportRecordsRebuild(net: Network, dec: Decimals)
    requires Exportable(net, dec)
    ensures var r := ApplyFrom(ApplyFrom(Empty, LinkRecords(net.links), 0), NodeRecords(net.order, net.nodes), 0);
            r.links == net.links && r.nodes == net.nodes
  {
    ExportableLinks(net, dec);
    LinksApplied(net.links, |net.order|, Empty, 0);
    NodesApplied(net, dec, ApplyFrom(Empty, LinkRecords(net.links), 0), 0);
  }

  /** Reading the exported text gives the exported lines. */
  lemma ExportReadsAsLines(net: Network, dec: Decimals)
    requires forall i | 0 <= i < |net.order| :: net.order[i] in net.nodes
    requires forall k | k in net.nodes :: '\n' !in dec.show(net.nodes[k].centrality)
    ensures ReadLines(ExportNetwork(net, dec)) == ExportLines(net, dec)
  {
    ExportHasNoNewline(net, dec);
    ReadTerminated(ExportLines(net, dec));
  }

  /** With parsers that read exported lines back, importing an exported
      network into an empty one gives back its links, in order, and every
      node with its community and centrality, and no lines are left over. */
  lemma ImportWithReadsExport(net: Network, dec: Decimals, linkParse: LineParser, nodeParse: LineParser)
    requires Exportable(net, dec) && ReadsLinkLines(linkParse) && ReadsNodeLines(nodeParse, dec)
    ensures var r := ImportWith(Empty, ReadLines(ExportNetwork(net, dec)), linkParse, nodeParse);
            && r.Success? && r.value.excessAfterLine == None
            && r.value.network.links == net.links && r.value.network.nodes == net.nodes
  {
    var lines := ExportLines(net, dec);
    ExportReadsAsLines(net, dec);
    ExportParses(net, dec, linkParse, nodeParse);
    var linkRecs, nodeRecs := LinkRecords(net.links), NodeRecords(net.order, net.nodes);
    ImportOfParsed(Empty, lines, linkParse, nodeParse, linkRecs, |net.links| + 1, nodeRecs);
    ExportRecordsRebuild(net, dec);
  }

  /** `importNetwork` reads back what `exportNetwork` wrote, for every
      network the format can represent. */
  lemma ImportReadsExport(net: Network, dec: Decimals)
    requires Exportable(net, dec)
    ensures var r := ImportNetwork(Empty, ReadLines(ExportNetwork(net, dec)), dec);
            && r.Success? && r.value.excessAfterLine == None
            && r.value.network.links == net.links && r.value.network.nodes == net.nodes
  {
    LinkParserReadsLinkLines(dec);
    NodeParserReadsNodeLines(dec);
    ImportWithReadsExport(net, dec, BlockParser(LinkBlock, dec), BlockParser(NodeBlock, dec));
  }
}

=== FILE: network.dfy ===
/** The compressed sparse-row network of the CWTS network-analysis library
    (`nl.cwts.networkanalysis.Network`): its representation, the
    well-formedness conditions `checkIntegrity` enforces, and the total edge
    weight per node. */
module CwtsNetwork {
  import opened SeqMath
  import opened Wrappers
  import CwtsArrays

  /** The neighbours of node `i` are `neighbors[firstNeighborIndices[i] ..
      firstNeighborIndices[i + 1]]`, with the matching `edgeWeights`. Every
      undirected edge is stored once in each direction; self-links are not
      stored but summed in `totalEdgeWeightSelfLinks`. */
  datatype Network = Network(
    nNodes: int,
    nEdges: int,
    nodeWeights: seq<real>,
    firstNeighborIndices: seq<int>,
    neighbors: seq<int>,
    edgeWeights: seq<real>,
    totalEdgeWeightSelfLinks: real)

  /** Counts and array lengths agree, and the index array starts at 0 and
      ends at `nEdges`. */
  predicate Shaped(net: Network)
  {
    && net.nNodes >= 0
    && net.nEdges >= 0
    && |net.nodeWeights| == net.nNodes
    && |net.firstNeighborIndices| == net.nNodes + 1
    && net.firstNeighborIndices[0] == 0
    && net.firstNeighborIndices[net.nNodes] == net.nEdges
    && |net.neighbors| == net.nEdges
    && |net.edgeWeights| == net.nEdges
  }

  /** Consecutive first-neighbour indices never decrease. */
  predicate Monotone(net: Network)
    requires Shaped(net)
  {
    forall i | 0 <= i < net.nNodes :: net.firstNeighborIndices[i] <= net.firstNeighborIndices[i + 1]
  }

  /** Position `j` of the neighbour arrays lies in node `i`'s slice. */
  predicate InSlice(net: Network, i: int, j: int)
  {
    && 0 <= i < net.nNodes
    && i + 1 < |net.firstNeighborIndices|
    && net.firstNeighborIndices[i] <= j < net.firstNeighborIndices[i + 1]
    && 0 <= j < net.nEdges
  }

  /** The shape every constructor of the source establishes: slices are in
      order and every neighbour is a node. Operations deriving new networks
      rely on it. */
  predicate Csr(net: Network)
  {
    && Shaped(net)
    && Monotone(net)
    && (forall j | 0 <= j < net.nEdges :: 0 <= net.neighbors[j] < net.nNodes)
  }

  /** Within every slice the neighbours are strictly increasing. */
  ghost predicate SlicesSorted(net: Network)
    requires Csr(net)
  {
    forall i, j | InSlice(net, i, j) && 0 < j && j > net.firstNeighborIndices[i] :: net.neighbors[j - 1] < net.neighbors[j]
  }

  /** The edge stored at position `j` of node `i`'s slice is also stored in
      the other direction, with the same weight. */
  ghost predicate HasReverse(net: Network, i: int, j: int)
    requires Csr(net) && 0 <= j < net.nEdges
  {
    var k := net.neighbors[j];
    exists l | InSlice(net, k, l) :: net.neighbors[l] == i && net.edgeWeights[l] == net.edgeWeights[j]
  }

  ghost predicate Symmetric(net: Network)
    requires Csr(net)
  {
    forall i, j | InSlice(net, i, j) :: HasReverse(net, i, j)
  }

  /** Everything `checkIntegrity` demands of a network. */
  ghost predicate WellFormed(net: Network)
  {
    && Csr(net)
    && net.nEdges % 2 == 0
    && SlicesSorted(net)
    && Symmetric(net)
  }

  /** The reasons `checkIntegrity` rejects a network, one per message. */
  datatype IntegrityError =
    | NegativeNodeCount
    | NegativeEdgeCount
    | OddEdgeCount
    | NodeWeightsLength
    | FirstNeighborIndicesLength
    | FirstIndexNotZero
    | LastIndexNotEdgeCount
    | NeighborsLength
    | EdgeWeightsLength
    | DecreasingIndices
    | NegativeNeighbor
    | NeighborTooLarge
    | UnsortedNeighbors
    | DuplicateNeighbor
    | MissingReverseEdge
    | AsymmetricEdgeWeight

  /** What each rejection means: the condition it names is violated. */
  ghost predicate Violated(net: Network, e: IntegrityError)
  {
    match e
    case NegativeNodeCount => net.nNodes < 0
    case NegativeEdgeCount => net.nEdges < 0
    case OddEdgeCount => net.nEdges % 2 == 1
    case NodeWeightsLength => |net.nodeWeights| != net.nNodes
    case FirstNeighborIndicesLength => |net.firstNeighborIndices| != net.nNodes + 1
    case FirstIndexNotZero => |net.firstNeighborIndices| > 0 && net.firstNeighborIndices[0] != 0
    case LastIndexNotEdgeCount =>
      0 <= net.nNodes < |net.firstNeighborIndices| && net.firstNeighborIndices[net.nNodes] != net.nEdges
    case NeighborsLength => |net.neighbors| != net.nEdges
    case EdgeWeightsLength => |net.edgeWeights| != net.nEdges
    case DecreasingIndices =>
      Shaped(net) && exists i | 0 <= i < net.nNodes :: net.firstNeighborIndices[i + 1] < net.firstNeighborIndices[i]
    case NegativeNeighbor =>
      exists j | 0 <= j < |net.neighbors| :: net.neighbors[j] < 0
    case NeighborTooLarge =>
      exists j | 0 <= j < |net.neighbors| :: net.neighbors[j] >= net.nNodes
    case UnsortedNeighbors =>
      Shaped(net) && exists i, j | InSlice(net, i, j) && 0 < j && j > net.firstNeighborIndices[i] ::
        net.neighbors[j] < net.neighbors[j - 1]
    case DuplicateNeighbor =>
      Shaped(net) && exists i, j | InSlice(net, i, j) && 0 < j && j > net.firstNeighborIndices[i] ::
        net.neighbors[j] == net.neighbors[j - 1]
    case MissingReverseEdge =>
      Csr(net) && exists i, j | InSlice(net, i, j) ::
        (!HasReverse(net, i, j) && forall l | InSlice(net, net.neighbors[j], l) :: net.neighbors[l] != i)
    case AsymmetricEdgeWeight =>
      Csr(net) && exists i, j | InSlice(net, i, j) ::
        (!HasReverse(net, i, j) && exists l | InSlice(net, net.neighbors[j], l) :: net.neighbors[l] == i)
  }

  /** Every position of the neighbour arrays belongs to exactly the slices
      bounded by the (monotone) index array. */
  lemma {:induction false} MonotoneBetween(net: Network, a: int, b: int)
    requires Shaped(net) && Monotone(net)
    requires 0 <= a <= b <= net.nNodes
    ensures net.firstNeighborIndices[a] <= net.firstNeighborIndices[b]
    decreases b - a
  {
    if a < b {
      MonotoneBetween(net, a + 1, b);
    }
  }

  lemma IndicesWithinEdges(net: Network, a: int)
    requires Shaped(net) && Monotone(net)
    requires 0 <= a <= net.nNodes
    ensures 0 <= net.firstNeighborIndices[a] <= net.nEdges
  {
    MonotoneBetween(net, 0, a);
    MonotoneBetween(net, a, net.nNodes);
  }

  /** Slices of a monotone index array do not overlap. */
  lemma SliceOwnerUnique(net: Network, a: int, b: int, j: int)
    requires Shaped(net) && Monotone(net)
    requires InSlice(net, a, j) && InSlice(net, b, j)
    ensures a == b
  {
    if a < b {
      MonotoneBetween(net, a + 1, b);
    } else if b < a {
      MonotoneBetween(net, b + 1, a);
    }
  }

  /** In a strictly sorted slice a neighbour occurs at one position only. */
  lemma {:induction false} SortedSliceIncreasing(net: Network, i: int, j: int, l: int)
    requires Csr(net) && SlicesSorted(net)
    requires InSlice(net, i, j) && InSlice(net, i, l) && j < l
    ensures net.neighbors[j] < net.neighbors[l]
    decreases l - j
  {
    if j + 1 < l {
      SortedSliceIncreasing(net, i, j, l - 1);
    }
  }

  lemma SortedSliceInjective(net: Network, i: int, j: int, l: int)
    requires Csr(net) && SlicesSorted(net)
    requires InSlice(net, i, j) && InSlice(net, i, l) && net.neighbors[j] == net.neighbors[l]
    ensures j == l
  {
    if j < l {
      SortedSliceIncreasing(net, i, j, l);
    } else if l < j {
      SortedSliceIncreasing(net, i, l, j);
    }
  }

  /** Every rejection reason rules out well-formedness. */
  lemma ViolatedNotWellFormed(net: Network, e: IntegrityError)
    requires Violated(net, e)
    ensures !WellFormed(net)
  {
  }

  /** `Arrays.binarySearch(a, fromIndex, toIndex, key)` of the Java library:
      an index holding `key` in the sorted range, or `-(insertion point) - 1`
      when the range does not hold it. */
  method BinarySearch(a: seq<int>, fromIndex: int, toIndex: int, key: int) returns (r: int)
    requires 0 <= fromIndex <= toIndex <= |a|
    requires forall i, j | fromIndex <= i < j < toIndex :: a[i] <= a[j]
    ensures 0 <= r ==> fromIndex <= r < toIndex && a[r] == key
    ensures r < 0 ==> forall i | fromIndex <= i < toIndex :: a[i] != key
    ensures r < 0 ==> fromIndex <= -(r + 1) <= toIndex
    ensures r < 0 ==> forall i | fromIndex <= i < toIndex :: (a[i] < key <==> i < -(r + 1))
  {
    var low := fromIndex;
    var high := toIndex - 1;
    while low <= high
      invariant fromIndex <= low <= high + 1 <= toIndex
      invariant forall i | fromIndex <= i < low :: a[i] < key
      invariant forall i | high < i < toIndex :: a[i] > key
    {
      var mid := (low + high) / 2;
      var midVal := a[mid];
      if midVal < key {
        low := mid + 1;
      } else if midVal > key {
        high := mid - 1;
      } else {
        return mid;
      }
    }
    r := -(low + 1);
  }

  /** The scalar and length checks that open `checkIntegrity`, in the
      source's order. */
  function ShapeError(net: Network): (r: Option<IntegrityError>)
    ensures r.None? <==> Shaped(net) && net.nEdges % 2 == 0
    ensures r.Some? ==> Violated(net, r.value)
  {
    if net.nNodes < 0 then Some(NegativeNodeCount)
    else if net.nEdges < 0 then Some(NegativeEdgeCount)
    else if net.nEdges % 2 == 1 then Some(OddEdgeCount)
    else if |net.nodeWeights| != net.nNodes then Some(NodeWeightsLength)
    else if |net.firstNeighborIndices| != net.nNodes + 1 then Some(FirstNeighborIndicesLength)
    else if net.firstNeighborIndices[0] != 0 then Some(FirstIndexNotZero)
    else if net.firstNeighborIndices[net.nNodes] != net.nEdges then Some(LastIndexNotEdgeCount)
    else if |net.neighbors| != net.nEdges then Some(NeighborsLength)
    else if |net.edgeWeights| != net.nEdges then Some(EdgeWeightsLength)
    else None
  }

  /** In a sorted slice the neighbours never decrease, in the pairwise form
      a binary search expects. */
  lemma SliceSortedPairs(net: Network, k: int)
    requires Csr(net) && SlicesSorted(net) && 0 <= k < net.nNodes
    ensures forall x, y | net.firstNeighborIndices[k] <= x < y < net.firstNeighborIndices[k + 1] && 0 <= x && y < net.nEdges ::
              net.neighbors[x] <= net.neighbors[y]
  {
    IndicesWithinEdges(net, k);
    IndicesWithinEdges(net, k + 1);
    forall x, y | net.firstNeighborIndices[k] <= x < y < net.firstNeighborIndices[k + 1]
      ensures net.neighbors[x] <= net.neighbors[y]
    {
      SortedSliceIncreasing(net, k, x, y);
    }
  }

  /** `checkIntegrity()`, with the decreasing-index test run over all nodes
      before any slice is read (see the findings in the README). It returns
      the first rejection found, and nothing exactly when the network is
      well formed; it never indexes outside an array. */
  method CheckIntegrity(net: Network) returns (r: Option<IntegrityError>)
    ensures r.None? <==> WellFormed(net)
    ensures r.Some? ==> Violated(net, r.value)
  {
    r := ShapeError(net);
    if r.Some? {
      ViolatedNotWellFormed(net, r.value);
      return;
    }
    var fni := net.firstNeighborIndices;
    var i := 0;
    while i < net.nNodes
      invariant 0 <= i <= net.nNodes
      invariant forall a | 0 <= a < i :: fni[a] <= fni[a + 1]
    {
      if fni[i + 1] < fni[i] {
        r := Some(DecreasingIndices);
        ViolatedNotWellFormed(net, r.value);
        return;
      }
      i := i + 1;
    }
    assert Monotone(net);
    r := CheckNeighborOrder(net);
    if r.Some? {
      ViolatedNotWellFormed(net, r.value);
      return;
    }
    r := CheckReverseEdges(net);
    if r.Some? {
      ViolatedNotWellFormed(net, r.value);
    }
  }

  /** Every position lies in some node's slice. */
  lemma {:induction false} CoveredBySlice(net: Network, x: int, a: int)
    requires Shaped(net) && Monotone(net)
    requires 0 <= a <= net.nNodes && 0 <= x && net.firstNeighborIndices[a] <= x < net.nEdges
    ensures exists b :: InSlice(net, b, x)
    decreases net.nNodes - a
  {
    if x < net.firstNeighborIndices[a + 1] {
      assert InSlice(net, a, x);
    } else {
      CoveredBySlice(net, x, a + 1);
    }
  }

  /** Node `a`'s slice holds nodes only, in strictly increasing order. */
  ghost predicate SliceOrdered(net: Network, a: int)
    requires Shaped(net) && Monotone(net) && 0 <= a < net.nNodes
  {
    forall x | InSlice(net, a, x) :: SlotOrdered(net, a, x)
  }

  /** Position `x` of node `a`'s slice holds a node above the one before it. */
  ghost predicate SlotOrdered(net: Network, a: int, x: int)
    requires Shaped(net) && Monotone(net) && InSlice(net, a, x)
  {
    && 0 <= net.neighbors[x] < net.nNodes
    && (x > net.firstNeighborIndices[a] ==> 0 < x && net.neighbors[x - 1] < net.neighbors[x])
  }

  /** The inner loop of lines 524-541 for node `i`. */
  method CheckSliceOrder(net: Network, i: int) returns (r: Option<IntegrityError>)
    requires Shaped(net) && Monotone(net) && 0 <= i < net.nNodes
    ensures r.None? <==> SliceOrdered(net, i)
    ensures r.Some? ==> Violated(net, r.value)
  {
    var fni := net.firstNeighborIndices;
    IndicesWithinEdges(net, i);
    IndicesWithinEdges(net, i + 1);
    var j := fni[i];
    while j < fni[i + 1]
      invariant fni[i] <= j <= fni[i + 1]
      invariant forall x | InSlice(net, i, x) && x < j :: SlotOrdered(net, i, x)
    {
      assert InSlice(net, i, j);
      r := CheckSlot(net, i, j);
      if r.Some? {
        return;
      }
      j := j + 1;
    }
    r := None;
  }

  /** One visit of the inner loop of lines 524-541: the checks on position
      `j` of node `i`'s slice. */
  method CheckSlot(net: Network, i: int, j: int) returns (r: Option<IntegrityError>)
    requires Shaped(net) && Monotone(net) && InSlice(net, i, j)
    ensures r.None? <==> SlotOrdered(net, i, j)
    ensures r.Some? ==> Violated(net, r.value)
  {
    IndicesWithinEdges(net, i);
    var k := net.neighbors[j];
    if k < 0 {
      return Some(NegativeNeighbor);
    } else if k >= net.nNodes {
      return Some(NeighborTooLarge);
    }
    r := None;
    if j > net.firstNeighborIndices[i] {
      var l := net.neighbors[j - 1];
      if k < l {
        r := Some(UnsortedNeighbors);
      } else if k == l {
        r := Some(DuplicateNeighbor);
      }
    }
  }

  /** Lines 519-542 of `checkIntegrity` once the index array is known to be
      monotone: every neighbour is a node, and every slice strictly
      increases. */
  method CheckNeighborOrder(net: Network) returns (r: Option<IntegrityError>)
    requires Shaped(net) && Monotone(net)
    ensures r.None? <==> Csr(net) && SlicesSorted(net)
    ensures r.Some? ==> Violated(net, r.value)
  {
    var i := 0;
    while i < net.nNodes
      invariant 0 <= i <= net.nNodes
      invariant forall a | 0 <= a < i :: SliceOrdered(net, a)
    {
      SortedSliceOrdered(net, i);
      r := CheckSliceOrder(net, i);
      if r.Some? {
        return;
      }
      i := i + 1;
    }
    forall x | 0 <= x < net.nEdges
      ensures 0 <= net.neighbors[x] < net.nNodes
    {
      CoveredBySlice(net, x, 0);
      var b :| InSlice(net, b, x);
      assert SliceOrdered(net, b);
    }
    forall a, x | InSlice(net, a, x) && 0 < x && x > net.firstNeighborIndices[a]
      ensures net.neighbors[x - 1] < net.neighbors[x]
    {
      assert SliceOrdered(net, a);
    }
    r := None;
  }

  /** A valid network with sorted slices passes the checks on every slice. */
  lemma SortedSliceOrdered(net: Network, i: int)
    requires Shaped(net) && Monotone(net) && 0 <= i < net.nNodes
    ensures Csr(net) && SlicesSorted(net) ==> SliceOrdered(net, i)
  {
    if Csr(net) && SlicesSorted(net) {
      IndicesWithinEdges(net, i);
      forall x | InSlice(net, i, x) ensures SlotOrdered(net, i, x) {
        assert 0 <= x < net.nEdges;
      }
    }
  }

  /** Every edge in node `a`'s slice has its reverse. */
  ghost predicate SliceReversed(net: Network, a: int)
    requires Csr(net) && 0 <= a < net.nNodes
  {
    forall x | InSlice(net, a, x) :: HasReverse(net, a, x)
  }

  /** Every position flagged as checked has its reverse. */
  ghost predicate CheckedReversed(net: Network, checked: seq<bool>)
    requires Csr(net) && |checked| == net.nEdges
  {
    forall a, x | InSlice(net, a, x) && checked[x] :: HasReverse(net, a, x)
  }

  /** One visit of the inner loop of lines 547-560: look up the reverse of
      the edge at position `j` of node `i`'s slice. */
  method CheckReverseEdge(net: Network, i: int, j: int, checked: seq<bool>) returns (r: Option<IntegrityError>, checked': seq<bool>)
    requires Csr(net) && SlicesSorted(net)
    requires InSlice(net, i, j)
    requires |checked| == net.nEdges && CheckedReversed(net, checked)
    ensures r.None? <==> HasReverse(net, i, j)
    ensures r.Some? ==> Violated(net, r.value)
    ensures r.None? ==> |checked'| == net.nEdges && CheckedReversed(net, checked')
  {
    checked' := checked;
    if checked[j] {
      return None, checked';
    }
    var fni := net.firstNeighborIndices;
    var k := net.neighbors[j];
    IndicesWithinEdges(net, k);
    IndicesWithinEdges(net, k + 1);
    SliceSortedPairs(net, k);
    var l := BinarySearch(net.neighbors, fni[k], fni[k + 1], i);
    if l < 0 {
      return Some(MissingReverseEdge), checked';
    }
    assert InSlice(net, k, l);
    if net.edgeWeights[j] != net.edgeWeights[l] {
      OtherWeightNotReversed(net, i, j, l);
      return Some(AsymmetricEdgeWeight), checked';
    }
    assert HasReverse(net, i, j);
    assert HasReverse(net, k, l) by {
      assert InSlice(net, i, j) && net.neighbors[j] == k;
    }
    checked' := checked[j := true][l := true];
    PairChecked(net, checked, i, j, k, l);
    r := None;
  }

  /** In a sorted slice the edge back to `i` is the only candidate reverse,
      so a different weight there means the edge has no reverse. */
  lemma OtherWeightNotReversed(net: Network, i: int, j: int, l: int)
    requires Csr(net) && SlicesSorted(net) && InSlice(net, i, j)
    requires InSlice(net, net.neighbors[j], l) && net.neighbors[l] == i
    requires net.edgeWeights[j] != net.edgeWeights[l]
    ensures !HasReverse(net, i, j)
    ensures Violated(net, AsymmetricEdgeWeight)
  {
    var k := net.neighbors[j];
    forall l' | InSlice(net, k, l') && net.neighbors[l'] == i
      ensures net.edgeWeights[l'] != net.edgeWeights[j]
    {
      SortedSliceInjective(net, k, l, l');
    }
    assert !HasReverse(net, i, j) && InSlice(net, k, l) && net.neighbors[l] == i;
  }

  /** Flagging an edge and its reverse keeps every flagged edge reversed. */
  lemma PairChecked(net: Network, checked: seq<bool>, i: int, j: int, k: int, l: int)
    requires Csr(net) && |checked| == net.nEdges && CheckedReversed(net, checked)
    requires InSlice(net, i, j) && InSlice(net, k, l)
    requires HasReverse(net, i, j) && HasReverse(net, k, l)
    ensures CheckedReversed(net, checked[j := true][l := true])
  {
    var checked' := checked[j := true][l := true];
    forall a, x | InSlice(net, a, x) && checked'[x]
      ensures HasReverse(net, a, x)
    {
      if x == j {
        SliceOwnerUnique(net, a, i, x);
      } else if x == l {
        SliceOwnerUnique(net, a, k, x);
      }
    }
  }

  /** The inner loop of lines 547-560 over node `i`'s slice. */
  method CheckSliceReverses(net: Network, i: int, checked: seq<bool>) returns (r: Option<IntegrityError>, checked': seq<bool>)
    requires Csr(net) && SlicesSorted(net) && 0 <= i < net.nNodes
    requires |checked| == net.nEdges && CheckedReversed(net, checked)
    ensures r.None? <==> SliceReversed(net, i)
    ensures r.Some? ==> Violated(net, r.value)
    ensures r.None? ==> |checked'| == net.nEdges && CheckedReversed(net, checked')
  {
    var fni := net.firstNeighborIndices;
    IndicesWithinEdges(net, i);
    IndicesWithinEdges(net, i + 1);
    checked' := checked;
    var j := fni[i];
    while j < fni[i + 1]
      invariant fni[i] <= j <= fni[i + 1]
      invariant |checked'| == net.nEdges && CheckedReversed(net, checked')
      invariant forall x | InSlice(net, i, x) && x < j :: HasReverse(net, i, x)
    {
      assert InSlice(net, i, j);
      r, checked' := CheckReverseEdge(net, i, j, checked');
      if r.Some? {
        return;
      }
      j := j + 1;
    }
    r := None;
  }

  /** Lines 544-560 of `checkIntegrity`: every stored edge has its reverse
      with an equal weight. An edge already confirmed as the reverse of an
      earlier one is skipped, as the source's `checked` flags do. */
  method CheckReverseEdges(net: Network) returns (r: Option<IntegrityError>)
    requires Csr(net) && SlicesSorted(net)
    ensures r.None? <==> Symmetric(net)
    ensures r.Some? ==> Violated(net, r.value)
  {
    var checked := seq(net.nEdges, _ => false);
    var i := 0;
    while i < net.nNodes
      invariant 0 <= i <= net.nNodes
      invariant |checked| == net.nEdges && CheckedReversed(net, checked)
      invariant forall a | 0 <= a < i :: SliceReversed(net, a)
    {
      r, checked := CheckSliceReverses(net, i, checked);
      if r.Some? {
        return;
      }
      i := i + 1;
    }
    forall a, x | InSlice(net, a, x) ensures HasReverse(net, a, x) {
      assert SliceReversed(net, a);
    }
    r := None;
  }

  /** A run-time failure of the source that is not one of its own
      rejections. */
  datatype Fault = Rejected(error: IntegrityError) | ArrayOutOfBounds

  /** Lines 519-542 of `checkIntegrity` as written: the decreasing-index
      test for node `i` runs only after the slices of the nodes before it
      have been read, so a slice bounded by indices that decrease later may
      run outside the neighbour array first. */
  function OrderCheckAsWritten(net: Network, i: int): Option<Fault>
    requires Shaped(net) && 0 <= i <= net.nNodes
    decreases net.nNodes - i
  {
    var fni := net.firstNeighborIndices;
    if i == net.nNodes then None
    else if fni[i + 1] < fni[i] then Some(Rejected(DecreasingIndices))
    else
      var slice := SliceScanAsWritten(net, i, fni[i]);
      if slice.Some? then slice else OrderCheckAsWritten(net, i + 1)
  }

  function SliceScanAsWritten(net: Network, i: int, j: int): Option<Fault>
    requires Shaped(net) && 0 <= i < net.nNodes
    decreases net.firstNeighborIndices[i + 1] - j
  {
    var fni := net.firstNeighborIndices;
    if j >= fni[i + 1] then None
    else if !(0 <= j < net.nEdges) then Some(ArrayOutOfBounds)
    else if net.neighbors[j] < 0 then Some(Rejected(NegativeNeighbor))
    else if net.neighbors[j] >= net.nNodes then Some(Rejected(NeighborTooLarge))
    else if j > fni[i] && j == 0 then Some(ArrayOutOfBounds)
    else if j > fni[i] && net.neighbors[j] < net.neighbors[j - 1] then Some(Rejected(UnsortedNeighbors))
    else if j > fni[i] && net.neighbors[j] == net.neighbors[j - 1] then Some(Rejected(DuplicateNeighbor))
    else SliceScanAsWritten(net, i, j + 1)
  }

  /** Two nodes, no edges, index array `[0, 1, 0]`: the source reads
      `neighbors[0]` of an empty array before it notices that the indices
      decrease, so it fails with an index error instead of rejecting the
      network. The corrected check rejects it for its decreasing indices. */
  lemma DecreasingIndicesReadFirst()
    ensures var net := Network(2, 0, [1.0, 1.0], [0, 1, 0], [], [], 0.0);
      && ShapeError(net) == None
      && OrderCheckAsWritten(net, 0) == Some(ArrayOutOfBounds)
      && Violated(net, DecreasingIndices)
      && !WellFormed(net)
  {
    var net := Network(2, 0, [1.0, 1.0], [0, 1, 0], [], [], 0.0);
    assert SliceScanAsWritten(net, 0, 0) == Some(ArrayOutOfBounds);
    assert net.firstNeighborIndices[2] < net.firstNeighborIndices[1];
  }

  /** Every node's slice bounds may be read: an empty or inverted range is
      skipped, any other lies inside the weight array. */
  predicate RangesReadable(nNodes: int, firstNeighborIndices: seq<int>, edgeWeights: seq<real>)
  {
    && 0 <= nNodes < |firstNeighborIndices|
    && forall i | 0 <= i < nNodes ::
         || firstNeighborIndices[i + 1] <= firstNeighborIndices[i]
         || (0 <= firstNeighborIndices[i] && firstNeighborIndices[i + 1] <= |edgeWeights|)
  }

  /** The total weight of the edges stored in node `i`'s slice. */
  function SliceWeight(firstNeighborIndices: seq<int>, edgeWeights: seq<real>, i: int): real
    requires 0 <= i < |firstNeighborIndices| - 1
    requires || firstNeighborIndices[i + 1] <= firstNeighborIndices[i]
             || (0 <= firstNeighborIndices[i] && firstNeighborIndices[i + 1] <= |edgeWeights|)
  {
    if firstNeighborIndices[i] < firstNeighborIndices[i + 1]
    then Sum(edgeWeights[firstNeighborIndices[i]..firstNeighborIndices[i + 1]])
    else 0.0
  }

  /** `getTotalEdgeWeightPerNodeHelper()`: for every node, the total weight
      of the edges in its slice. */
  method TotalEdgeWeightPerNode(nNodes: int, firstNeighborIndices: seq<int>, edgeWeights: seq<real>) returns (totals: seq<real>)
    requires RangesReadable(nNodes, firstNeighborIndices, edgeWeights)
    ensures |totals| == nNodes
    ensures forall i | 0 <= i < nNodes :: totals[i] == SliceWeight(firstNeighborIndices, edgeWeights, i)
  {
    totals := [];
    var i := 0;
    while i < nNodes
      invariant 0 <= i <= nNodes
      invariant |totals| == i
      invariant forall a | 0 <= a < i :: totals[a] == SliceWeight(firstNeighborIndices, edgeWeights, a)
    {
      var t := CwtsArrays.CalcSumRange(edgeWeights, firstNeighborIndices[i], firstNeighborIndices[i + 1]);
      totals := totals + [t.value];
      i := i + 1;
    }
  }

  lemma MonotoneRangesReadable(net: Network)
    requires Shaped(net) && Monotone(net)
    ensures RangesReadable(net.nNodes, net.firstNeighborIndices, net.edgeWeights)
  {
    forall i | 0 <= i <= net.nNodes
      ensures 0 <= net.firstNeighborIndices[i] <= net.nEdges
    {
      IndicesWithinEdges(net, i);
    }
  }

  /** In a network with monotone slices the per-node totals add up to the
      total weight of all stored edges. */
  lemma TotalEdgeWeightConserved(net: Network, totals: seq<real>)
    requires Shaped(net) && Monotone(net)
    requires |totals| == net.nNodes
    requires RangesReadable(net.nNodes, net.firstNeighborIndices, net.edgeWeights)
    requires forall i | 0 <= i < net.nNodes ::
               totals[i] == SliceWeight(net.firstNeighborIndices, net.edgeWeights, i)
    ensures Sum(totals) == Sum(net.edgeWeights)
  {
    PrefixTotals(net, totals, net.nNodes);
    assert totals[..net.nNodes] == totals;
    assert net.edgeWeights[..net.nEdges] == net.edgeWeights;
  }

  lemma {:induction false} PrefixTotals(net: Network, totals: seq<real>, k: int)
    requires Shaped(net) && Monotone(net)
    requires |totals| == net.nNodes
    requires RangesReadable(net.nNodes, net.firstNeighborIndices, net.edgeWeights)
    requires forall i | 0 <= i < net.nNodes ::
               totals[i] == SliceWeight(net.firstNeighborIndices, net.edgeWeights, i)
    requires 0 <= k <= net.nNodes
    ensures 0 <= net.firstNeighborIndices[k] <= net.nEdges
    ensures Sum(totals[..k]) == Sum(net.edgeWeights[..net.firstNeighborIndices[k]])
    decreases k
  {
    IndicesWithinEdges(net, k);
    if k > 0 {
      PrefixTotals(net, totals, k - 1);
      IndicesWithinEdges(net, k - 1);
      var fni := net.firstNeighborIndices;
      var w := net.edgeWeights;
      assert totals[..k] == totals[..k - 1] + [totals[k - 1]];
      SumAppend(totals[..k - 1], [totals[k - 1]]);
      assert w[..fni[k]] == w[..fni[k - 1]] + w[fni[k - 1]..fni[k]];
      SumAppend(w[..fni[k - 1]], w[fni[k - 1]..fni[k]]);
      if fni[k - 1] == fni[k] {
        assert w[fni[k - 1]..fni[k]] == [];
      }
    }
  }
}

=== FILE: network_build.dfy ===
/** Building a CWTS network from an edge list (the private edge-list
    constructor of `Network` and `sortEdges`) and from neighbour lists. */
module NetworkBuild {
  import opened SeqMath
  import opened Wrappers
  import opened CwtsNetwork
  import CwtsArrays

  /** One edge of the input list with its weight. When the caller passes no
      weights, the source stores 1 for every edge, which is the weight
      given here. */
  datatype Edge = Edge(source: int, target: int, weight: real)

  function Reversed(e: Edge): Edge
  {
    Edge(e.target, e.source, e.weight)
  }

  predicate IsLoop(e: Edge)
  {
    e.source == e.target
  }

  /** The columns `edges[0]`, `edges[1]` and the optional weight array,
      paired up edge by edge. */
  function Zip(pairs: seq<(int, int)>, weights: Option<seq<real>>): (r: seq<Edge>)
    requires weights.Some? ==> |weights.value| == |pairs|
    ensures |r| == |pairs|
    ensures forall j | 0 <= j < |pairs| :: r[j].source == pairs[j].0 && r[j].target == pairs[j].1
  {
    seq(|pairs|, j requires 0 <= j < |pairs| =>
      Edge(pairs[j].0, pairs[j].1, if weights.Some? then weights.value[j] else 1.0))
  }

  /** The edges that are not self-links, in input order. */
  function NonLoops(es: seq<Edge>): seq<Edge>
  {
    if |es| == 0 then []
    else NonLoops(es[..|es| - 1]) + (if IsLoop(es[|es| - 1]) then [] else [es[|es| - 1]])
  }

  /** Total weight of the self-links. */
  function LoopWeight(es: seq<Edge>): real
  {
    if |es| == 0 then 0.0
    else LoopWeight(es[..|es| - 1]) + (if IsLoop(es[|es| - 1]) then es[|es| - 1].weight else 0.0)
  }

  function Reverses(es: seq<Edge>): (r: seq<Edge>)
    ensures |r| == |es|
    ensures forall j | 0 <= j < |es| :: r[j] == Reversed(es[j])
  {
    seq(|es|, j requires 0 <= j < |es| => Reversed(es[j]))
  }

  /** The position of the first edge of `es` whose source is at least `k`,
      or `|es|` when there is none. */
  function FirstAtLeast(es: seq<Edge>, k: int): (r: nat)
    ensures r <= |es|
    ensures forall x | 0 <= x < r :: es[x].source < k
    ensures r < |es| ==> es[r].source >= k
    decreases |es|
  {
    if |es| == 0 then 0
    else
      var p := FirstAtLeast(es[..|es| - 1], k);
      if p < |es| - 1 || es[|es| - 1].source >= k then p else |es|
  }

  lemma {:induction false} NonLoopsAppend(a: seq<Edge>, e: Edge)
    ensures NonLoops(a + [e]) == NonLoops(a) + (if IsLoop(e) then [] else [e])
  {
    assert (a + [e])[..|a + [e]| - 1] == a;
  }

  lemma {:induction false} NonLoopsHaveNoLoops(es: seq<Edge>)
    ensures forall x | 0 <= x < |NonLoops(es)| :: !IsLoop(NonLoops(es)[x])
    ensures |NonLoops(es)| <= |es|
    decreases |es|
  {
    if |es| > 0 {
      NonLoopsHaveNoLoops(es[..|es| - 1]);
    }
  }

  /** Lines 631-651: every edge is copied; an edge that is not a self-link is
      also copied reversed, with the same weight. */
  function DoubleEdges(es: seq<Edge>): seq<Edge>
  {
    if |es| == 0 then []
    else
      var e := es[|es| - 1];
      DoubleEdges(es[..|es| - 1]) + (if IsLoop(e) then [e] else [e, Reversed(e)])
  }

  lemma {:induction false} LoopWeightAppend(a: seq<Edge>, b: seq<Edge>)
    ensures LoopWeight(a + b) == LoopWeight(a) + LoopWeight(b)
    decreases |b|
  {
    if |b| == 0 {
      assert a + b == a;
    } else {
      assert (a + b)[..|a + b| - 1] == a + b[..|b| - 1];
      LoopWeightAppend(a, b[..|b| - 1]);
    }
  }

  lemma LoopWeightSingle(e: Edge)
    ensures LoopWeight([e]) == if IsLoop(e) then e.weight else 0.0
  {
    assert [e][..0] == [];
  }

  lemma ReversesAppend(a: seq<Edge>, b: seq<Edge>)
    ensures Reverses(a + b) == Reverses(a) + Reverses(b)
  {
  }

  /** The doubled list holds the input plus the reverse of every non-loop,
      and nothing else. */
  lemma {:induction false} DoubleEdgesContents(es: seq<Edge>)
    ensures multiset(DoubleEdges(es)) == multiset(es) + multiset(Reverses(NonLoops(es)))
    decreases |es|
  {
    if |es| > 0 {
      var p := es[..|es| - 1];
      var e := es[|es| - 1];
      DoubleEdgesContents(p);
      assert es == p + [e];
      DoubleEdgesStep(p, e);
      ReversedNonLoopsStep(p, e);
    }
  }

  /** One more edge adds itself, and its reverse unless it is a self-link,
      to the doubled list. */
  lemma DoubleEdgesStep(p: seq<Edge>, e: Edge)
    ensures IsLoop(e) ==> multiset(DoubleEdges(p + [e])) == multiset(DoubleEdges(p)) + multiset{e}
    ensures !IsLoop(e) ==> multiset(DoubleEdges(p + [e])) == multiset(DoubleEdges(p)) + multiset{e} + multiset{Reversed(e)}
  {
    assert (p + [e])[..|p|] == p;
    var tail := if IsLoop(e) then [e] else [e, Reversed(e)];
    assert DoubleEdges(p + [e]) == DoubleEdges(p) + tail;
    if !IsLoop(e) {
      assert tail == [e] + [Reversed(e)];
    }
  }

  /** One more edge adds its reverse to the reversed non-loops unless it is
      a self-link. */
  lemma ReversedNonLoopsStep(p: seq<Edge>, e: Edge)
    ensures IsLoop(e) ==> multiset(Reverses(NonLoops(p + [e]))) == multiset(Reverses(NonLoops(p)))
    ensures !IsLoop(e) ==> multiset(Reverses(NonLoops(p + [e]))) == multiset(Reverses(NonLoops(p))) + multiset{Reversed(e)}
  {
    if IsLoop(e) {
      LoopNotStored(p, e);
    } else {
      var q := NonLoops(p);
      NonLoopStored(p, e);
      ReversesAppend(q, [e]);
      var r := Reverses(q);
      assert Reverses(q + [e]) == r + [Reversed(e)];
      assert multiset(r + [Reversed(e)]) == multiset(r) + multiset{Reversed(e)};
    }
  }

  lemma LoopNotStored(p: seq<Edge>, e: Edge)
    requires IsLoop(e)
    ensures NonLoops(p + [e]) == NonLoops(p)
  {
    assert (p + [e])[..|p|] == p;
  }

  lemma NonLoopStored(p: seq<Edge>, e: Edge)
    requires !IsLoop(e)
    ensures NonLoops(p + [e]) == NonLoops(p) + [e]
  {
    assert (p + [e])[..|p|] == p;
  }

  /** Doubling keeps the self-links exactly once. */
  lemma {:induction false} DoubleEdgesLoopWeight(es: seq<Edge>)
    ensures LoopWeight(DoubleEdges(es)) == LoopWeight(es)
    decreases |es|
  {
    if |es| > 0 {
      var p := es[..|es| - 1];
      var e := es[|es| - 1];
      var tail := if IsLoop(e) then [e] else [e, Reversed(e)];
      DoubleEdgesLoopWeight(p);
      assert es == p + [e];
      LoopWeightAppend(DoubleEdges(p), tail);
      LoopWeightAppend(p, [e]);
      LoopWeightSingle(e);
      if !IsLoop(e) {
        assert tail == [e] + [Reversed(e)];
        LoopWeightAppend([e], [Reversed(e)]);
        LoopWeightSingle(Reversed(e));
      }
    }
  }

  /** The order of `sortEdges`: by source, then by target. */
  predicate EdgeLeq(a: Edge, b: Edge)
  {
    a.source < b.source || (a.source == b.source && a.target <= b.target)
  }

  ghost predicate SortedEdges(es: seq<Edge>)
  {
    forall i, j | 0 <= i < j < |es| :: EdgeLeq(es[i], es[j])
  }

  /** Insert `e` after every edge not above it, scanning from the back: the
      step of a stable sort. */
  function Insert(s: seq<Edge>, e: Edge): seq<Edge>
  {
    if |s| == 0 || EdgeLeq(s[|s| - 1], e) then s + [e]
    else Insert(s[..|s| - 1], e) + [s[|s| - 1]]
  }

  lemma {:induction false} InsertPermutes(s: seq<Edge>, e: Edge)
    ensures multiset(Insert(s, e)) == multiset(s) + multiset{e}
    ensures LoopWeight(Insert(s, e)) == LoopWeight(s) + LoopWeight([e])
    decreases |s|
  {
    LoopWeightAppend(s, [e]);
    if |s| > 0 && !EdgeLeq(s[|s| - 1], e) {
      var p := s[..|s| - 1];
      var last := s[|s| - 1];
      assert s == p + [last];
      InsertPermutes(p, e);
      LoopWeightAppend(Insert(p, e), [last]);
      LoopWeightAppend(p, [last]);
    }
  }

  lemma {:induction false} InsertSorted(s: seq<Edge>, e: Edge)
    requires SortedEdges(s)
    ensures SortedEdges(Insert(s, e))
    decreases |s|
  {
    if |s| == 0 || EdgeLeq(s[|s| - 1], e) {
      forall i | 0 <= i < |s| ensures EdgeLeq(s[i], e) {
        if i < |s| - 1 {
          assert EdgeLeq(s[i], s[|s| - 1]);
        }
      }
      SortedAppend(s, e);
    } else {
      var p := s[..|s| - 1];
      var last := s[|s| - 1];
      assert s == p + [last];
      InsertSorted(p, e);
      InsertedBelow(p, e, last);
      SortedAppend(Insert(p, e), last);
    }
  }

  /** An edge not below any edge of a sorted list can follow it. */
  lemma SortedAppend(q: seq<Edge>, x: Edge)
    requires SortedEdges(q)
    requires forall i | 0 <= i < |q| :: EdgeLeq(q[i], x)
    ensures SortedEdges(q + [x])
  {
    var r := q + [x];
    forall i, j | 0 <= i < j < |r| ensures EdgeLeq(r[i], r[j]) {
      if j < |q| {
        assert r[i] == q[i] && r[j] == q[j];
      } else {
        assert r[i] == q[i] && r[j] == x;
      }
    }
  }

  /** Inserting `e` below `last` into edges all below `last` leaves every
      edge below `last`. */
  lemma InsertedBelow(p: seq<Edge>, e: Edge, last: Edge)
    requires SortedEdges(p + [last]) && !EdgeLeq(last, e)
    ensures forall i | 0 <= i < |Insert(p, e)| :: EdgeLeq(Insert(p, e)[i], last)
  {
    InsertPermutes(p, e);
    var q := Insert(p, e);
    forall i | 0 <= i < |q| ensures EdgeLeq(q[i], last) {
      assert q[i] in multiset(q);
      if q[i] != e {
        assert q[i] in multiset(p);
        var k :| 0 <= k < |p| && p[k] == q[i];
        assert (p + [last])[k] == q[i] && (p + [last])[|p|] == last;
      }
    }
  }

  /** `sortEdges`: insertion sort by (source, target). */
  function SortEdges(es: seq<Edge>): seq<Edge>
  {
    if |es| == 0 then [] else Insert(SortEdges(es[..|es| - 1]), es[|es| - 1])
  }

  /** The sorted list is in (source, target) order and a permutation of the
      input, with the same self-link weight. */
  lemma {:induction false} SortEdgesSpec(es: seq<Edge>)
    ensures SortedEdges(SortEdges(es))
    ensures multiset(SortEdges(es)) == multiset(es)
    ensures LoopWeight(SortEdges(es)) == LoopWeight(es)
    decreases |es|
  {
    if |es| > 0 {
      var p := es[..|es| - 1];
      var e := es[|es| - 1];
      assert es == p + [e];
      SortEdgesSpec(p);
      InsertSorted(SortEdges(p), e);
      InsertPermutes(SortEdges(p), e);
      LoopWeightAppend(p, [e]);
    }
  }

  /** A non-loop occurs in the non-loops of a list exactly as often as in
      the list; self-links not at all. */
  lemma {:induction false} NonLoopsMultiplicity(es: seq<Edge>, x: Edge)
    ensures multiset(NonLoops(es))[x] == if IsLoop(x) then 0 else multiset(es)[x]
    decreases |es|
  {
    if |es| > 0 {
      var p := es[..|es| - 1];
      assert es == p + [es[|es| - 1]];
      NonLoopsMultiplicity(p, x);
    }
  }

  lemma NonLoopsOfPermutation(a: seq<Edge>, b: seq<Edge>)
    requires multiset(a) == multiset(b)
    ensures multiset(NonLoops(a)) == multiset(NonLoops(b))
  {
    forall x ensures multiset(NonLoops(a))[x] == multiset(NonLoops(b))[x] {
      NonLoopsMultiplicity(a, x);
      NonLoopsMultiplicity(b, x);
    }
  }

  /** The edge list the CSR loop reads: the input itself when the caller
      promises it is sorted, otherwise the doubled and sorted list. */
  function Prepared(es: seq<Edge>, sortedEdges: bool): seq<Edge>
  {
    if sortedEdges then es else SortEdges(DoubleEdges(es))
  }

  /** The stored arcs of the unsorted path are the input's non-loops in both
      directions, and its self-link weight is the input's. */
  lemma PreparedContents(es: seq<Edge>)
    ensures multiset(NonLoops(Prepared(es, false)))
         == multiset(NonLoops(es)) + multiset(Reverses(NonLoops(es)))
    ensures LoopWeight(Prepared(es, false)) == LoopWeight(es)
  {
    var d := DoubleEdges(es);
    DoubledNonLoops(es);
    DoubleEdgesLoopWeight(es);
    SortEdgesSpec(d);
    NonLoopsOfPermutation(SortEdges(d), d);
  }

  /** Doubling keeps every non-loop and adds its reverse. */
  lemma DoubledNonLoops(es: seq<Edge>)
    ensures multiset(NonLoops(DoubleEdges(es))) == multiset(NonLoops(es)) + multiset(Reverses(NonLoops(es)))
  {
    forall x ensures multiset(NonLoops(DoubleEdges(es)))[x] == (multiset(NonLoops(es)) + multiset(Reverses(NonLoops(es))))[x] {
      DoubledNonLoopsAt(es, x);
    }
  }

  lemma DoubledNonLoopsAt(es: seq<Edge>, x: Edge)
    ensures multiset(NonLoops(DoubleEdges(es)))[x] == (multiset(NonLoops(es)) + multiset(Reverses(NonLoops(es))))[x]
  {
    var d := DoubleEdges(es);
    DoubleEdgesContents(es);
    NonLoopsMultiplicity(d, x);
    NonLoopsMultiplicity(es, x);
    NonLoopsHaveNoLoops(es);
    if IsLoop(x) {
      assert x !in Reverses(NonLoops(es));
    }
  }

  function Targets(es: seq<Edge>): (r: seq<int>)
    ensures |r| == |es|
    ensures forall j | 0 <= j < |es| :: r[j] == es[j].target
  {
    seq(|es|, j requires 0 <= j < |es| => es[j].target)
  }

  function Weights(es: seq<Edge>): (r: seq<real>)
    ensures |r| == |es|
    ensures forall j | 0 <= j < |es| :: r[j] == es[j].weight
  {
    seq(|es|, j requires 0 <= j < |es| => es[j].weight)
  }

  lemma ProjectionsAppend(a: seq<Edge>, e: Edge)
    ensures Targets(a + [e]) == Targets(a) + [e.target]
    ensures Weights(a + [e]) == Weights(a) + [e.weight]
  {
  }

  lemma FirstAtLeastAppend(a: seq<Edge>, e: Edge, k: int)
    ensures FirstAtLeast(a + [e], k)
         == if FirstAtLeast(a, k) < |a| || e.source >= k then FirstAtLeast(a, k) else |a| + 1
  {
    assert (a + [e])[..|a + [e]| - 1] == a;
  }

  /** A later node's first edge never comes earlier. */
  lemma FirstAtLeastMonotone(es: seq<Edge>, k: int, k': int)
    requires k <= k'
    ensures FirstAtLeast(es, k) <= FirstAtLeast(es, k')
  {
  }

  /** In a list sorted by source, the edges with source below `k` are
      exactly those before `FirstAtLeast(es, k)`. */
  lemma FirstAtLeastSplits(es: seq<Edge>, k: int, p: int)
    requires forall i, j | 0 <= i < j < |es| :: es[i].source <= es[j].source
    requires 0 <= p < |es|
    ensures p < FirstAtLeast(es, k) <==> es[p].source < k
  {
    var f := FirstAtLeast(es, k);
    if f <= p {
      assert es[f].source <= es[p].source;
    }
  }

  /** One more edge of the list: the non-loops and the self-link weight
      grow by that edge alone. */
  lemma PrefixStep(es: seq<Edge>, j: int)
    requires 0 <= j < |es|
    ensures NonLoops(es[..j + 1]) == NonLoops(es[..j]) + (if IsLoop(es[j]) then [] else [es[j]])
    ensures LoopWeight(es[..j + 1]) == LoopWeight(es[..j]) + (if IsLoop(es[j]) then es[j].weight else 0.0)
  {
    assert es[..j + 1][..j] == es[..j];
  }

  /** `for (; i <= last; i++) firstNeighborIndices[i] = value;` */
  method FillUpTo(fni: seq<int>, i: int, last: int, value: int) returns (fni': seq<int>, i': int)
    requires 0 <= i && last < |fni|
    ensures i' == if i <= last then last + 1 else i
    ensures |fni'| == |fni|
    ensures forall k | 0 <= k < |fni| :: fni'[k] == if i <= k <= last then value else fni[k]
  {
    fni', i' := fni, i;
    while i' <= last
      invariant i <= i' && (i <= last ==> i' <= last + 1) && (last < i ==> i' == i)
      invariant |fni'| == |fni|
      invariant forall k | 0 <= k < |fni| :: fni'[k] == if i <= k < i' then value else fni[k]
    {
      fni' := fni'[i' := value];
      i' := i' + 1;
    }
  }

  /** The index array the edge-list constructor writes for the stored edges
      `arcs`: 0 for node 0 and, for every later node `k`, the position of the
      first stored edge whose source is at least `k`. */
  function Firsts(arcs: seq<Edge>, nNodes: nat): (r: seq<int>)
    ensures |r| == nNodes + 1 && r[0] == 0
    ensures forall k | 1 <= k <= nNodes :: r[k] == FirstAtLeast(arcs, k)
  {
    seq(nNodes + 1, k => if k == 0 then 0 else FirstAtLeast(arcs, k))
  }

  /** Every edge of the list is a self-link or leaves a node no greater than
      `nNodes`: the condition under which the loop of lines 666-676 stays
      inside the index array of `nNodes + 1` entries. */
  predicate SourcesFit(es: seq<Edge>, nNodes: int)
  {
    forall j | 0 <= j < |es| :: IsLoop(es[j]) || es[j].source <= nNodes
  }

  /** Storing `e` after filling the indices from `i` up to its source with
      the current count keeps every filled index at the first stored edge
      whose source reaches its node. */
  lemma FilledFirsts(stored: seq<Edge>, e: Edge, fni: seq<int>, fni': seq<int>, i: int, i': int)
    requires 1 <= i <= |fni| == |fni'|
    requires i' == (if i <= e.source then e.source + 1 else i) && i' <= |fni|
    requires forall x | 0 <= x < |stored| :: stored[x].source < i
    requires forall k | 1 <= k < i :: fni[k] == FirstAtLeast(stored, k) < |stored|
    requires forall k | 0 <= k < |fni| :: fni'[k] == if i <= k <= e.source then |stored| else fni[k]
    ensures forall k | 1 <= k < i' :: fni'[k] == FirstAtLeast(stored + [e], k) < |stored| + 1
  {
    forall k | 1 <= k < i' ensures fni'[k] == FirstAtLeast(stored + [e], k) < |stored| + 1 {
      FirstAtLeastAppend(stored, e, k);
    }
  }

  /** The loop state of `BuildCsr` after the first `j` edges: every edge
      read so far fits, the start indices are filled below `i`, every stored
      non-loop has a source below `i`, and the neighbours, weights and
      self-link total cover exactly the edges read so far. */
  ghost predicate ScannedUpTo(nNodes: nat, es: seq<Edge>, j: int, fni: seq<int>, neighbors: seq<int>, edgeWeights: seq<real>, selfLinks: real, i: int)
    requires 0 <= j <= |es|
  {
    var stored := NonLoops(es[..j]);
    && 1 <= i <= nNodes + 1
    && |fni| == nNodes + 1 && fni[0] == 0
    && neighbors == Targets(stored) && edgeWeights == Weights(stored)
    && selfLinks == LoopWeight(es[..j])
    && SourcesFit(es[..j], nNodes)
    && (forall x | 0 <= x < |stored| :: stored[x].source < i)
    && (forall k | 1 <= k < i :: fni[k] == FirstAtLeast(stored, k) < |stored|)
  }

  /** One pass of the loop of lines 666-676: a self-link adds its weight to
      the total; any other edge first fills the start indices up to its
      source, which runs past the index array when that source exceeds
      `nNodes`, and is then stored. */
  method ScanStep(nNodes: nat, es: seq<Edge>, j: int, fni: seq<int>, neighbors: seq<int>, edgeWeights: seq<real>, selfLinks: real, i: int)
    returns (fits: bool, fni': seq<int>, neighbors': seq<int>, edgeWeights': seq<real>, selfLinks': real, i': int)
    requires 0 <= j < |es|
    requires ScannedUpTo(nNodes, es, j, fni, neighbors, edgeWeights, selfLinks, i)
    ensures fits <==> IsLoop(es[j]) || es[j].source <= nNodes
    ensures fits ==> ScannedUpTo(nNodes, es, j + 1, fni', neighbors', edgeWeights', selfLinks', i')
  {
    var e := es[j];
    ghost var stored := NonLoops(es[..j]);
    PrefixStep(es, j);
    assert es[..j + 1] == es[..j] + [e];
    fits := true;
    fni', neighbors', edgeWeights', selfLinks', i' := fni, neighbors, edgeWeights, selfLinks, i;
    if e.source == e.target {
      assert NonLoops(es[..j + 1]) == stored;
      selfLinks' := selfLinks + e.weight;
    } else if e.source > nNodes {
      fits := false;
    } else {
      assert NonLoops(es[..j + 1]) == stored + [e];
      fni', i' := FillUpTo(fni, i, e.source, |neighbors|);
      FilledFirsts(stored, e, fni, fni', i, i');
      ProjectionsAppend(stored, e);
      neighbors', edgeWeights' := neighbors + [e.target], edgeWeights + [e.weight];
    }
  }

  /** The loop of lines 666-676 over the whole list, up to the first edge
      that does not fit. */
  method ScanEdges(nNodes: nat, es: seq<Edge>) returns (fits: bool, fni: seq<int>, neighbors: seq<int>, edgeWeights: seq<real>, selfLinks: real, i: int)
    ensures fits <==> SourcesFit(es, nNodes)
    ensures fits ==> ScannedUpTo(nNodes, es, |es|, fni, neighbors, edgeWeights, selfLinks, i)
  {
    fni := seq(nNodes + 1, _ => 0);
    neighbors := [];
    edgeWeights := [];
    selfLinks := 0.0;
    i := 1;
    fits := true;
    var j := 0;
    while j < |es|
      invariant 0 <= j <= |es|
      invariant ScannedUpTo(nNodes, es, j, fni, neighbors, edgeWeights, selfLinks, i)
    {
      var ok, fni', neighbors', edgeWeights', selfLinks', i' := ScanStep(nNodes, es, j, fni, neighbors, edgeWeights, selfLinks, i);
      if !ok {
        fits := false;
        return;
      }
      fni, neighbors, edgeWeights, selfLinks, i := fni', neighbors', edgeWeights', selfLinks', i';
      j := j + 1;
    }
    assert es[..|es|] == es;
  }

  /** Lines 659-680 on any edge list. When every edge fits, the index array
      holds, for each node after the first, the position of the first stored
      edge whose source reaches it; `neighbors` and the edge weights list the
      non-loops in order; the self-link weights are summed apart. Any other
      list makes the source write past its index array. */
  method BuildCsr(nNodes: nat, es: seq<Edge>) returns (fits: bool, firstNeighborIndices: seq<int>, neighbors: seq<int>, edgeWeights: seq<real>, selfLinks: real)
    ensures fits <==> SourcesFit(es, nNodes)
    ensures fits ==> firstNeighborIndices == Firsts(NonLoops(es), nNodes)
    ensures fits ==> neighbors == Targets(NonLoops(es)) && edgeWeights == Weights(NonLoops(es))
    ensures fits ==> selfLinks == LoopWeight(es)
  {
    var i;
    fits, firstNeighborIndices, neighbors, edgeWeights, selfLinks, i := ScanEdges(nNodes, es);
    if fits {
      assert es[..|es|] == es;
      ghost var stored := NonLoops(es);
      var fni', i' := FillUpTo(firstNeighborIndices, i, nNodes, |neighbors|);
      forall k | 1 <= k <= nNodes ensures fni'[k] == FirstAtLeast(stored, k) {
        if k >= i {
          assert FirstAtLeast(stored, k) == |stored|;
        }
      }
      firstNeighborIndices := fni';
    }
  }

  /** The non-loops keep the sources of the list they come from. */
  lemma {:induction false} NonLoopsSubsequence(es: seq<Edge>)
    ensures forall x | 0 <= x < |NonLoops(es)| :: NonLoops(es)[x] in es
    decreases |es|
  {
    if |es| > 0 {
      NonLoopsSubsequence(es[..|es| - 1]);
      assert forall y | y in es[..|es| - 1] :: y in es;
    }
  }

  /** A list sorted by source keeps that order among its non-loops. */
  lemma {:induction false} NonLoopsSortedBySource(es: seq<Edge>)
    requires forall i, j | 0 <= i < j < |es| :: es[i].source <= es[j].source
    ensures forall i, j | 0 <= i < j < |NonLoops(es)| :: NonLoops(es)[i].source <= NonLoops(es)[j].source
    decreases |es|
  {
    if |es| > 0 {
      var p := es[..|es| - 1];
      var e := es[|es| - 1];
      assert es == p + [e];
      NonLoopsSortedBySource(p);
      NonLoopsAppend(p, e);
      NonLoopsSubsequence(p);
      forall x | 0 <= x < |NonLoops(p)| ensures NonLoops(p)[x].source <= e.source {
        var y :| 0 <= y < |p| && p[y] == NonLoops(p)[x];
        assert es[y] == p[y];
      }
    }
  }

  /** The node weights the constructors choose: the given ones, else the
      total edge weight per node when asked for, else all ones (lines 682
      and 697). */
  ghost function ChosenNodeWeights(nNodes: nat, nodeWeights: Option<seq<real>>, setNodeWeightsToTotalEdgeWeights: bool,
                                   firstNeighborIndices: seq<int>, edgeWeights: seq<real>): seq<real>
    requires nodeWeights.None? && setNodeWeightsToTotalEdgeWeights ==> RangesReadable(nNodes, firstNeighborIndices, edgeWeights)
  {
    if nodeWeights.Some? then nodeWeights.value
    else if setNodeWeightsToTotalEdgeWeights then
      seq(nNodes, i requires 0 <= i < nNodes => SliceWeight(firstNeighborIndices, edgeWeights, i))
    else CwtsArrays.CreateDoubleArrayOfOnes(nNodes)
  }

  /** The network the edge-list constructor stores for the prepared list
      `es`, before its integrity is checked. */
  ghost function Assemble(nNodes: nat, nodeWeights: Option<seq<real>>, setNodeWeightsToTotalEdgeWeights: bool, es: seq<Edge>): Network
  {
    var arcs := NonLoops(es);
    var fni := Firsts(arcs, nNodes);
    Network(nNodes, |arcs|, ChosenNodeWeights(nNodes, nodeWeights, setNodeWeightsToTotalEdgeWeights, fni, Weights(arcs)),
            fni, Targets(arcs), Weights(arcs), LoopWeight(es))
  }

  /** The private edge-list constructor (lines 625-686). Without the
      `sortedEdges` promise the list is doubled and sorted first; the CSR
      arrays are then built, the node weights chosen, and the integrity
      checked on request. A stored edge whose source exceeds `nNodes` makes
      the source index past its array; any other list, whatever its
      endpoints and order, is stored and left to the integrity check. */
  method FromEdges(nNodes: nat, nodeWeights: Option<seq<real>>, setNodeWeightsToTotalEdgeWeights: bool,
                   edges: seq<(int, int)>, edgeWeights: Option<seq<real>>, sortedEdges: bool, checkIntegrity: bool)
    returns (r: Result<Network, Fault>)
    requires nodeWeights.Some? ==> |nodeWeights.value| == nNodes
    requires edgeWeights.Some? ==> |edgeWeights.value| == |edges|
    ensures var es := Prepared(Zip(edges, edgeWeights), sortedEdges);
      var net := Assemble(nNodes, nodeWeights, setNodeWeightsToTotalEdgeWeights, es);
      && (r == Failure(ArrayOutOfBounds) <==> !SourcesFit(es, nNodes))
      && (r.Success? ==> r.value == net)
      && (r.Failure? && SourcesFit(es, nNodes) ==> checkIntegrity && r.error.Rejected? && Violated(net, r.error.error))
      && (SourcesFit(es, nNodes) && checkIntegrity ==> (r.Success? <==> WellFormed(net)))
      && (SourcesFit(es, nNodes) && !checkIntegrity ==> r.Success?)
  {
    var es := Prepare(Zip(edges, edgeWeights), sortedEdges);
    var fits, fni, neighbors, weights, selfLinks := BuildCsr(nNodes, es);
    if !fits {
      return Failure(ArrayOutOfBounds);
    }
    var nw := ChooseNodeWeights(nNodes, nodeWeights, setNodeWeightsToTotalEdgeWeights, fni, weights);
    var net := Network(nNodes, |neighbors|, nw, fni, neighbors, weights, selfLinks);
    assert net == Assemble(nNodes, nodeWeights, setNodeWeightsToTotalEdgeWeights, es);
    var v := Validated(net, checkIntegrity);
    r := if v.Success? then Success(v.value) else Failure(Rejected(v.error));
  }

  /** Both endpoints of every edge are nodes. */
  ghost predicate EndpointsAreNodes(es: seq<Edge>, nNodes: int)
  {
    forall j | 0 <= j < |es| :: 0 <= es[j].source < nNodes && 0 <= es[j].target < nNodes
  }

  lemma {:induction false} DoubleEdgesEndpoints(es: seq<Edge>, nNodes: int)
    requires EndpointsAreNodes(es, nNodes)
    ensures EndpointsAreNodes(DoubleEdges(es), nNodes)
    decreases |es|
  {
    if |es| > 0 {
      DoubleEdgesEndpoints(es[..|es| - 1], nNodes);
    }
  }

  lemma PermutationEndpoints(a: seq<Edge>, b: seq<Edge>, nNodes: int)
    requires multiset(a) == multiset(b) && EndpointsAreNodes(a, nNodes)
    ensures EndpointsAreNodes(b, nNodes)
  {
    forall j | 0 <= j < |b| ensures 0 <= b[j].source < nNodes && 0 <= b[j].target < nNodes {
      assert b[j] in multiset(a);
    }
  }

  /** Lines 631-657: the list the CSR loop reads. Without the sorted-edges
      promise it is the doubled input in (source, target) order, whatever
      its endpoints. */
  method Prepare(es: seq<Edge>, sortedEdges: bool) returns (r: seq<Edge>)
    ensures r == Prepared(es, sortedEdges)
    ensures !sortedEdges ==> SortedEdges(r) && multiset(r) == multiset(DoubleEdges(es))
  {
    r := es;
    if !sortedEdges {
      r := SortEdges(DoubleEdges(es));
      SortEdgesSpec(DoubleEdges(es));
    }
  }

  /** Dropping the self-links keeps a list in (source, target) order. */
  lemma {:induction false} NonLoopsSorted(es: seq<Edge>)
    requires SortedEdges(es)
    ensures SortedEdges(NonLoops(es))
    decreases |es|
  {
    if |es| > 0 {
      var p := es[..|es| - 1];
      var e := es[|es| - 1];
      assert es == p + [e];
      NonLoopsSorted(p);
      NonLoopsAppend(p, e);
      NonLoopsSubsequence(p);
      forall x | 0 <= x < |NonLoops(p)| ensures EdgeLeq(NonLoops(p)[x], e) {
        var y :| 0 <= y < |p| && p[y] == NonLoops(p)[x];
        assert es[y] == p[y];
      }
    }
  }

  /** The stored network has CSR shape and keeps the self-link weight of
      the list. */
  lemma AssembledCsr(nNodes: nat, nodeWeights: Option<seq<real>>, setNodeWeightsToTotalEdgeWeights: bool, es: seq<Edge>)
    requires nodeWeights.Some? ==> |nodeWeights.value| == nNodes
    requires EndpointsAreNodes(es, nNodes)
    ensures var net := Assemble(nNodes, nodeWeights, setNodeWeightsToTotalEdgeWeights, es);
      Csr(net) && net.totalEdgeWeightSelfLinks == LoopWeight(es)
  {
    var net := Assemble(nNodes, nodeWeights, setNodeWeightsToTotalEdgeWeights, es);
    var arcs := NonLoops(es);
    NonLoopsAreNodes(es, nNodes);
    FirstsShape(arcs, nNodes);
    assert net.firstNeighborIndices == Firsts(arcs, nNodes);
  }

  lemma NonLoopsAreNodes(es: seq<Edge>, nNodes: int)
    requires EndpointsAreNodes(es, nNodes)
    ensures EndpointsAreNodes(NonLoops(es), nNodes)
  {
    var arcs := NonLoops(es);
    NonLoopsSubsequence(es);
    forall x | 0 <= x < |arcs| ensures 0 <= arcs[x].source < nNodes && 0 <= arcs[x].target < nNodes {
      assert arcs[x] in es;
    }
  }

  /** The index array of edges between nodes ends at the number of edges
      and never decreases. */
  lemma FirstsShape(arcs: seq<Edge>, nNodes: nat)
    requires EndpointsAreNodes(arcs, nNodes)
    ensures var o := Firsts(arcs, nNodes);
      o[nNodes] == |arcs| && forall k | 0 <= k < nNodes :: o[k] <= o[k + 1]
  {
    var o := Firsts(arcs, nNodes);
    forall k | 0 <= k < nNodes ensures o[k] <= o[k + 1] {
      if k > 0 {
        FirstAtLeastMonotone(arcs, k, k + 1);
      }
    }
  }

  /** Position `p` of the neighbour arrays lies in node `u`'s slice exactly
      when the `p`-th stored edge leaves `u`: each slice holds exactly its
      node's non-loop edges. */
  lemma AssembledSlices(nNodes: nat, nodeWeights: Option<seq<real>>, setNodeWeightsToTotalEdgeWeights: bool, es: seq<Edge>)
    requires forall i, j | 0 <= i < j < |es| :: es[i].source <= es[j].source
    requires forall j | 0 <= j < |es| :: 0 <= es[j].source
    ensures var net := Assemble(nNodes, nodeWeights, setNodeWeightsToTotalEdgeWeights, es);
      forall p, u | 0 <= p < net.nEdges && 0 <= u < nNodes ::
        && (InSlice(net, u, p) <==> NonLoops(es)[p].source == u)
        && net.neighbors[p] == NonLoops(es)[p].target
        && net.edgeWeights[p] == NonLoops(es)[p].weight
  {
    var net := Assemble(nNodes, nodeWeights, setNodeWeightsToTotalEdgeWeights, es);
    var arcs := NonLoops(es);
    NonLoopsSortedBySource(es);
    NonLoopsNonNegative(es);
    FirstsSlices(arcs, nNodes);
    AssembledFields(nNodes, nodeWeights, setNodeWeightsToTotalEdgeWeights, es);
    forall p, u | 0 <= p < net.nEdges && 0 <= u < nNodes
      ensures InSlice(net, u, p) <==> arcs[p].source == u
    {
      assert InSlice(net, u, p) <==> Firsts(arcs, nNodes)[u] <= p < Firsts(arcs, nNodes)[u + 1];
    }
  }

  /** The arrays of the assembled network are those of its stored edges. */
  lemma AssembledFields(nNodes: nat, nodeWeights: Option<seq<real>>, setNodeWeightsToTotalEdgeWeights: bool, es: seq<Edge>)
    ensures var net := Assemble(nNodes, nodeWeights, setNodeWeightsToTotalEdgeWeights, es);
      && net.nNodes == nNodes && net.nEdges == |NonLoops(es)|
      && net.firstNeighborIndices == Firsts(NonLoops(es), nNodes)
      && net.neighbors == Targets(NonLoops(es)) && net.edgeWeights == Weights(NonLoops(es))
  {
  }

  /** Dropping the self-links keeps every source non-negative. */
  lemma NonLoopsNonNegative(es: seq<Edge>)
    requires forall j | 0 <= j < |es| :: 0 <= es[j].source
    ensures forall x | 0 <= x < |NonLoops(es)| :: 0 <= NonLoops(es)[x].source
  {
    NonLoopsSubsequence(es);
    forall x | 0 <= x < |NonLoops(es)| ensures 0 <= NonLoops(es)[x].source {
      assert NonLoops(es)[x] in es;
    }
  }

  /** In a list sorted by source with no negative source, the index array
      delimits each node's edges. */
  lemma FirstsSlices(arcs: seq<Edge>, nNodes: nat)
    requires forall i, j | 0 <= i < j < |arcs| :: arcs[i].source <= arcs[j].source
    requires forall j | 0 <= j < |arcs| :: 0 <= arcs[j].source
    ensures forall p, u | 0 <= p < |arcs| && 0 <= u < nNodes ::
      Firsts(arcs, nNodes)[u] <= p < Firsts(arcs, nNodes)[u + 1] <==> arcs[p].source == u
  {
    var o := Firsts(arcs, nNodes);
    forall p, u | 0 <= p < |arcs| && 0 <= u < nNodes
      ensures o[u] <= p < o[u + 1] <==> arcs[p].source == u
    {
      FirstAtLeastSplits(arcs, u, p);
      FirstAtLeastSplits(arcs, u + 1, p);
    }
  }

  /** The prepared list of an unsorted input is sorted by source, with
      nodes as endpoints. */
  lemma PreparedSortedBySource(es: seq<Edge>, nNodes: nat)
    requires EndpointsAreNodes(es, nNodes)
    ensures EndpointsAreNodes(Prepared(es, false), nNodes)
    ensures SortedEdges(Prepared(es, false))
    ensures forall i, j | 0 <= i < j < |Prepared(es, false)| :: Prepared(es, false)[i].source <= Prepared(es, false)[j].source
  {
    var prepared := Prepared(es, false);
    SortEdgesSpec(DoubleEdges(es));
    DoubleEdgesEndpoints(es, nNodes);
    PermutationEndpoints(DoubleEdges(es), prepared, nNodes);
    forall i, j | 0 <= i < j < |prepared| ensures prepared[i].source <= prepared[j].source {
      assert EdgeLeq(prepared[i], prepared[j]);
    }
  }

  /** Edges between nodes always fit: the edge-list constructor faults
      only on an endpoint beyond `nNodes`, and then only on one that
      becomes the source of a stored edge. */
  lemma NodeEndpointsFit(es: seq<Edge>, nNodes: nat, sortedEdges: bool)
    requires EndpointsAreNodes(es, nNodes)
    ensures SourcesFit(Prepared(es, sortedEdges), nNodes)
  {
    if !sortedEdges {
      PreparedSortedBySource(es, nNodes);
    }
  }

  /** Without the sorted-edges promise, every slice lists its neighbours in
      non-decreasing order. */
  lemma UnsortedInputSlicesOrdered(nNodes: nat, nodeWeights: Option<seq<real>>, setNodeWeightsToTotalEdgeWeights: bool, es: seq<Edge>)
    requires EndpointsAreNodes(es, nNodes)
    ensures var net := Assemble(nNodes, nodeWeights, setNodeWeightsToTotalEdgeWeights, Prepared(es, false));
      forall u, p, q | 0 <= p < q < net.nEdges && 0 <= u < nNodes && InSlice(net, u, p) && InSlice(net, u, q) ::
        net.neighbors[p] <= net.neighbors[q]
  {
    var prepared := Prepared(es, false);
    PreparedSortedBySource(es, nNodes);
    AssembledSlices(nNodes, nodeWeights, setNodeWeightsToTotalEdgeWeights, prepared);
    NonLoopsSorted(prepared);
    var net := Assemble(nNodes, nodeWeights, setNodeWeightsToTotalEdgeWeights, prepared);
    forall u, p, q | 0 <= p < q < net.nEdges && 0 <= u < nNodes && InSlice(net, u, p) && InSlice(net, u, q)
      ensures net.neighbors[p] <= net.neighbors[q]
    {
      assert EdgeLeq(NonLoops(prepared)[p], NonLoops(prepared)[q]);
    }
  }

  /** A stored edge of a list sorted by source sits in its source's slice. */
  lemma StoredInSlice(nNodes: nat, nodeWeights: Option<seq<real>>, setNodeWeightsToTotalEdgeWeights: bool, es: seq<Edge>, x: Edge)
    requires forall i, j | 0 <= i < j < |es| :: es[i].source <= es[j].source
    requires x in multiset(NonLoops(es)) && 0 <= x.source < nNodes
    ensures var net := Assemble(nNodes, nodeWeights, setNodeWeightsToTotalEdgeWeights, es);
      exists p :: InSlice(net, x.source, p) && net.neighbors[p] == x.target && net.edgeWeights[p] == x.weight
  {
    var p :| 0 <= p < |NonLoops(es)| && NonLoops(es)[p] == x;
    AssembledSlot(nNodes, nodeWeights, setNodeWeightsToTotalEdgeWeights, es, p);
  }

  /** The `p`-th stored edge sits in its source's slice. */
  lemma AssembledSlot(nNodes: nat, nodeWeights: Option<seq<real>>, setNodeWeightsToTotalEdgeWeights: bool, es: seq<Edge>, p: int)
    requires forall i, j | 0 <= i < j < |es| :: es[i].source <= es[j].source
    requires 0 <= p < |NonLoops(es)| && 0 <= NonLoops(es)[p].source < nNodes
    ensures var net := Assemble(nNodes, nodeWeights, setNodeWeightsToTotalEdgeWeights, es);
      && InSlice(net, NonLoops(es)[p].source, p)
      && net.neighbors[p] == NonLoops(es)[p].target && net.edgeWeights[p] == NonLoops(es)[p].weight
  {
    var arcs := NonLoops(es);
    var u := arcs[p].source;
    var net := Assemble(nNodes, nodeWeights, setNodeWeightsToTotalEdgeWeights, es);
    assert net.nNodes == nNodes && net.nEdges == |arcs| && net.firstNeighborIndices == Firsts(arcs, nNodes);
    NonLoopsSortedBySource(es);
    FirstAtLeastSplits(arcs, u, p);
    FirstAtLeastSplits(arcs, u + 1, p);
  }

  /** Without the sorted-edges promise, an input edge `u`-`v` between
      distinct nodes is stored both as `u -> v` in `u`'s slice and as
      `v -> u` in `v`'s slice, each with the edge's weight. */
  lemma UnsortedInputStoredBothWays(nNodes: nat, nodeWeights: Option<seq<real>>, setNodeWeightsToTotalEdgeWeights: bool, es: seq<Edge>, e: Edge)
    requires EndpointsAreNodes(es, nNodes)
    requires e in es && !IsLoop(e)
    ensures var net := Assemble(nNodes, nodeWeights, setNodeWeightsToTotalEdgeWeights, Prepared(es, false));
      && (exists p :: InSlice(net, e.source, p) && net.neighbors[p] == e.target && net.edgeWeights[p] == e.weight)
      && (exists q :: InSlice(net, e.target, q) && net.neighbors[q] == e.source && net.edgeWeights[q] == e.weight)
  {
    var prepared := Prepared(es, false);
    PreparedSortedBySource(es, nNodes);
    PreparedContents(es);
    NonLoopsMultiplicity(es, e);
    var k :| 0 <= k < |es| && es[k] == e;
    assert e in multiset(NonLoops(es));
    var y :| 0 <= y < |NonLoops(es)| && NonLoops(es)[y] == e;
    assert Reverses(NonLoops(es))[y] == Reversed(e);
    assert Reversed(e) in multiset(Reverses(NonLoops(es)));
    StoredInSlice(nNodes, nodeWeights, setNodeWeightsToTotalEdgeWeights, prepared, e);
    StoredInSlice(nNodes, nodeWeights, setNodeWeightsToTotalEdgeWeights, prepared, Reversed(e));
  }

  /** The edge weights the neighbour-list constructor stores: the given
      ones, else all ones (line 694). */
  function ChosenEdgeWeights(nEdges: nat, edgeWeights: Option<seq<real>>): seq<real>
  {
    if edgeWeights.Some? then edgeWeights.value else CwtsArrays.CreateDoubleArrayOfOnes(nEdges)
  }

  /** The private neighbour-list constructor (lines 688-701): the arrays are
      copied, missing edge weights become ones, there are no self-links,
      node weights are chosen as for edge lists, and the integrity is
      checked on request. The total-edge-weight option reads every slice
      before any check, so a slice outside the arrays makes the source
      index past them. */
  method FromNeighborLists(nNodes: nat, nodeWeights: Option<seq<real>>, setNodeWeightsToTotalEdgeWeights: bool,
                           firstNeighborIndices: seq<int>, neighbors: seq<int>, edgeWeights: Option<seq<real>>,
                           checkIntegrity: bool)
    returns (r: Result<Network, Fault>)
    requires nodeWeights.Some? ==> |nodeWeights.value| == nNodes
    ensures var w := ChosenEdgeWeights(|neighbors|, edgeWeights);
      var readable := nodeWeights.Some? || !setNodeWeightsToTotalEdgeWeights || RangesReadable(nNodes, firstNeighborIndices, w);
      && (r == Failure(ArrayOutOfBounds) <==> !readable)
      && (readable ==>
            var net := Network(nNodes, |neighbors|,
                               ChosenNodeWeights(nNodes, nodeWeights, setNodeWeightsToTotalEdgeWeights, firstNeighborIndices, w),
                               firstNeighborIndices, neighbors, w, 0.0);
            && (r.Success? ==> r.value == net)
            && (r.Failure? ==> checkIntegrity && r.error.Rejected? && Violated(net, r.error.error))
            && (checkIntegrity ==> (r.Success? <==> WellFormed(net)))
            && (!checkIntegrity ==> r.Success?))
  {
    var w := ChosenEdgeWeights(|neighbors|, edgeWeights);
    if nodeWeights.None? && setNodeWeightsToTotalEdgeWeights && !RangesReadable(nNodes, firstNeighborIndices, w) {
      return Failure(ArrayOutOfBounds);
    }
    var nw := ChooseNodeWeights(nNodes, nodeWeights, setNodeWeightsToTotalEdgeWeights, firstNeighborIndices, w);
    var v := Validated(Network(nNodes, |neighbors|, nw, firstNeighborIndices, neighbors, w, 0.0), checkIntegrity);
    r := if v.Success? then Success(v.value) else Failure(Rejected(v.error));
  }

  /** The node-weight choice shared by both private constructors. */
  method ChooseNodeWeights(nNodes: nat, nodeWeights: Option<seq<real>>, setNodeWeightsToTotalEdgeWeights: bool,
                           firstNeighborIndices: seq<int>, edgeWeights: seq<real>)
    returns (nw: seq<real>)
    requires nodeWeights.Some? ==> |nodeWeights.value| == nNodes
    requires nodeWeights.None? && setNodeWeightsToTotalEdgeWeights ==> RangesReadable(nNodes, firstNeighborIndices, edgeWeights)
    ensures |nw| == nNodes
    ensures nodeWeights.Some? ==> nw == nodeWeights.value
    ensures nodeWeights.None? && setNodeWeightsToTotalEdgeWeights ==>
              forall i | 0 <= i < nNodes :: nw[i] == SliceWeight(firstNeighborIndices, edgeWeights, i)
    ensures nodeWeights.None? && !setNodeWeightsToTotalEdgeWeights ==> forall i | 0 <= i < nNodes :: nw[i] == 1.0
    ensures nw == ChosenNodeWeights(nNodes, nodeWeights, setNodeWeightsToTotalEdgeWeights, firstNeighborIndices, edgeWeights)
  {
    if nodeWeights.Some? {
      nw := nodeWeights.value;
    } else if setNodeWeightsToTotalEdgeWeights {
      nw := TotalEdgeWeightPerNode(nNodes, firstNeighborIndices, edgeWeights);
    } else {
      nw := CwtsArrays.CreateDoubleArrayOfOnes(nNodes);
    }
  }

  /** The constructors' last step: the network is returned unless the
      requested integrity check rejects it. */
  method Validated(net: Network, checkIntegrity: bool) returns (r: Result<Network, IntegrityError>)
    ensures r.Success? ==> r.value == net
    ensures r.Failure? ==> checkIntegrity && Violated(net, r.error)
    ensures checkIntegrity ==> (r.Success? <==> WellFormed(net))
    ensures !checkIntegrity ==> r.Success?
  {
    if checkIntegrity {
      var verdict := CheckIntegrity(net);
      if verdict.Some? {
        return Failure(verdict.value);
      }
    }
    r := Success(net);
  }
}

=== FILE: network_reduce.dfy ===
/** The aggregate network of a clustering (`Network.createReducedNetwork`,
    Network.java lines 401-461): one node per cluster, whose weight is the
    total weight of the cluster's nodes, and one edge per pair of adjacent
    clusters, whose weight is the total weight of the edges between them.
    Edges inside a cluster become self-link weight. */
module NetworkReduce {
  import opened SeqMath
  import opened Wrappers
  import opened CwtsNetwork
  import opened Clusterings

  /** An edge stored in a member's slice as the reduced network sees it:
      the cluster at its far end and its weight. */
  datatype Link = Link(to: int, weight: real)

  /** The sum of `f` over the positions `idx`; positions outside `f` add
      nothing. */
  function SumAt(f: seq<real>, idx: seq<int>): real
  {
    if |idx| == 0 then 0.0
    else SumAt(f, idx[..|idx| - 1]) + (if 0 <= idx[|idx| - 1] < |f| then f[idx[|idx| - 1]] else 0.0)
  }

  /** The far-end clusters of a list of links. */
  function Tos(ls: seq<Link>): (r: seq<int>)
    ensures |r| == |ls| && forall j | 0 <= j < |ls| :: r[j] == ls[j].to
  {
    seq(|ls|, j requires 0 <= j < |ls| => ls[j].to)
  }

  /** The total weight of a list of links. */
  function LinkWeight(ls: seq<Link>): real
  {
    if |ls| == 0 then 0.0 else LinkWeight(ls[..|ls| - 1]) + ls[|ls| - 1].weight
  }

  /** The total weight of the links that reach cluster `n`. */
  function WeightTo(ls: seq<Link>, n: int): real
  {
    if |ls| == 0 then 0.0
    else WeightTo(ls[..|ls| - 1], n) + (if ls[|ls| - 1].to == n then ls[|ls| - 1].weight else 0.0)
  }

  /** The links that leave cluster `i`. */
  function Outgoing(ls: seq<Link>, i: int): seq<Link>
  {
    if |ls| == 0 then []
    else Outgoing(ls[..|ls| - 1], i) + (if ls[|ls| - 1].to != i then [ls[|ls| - 1]] else [])
  }

  /** The total weight of the links into each of the clusters `ns`. */
  function WeightsOf(ls: seq<Link>, ns: seq<int>): (r: seq<real>)
    ensures |r| == |ns| && forall k | 0 <= k < |ns| :: r[k] == WeightTo(ls, ns[k])
  {
    seq(|ns|, k requires 0 <= k < |ns| => WeightTo(ls, ns[k]))
  }

  /** The clusters the links reach, each once, in order of first
      appearance. */
  function FirstAppearances(ls: seq<Link>): seq<int>
  {
    if |ls| == 0 then []
    else
      var p := FirstAppearances(ls[..|ls| - 1]);
      p + (if ls[|ls| - 1].to in p then [] else [ls[|ls| - 1].to])
  }

  /** The first-appearance list holds every reached cluster exactly once. */
  lemma {:induction false} FirstAppearancesSpec(ls: seq<Link>)
    ensures Distinct(FirstAppearances(ls))
    ensures forall n :: n in FirstAppearances(ls) <==> n in Tos(ls)
    decreases |ls|
  {
    if |ls| > 0 {
      var q := ls[..|ls| - 1];
      FirstAppearancesSpec(q);
      assert Tos(ls) == Tos(q) + [ls[|ls| - 1].to];
    }
  }

  /** A cluster no link reaches receives no weight. */
  lemma {:induction false} WeightToUnreached(ls: seq<Link>, n: int)
    requires n !in Tos(ls)
    ensures WeightTo(ls, n) == 0.0
    decreases |ls|
  {
    if |ls| > 0 {
      var q := ls[..|ls| - 1];
      assert Tos(ls) == Tos(q) + [ls[|ls| - 1].to];
      WeightToUnreached(q, n);
    }
  }

  /** With positive weights a reached cluster receives positive weight. */
  lemma {:induction false} WeightToReached(ls: seq<Link>, n: int)
    requires forall j | 0 <= j < |ls| :: ls[j].weight > 0.0
    requires n in Tos(ls)
    ensures WeightTo(ls, n) > 0.0
    decreases |ls|
  {
    var q := ls[..|ls| - 1];
    assert Tos(ls) == Tos(q) + [ls[|ls| - 1].to];
    if n in Tos(q) {
      WeightToReached(q, n);
    } else {
      WeightToUnreached(q, n);
    }
  }

  /** Leaving out the links into cluster `i` changes no other cluster's
      weight. */
  lemma {:induction false} OutgoingWeight(ls: seq<Link>, i: int, n: int)
    requires n != i
    ensures WeightTo(Outgoing(ls, i), n) == WeightTo(ls, n)
    decreases |ls|
  {
    if |ls| > 0 {
      var q := ls[..|ls| - 1];
      OutgoingWeight(q, i, n);
      var o := Outgoing(q, i);
      var e := ls[|ls| - 1];
      if e.to != i {
        assert Outgoing(ls, i) == o + [e];
        assert (o + [e])[..|o|] == o;
      } else {
        assert Outgoing(ls, i) == o;
      }
    }
  }

  /** The outgoing links reach exactly the other clusters the links reach. */
  lemma {:induction false} OutgoingReach(ls: seq<Link>, i: int)
    ensures forall n :: n in Tos(Outgoing(ls, i)) <==> n != i && n in Tos(ls)
    decreases |ls|
  {
    if |ls| > 0 {
      var q := ls[..|ls| - 1];
      OutgoingReach(q, i);
      assert Tos(ls) == Tos(q) + [ls[|ls| - 1].to];
      var o := Outgoing(q, i);
      var e := ls[|ls| - 1];
      if e.to != i {
        assert Outgoing(ls, i) == o + [e];
        assert Tos(o + [e]) == Tos(o) + [e.to];
      } else {
        assert Outgoing(ls, i) == o;
      }
    }
  }

  /** The list the source builds (lines 436-440): a cluster is appended
      whenever its accumulated weight is still exactly zero, so zero weight
      stands for "not yet listed". */
  function SentinelList(ls: seq<Link>): seq<int>
  {
    if |ls| == 0 then []
    else
      var q := ls[..|ls| - 1];
      SentinelList(q) + (if WeightTo(q, ls[|ls| - 1].to) == 0.0 then [ls[|ls| - 1].to] else [])
  }

  /** The weights the source stores for that list (lines 448-453): the
      accumulator is read and reset at the first listing of a cluster, so a
      later listing of the same cluster reads zero. */
  function SentinelWeights(ls: seq<Link>, list: seq<int>): (r: seq<real>)
    ensures |r| == |list|
  {
    seq(|list|, k requires 0 <= k < |list| => if list[k] in list[..k] then 0.0 else WeightTo(ls, list[k]))
  }

  /** With positive edge weights the zero sentinel is sound: the source's
      list is the first-appearance list. */
  lemma {:induction false} SentinelSoundForPositiveWeights(ls: seq<Link>)
    requires forall j | 0 <= j < |ls| :: ls[j].weight > 0.0
    ensures SentinelList(ls) == FirstAppearances(ls)
    decreases |ls|
  {
    if |ls| > 0 {
      var q := ls[..|ls| - 1];
      var n := ls[|ls| - 1].to;
      SentinelSoundForPositiveWeights(q);
      FirstAppearancesSpec(q);
      if n in Tos(q) {
        WeightToReached(q, n);
      } else {
        WeightToUnreached(q, n);
      }
    }
  }

  /** Two zero-weight edges from cluster 0 into cluster 1: the source
      lists cluster 1 twice, the second time with weight zero, while the
      intended list names it once. The two listings fit the scratch array
      `reducedNetworkNeighbors2` (line 419) only when there are at least
      three clusters. */
  lemma ZeroWeightListedTwice()
    ensures var ls := [Link(1, 0.0), Link(1, 0.0)];
      && SentinelList(ls) == [1, 1]
      && SentinelWeights(ls, SentinelList(ls)) == [0.0, 0.0]
      && !Distinct(SentinelList(ls))
      && FirstAppearances(ls) == [1]
      && |SentinelList(ls)| <= 3 - 1
      && |SentinelList(ls)| > 2 - 1
  {
    var ls := [Link(1, 0.0), Link(1, 0.0)];
    assert ls[..1] == [Link(1, 0.0)];
    assert [Link(1, 0.0)][..0] == [];
    assert SentinelList(ls) == [1, 1];
    assert SentinelList(ls)[..1] == [1];
  }

  /** `m` zero-weight links into one cluster make the source list that
      cluster `m` times: once `m` exceeds `nClusters - 1` the listing
      writes past the scratch array of line 419 and throws. */
  lemma {:induction false} ZeroWeightRepeatsListed(m: nat, n: int)
    ensures SentinelList(seq(m, _ => Link(n, 0.0))) == seq(m, _ => n)
    decreases m
  {
    if m > 0 {
      var ls := seq(m, _ => Link(n, 0.0));
      assert ls[..m - 1] == seq(m - 1, _ => Link(n, 0.0));
      ZeroWeightRepeatsListed(m - 1, n);
      ZeroWeightsWeighNothing(ls[..m - 1], n);
      assert seq(m - 1, _ => n) + [n] == seq(m, _ => n);
    }
  }

  /** Zero-weight links carry no weight into any cluster. */
  lemma {:induction false} ZeroWeightsWeighNothing(ls: seq<Link>, n: int)
    requires forall j | 0 <= j < |ls| :: ls[j].weight == 0.0
    ensures WeightTo(ls, n) == 0.0
    decreases |ls|
  {
    if |ls| > 0 {
      ZeroWeightsWeighNothing(ls[..|ls| - 1], n);
    }
  }

  /** The cluster numbers `0, ..., n - 1`. */
  function ClusterNumbers(n: nat): (r: set<int>)
    ensures forall k :: k in r <==> 0 <= k < n
  {
    if n == 0 then {} else ClusterNumbers(n - 1) + {n - 1}
  }

  lemma {:induction false} ClusterNumbersCount(n: nat)
    ensures |ClusterNumbers(n)| == n
    decreases n
  {
    if n > 0 {
      ClusterNumbersCount(n - 1);
    }
  }

  /** A list without repetitions drawn from a set is no longer than the
      set. */
  lemma {:induction false} DistinctWithin(s: seq<int>, pool: set<int>)
    requires Distinct(s)
    requires forall k | 0 <= k < |s| :: s[k] in pool
    ensures |s| <= |pool|
    decreases |s|
  {
    if |s| > 0 {
      var x := s[|s| - 1];
      var q := s[..|s| - 1];
      assert pool == (pool - {x}) + {x};
      DistinctWithin(q, pool - {x});
    }
  }

  /** The intended neighbour list of cluster `i` names each other cluster
      at most once, so it always fits the `nClusters - 1` entries the
      source allocates for it at line 419. */
  lemma FirstAppearancesFitScratch(ls: seq<Link>, i: int, nClusters: nat)
    requires 0 <= i < nClusters
    requires forall j | 0 <= j < |ls| :: 0 <= ls[j].to < nClusters
    ensures |FirstAppearances(Outgoing(ls, i))| <= nClusters - 1
  {
    var list := FirstAppearances(Outgoing(ls, i));
    FirstAppearancesSpec(Outgoing(ls, i));
    OutgoingReach(ls, i);
    var pool := ClusterNumbers(nClusters) - {i};
    ClusterNumbersCount(nClusters);
    assert ClusterNumbers(nClusters) == pool + {i};
    forall k | 0 <= k < |list|
      ensures list[k] in pool
    {
      var n := list[k];
      assert n in Tos(Outgoing(ls, i)) by {
        assert n in list;
        FirstAppearancesSpec(Outgoing(ls, i));
      }
      var j :| 0 <= j < |ls| && Tos(ls)[j] == n;
    }
    DistinctWithin(list, pool);
  }

  /** The links of node `u`'s slice, in storage order. */
  function NodeLinks(net: Network, clusters: seq<int>, u: int): (r: seq<Link>)
    requires Csr(net) && |clusters| == net.nNodes && 0 <= u < net.nNodes
    ensures |r| == net.firstNeighborIndices[u + 1] - net.firstNeighborIndices[u]
  {
    IndicesWithinEdges(net, u);
    IndicesWithinEdges(net, u + 1);
    var a := net.firstNeighborIndices[u];
    var b := net.firstNeighborIndices[u + 1];
    seq(b - a, k requires 0 <= k < b - a => Link(clusters[net.neighbors[a + k]], net.edgeWeights[a + k]))
  }

  /** Every member is a node of the network. */
  predicate AreNodes(net: Network, ms: seq<int>)
  {
    forall a | 0 <= a < |ms| :: 0 <= ms[a] < net.nNodes
  }

  /** The links of the members `ms`, member by member. */
  function MemberLinks(net: Network, clusters: seq<int>, ms: seq<int>): seq<Link>
    requires Csr(net) && |clusters| == net.nNodes && AreNodes(net, ms)
  {
    if |ms| == 0 then []
    else MemberLinks(net, clusters, ms[..|ms| - 1]) + NodeLinks(net, clusters, ms[|ms| - 1])
  }

  /** The members of a cluster are nodes. */
  lemma MembersAreNodes(net: Network, c: Clustering, i: int)
    requires c.nNodes == net.nNodes && Valid(c)
    ensures AreNodes(net, Members(c.clusters, i))
  {
    MembersSpec(c.clusters, i);
    var ms := Members(c.clusters, i);
    assert forall a | 0 <= a < |ms| :: ms[a] in ms;
  }

  /** The links leaving the members of cluster `i`. */
  ghost function ClusterLinks(net: Network, c: Clustering, i: int): seq<Link>
    requires Csr(net) && Valid(c) && c.nNodes == net.nNodes
  {
    MembersAreNodes(net, c, i);
    MemberLinks(net, c.clusters, Members(c.clusters, i))
  }

  /** Every link reaches a cluster of the clustering. */
  predicate LinksWithin(ls: seq<Link>, nClusters: int)
  {
    forall j | 0 <= j < |ls| :: 0 <= ls[j].to < nClusters
  }

  lemma {:induction false} MemberLinksWithin(net: Network, c: Clustering, ms: seq<int>)
    requires Csr(net) && Valid(c) && c.nNodes == net.nNodes && AreNodes(net, ms)
    ensures LinksWithin(MemberLinks(net, c.clusters, ms), c.nClusters)
    decreases |ms|
  {
    if |ms| > 0 {
      MemberLinksWithin(net, c, ms[..|ms| - 1]);
      NodeLinksWithin(net, c, ms[|ms| - 1]);
    }
  }

  lemma NodeLinksWithin(net: Network, c: Clustering, u: int)
    requires Csr(net) && Valid(c) && c.nNodes == net.nNodes && 0 <= u < net.nNodes
    ensures LinksWithin(NodeLinks(net, c.clusters, u), c.nClusters)
  {
    IndicesWithinEdges(net, u);
    IndicesWithinEdges(net, u + 1);
  }

  /** The inner loop over a cluster's members (lines 425-446 without the
      bookkeeping): the node weights are summed and the members' links
      gathered in member order. */
  method GatherCluster(net: Network, clusters: seq<int>, ms: seq<int>) returns (ls: seq<Link>, weight: real)
    requires Csr(net) && |clusters| == net.nNodes && AreNodes(net, ms)
    ensures ls == MemberLinks(net, clusters, ms)
    ensures weight == SumAt(net.nodeWeights, ms)
  {
    ls := [];
    weight := 0.0;
    var k := 0;
    while k < |ms|
      invariant 0 <= k <= |ms|
      invariant ls == MemberLinks(net, clusters, ms[..k])
      invariant weight == SumAt(net.nodeWeights, ms[..k])
    {
      assert ms[..k + 1][..k] == ms[..k];
      ls := ls + NodeLinks(net, clusters, ms[k]);
      weight := weight + net.nodeWeights[ms[k]];
      k := k + 1;
    }
    assert ms[..k] == ms;
  }

  /** The edges of cluster `i` in the reduced network (lines 424-454), with
      the zero-weight sentinel replaced by a "listed" flag per cluster: every
      other reached cluster once, in order of first appearance, with the
      total weight of the links into it, and the weight of the links that
      stay inside `i`. */
  method ReduceCluster(ls: seq<Link>, i: int, nClusters: nat) returns (list: seq<int>, weights: seq<real>, inner: real)
    requires LinksWithin(ls, nClusters)
    ensures list == FirstAppearances(Outgoing(ls, i))
    ensures Distinct(list)
    ensures forall n :: n in list <==> n != i && n in Tos(ls)
    ensures |weights| == |list| && forall k | 0 <= k < |list| :: weights[k] == WeightTo(ls, list[k])
    ensures inner == WeightTo(ls, i)
  {
    var acc := seq(nClusters, _ => 0.0);
    var listed := seq(nClusters, _ => false);
    list := [];
    inner := 0.0;
    var p := 0;
    while p < |ls|
      invariant 0 <= p <= |ls|
      invariant Scanned(ls[..p], i, nClusters, list, listed, acc, inner)
    {
      assert ls[..p + 1] == ls[..p] + [ls[p]];
      list, listed, acc, inner := ReduceStep(ls[..p], ls[p], i, nClusters, list, listed, acc, inner);
      p := p + 1;
    }
    assert ls[..p] == ls;
    FirstAppearancesSpec(Outgoing(ls, i));
    OutgoingReach(ls, i);
    assert forall k | 0 <= k < |list| :: list[k] in list && list[k] != i;
    weights := seq(|list|, k requires 0 <= k < |list| => acc[list[k]]);
  }

  /** The state of the scan of cluster `i` after the links `ls`: the list of
      reached clusters, their flags, their accumulated weights and the
      inner weight. */
  ghost predicate Scanned(ls: seq<Link>, i: int, nClusters: nat, list: seq<int>, listed: seq<bool>, acc: seq<real>, inner: real)
  {
    && |acc| == nClusters && |listed| == nClusters
    && list == FirstAppearances(Outgoing(ls, i))
    && (forall k | 0 <= k < |list| :: 0 <= list[k] < nClusters)
    && (forall n | 0 <= n < nClusters :: listed[n] <==> n in list)
    && (forall n | 0 <= n < nClusters && n != i :: acc[n] == WeightTo(ls, n))
    && inner == WeightTo(ls, i)
  }

  /** One link of the scan (lines 433-444). */
  method ReduceStep(ls: seq<Link>, e: Link, i: int, nClusters: nat, list: seq<int>, listed: seq<bool>, acc: seq<real>, inner: real)
    returns (list': seq<int>, listed': seq<bool>, acc': seq<real>, inner': real)
    requires 0 <= e.to < nClusters
    requires Scanned(ls, i, nClusters, list, listed, acc, inner)
    ensures Scanned(ls + [e], i, nClusters, list', listed', acc', inner')
  {
    var o := Outgoing(ls, i);
    assert (ls + [e])[..|ls|] == ls;
    list', listed', acc', inner' := list, listed, acc, inner;
    if e.to != i {
      assert Outgoing(ls + [e], i) == o + [e];
      assert (o + [e])[..|o|] == o;
      if !listed[e.to] {
        list' := list + [e.to];
        listed' := listed[e.to := true];
      }
      acc' := acc[e.to := acc[e.to] + e.weight];
    } else {
      assert Outgoing(ls + [e], i) == o;
      inner' := inner + e.weight;
    }
  }

  /** The neighbours stored in node `i`'s slice; empty when the slice
      cannot be read. */
  function SliceNeighbors(net: Network, i: int): seq<int>
  {
    var fni := net.firstNeighborIndices;
    if 0 <= i && i + 1 < |fni| && 0 <= fni[i] <= fni[i + 1] <= |net.neighbors|
    then net.neighbors[fni[i]..fni[i + 1]] else []
  }

  /** The edge weights stored in node `i`'s slice; empty when the slice
      cannot be read. */
  function SliceWeights(net: Network, i: int): seq<real>
  {
    var fni := net.firstNeighborIndices;
    if 0 <= i && i + 1 < |fni| && 0 <= fni[i] <= fni[i + 1] <= |net.edgeWeights|
    then net.edgeWeights[fni[i]..fni[i + 1]] else []
  }

  /** The neighbours cluster `i` has in the reduced network: every other
      cluster a member's edge reaches, once, in order of first appearance. */
  ghost function ReducedNeighbors(net: Network, c: Clustering, i: int): seq<int>
    requires Csr(net) && Valid(c) && c.nNodes == net.nNodes
  {
    FirstAppearances(Outgoing(ClusterLinks(net, c, i), i))
  }

  /** The weights of those edges: the total weight of the edges between the
      two clusters. */
  ghost function ReducedWeights(net: Network, c: Clustering, i: int): (r: seq<real>)
    requires Csr(net) && Valid(c) && c.nNodes == net.nNodes
    ensures |r| == |ReducedNeighbors(net, c, i)|
  {
    WeightsOf(ClusterLinks(net, c, i), ReducedNeighbors(net, c, i))
  }

  /** For every cluster, the weight of the edges inside it. */
  ghost function InnerWeights(net: Network, c: Clustering): (r: seq<real>)
    requires Csr(net) && Valid(c) && c.nNodes == net.nNodes
    ensures |r| == c.nClusters
  {
    seq(c.nClusters, i requires 0 <= i < c.nClusters => WeightTo(ClusterLinks(net, c, i), i))
  }

  /** The index array of the first `i` clusters is monotone and bounded by
      the number of stored edges. */
  predicate IndexedUpTo(i: int, fni: seq<int>, nStored: int)
  {
    && 0 <= i
    && |fni| == i + 1 && fni[0] == 0 && fni[i] == nStored
    && (forall k, l | 0 <= k <= l <= i :: 0 <= fni[k] <= fni[l] <= nStored)
  }

  /** The slices of the first `i` clusters hold their reduced edges. */
  ghost predicate SlicesUpTo(net: Network, c: Clustering, i: int, fni: seq<int>, neighbors: seq<int>, edgeWeights: seq<real>)
    requires Csr(net) && Valid(c) && c.nNodes == net.nNodes
    requires IndexedUpTo(i, fni, |neighbors|) && |edgeWeights| == |neighbors|
  {
    && (forall k | 0 <= k < i :: neighbors[fni[k]..fni[k + 1]] == ReducedNeighbors(net, c, k))
    && (forall k | 0 <= k < i :: edgeWeights[fni[k]..fni[k + 1]] == ReducedWeights(net, c, k))
  }

  /** The reduced network's arrays after its first `i` clusters. */
  ghost predicate Built(net: Network, c: Clustering, i: int, fni: seq<int>, neighbors: seq<int>, edgeWeights: seq<real>,
                        nodeWeights: seq<real>, selfLinks: real)
    requires Csr(net) && Valid(c) && c.nNodes == net.nNodes
  {
    && i <= c.nClusters
    && IndexedUpTo(i, fni, |neighbors|) && |edgeWeights| == |neighbors|
    && (forall j | 0 <= j < |neighbors| :: 0 <= neighbors[j] < c.nClusters)
    && |nodeWeights| == i
    && (forall k | 0 <= k < i :: nodeWeights[k] == SumAt(net.nodeWeights, Members(c.clusters, k)))
    && SlicesUpTo(net, c, i, fni, neighbors, edgeWeights)
    && selfLinks == net.totalEdgeWeightSelfLinks + Sum(InnerWeights(net, c)[..i])
  }

  /** Cluster `i`'s node weight, reduced edges and inner weight (lines
      425-451). */
  method ReduceClusterOf(net: Network, c: Clustering, members: seq<int>, i: int)
    returns (w: real, list: seq<int>, weights: seq<real>, inner: real)
    requires Csr(net) && Valid(c) && c.nNodes == net.nNodes
    requires 0 <= i < c.nClusters && members == Members(c.clusters, i)
    ensures w == SumAt(net.nodeWeights, Members(c.clusters, i))
    ensures list == ReducedNeighbors(net, c, i) && weights == ReducedWeights(net, c, i)
    ensures inner == InnerWeights(net, c)[i]
    ensures forall j | 0 <= j < |list| :: 0 <= list[j] < c.nClusters
  {
    MembersAreNodes(net, c, i);
    var ls;
    ls, w := GatherCluster(net, c.clusters, members);
    MemberLinksWithin(net, c, members);
    list, weights, inner := ReduceCluster(ls, i, c.nClusters);
    assert forall j | 0 <= j < |list| :: list[j] in list && list[j] in Tos(ls);
  }

  /** Appending a piece leaves the slices of the old part unchanged. */
  lemma AppendKeepsSlice<T>(a: seq<T>, b: seq<T>, lo: int, hi: int)
    requires 0 <= lo <= hi <= |a|
    ensures (a + b)[lo..hi] == a[lo..hi]
  {
  }

  lemma SlicesExtended(net: Network, c: Clustering, i: int, fni: seq<int>, neighbors: seq<int>, edgeWeights: seq<real>,
                       list: seq<int>, weights: seq<real>)
    requires Csr(net) && Valid(c) && c.nNodes == net.nNodes && 0 <= i < c.nClusters
    requires IndexedUpTo(i, fni, |neighbors|) && |edgeWeights| == |neighbors|
    requires SlicesUpTo(net, c, i, fni, neighbors, edgeWeights)
    requires list == ReducedNeighbors(net, c, i) && weights == ReducedWeights(net, c, i)
    ensures IndexedUpTo(i + 1, fni + [|neighbors| + |list|], |neighbors + list|)
    ensures SlicesUpTo(net, c, i + 1, fni + [|neighbors| + |list|], neighbors + list, edgeWeights + weights)
  {
    SliceAppended(i, fni, neighbors, list);
    SliceAppended(i, fni, edgeWeights, weights);
  }

  /** Appending `b` as slice `i` keeps the earlier slices of `a`. */
  lemma SliceAppended<T>(i: int, fni: seq<int>, a: seq<T>, b: seq<T>)
    requires IndexedUpTo(i, fni, |a|)
    ensures IndexedUpTo(i + 1, fni + [|a| + |b|], |a + b|)
    ensures forall k | 0 <= k < i :: (a + b)[(fni + [|a| + |b|])[k]..(fni + [|a| + |b|])[k + 1]] == a[fni[k]..fni[k + 1]]
    ensures (a + b)[(fni + [|a| + |b|])[i]..(fni + [|a| + |b|])[i + 1]] == b
  {
    var fni' := fni + [|a| + |b|];
    forall k | 0 <= k < i ensures (a + b)[fni'[k]..fni'[k + 1]] == a[fni[k]..fni[k + 1]] {
      AppendKeepsSlice(a, b, fni[k], fni[k + 1]);
    }
    assert (a + b)[fni'[i]..fni'[i + 1]] == b;
  }

  /** One cluster of the outer loop (lines 423-455). */
  method ReduceNext(net: Network, c: Clustering, members: seq<int>, i: int, fni: seq<int>, neighbors: seq<int>,
                    edgeWeights: seq<real>, nodeWeights: seq<real>, selfLinks: real)
    returns (fni': seq<int>, neighbors': seq<int>, edgeWeights': seq<real>, nodeWeights': seq<real>, selfLinks': real)
    requires Csr(net) && Valid(c) && c.nNodes == net.nNodes
    requires 0 <= i < c.nClusters && members == Members(c.clusters, i)
    requires Built(net, c, i, fni, neighbors, edgeWeights, nodeWeights, selfLinks)
    ensures Built(net, c, i + 1, fni', neighbors', edgeWeights', nodeWeights', selfLinks')
  {
    var w, list, weights, inner := ReduceClusterOf(net, c, members, i);
    SlicesExtended(net, c, i, fni, neighbors, edgeWeights, list, weights);
    fni' := fni + [|neighbors| + |list|];
    neighbors' := neighbors + list;
    edgeWeights' := edgeWeights + weights;
    nodeWeights' := nodeWeights + [w];
    selfLinks' := selfLinks + inner;
    InnerPrefixStep(net, c, i);
    assert nodeWeights'[..i] == nodeWeights && nodeWeights'[i] == w;
  }

  /** The inner weights of the first `i + 1` clusters. */
  lemma InnerPrefixStep(net: Network, c: Clustering, i: int)
    requires Csr(net) && Valid(c) && c.nNodes == net.nNodes && 0 <= i < c.nClusters
    ensures Sum(InnerWeights(net, c)[..i + 1]) == Sum(InnerWeights(net, c)[..i]) + InnerWeights(net, c)[i]
  {
    var inners := InnerWeights(net, c);
    assert inners[..i + 1] == inners[..i] + [inners[i]];
    SumAppend(inners[..i], [inners[i]]);
  }

  /** The outer loop of lines 422-456 over every cluster. */
  method ReduceAll(net: Network, c: Clustering)
    returns (fni: seq<int>, neighbors: seq<int>, edgeWeights: seq<real>, nodeWeights: seq<real>, selfLinks: real)
    requires Csr(net) && Valid(c) && c.nNodes == net.nNodes
    ensures Built(net, c, c.nClusters, fni, neighbors, edgeWeights, nodeWeights, selfLinks)
  {
    var nodesPerCluster := NodesPerCluster(c);
    fni, neighbors, edgeWeights, nodeWeights := [0], [], [], [];
    selfLinks := net.totalEdgeWeightSelfLinks;
    var i := 0;
    while i < c.nClusters
      invariant Built(net, c, i, fni, neighbors, edgeWeights, nodeWeights, selfLinks)
    {
      fni, neighbors, edgeWeights, nodeWeights, selfLinks :=
        ReduceNext(net, c, nodesPerCluster[i], i, fni, neighbors, edgeWeights, nodeWeights, selfLinks);
      i := i + 1;
    }
  }

  /** `createReducedNetwork(clustering)`: node `i` of the result stands for
      cluster `i`; its weight is the total weight of the cluster's nodes; its
      slice lists every other cluster a member's edge reaches, once, with
      the total weight of those edges; the weight of the edges inside
      clusters is added to the self-link weight. */
  method CreateReducedNetwork(net: Network, c: Clustering) returns (r: Network)
    requires Csr(net) && Valid(c) && c.nNodes == net.nNodes
    ensures Csr(r)
    ensures r.nNodes == c.nClusters
    ensures forall i | 0 <= i < c.nClusters :: r.nodeWeights[i] == SumAt(net.nodeWeights, Members(c.clusters, i))
    ensures forall i | 0 <= i < c.nClusters :: SliceNeighbors(r, i) == ReducedNeighbors(net, c, i)
    ensures forall i | 0 <= i < c.nClusters :: SliceWeights(r, i) == ReducedWeights(net, c, i)
    ensures r.totalEdgeWeightSelfLinks == net.totalEdgeWeightSelfLinks + Sum(InnerWeights(net, c))
    ensures Sum(r.nodeWeights) == Sum(net.nodeWeights)
    ensures Sum(r.edgeWeights) + r.totalEdgeWeightSelfLinks == Sum(net.edgeWeights) + net.totalEdgeWeightSelfLinks
  {
    var fni, neighbors, edgeWeights, nodeWeights, selfLinks := ReduceAll(net, c);
    var i := c.nClusters;
    assert InnerWeights(net, c)[..i] == InnerWeights(net, c);
    r := Network(c.nClusters, |neighbors|, nodeWeights, fni, neighbors, edgeWeights, selfLinks);
    ReducedNodeWeightConserved(net, c, r);
    ReducedEdgeWeightConserved(net, c, r);
  }

  lemma {:induction false} LinkWeightAppend(a: seq<Link>, b: seq<Link>)
    ensures LinkWeight(a + b) == LinkWeight(a) + LinkWeight(b)
    decreases |b|
  {
    if |b| == 0 {
      assert a + b == a;
    } else {
      assert (a + b)[..|a + b| - 1] == a + b[..|b| - 1];
      LinkWeightAppend(a, b[..|b| - 1]);
    }
  }

  lemma {:induction false} LinkWeightIsSum(ls: seq<Link>, ws: seq<real>)
    requires |ls| == |ws| && forall j | 0 <= j < |ls| :: ls[j].weight == ws[j]
    ensures LinkWeight(ls) == Sum(ws)
    decreases |ls|
  {
    if |ls| > 0 {
      LinkWeightIsSum(ls[..|ls| - 1], ws[..|ws| - 1]);
    }
  }

  /** Listing every reached cluster once with its total weight accounts for
      the weight of every link. */
  lemma {:induction false} FirstAppearanceWeights(ls: seq<Link>)
    ensures Sum(WeightsOf(ls, FirstAppearances(ls))) == LinkWeight(ls)
    decreases |ls|
  {
    if |ls| > 0 {
      var q := ls[..|ls| - 1];
      var e := ls[|ls| - 1];
      FirstAppearanceWeights(q);
      assert ls == q + [e];
      if e.to in FirstAppearances(q) {
        ReachedAgainWeights(q, e);
      } else {
        ReachedFirstWeights(q, e);
      }
    }
  }

  /** A link to an already listed cluster adds its weight to that
      cluster's entry. */
  lemma ReachedAgainWeights(q: seq<Link>, e: Link)
    requires e.to in FirstAppearances(q)
    ensures Sum(WeightsOf(q + [e], FirstAppearances(q + [e]))) == Sum(WeightsOf(q, FirstAppearances(q))) + e.weight
  {
    var ls := q + [e];
    var fa := FirstAppearances(q);
    assert FirstAppearances(ls) == fa by {
      assert ls[..|q|] == q;
    }
    assert Distinct(fa) by {
      FirstAppearancesSpec(q);
    }
    var k0 :| 0 <= k0 < |fa| && fa[k0] == e.to;
    WeightsOfAppendSeen(q, e, fa, k0);
  }

  /** Appending a link changes only the weight of the cluster it reaches. */
  lemma WeightToAppend(q: seq<Link>, e: Link, n: int)
    ensures WeightTo(q + [e], n) == WeightTo(q, n) + (if e.to == n then e.weight else 0.0)
  {
    assert (q + [e])[..|q|] == q;
  }

  /** In a list of distinct clusters, a link to the `k0`-th one adds its
      weight to that entry alone, and so to the total. */
  lemma WeightsOfAppendSeen(q: seq<Link>, e: Link, ns: seq<int>, k0: int)
    requires Distinct(ns) && 0 <= k0 < |ns| && ns[k0] == e.to
    ensures Sum(WeightsOf(q + [e], ns)) == Sum(WeightsOf(q, ns)) + e.weight
  {
    var before := WeightsOf(q, ns);
    var after := WeightsOf(q + [e], ns);
    forall k | 0 <= k < |ns| ensures after[k] == before[k] + (if k == k0 then e.weight else 0.0) {
      WeightToAppend(q, e, ns[k]);
    }
    SumRaisedAt(after, before, k0, e.weight);
  }

  /** A link to a cluster not yet listed appends that cluster with the
      link's weight. */
  lemma ReachedFirstWeights(q: seq<Link>, e: Link)
    requires e.to !in FirstAppearances(q)
    ensures Sum(WeightsOf(q + [e], FirstAppearances(q + [e]))) == Sum(WeightsOf(q, FirstAppearances(q))) + e.weight
  {
    var ls := q + [e];
    assert ls[..|q|] == q;
    FirstAppearancesSpec(q);
    var fa := FirstAppearances(q);
    var before := WeightsOf(q, fa);
    WeightToUnreached(q, e.to);
    assert FirstAppearances(ls) == fa + [e.to];
    assert WeightsOf(ls, fa + [e.to]) == before + [e.weight];
    assert (before + [e.weight])[..|before|] == before;
  }

  /** The links leaving cluster `i` and those staying inside it make up all
      links. */
  lemma {:induction false} OutgoingLinkWeight(ls: seq<Link>, i: int)
    ensures LinkWeight(Outgoing(ls, i)) + WeightTo(ls, i) == LinkWeight(ls)
    decreases |ls|
  {
    if |ls| > 0 {
      var q := ls[..|ls| - 1];
      var e := ls[|ls| - 1];
      OutgoingLinkWeight(q, i);
      var o := Outgoing(q, i);
      if e.to != i {
        assert Outgoing(ls, i) == o + [e];
        assert (o + [e])[..|o|] == o;
      } else {
        assert Outgoing(ls, i) == o;
      }
    }
  }

  /** A cluster's reduced edges and its inner weight account for the weight
      of every link of its members. */
  lemma ClusterWeightSplit(ls: seq<Link>, i: int)
    ensures Sum(WeightsOf(ls, FirstAppearances(Outgoing(ls, i)))) + WeightTo(ls, i) == LinkWeight(ls)
  {
    var o := Outgoing(ls, i);
    var fa := FirstAppearances(o);
    FirstAppearanceWeights(o);
    FirstAppearancesSpec(o);
    OutgoingReach(ls, i);
    forall k | 0 <= k < |fa| ensures WeightTo(ls, fa[k]) == WeightTo(o, fa[k]) {
      assert fa[k] in fa;
      OutgoingWeight(ls, i, fa[k]);
    }
    assert WeightsOf(ls, fa) == WeightsOf(o, fa);
    OutgoingLinkWeight(ls, i);
  }

  /** The total edge weight of every node of a network with monotone
      slices. */
  ghost function SliceTotals(net: Network): (r: seq<real>)
    requires Csr(net)
    ensures |r| == net.nNodes
  {
    MonotoneRangesReadable(net);
    seq(net.nNodes, u requires 0 <= u < net.nNodes => SliceWeight(net.firstNeighborIndices, net.edgeWeights, u))
  }

  lemma NodeLinksWeight(net: Network, clusters: seq<int>, u: int)
    requires Csr(net) && |clusters| == net.nNodes && 0 <= u < net.nNodes
    ensures LinkWeight(NodeLinks(net, clusters, u)) == SliceTotals(net)[u]
  {
    IndicesWithinEdges(net, u);
    IndicesWithinEdges(net, u + 1);
    var a := net.firstNeighborIndices[u];
    var b := net.firstNeighborIndices[u + 1];
    LinkWeightIsSum(NodeLinks(net, clusters, u), net.edgeWeights[a..b]);
  }

  lemma {:induction false} MemberLinksWeight(net: Network, clusters: seq<int>, ms: seq<int>)
    requires Csr(net) && |clusters| == net.nNodes && AreNodes(net, ms)
    ensures LinkWeight(MemberLinks(net, clusters, ms)) == SumAt(SliceTotals(net), ms)
    decreases |ms|
  {
    if |ms| > 0 {
      var p := ms[..|ms| - 1];
      MemberLinksWeight(net, clusters, p);
      LinkWeightAppend(MemberLinks(net, clusters, p), NodeLinks(net, clusters, ms[|ms| - 1]));
      NodeLinksWeight(net, clusters, ms[|ms| - 1]);
    }
  }

  /** For every cluster, the sum of `f` over its members. */
  ghost function ClusterSums(f: seq<real>, clusters: seq<int>, nClusters: nat): (r: seq<real>)
    ensures |r| == nClusters
  {
    seq(nClusters, k => SumAt(f, Members(clusters, k)))
  }

  /** Summing over the clusters of a clustering sums over all nodes. */
  lemma PartitionSum(f: seq<real>, clusters: seq<int>, nClusters: nat)
    requires |f| == |clusters|
    requires forall v | 0 <= v < |clusters| :: 0 <= clusters[v] < nClusters
    ensures Sum(ClusterSums(f, clusters, nClusters)) == Sum(f)
  {
    PartitionPrefix(f, clusters, nClusters, |clusters|);
    assert clusters[..|clusters|] == clusters;
    assert f[..|f|] == f;
  }

  lemma {:induction false} PartitionPrefix(f: seq<real>, clusters: seq<int>, nClusters: nat, t: int)
    requires |f| == |clusters|
    requires forall v | 0 <= v < |clusters| :: 0 <= clusters[v] < nClusters
    requires 0 <= t <= |clusters|
    ensures Sum(ClusterSums(f, clusters[..t], nClusters)) == Sum(f[..t])
    decreases t
  {
    if t == 0 {
      assert ClusterSums(f, clusters[..t], nClusters) == seq(nClusters, _ => 0.0);
      SumZeros(nClusters);
    } else {
      PartitionPrefix(f, clusters, nClusters, t - 1);
      var before := ClusterSums(f, clusters[..t - 1], nClusters);
      var k0 := clusters[t - 1];
      forall k | 0 <= k < nClusters
        ensures ClusterSums(f, clusters[..t], nClusters)[k] == before[k0 := before[k0] + f[t - 1]][k]
      {
        ClusterSumStep(f, clusters, t, k);
      }
      assert ClusterSums(f, clusters[..t], nClusters) == before[k0 := before[k0] + f[t - 1]];
      SumUpdate(before, k0, f[t - 1]);
      assert f[..t][..t - 1] == f[..t - 1];
    }
  }

  /** Adding node `t - 1` to the clustering adds its value to its own
      cluster's sum only. */
  lemma ClusterSumStep(f: seq<real>, clusters: seq<int>, t: int, k: int)
    requires |f| == |clusters| && 0 < t <= |clusters|
    ensures SumAt(f, Members(clusters[..t], k))
         == SumAt(f, Members(clusters[..t - 1], k)) + (if k == clusters[t - 1] then f[t - 1] else 0.0)
  {
    var m := Members(clusters[..t - 1], k);
    assert clusters[..t][..t - 1] == clusters[..t - 1];
    if k == clusters[t - 1] {
      assert Members(clusters[..t], k) == m + [t - 1];
      assert (m + [t - 1])[..|m|] == m;
    } else {
      assert Members(clusters[..t], k) == m;
    }
  }

  /** The reduced network keeps the total node weight. */
  lemma ReducedNodeWeightConserved(net: Network, c: Clustering, r: Network)
    requires Csr(net) && Valid(c) && c.nNodes == net.nNodes
    requires |r.nodeWeights| == c.nClusters
    requires forall i | 0 <= i < c.nClusters :: r.nodeWeights[i] == SumAt(net.nodeWeights, Members(c.clusters, i))
    ensures Sum(r.nodeWeights) == Sum(net.nodeWeights)
  {
    assert r.nodeWeights == ClusterSums(net.nodeWeights, c.clusters, c.nClusters);
    PartitionSum(net.nodeWeights, c.clusters, c.nClusters);
  }

  /** The reduced network keeps the total edge weight, counting self-links:
      what leaves the stored edges of the original network is added to the
      self-link weight. */
  lemma ReducedEdgeWeightConserved(net: Network, c: Clustering, r: Network)
    requires Csr(net) && Valid(c) && c.nNodes == net.nNodes
    requires Csr(r) && r.nNodes == c.nClusters
    requires forall i | 0 <= i < c.nClusters :: SliceWeights(r, i) == ReducedWeights(net, c, i)
    requires r.totalEdgeWeightSelfLinks == net.totalEdgeWeightSelfLinks + Sum(InnerWeights(net, c))
    ensures Sum(r.edgeWeights) + r.totalEdgeWeightSelfLinks == Sum(net.edgeWeights) + net.totalEdgeWeightSelfLinks
  {
    ReducedSideWeight(net, c, r);
    LinkWeightsTotal(net, c);
  }

  /** The weight of the links leaving each cluster, cluster by cluster. */
  ghost function ClusterLinkWeights(net: Network, c: Clustering): (lw: seq<real>)
    requires Csr(net) && Valid(c) && c.nNodes == net.nNodes
    ensures |lw| == c.nClusters
  {
    seq(c.nClusters, i requires 0 <= i < c.nClusters => LinkWeight(ClusterLinks(net, c, i)))
  }

  /** The reduced edges and the inner links of every cluster together weigh
      what the clusters' links weigh. */
  lemma ReducedSideWeight(net: Network, c: Clustering, r: Network)
    requires Csr(net) && Valid(c) && c.nNodes == net.nNodes
    requires Csr(r) && r.nNodes == c.nClusters
    requires forall i | 0 <= i < c.nClusters :: SliceWeights(r, i) == ReducedWeights(net, c, i)
    ensures Sum(r.edgeWeights) + Sum(InnerWeights(net, c)) == Sum(ClusterLinkWeights(net, c))
  {
    var rt := SliceTotals(r);
    MonotoneRangesReadable(r);
    TotalEdgeWeightConserved(r, rt);
    var inner := InnerWeights(net, c);
    var lw := ClusterLinkWeights(net, c);
    forall i | 0 <= i < c.nClusters ensures lw[i] == rt[i] + inner[i] {
      IndicesWithinEdges(r, i);
      IndicesWithinEdges(r, i + 1);
      assert rt[i] == Sum(SliceWeights(r, i));
      ClusterWeightSplit(ClusterLinks(net, c, i), i);
    }
    SumPointwise(rt, inner, lw);
  }

  /** The clusters' links together weigh all the network's edges. */
  lemma LinkWeightsTotal(net: Network, c: Clustering)
    requires Csr(net) && Valid(c) && c.nNodes == net.nNodes
    ensures Sum(ClusterLinkWeights(net, c)) == Sum(net.edgeWeights)
  {
    var lw := ClusterLinkWeights(net, c);
    forall i | 0 <= i < c.nClusters ensures lw[i] == ClusterSums(SliceTotals(net), c.clusters, c.nClusters)[i] {
      MembersAreNodes(net, c, i);
      MemberLinksWeight(net, c.clusters, Members(c.clusters, i));
    }
    assert lw == ClusterSums(SliceTotals(net), c.clusters, c.nClusters);
    PartitionSum(SliceTotals(net), c.clusters, c.nClusters);
    MonotoneRangesReadable(net);
    TotalEdgeWeightConserved(net, SliceTotals(net));
  }

  /** Some edge joins a node of cluster `i` to a node of cluster `n`. */
  ghost predicate Adjacent(net: Network, c: Clustering, i: int, n: int)
    requires Csr(net) && Valid(c) && c.nNodes == net.nNodes
  {
    exists u, j | 0 <= u < net.nNodes && c.clusters[u] == i && InSlice(net, u, j) :: c.clusters[net.neighbors[j]] == n
  }

  /** Some edge of node `u` leads to a node of cluster `n`. */
  ghost predicate Reaches(net: Network, clusters: seq<int>, u: int, n: int)
    requires Csr(net) && |clusters| == net.nNodes
  {
    exists j | InSlice(net, u, j) :: clusters[net.neighbors[j]] == n
  }

  lemma NodeLinksReach(net: Network, clusters: seq<int>, u: int, n: int)
    requires Csr(net) && |clusters| == net.nNodes && 0 <= u < net.nNodes
    ensures n in Tos(NodeLinks(net, clusters, u)) <==> Reaches(net, clusters, u, n)
  {
    IndicesWithinEdges(net, u);
    IndicesWithinEdges(net, u + 1);
    var a := net.firstNeighborIndices[u];
    var ts := Tos(NodeLinks(net, clusters, u));
    if n in ts {
      var k :| 0 <= k < |ts| && ts[k] == n;
      assert InSlice(net, u, a + k);
    }
    if Reaches(net, clusters, u, n) {
      var j :| InSlice(net, u, j) && clusters[net.neighbors[j]] == n;
      assert ts[j - a] == n;
    }
  }

  lemma {:induction false} MemberLinksReach(net: Network, clusters: seq<int>, ms: seq<int>, n: int)
    requires Csr(net) && |clusters| == net.nNodes && AreNodes(net, ms)
    ensures n in Tos(MemberLinks(net, clusters, ms)) <==> exists a | 0 <= a < |ms| :: Reaches(net, clusters, ms[a], n)
    decreases |ms|
  {
    if |ms| > 0 {
      var p := ms[..|ms| - 1];
      var u := ms[|ms| - 1];
      MemberLinksReach(net, clusters, p, n);
      NodeLinksReach(net, clusters, u, n);
      var before := MemberLinks(net, clusters, p);
      assert Tos(before + NodeLinks(net, clusters, u)) == Tos(before) + Tos(NodeLinks(net, clusters, u));
      if exists a | 0 <= a < |ms| :: Reaches(net, clusters, ms[a], n) {
        var a :| 0 <= a < |ms| && Reaches(net, clusters, ms[a], n);
        if a < |p| {
          assert Reaches(net, clusters, p[a], n);
        }
      }
      if exists a | 0 <= a < |p| :: Reaches(net, clusters, p[a], n) {
        var a :| 0 <= a < |p| && Reaches(net, clusters, p[a], n);
        assert Reaches(net, clusters, ms[a], n);
      }
    }
  }

  /** The reduced neighbours of cluster `i` are exactly the other clusters
      adjacent to it, each listed once. */
  lemma ReducedAdjacency(net: Network, c: Clustering, i: int)
    requires Csr(net) && Valid(c) && c.nNodes == net.nNodes
    ensures Distinct(ReducedNeighbors(net, c, i))
    ensures forall n :: n in ReducedNeighbors(net, c, i) <==> n != i && Adjacent(net, c, i, n)
  {
    var ls := ClusterLinks(net, c, i);
    FirstAppearancesSpec(Outgoing(ls, i));
    OutgoingReach(ls, i);
    forall n ensures n in Tos(ls) <==> Adjacent(net, c, i, n) {
      ReachedIffAdjacent(net, c, i, n);
    }
  }

  /** A member's link reaches cluster `n` exactly when an edge joins the
      two clusters. */
  lemma ReachedIffAdjacent(net: Network, c: Clustering, i: int, n: int)
    requires Csr(net) && Valid(c) && c.nNodes == net.nNodes
    ensures n in Tos(ClusterLinks(net, c, i)) <==> Adjacent(net, c, i, n)
  {
    var ms := Members(c.clusters, i);
    MembersAreNodes(net, c, i);
    MemberLinksReach(net, c.clusters, ms, n);
    if n in Tos(ClusterLinks(net, c, i)) {
      var a :| 0 <= a < |ms| && Reaches(net, c.clusters, ms[a], n);
      MemberAdjacent(net, c, i, ms[a], n);
    }
    if Adjacent(net, c, i, n) {
      AdjacentMember(net, c, i, n);
    }
  }

  /** Adjacent clusters are joined through some member of cluster `i`. */
  lemma AdjacentMember(net: Network, c: Clustering, i: int, n: int)
    requires Csr(net) && Valid(c) && c.nNodes == net.nNodes && Adjacent(net, c, i, n)
    ensures exists a | 0 <= a < |Members(c.clusters, i)| :: Reaches(net, c.clusters, Members(c.clusters, i)[a], n)
  {
    var ms := Members(c.clusters, i);
    var u, j :| 0 <= u < net.nNodes && c.clusters[u] == i && InSlice(net, u, j) && c.clusters[net.neighbors[j]] == n;
    MembersSpec(c.clusters, i);
    var a :| 0 <= a < |ms| && ms[a] == u;
    assert Reaches(net, c.clusters, ms[a], n);
  }

  /** A member of cluster `i` that reaches cluster `n` makes the two
      clusters adjacent. */
  lemma MemberAdjacent(net: Network, c: Clustering, i: int, u: int, n: int)
    requires Csr(net) && Valid(c) && c.nNodes == net.nNodes
    requires u in Members(c.clusters, i) && Reaches(net, c.clusters, u, n)
    ensures Adjacent(net, c, i, n)
  {
    MembersSpec(c.clusters, i);
    var j :| InSlice(net, u, j) && c.clusters[net.neighbors[j]] == n;
    assert 0 <= u < net.nNodes && c.clusters[u] == i;
  }

  /** The length of the scratch neighbour array the source allocates
      (line 419, `new int[clustering.nClusters - 1]`); `None` stands for the
      `NegativeArraySizeException` a negative length raises. */
  function ScratchNeighborsLength(nClusters: int): (r: Option<nat>)
    ensures r.Some? <==> nClusters >= 1
    ensures r.Some? ==> r.value + 1 == nClusters
  {
    if nClusters - 1 < 0 then None else Some(nClusters - 1)
  }

  /** The empty network with its (empty) singleton clustering: a valid
      input on which the source's allocation fails, while the reduction
      defined above yields the empty network. */
  lemma EmptyClusteringCannotBeReduced()
    ensures var net := Network(0, 0, [], [0], [], [], 0.0);
      var c := Clustering(0, 0, []);
      && Csr(net) && Valid(c) && c.nNodes == net.nNodes
      && ScratchNeighborsLength(c.nClusters).None?
  {
  }
}

=== FILE: network_sub.dfy ===
/** The subnetworks a clustering induces (`Network.createSubnetwork` and
    `createSubnetworks`, Network.java lines 367-383 and 714-760): one network
    per cluster, holding the cluster's nodes renumbered by their position in
    the cluster's node list and the edges that join two of them. */
module NetworkSub {
  import opened SeqMath
  import opened CwtsNetwork
  import opened Clusterings
  import opened NetworkReduce

  /** The position of `v` in `nodes`, or `|nodes|` when it is absent. */
  function IndexOf(nodes: seq<int>, v: int): (r: nat)
    ensures r <= |nodes|
    ensures r < |nodes| ==> nodes[r] == v
    ensures r == |nodes| <==> v !in nodes
  {
    if |nodes| == 0 then 0
    else if nodes[0] == v then 0
    else 1 + IndexOf(nodes[1..], v)
  }

  /** In a list without repetitions a member's position is its only one. */
  lemma IndexOfDistinct(nodes: seq<int>, a: int)
    requires Distinct(nodes) && 0 <= a < |nodes|
    ensures IndexOf(nodes, nodes[a]) == a
  {
  }

  /** The positions in `[lo, hi)` of the neighbour arrays whose neighbour
      lies in cluster `cluster`, in storage order. */
  function KeptPositions(net: Network, clusters: seq<int>, cluster: int, lo: int, hi: int): (r: seq<int>)
    requires Csr(net) && |clusters| == net.nNodes && 0 <= lo <= hi <= net.nEdges
    ensures forall a | 0 <= a < |r| :: lo <= r[a] < hi
    decreases hi - lo
  {
    if hi == lo then []
    else KeptPositions(net, clusters, cluster, lo, hi - 1) + (if clusters[net.neighbors[hi - 1]] == cluster then [hi - 1] else [])
  }

  /** The kept positions are increasing and are exactly those whose
      neighbour lies in the cluster. */
  lemma {:induction false} KeptPositionsSpec(net: Network, clusters: seq<int>, cluster: int, lo: int, hi: int)
    requires Csr(net) && |clusters| == net.nNodes && 0 <= lo <= hi <= net.nEdges
    ensures var ks := KeptPositions(net, clusters, cluster, lo, hi);
      && (forall a, b | 0 <= a < b < |ks| :: ks[a] < ks[b])
      && (forall j :: j in ks <==> lo <= j < hi && clusters[net.neighbors[j]] == cluster)
    decreases hi - lo
  {
    if hi > lo {
      KeptPositionsSpec(net, clusters, cluster, lo, hi - 1);
      var before := KeptPositions(net, clusters, cluster, lo, hi - 1);
      if clusters[net.neighbors[hi - 1]] == cluster {
        assert KeptPositions(net, clusters, cluster, lo, hi) == before + [hi - 1];
      } else {
        assert KeptPositions(net, clusters, cluster, lo, hi) == before;
      }
    }
  }

  /** The kept positions of member `nodes[p]`'s slice. */
  ghost function KeptOf(net: Network, c: Clustering, cluster: int, nodes: seq<int>, p: int): (r: seq<int>)
    requires Csr(net) && Valid(c) && c.nNodes == net.nNodes && AreNodes(net, nodes) && 0 <= p < |nodes|
    ensures forall a | 0 <= a < |r| :: 0 <= r[a] < net.nEdges
  {
    IndicesWithinEdges(net, nodes[p]);
    IndicesWithinEdges(net, nodes[p] + 1);
    KeptPositions(net, c.clusters, cluster, net.firstNeighborIndices[nodes[p]], net.firstNeighborIndices[nodes[p] + 1])
  }

  /** The neighbours at positions `ks`, renumbered by their position in
      `nodes`. */
  function Renumbered(net: Network, nodes: seq<int>, ks: seq<int>): (r: seq<int>)
    requires forall a | 0 <= a < |ks| :: 0 <= ks[a] < |net.neighbors|
    ensures |r| == |ks|
  {
    seq(|ks|, a requires 0 <= a < |ks| => IndexOf(nodes, net.neighbors[ks[a]]))
  }

  /** The edge weights at positions `ks`. */
  function WeightsAt(net: Network, ks: seq<int>): (r: seq<real>)
    requires forall a | 0 <= a < |ks| :: 0 <= ks[a] < |net.edgeWeights|
    ensures |r| == |ks|
  {
    seq(|ks|, a requires 0 <= a < |ks| => net.edgeWeights[ks[a]])
  }

  /** Member `p`'s neighbours in the subnetwork: the in-cluster neighbours
      of `nodes[p]`, in storage order, renumbered by position. */
  ghost function SubNeighbors(net: Network, c: Clustering, cluster: int, nodes: seq<int>, p: int): seq<int>
    requires Csr(net) && Valid(c) && c.nNodes == net.nNodes && AreNodes(net, nodes) && 0 <= p < |nodes|
  {
    Renumbered(net, nodes, KeptOf(net, c, cluster, nodes, p))
  }

  /** The weights of those edges. */
  ghost function SubWeights(net: Network, c: Clustering, cluster: int, nodes: seq<int>, p: int): seq<real>
    requires Csr(net) && Valid(c) && c.nNodes == net.nNodes && AreNodes(net, nodes) && 0 <= p < |nodes|
  {
    WeightsAt(net, KeptOf(net, c, cluster, nodes, p))
  }

  /** The scratch array `subnetworkNodes` after line 735: every member's
      position, stored at the member's own index. */
  ghost predicate PositionsOf(pos: seq<int>, nodes: seq<int>, nNodes: int)
  {
    && |pos| == nNodes
    && forall a | 0 <= a < |nodes| :: 0 <= nodes[a] < nNodes && pos[nodes[a]] == a
  }

  /** Lines 734-735: record every member's position. */
  method Positions(nodes: seq<int>, nNodes: nat) returns (pos: seq<int>)
    requires forall a | 0 <= a < |nodes| :: 0 <= nodes[a] < nNodes
    requires Distinct(nodes)
    ensures PositionsOf(pos, nodes, nNodes)
  {
    pos := seq(nNodes, _ => 0);
    var i := 0;
    while i < |nodes|
      invariant 0 <= i <= |nodes|
      invariant |pos| == nNodes
      invariant forall a | 0 <= a < i :: pos[nodes[a]] == a
    {
      pos := pos[nodes[i] := i];
      i := i + 1;
    }
  }

  /** Lines 744-750: the in-cluster edges of member `nodes[p]`, renumbered
      through the scratch positions. */
  method KeepInCluster(net: Network, c: Clustering, cluster: int, nodes: seq<int>, pos: seq<int>, p: int)
    returns (ns: seq<int>, ws: seq<real>)
    requires Csr(net) && Valid(c) && c.nNodes == net.nNodes
    requires 0 <= cluster && nodes == Members(c.clusters, cluster)
    requires PositionsOf(pos, nodes, net.nNodes) && 0 <= p < |nodes|
    ensures AreNodes(net, nodes)
    ensures ns == SubNeighbors(net, c, cluster, nodes, p) && ws == SubWeights(net, c, cluster, nodes, p)
    ensures forall a | 0 <= a < |ns| :: 0 <= ns[a] < |nodes|
  {
    MembersAreNodes(net, c, cluster);
    var u := nodes[p];
    IndicesWithinEdges(net, u);
    IndicesWithinEdges(net, u + 1);
    ns, ws := KeepRange(net, c, cluster, nodes, pos, net.firstNeighborIndices[u], net.firstNeighborIndices[u + 1]);
  }

  /** The inner loop of lines 744-750 over the positions `lo..hi`. */
  method KeepRange(net: Network, c: Clustering, cluster: int, nodes: seq<int>, pos: seq<int>, lo: int, hi: int)
    returns (ns: seq<int>, ws: seq<real>)
    requires Csr(net) && Valid(c) && c.nNodes == net.nNodes
    requires 0 <= cluster && nodes == Members(c.clusters, cluster) && PositionsOf(pos, nodes, net.nNodes)
    requires 0 <= lo <= hi <= net.nEdges
    ensures ns == Renumbered(net, nodes, KeptPositions(net, c.clusters, cluster, lo, hi))
    ensures ws == WeightsAt(net, KeptPositions(net, c.clusters, cluster, lo, hi))
    ensures forall a | 0 <= a < |ns| :: 0 <= ns[a] < |nodes|
  {
    ns, ws := [], [];
    var k := lo;
    while k < hi
      invariant lo <= k <= hi
      invariant ns == Renumbered(net, nodes, KeptPositions(net, c.clusters, cluster, lo, k))
      invariant ws == WeightsAt(net, KeptPositions(net, c.clusters, cluster, lo, k))
      invariant forall a | 0 <= a < |ns| :: 0 <= ns[a] < |nodes|
    {
      ns, ws := KeepNext(net, c, cluster, nodes, pos, lo, k, ns, ws);
      k := k + 1;
    }
  }

  /** One step of the inner loop of lines 744-750: position `k` is kept,
      renumbered through the scratch array, exactly when its neighbour is
      in the cluster. */
  method KeepNext(net: Network, c: Clustering, cluster: int, nodes: seq<int>, pos: seq<int>, lo: int, k: int,
                  ns: seq<int>, ws: seq<real>) returns (ns': seq<int>, ws': seq<real>)
    requires Csr(net) && Valid(c) && c.nNodes == net.nNodes
    requires 0 <= cluster && nodes == Members(c.clusters, cluster) && PositionsOf(pos, nodes, net.nNodes)
    requires 0 <= lo <= k < net.nEdges
    requires ns == Renumbered(net, nodes, KeptPositions(net, c.clusters, cluster, lo, k))
    requires ws == WeightsAt(net, KeptPositions(net, c.clusters, cluster, lo, k))
    requires forall a | 0 <= a < |ns| :: 0 <= ns[a] < |nodes|
    ensures ns' == Renumbered(net, nodes, KeptPositions(net, c.clusters, cluster, lo, k + 1))
    ensures ws' == WeightsAt(net, KeptPositions(net, c.clusters, cluster, lo, k + 1))
    ensures forall a | 0 <= a < |ns'| :: 0 <= ns'[a] < |nodes|
  {
    var v := net.neighbors[k];
    ghost var ks := KeptPositions(net, c.clusters, cluster, lo, k);
    if c.clusters[v] == cluster {
      MemberPosition(c, cluster, nodes, pos, v);
      KeptAppend(net, nodes, ks, k);
      ns' := ns + [pos[v]];
      ws' := ws + [net.edgeWeights[k]];
    } else {
      assert KeptPositions(net, c.clusters, cluster, lo, k + 1) == ks;
      ns', ws' := ns, ws;
    }
  }

  /** The scratch entry of an in-cluster node is its position in the
      cluster's node list. */
  lemma MemberPosition(c: Clustering, cluster: int, nodes: seq<int>, pos: seq<int>, v: int)
    requires Valid(c) && nodes == Members(c.clusters, cluster)
    requires PositionsOf(pos, nodes, c.nNodes)
    requires 0 <= v < c.nNodes && c.clusters[v] == cluster
    ensures pos[v] == IndexOf(nodes, v) && 0 <= pos[v] < |nodes|
  {
    MembersSpec(c.clusters, cluster);
    var b :| 0 <= b < |nodes| && nodes[b] == v;
    IndexOfDistinct(nodes, b);
  }

  lemma KeptAppend(net: Network, nodes: seq<int>, ks: seq<int>, k: int)
    requires forall a | 0 <= a < |ks| :: 0 <= ks[a] < net.nEdges
    requires Shaped(net) && 0 <= k < net.nEdges
    ensures Renumbered(net, nodes, ks + [k]) == Renumbered(net, nodes, ks) + [IndexOf(nodes, net.neighbors[k])]
    ensures WeightsAt(net, ks + [k]) == WeightsAt(net, ks) + [net.edgeWeights[k]]
  {
  }

  /** The slices of the first `i` members hold their subnetwork edges. */
  ghost predicate SubSlicesUpTo(net: Network, c: Clustering, cluster: int, nodes: seq<int>, i: int,
                                fni: seq<int>, neighbors: seq<int>, edgeWeights: seq<real>)
    requires Csr(net) && Valid(c) && c.nNodes == net.nNodes && AreNodes(net, nodes)
    requires i <= |nodes| && IndexedUpTo(i, fni, |neighbors|) && |edgeWeights| == |neighbors|
  {
    && (forall p | 0 <= p < i :: neighbors[fni[p]..fni[p + 1]] == SubNeighbors(net, c, cluster, nodes, p))
    && (forall p | 0 <= p < i :: edgeWeights[fni[p]..fni[p + 1]] == SubWeights(net, c, cluster, nodes, p))
  }

  /** The subnetwork's arrays after its first `i` members. */
  ghost predicate SubBuilt(net: Network, c: Clustering, cluster: int, nodes: seq<int>, i: int,
                           fni: seq<int>, neighbors: seq<int>, edgeWeights: seq<real>, nodeWeights: seq<real>)
    requires Csr(net) && Valid(c) && c.nNodes == net.nNodes && AreNodes(net, nodes)
  {
    && i <= |nodes|
    && IndexedUpTo(i, fni, |neighbors|) && |edgeWeights| == |neighbors|
    && (forall j | 0 <= j < |neighbors| :: 0 <= neighbors[j] < |nodes|)
    && |nodeWeights| == i
    && (forall p | 0 <= p < i :: nodeWeights[p] == net.nodeWeights[nodes[p]])
    && SubSlicesUpTo(net, c, cluster, nodes, i, fni, neighbors, edgeWeights)
  }

  lemma SubSlicesExtended(net: Network, c: Clustering, cluster: int, nodes: seq<int>, i: int,
                          fni: seq<int>, neighbors: seq<int>, edgeWeights: seq<real>, ns: seq<int>, ws: seq<real>)
    requires Csr(net) && Valid(c) && c.nNodes == net.nNodes && AreNodes(net, nodes) && 0 <= i < |nodes|
    requires IndexedUpTo(i, fni, |neighbors|) && |edgeWeights| == |neighbors|
    requires SubSlicesUpTo(net, c, cluster, nodes, i, fni, neighbors, edgeWeights)
    requires ns == SubNeighbors(net, c, cluster, nodes, i) && ws == SubWeights(net, c, cluster, nodes, i)
    ensures IndexedUpTo(i + 1, fni + [|neighbors| + |ns|], |neighbors + ns|)
    ensures SubSlicesUpTo(net, c, cluster, nodes, i + 1, fni + [|neighbors| + |ns|], neighbors + ns, edgeWeights + ws)
  {
    SliceAppended(i, fni, neighbors, ns);
    SliceAppended(i, fni, edgeWeights, ws);
  }

  /** One member of the loop at lines 740-752. */
  method SubNext(net: Network, c: Clustering, cluster: int, nodes: seq<int>, pos: seq<int>, i: int,
                 fni: seq<int>, neighbors: seq<int>, edgeWeights: seq<real>, nodeWeights: seq<real>)
    returns (fni': seq<int>, neighbors': seq<int>, edgeWeights': seq<real>, nodeWeights': seq<real>)
    requires Csr(net) && Valid(c) && c.nNodes == net.nNodes
    requires 0 <= cluster && nodes == Members(c.clusters, cluster)
    requires PositionsOf(pos, nodes, net.nNodes) && 0 <= i < |nodes|
    requires AreNodes(net, nodes)
    requires SubBuilt(net, c, cluster, nodes, i, fni, neighbors, edgeWeights, nodeWeights)
    ensures SubBuilt(net, c, cluster, nodes, i + 1, fni', neighbors', edgeWeights', nodeWeights')
  {
    var ns, ws := KeepInCluster(net, c, cluster, nodes, pos, i);
    SubSlicesExtended(net, c, cluster, nodes, i, fni, neighbors, edgeWeights, ns, ws);
    fni' := fni + [|neighbors| + |ns|];
    neighbors' := neighbors + ns;
    edgeWeights' := edgeWeights + ws;
    nodeWeights' := nodeWeights + [net.nodeWeights[nodes[i]]];
  }

  /** What `createSubnetwork` returns for cluster `cluster` with node list
      `nodes`: one node per member, weighted as in the network, no
      self-link weight, no edges when the cluster has a single node, and
      otherwise the in-cluster edges of every member. */
  ghost predicate IsSubnetwork(net: Network, c: Clustering, cluster: int, nodes: seq<int>, r: Network)
    requires Csr(net) && Valid(c) && c.nNodes == net.nNodes && AreNodes(net, nodes)
  {
    && Csr(r)
    && r.nNodes == |nodes|
    && r.totalEdgeWeightSelfLinks == 0.0
    && (forall p | 0 <= p < |nodes| :: r.nodeWeights[p] == net.nodeWeights[nodes[p]])
    && (|nodes| == 1 ==> r.nEdges == 0)
    && (|nodes| != 1 ==> forall p | 0 <= p < |nodes| ::
          && SliceNeighbors(r, p) == SubNeighbors(net, c, cluster, nodes, p)
          && SliceWeights(r, p) == SubWeights(net, c, cluster, nodes, p))
  }

  /** `createSubnetwork(clustering, cluster, nodes, ...)` (lines 714-760),
      with the scratch arrays local to the call. */
  method CreateSubnetwork(net: Network, c: Clustering, cluster: int, nodes: seq<int>) returns (r: Network)
    requires Csr(net) && Valid(c) && c.nNodes == net.nNodes
    requires 0 <= cluster < c.nClusters && nodes == Members(c.clusters, cluster)
    ensures AreNodes(net, nodes)
    ensures IsSubnetwork(net, c, cluster, nodes, r)
  {
    MembersAreNodes(net, c, cluster);
    if |nodes| == 1 {
      r := Network(1, 0, [net.nodeWeights[nodes[0]]], [0, 0], [], [], 0.0);
    } else {
      r := InducedSubnetwork(net, c, cluster, nodes);
    }
  }

  /** Lines 734-754: the general case, member by member. */
  method InducedSubnetwork(net: Network, c: Clustering, cluster: int, nodes: seq<int>) returns (r: Network)
    requires Csr(net) && Valid(c) && c.nNodes == net.nNodes
    requires 0 <= cluster && nodes == Members(c.clusters, cluster) && |nodes| != 1
    requires AreNodes(net, nodes)
    ensures IsSubnetwork(net, c, cluster, nodes, r)
  {
    MembersDistinct(c, cluster);
    var pos := Positions(nodes, net.nNodes);
    var fni := [0];
    var neighbors: seq<int> := [];
    var edgeWeights: seq<real> := [];
    var nodeWeights: seq<real> := [];
    var i := 0;
    while i < |nodes|
      invariant SubBuilt(net, c, cluster, nodes, i, fni, neighbors, edgeWeights, nodeWeights)
    {
      fni, neighbors, edgeWeights, nodeWeights := SubNext(net, c, cluster, nodes, pos, i, fni, neighbors, edgeWeights, nodeWeights);
      i := i + 1;
    }
    r := Network(|nodes|, |neighbors|, nodeWeights, fni, neighbors, edgeWeights, 0.0);
    BuiltIsSubnetwork(net, c, cluster, nodes, r);
  }

  lemma MembersDistinct(c: Clustering, cluster: int)
    requires Valid(c)
    ensures Distinct(Members(c.clusters, cluster))
  {
    MembersSpec(c.clusters, cluster);
  }

  lemma BuiltIsSubnetwork(net: Network, c: Clustering, cluster: int, nodes: seq<int>, r: Network)
    requires Csr(net) && Valid(c) && c.nNodes == net.nNodes && AreNodes(net, nodes) && |nodes| != 1
    requires r.nNodes == |nodes| && r.nEdges == |r.neighbors| && r.totalEdgeWeightSelfLinks == 0.0
    requires SubBuilt(net, c, cluster, nodes, |nodes|, r.firstNeighborIndices, r.neighbors, r.edgeWeights, r.nodeWeights)
    ensures IsSubnetwork(net, c, cluster, nodes, r)
  {
    assert Csr(r);
  }

  /** `createSubnetworks(clustering)`: the subnetwork of every cluster, in
      cluster order. */
  method CreateSubnetworks(net: Network, c: Clustering) returns (subnetworks: seq<Network>)
    requires Csr(net) && Valid(c) && c.nNodes == net.nNodes
    ensures |subnetworks| == c.nClusters
    ensures forall i | 0 <= i < c.nClusters ::
              AreNodes(net, Members(c.clusters, i)) && IsSubnetwork(net, c, i, Members(c.clusters, i), subnetworks[i])
  {
    var nodesPerCluster := NodesPerCluster(c);
    subnetworks := [];
    var i := 0;
    while i < c.nClusters
      invariant 0 <= i <= c.nClusters
      invariant |subnetworks| == i
      invariant forall k | 0 <= k < i ::
                  AreNodes(net, Members(c.clusters, k)) && IsSubnetwork(net, c, k, Members(c.clusters, k), subnetworks[k])
    {
      var s := CreateSubnetwork(net, c, i, nodesPerCluster[i]);
      subnetworks := subnetworks + [s];
      i := i + 1;
    }
  }

  /** Position `j` of member `p`'s slice in the subnetwork holds the kept
      edge `k` of the network: an edge from `nodes[p]` into the cluster,
      with its far end renumbered and its weight kept. */
  lemma SubSlot(net: Network, c: Clustering, cluster: int, nodes: seq<int>, r: Network, p: int, j: int) returns (k: int)
    requires Csr(net) && Valid(c) && c.nNodes == net.nNodes && nodes == Members(c.clusters, cluster)
    requires AreNodes(net, nodes) && IsSubnetwork(net, c, cluster, nodes, r) && |nodes| != 1
    requires InSlice(r, p, j)
    ensures var ks := KeptOf(net, c, cluster, nodes, p);
      0 <= j - r.firstNeighborIndices[p] < |ks| && k == ks[j - r.firstNeighborIndices[p]]
    ensures InSlice(net, nodes[p], k) && c.clusters[net.neighbors[k]] == cluster
    ensures 0 <= r.neighbors[j] < |nodes| && nodes[r.neighbors[j]] == net.neighbors[k]
    ensures r.edgeWeights[j] == net.edgeWeights[k]
  {
    var a := j - r.firstNeighborIndices[p];
    SlotContents(r, p, j);
    assert SliceNeighbors(r, p) == SubNeighbors(net, c, cluster, nodes, p);
    assert SliceWeights(r, p) == SubWeights(net, c, cluster, nodes, p);
    var ks := KeptOf(net, c, cluster, nodes, p);
    k := ks[a];
    KeptIsInCluster(net, c, cluster, nodes, p, a);
    InClusterIsMember(c, cluster, net.neighbors[k]);
  }

  /** Position `j` of node `p`'s slice is entry `j - start` of the slice. */
  lemma SlotContents(r: Network, p: int, j: int)
    requires Csr(r) && InSlice(r, p, j)
    ensures var a := j - r.firstNeighborIndices[p];
      && 0 <= a < |SliceNeighbors(r, p)| && SliceNeighbors(r, p)[a] == r.neighbors[j]
      && |SliceWeights(r, p)| == |SliceNeighbors(r, p)| && SliceWeights(r, p)[a] == r.edgeWeights[j]
  {
    IndicesWithinEdges(r, p);
    IndicesWithinEdges(r, p + 1);
  }

  /** Entry `a` of the slice of node `p`, for every index inside the slice. */
  lemma SlotAt(r: Network, p: int, a: int) returns (j: int)
    requires Csr(r) && 0 <= p < r.nNodes && 0 <= a < |SliceNeighbors(r, p)|
    ensures InSlice(r, p, j) && j == r.firstNeighborIndices[p] + a
    ensures SliceNeighbors(r, p)[a] == r.neighbors[j]
    ensures |SliceWeights(r, p)| == |SliceNeighbors(r, p)| && SliceWeights(r, p)[a] == r.edgeWeights[j]
  {
    IndicesWithinEdges(r, p);
    IndicesWithinEdges(r, p + 1);
    j := r.firstNeighborIndices[p] + a;
  }

  /** A kept position lies in the member's slice and leads into the
      cluster. */
  lemma KeptIsInCluster(net: Network, c: Clustering, cluster: int, nodes: seq<int>, p: int, a: int)
    requires Csr(net) && Valid(c) && c.nNodes == net.nNodes && AreNodes(net, nodes) && 0 <= p < |nodes|
    requires 0 <= a < |KeptOf(net, c, cluster, nodes, p)|
    ensures var k := KeptOf(net, c, cluster, nodes, p)[a];
      InSlice(net, nodes[p], k) && c.clusters[net.neighbors[k]] == cluster
  {
    var u := nodes[p];
    IndicesWithinEdges(net, u);
    IndicesWithinEdges(net, u + 1);
    var ks := KeptOf(net, c, cluster, nodes, p);
    KeptPositionsSpec(net, c.clusters, cluster, net.firstNeighborIndices[u], net.firstNeighborIndices[u + 1]);
    assert ks[a] in ks;
  }

  /** Every position of the member's slice leading into the cluster is
      kept. */
  lemma InClusterIsKept(net: Network, c: Clustering, cluster: int, nodes: seq<int>, p: int, l: int) returns (a: int)
    requires Csr(net) && Valid(c) && c.nNodes == net.nNodes && AreNodes(net, nodes) && 0 <= p < |nodes|
    requires InSlice(net, nodes[p], l) && c.clusters[net.neighbors[l]] == cluster
    ensures 0 <= a < |KeptOf(net, c, cluster, nodes, p)| && KeptOf(net, c, cluster, nodes, p)[a] == l
  {
    var u := nodes[p];
    IndicesWithinEdges(net, u);
    IndicesWithinEdges(net, u + 1);
    var ks := KeptOf(net, c, cluster, nodes, p);
    KeptPositionsSpec(net, c.clusters, cluster, net.firstNeighborIndices[u], net.firstNeighborIndices[u + 1]);
    a :| 0 <= a < |ks| && ks[a] == l;
  }

  /** A node of the cluster is on the cluster's node list, at the position
      `IndexOf` names. */
  lemma InClusterIsMember(c: Clustering, cluster: int, v: int)
    requires Valid(c) && 0 <= v < c.nNodes && c.clusters[v] == cluster
    ensures v in Members(c.clusters, cluster)
    ensures IndexOf(Members(c.clusters, cluster), v) < |Members(c.clusters, cluster)|
  {
    MembersSpec(c.clusters, cluster);
  }

  /** Conversely every edge from a member into the cluster has a slot in
      the member's slice of the subnetwork. */
  lemma SlotOfKept(net: Network, c: Clustering, cluster: int, nodes: seq<int>, r: Network, q: int, l: int) returns (j: int)
    requires Csr(net) && Valid(c) && c.nNodes == net.nNodes && nodes == Members(c.clusters, cluster)
    requires AreNodes(net, nodes) && IsSubnetwork(net, c, cluster, nodes, r) && |nodes| != 1
    requires 0 <= q < |nodes| && InSlice(net, nodes[q], l) && c.clusters[net.neighbors[l]] == cluster
    ensures InSlice(r, q, j)
    ensures r.neighbors[j] == IndexOf(nodes, net.neighbors[l]) && r.edgeWeights[j] == net.edgeWeights[l]
  {
    var a := InClusterIsKept(net, c, cluster, nodes, q, l);
    assert SliceNeighbors(r, q) == SubNeighbors(net, c, cluster, nodes, q);
    assert SliceWeights(r, q) == SubWeights(net, c, cluster, nodes, q);
    j := SlotAt(r, q, a);
  }

  /** Two members are adjacent in the subnetwork exactly when the nodes
      they stand for are adjacent in the network. */
  lemma SubnetworkAdjacency(net: Network, c: Clustering, cluster: int, nodes: seq<int>, r: Network, p: int, q: int)
    requires Csr(net) && Valid(c) && c.nNodes == net.nNodes && nodes == Members(c.clusters, cluster)
    requires AreNodes(net, nodes) && IsSubnetwork(net, c, cluster, nodes, r) && |nodes| != 1
    requires 0 <= p < |nodes| && 0 <= q < |nodes|
    ensures (exists j | InSlice(r, p, j) :: r.neighbors[j] == q)
            <==> (exists k | InSlice(net, nodes[p], k) :: net.neighbors[k] == nodes[q])
  {
    MembersSpec(c.clusters, cluster);
    if exists j | InSlice(r, p, j) :: r.neighbors[j] == q {
      var j :| InSlice(r, p, j) && r.neighbors[j] == q;
      var k := SubSlot(net, c, cluster, nodes, r, p, j);
    }
    if exists k | InSlice(net, nodes[p], k) :: net.neighbors[k] == nodes[q] {
      var k :| InSlice(net, nodes[p], k) && net.neighbors[k] == nodes[q];
      assert nodes[q] in nodes;
      var j := SlotOfKept(net, c, cluster, nodes, r, p, k);
      IndexOfDistinct(nodes, q);
    }
  }

  /** In an increasing list, positions follow the order of the values. */
  lemma IndexOfMonotone(nodes: seq<int>, a: int, b: int)
    requires forall x, y | 0 <= x < y < |nodes| :: nodes[x] < nodes[y]
    requires 0 <= a < |nodes| && 0 <= b < |nodes| && nodes[a] < nodes[b]
    ensures a < b
  {
  }

  /** Restricting to a cluster keeps every slice strictly increasing. */
  lemma SubnetworkKeepsSorted(net: Network, c: Clustering, cluster: int, nodes: seq<int>, r: Network)
    requires Csr(net) && Valid(c) && c.nNodes == net.nNodes && nodes == Members(c.clusters, cluster)
    requires AreNodes(net, nodes) && IsSubnetwork(net, c, cluster, nodes, r)
    requires SlicesSorted(net)
    ensures SlicesSorted(r)
  {
    if |nodes| != 1 {
      forall p, j | InSlice(r, p, j) && 0 < j && j > r.firstNeighborIndices[p]
        ensures r.neighbors[j - 1] < r.neighbors[j]
      {
        SubSlotsIncrease(net, c, cluster, nodes, r, p, j);
      }
    }
  }

  /** Two neighbouring slots of a restricted slice come from increasing
      slots of the original slice. */
  lemma SubSlotsIncrease(net: Network, c: Clustering, cluster: int, nodes: seq<int>, r: Network, p: int, j: int)
    requires Csr(net) && Valid(c) && c.nNodes == net.nNodes && nodes == Members(c.clusters, cluster)
    requires AreNodes(net, nodes) && IsSubnetwork(net, c, cluster, nodes, r)
    requires SlicesSorted(net) && |nodes| != 1
    requires InSlice(r, p, j) && 0 < j && j > r.firstNeighborIndices[p]
    ensures r.neighbors[j - 1] < r.neighbors[j]
  {
    assert InSlice(r, p, j - 1);
    var x, y := r.neighbors[j - 1], r.neighbors[j];
    var k1 := SubSlot(net, c, cluster, nodes, r, p, j - 1);
    assert nodes[x] == net.neighbors[k1];
    var k2 := SubSlot(net, c, cluster, nodes, r, p, j);
    assert nodes[y] == net.neighbors[k2];
    KeptOfIncreasing(net, c, cluster, nodes, p, j - 1 - r.firstNeighborIndices[p], j - r.firstNeighborIndices[p]);
    SortedSliceIncreasing(net, nodes[p], k1, k2);
    MembersOrder(c.clusters, cluster, x, y);
  }

  /** A member's kept positions increase. */
  lemma KeptOfIncreasing(net: Network, c: Clustering, cluster: int, nodes: seq<int>, p: int, a: int, b: int)
    requires Csr(net) && Valid(c) && c.nNodes == net.nNodes && AreNodes(net, nodes) && 0 <= p < |nodes|
    requires 0 <= a < b < |KeptOf(net, c, cluster, nodes, p)|
    ensures KeptOf(net, c, cluster, nodes, p)[a] < KeptOf(net, c, cluster, nodes, p)[b]
  {
    var u := nodes[p];
    IndicesWithinEdges(net, u);
    IndicesWithinEdges(net, u + 1);
    KeptPositionsSpec(net, c.clusters, cluster, net.firstNeighborIndices[u], net.firstNeighborIndices[u + 1]);
  }

  /** Members are listed in increasing order, so a smaller member comes
      first. */
  lemma MembersOrder(s: seq<int>, k: int, x: int, y: int)
    requires 0 <= x < |Members(s, k)| && 0 <= y < |Members(s, k)|
    requires Members(s, k)[x] < Members(s, k)[y]
    ensures x < y
  {
    MembersSpec(s, k);
    IndexOfMonotone(Members(s, k), x, y);
  }

  /** Restricting to a cluster keeps every edge stored in both directions
      with one weight. */
  lemma SubnetworkKeepsSymmetry(net: Network, c: Clustering, cluster: int, nodes: seq<int>, r: Network)
    requires Csr(net) && Valid(c) && c.nNodes == net.nNodes && nodes == Members(c.clusters, cluster)
    requires AreNodes(net, nodes) && IsSubnetwork(net, c, cluster, nodes, r)
    requires Symmetric(net)
    ensures Symmetric(r)
  {
    if |nodes| != 1 {
      forall p, j | InSlice(r, p, j) ensures HasReverse(r, p, j) {
        var k := SubSlot(net, c, cluster, nodes, r, p, j);
        var u := nodes[p];
        var q := r.neighbors[j];
        assert HasReverse(net, u, k);
        var l :| InSlice(net, nodes[q], l) && net.neighbors[l] == u && net.edgeWeights[l] == net.edgeWeights[k];
        MembersSpec(c.clusters, cluster);
        assert u in nodes;
        var j' := SlotOfKept(net, c, cluster, nodes, r, q, l);
        IndexOfDistinct(nodes, p);
        assert InSlice(r, q, j') && r.neighbors[j'] == p && r.edgeWeights[j'] == r.edgeWeights[j];
      }
    }
  }

  /** The subnetworks together carry the whole node weight. */
  lemma SubnetworksKeepNodeWeight(net: Network, c: Clustering, subnetworks: seq<Network>)
    requires Csr(net) && Valid(c) && c.nNodes == net.nNodes
    requires |subnetworks| == c.nClusters
    requires forall i | 0 <= i < c.nClusters ::
               AreNodes(net, Members(c.clusters, i)) && IsSubnetwork(net, c, i, Members(c.clusters, i), subnetworks[i])
    ensures Sum(seq(c.nClusters, i requires 0 <= i < c.nClusters => Sum(subnetworks[i].nodeWeights)))
            == Sum(net.nodeWeights)
  {
    var totals := seq(c.nClusters, i requires 0 <= i < c.nClusters => Sum(subnetworks[i].nodeWeights));
    forall i | 0 <= i < c.nClusters ensures totals[i] == ClusterSums(net.nodeWeights, c.clusters, c.nClusters)[i] {
      var ms := Members(c.clusters, i);
      SumOfPicked(net.nodeWeights, ms, subnetworks[i].nodeWeights);
    }
    assert totals == ClusterSums(net.nodeWeights, c.clusters, c.nClusters);
    PartitionSum(net.nodeWeights, c.clusters, c.nClusters);
  }

  lemma {:induction false} SumOfPicked(f: seq<real>, ms: seq<int>, picked: seq<real>)
    requires forall a | 0 <= a < |ms| :: 0 <= ms[a] < |f|
    requires |picked| == |ms| && forall a | 0 <= a < |ms| :: picked[a] == f[ms[a]]
    ensures Sum(picked) == SumAt(f, ms)
    decreases |ms|
  {
    if |ms| > 0 {
      SumOfPicked(f, ms[..|ms| - 1], picked[..|picked| - 1]);
    }
  }
}

=== FILE: seq_math.dfy ===
/** Sums, counts and distinctness over sequences: the reference
    definitions the operations of the model are proved against. */
module SeqMath {

  /** Sum of a sequence of reals, accumulated left to right as a loop would. */
  function Sum(s: seq<real>): real
  {
    if |s| == 0 then 0.0 else Sum(s[..|s| - 1]) + s[|s| - 1]
  }

  /** Sum of a sequence of integers, accumulated left to right. */
  function SumInt(s: seq<int>): int
  {
    if |s| == 0 then 0 else SumInt(s[..|s| - 1]) + s[|s| - 1]
  }

  /** Number of occurrences of `x` in `s`. */
  function Count<T(==)>(s: seq<T>, x: T): nat
  {
    if |s| == 0 then 0
    else Count(s[..|s| - 1], x) + (if s[|s| - 1] == x then 1 else 0)
  }

  /** Number of `true` entries of a flag sequence. */
  function CountTrue(s: seq<bool>): nat
  {
    if |s| == 0 then 0 else CountTrue(s[..|s| - 1]) + (if s[|s| - 1] then 1 else 0)
  }

  /** `f` applied to each element, in order. */
  function Map<A, B>(f: A -> B, s: seq<A>): (r: seq<B>)
    ensures |r| == |s| && forall i | 0 <= i < |s| :: r[i] == f(s[i])
  {
    seq(|s|, i requires 0 <= i < |s| => f(s[i]))
  }

  /** A prefix grown by the next element. */
  lemma TakeOneMore<T>(s: seq<T>, k: nat)
    requires k < |s|
    ensures s[..k] + [s[k]] == s[..k + 1]
  {
  }

  /** No element occurs twice. */
  predicate Distinct<T(==)>(s: seq<T>)
  {
    forall i, j | 0 <= i < j < |s| :: s[i] != s[j]
  }

  /** The integers `0, ..., n - 1` in increasing order. */
  function Range(n: nat): (r: seq<int>)
    ensures |r| == n
    ensures forall i | 0 <= i < n :: r[i] == i
  {
    seq(n, i => i)
  }

  lemma {:induction false} SumAppend(a: seq<real>, b: seq<real>)
    ensures Sum(a + b) == Sum(a) + Sum(b)
    decreases |b|
  {
    if |b| == 0 {
      assert a + b == a;
    } else {
      assert (a + b)[..|a + b| - 1] == a + b[..|b| - 1];
      SumAppend(a, b[..|b| - 1]);
    }
  }

  lemma {:induction false} SumIntAppend(a: seq<int>, b: seq<int>)
    ensures SumInt(a + b) == SumInt(a) + SumInt(b)
    decreases |b|
  {
    if |b| == 0 {
      assert a + b == a;
    } else {
      assert (a + b)[..|a + b| - 1] == a + b[..|b| - 1];
      SumIntAppend(a, b[..|b| - 1]);
    }
  }

  lemma {:induction false} CountAppend<T>(a: seq<T>, b: seq<T>, x: T)
    ensures Count(a + b, x) == Count(a, x) + Count(b, x)
    decreases |b|
  {
    if |b| == 0 {
      assert a + b == a;
    } else {
      assert (a + b)[..|a + b| - 1] == a + b[..|b| - 1];
      CountAppend(a, b[..|b| - 1], x);
    }
  }

  lemma {:induction false} CountTrueAppend(a: seq<bool>, b: seq<bool>)
    ensures CountTrue(a + b) == CountTrue(a) + CountTrue(b)
    decreases |b|
  {
    if |b| == 0 {
      assert a + b == a;
    } else {
      assert (a + b)[..|a + b| - 1] == a + b[..|b| - 1];
      CountTrueAppend(a, b[..|b| - 1]);
    }
  }

  /** `Count` agrees with the multiset of the sequence. */
  lemma {:induction false} CountIsMultiplicity<T>(s: seq<T>, x: T)
    ensures Count(s, x) == multiset(s)[x]
    decreases |s|
  {
    if |s| > 0 {
      assert s == s[..|s| - 1] + [s[|s| - 1]];
      CountIsMultiplicity(s[..|s| - 1], x);
    }
  }

  /** A sequence is distinct exactly when every value occurs at most once. */
  lemma DistinctIffCountsAtMostOne<T>(s: seq<T>)
    ensures Distinct(s) <==> forall x :: Count(s, x) <= 1
  {
    if Distinct(s) {
      forall x ensures Count(s, x) <= 1 {
        DistinctCountAtMostOne(s, x);
      }
    } else {
      var i, j :| 0 <= i < j < |s| && s[i] == s[j];
      TwoOccurrences(s, i, j);
    }
  }

  lemma {:induction false} DistinctCountAtMostOne<T>(s: seq<T>, x: T)
    requires Distinct(s)
    ensures Count(s, x) <= 1
    decreases |s|
  {
    if |s| > 0 {
      var p := s[..|s| - 1];
      assert Distinct(p);
      DistinctCountAtMostOne(p, x);
      if s[|s| - 1] == x && Count(p, x) == 1 {
        CountPositive(p, x);
      }
    }
  }

  /** A positive count is witnessed by a position. */
  lemma {:induction false} CountPositive<T>(s: seq<T>, x: T)
    requires Count(s, x) > 0
    ensures exists i :: 0 <= i < |s| && s[i] == x
    decreases |s|
  {
    if s[|s| - 1] != x {
      CountPositive(s[..|s| - 1], x);
      var i :| 0 <= i < |s| - 1 && s[..|s| - 1][i] == x;
      assert s[i] == x;
    }
  }

  /** Membership and a positive count coincide. */
  lemma {:induction false} CountPositiveIffIn<T>(s: seq<T>, x: T)
    ensures Count(s, x) > 0 <==> x in s
    decreases |s|
  {
    if |s| > 0 {
      CountPositiveIffIn(s[..|s| - 1], x);
      assert s == s[..|s| - 1] + [s[|s| - 1]];
    }
  }

  lemma TwoOccurrences<T>(s: seq<T>, i: int, j: int)
    requires 0 <= i < j < |s| && s[i] == s[j]
    ensures Count(s, s[i]) >= 2
  {
    var x := s[i];
    assert s == s[..i] + [s[i]] + s[i + 1..j] + [s[j]] + s[j + 1..];
    CountAppend(s[..i] + [s[i]] + s[i + 1..j] + [s[j]], s[j + 1..], x);
    CountAppend(s[..i] + [s[i]] + s[i + 1..j], [s[j]], x);
    CountAppend(s[..i] + [s[i]], s[i + 1..j], x);
    CountAppend(s[..i], [s[i]], x);
    assert Count([s[i]], x) == 1 by { assert [s[i]][..0] == []; }
    assert Count([s[j]], x) == 1 by { assert [s[j]][..0] == []; }
  }

  /** Two sequences that differ by `d` at position `j` alone differ by `d`
      in total. */
  lemma SumRaisedAt(a: seq<real>, b: seq<real>, j: int, d: real)
    requires |a| == |b| && 0 <= j < |b|
    requires forall k | 0 <= k < |a| :: a[k] == b[k] + (if k == j then d else 0.0)
    ensures Sum(a) == Sum(b) + d
  {
    assert a == b[j := b[j] + d];
    SumUpdate(b, j, d);
  }

  /** Raising one entry by `d` raises the sum by `d`. */
  lemma {:induction false} SumUpdate(s: seq<real>, j: int, d: real)
    requires 0 <= j < |s|
    ensures Sum(s[j := s[j] + d]) == Sum(s) + d
    decreases |s|
  {
    var t := s[j := s[j] + d];
    assert t[..|t| - 1] == if j < |s| - 1 then s[..|s| - 1][j := s[j] + d] else s[..|s| - 1];
    if j < |s| - 1 {
      SumUpdate(s[..|s| - 1], j, d);
    }
  }

  /** The sum of entrywise sums is the sum of the sums. */
  lemma {:induction false} SumPointwise(a: seq<real>, b: seq<real>, c: seq<real>)
    requires |a| == |b| == |c|
    requires forall k | 0 <= k < |c| :: c[k] == a[k] + b[k]
    ensures Sum(c) == Sum(a) + Sum(b)
    decreases |c|
  {
    if |c| > 0 {
      SumPointwise(a[..|a| - 1], b[..|b| - 1], c[..|c| - 1]);
    }
  }

  lemma {:induction false} SumZeros(n: nat)
    ensures Sum(seq(n, _ => 0.0)) == 0.0
    decreases n
  {
    if n > 0 {
      assert seq(n, _ => 0.0)[..n - 1] == seq(n - 1, _ => 0.0);
      SumZeros(n - 1);
    }
  }

  /** Raising one integer entry by `d` raises the sum by `d`. */
  lemma {:induction false} SumIntUpdate(s: seq<int>, j: int, d: int)
    requires 0 <= j < |s|
    ensures SumInt(s[j := s[j] + d]) == SumInt(s) + d
    decreases |s|
  {
    var t := s[j := s[j] + d];
    assert t[..|t| - 1] == if j < |s| - 1 then s[..|s| - 1][j := s[j] + d] else s[..|s| - 1];
    if j < |s| - 1 {
      SumIntUpdate(s[..|s| - 1], j, d);
    }
  }

  lemma {:induction false} SumIntZeros(n: nat)
    ensures SumInt(seq(n, _ => 0)) == 0
    decreases n
  {
    if n > 0 {
      assert seq(n, _ => 0)[..n - 1] == seq(n - 1, _ => 0);
      SumIntZeros(n - 1);
    }
  }
}

=== FILE: wrappers.dfy ===
/** Failure-carrying results shared by every part of the model. */
module Wrappers {

  /** An optional value; `None` plays the part of a Java/Kotlin `null`. */
  datatype Option<+T> = None | Some(value: T)

  /** The outcome of an operation that may throw: `Failure` carries the
      exception the source would raise. */
  datatype Result<+R, +E> = Success(value: R) | Failure(error: E) {
    predicate IsFailure() { Failure? }

    function PropagateFailure<U>(): Result<U, E>
      requires Failure?
    {
      Failure(error)
    }

    function Extract(): R
      requires Success?
    {
      value
    }
  }

  /** An `IndexOutOfBoundsException` (or its array form): `index` is
      outside `0..length - 1`. */
  datatype IndexError = IndexOutOfBounds(index: int, length: nat)
}
